=== FILE: README.md ===
# Travel quotation CRM: a Dafny model of its form and widget logic

This project models the logic under a React CRM for travel quotations. Sales staff create leads.
They turn a lead into a quotation through a six-section wizard: basic details, costs, hotels,
inclusions and exclusions, flights, and itinerary. Half-filled quotations are autosaved as
drafts in the browser's `localStorage`. Smaller widgets sit around the forms: a multi-destination
picker, two date pickers, an activity search, a quotation list, and the cards of the lead lists.

The model treats every value as data. The clock (`Date.now()`), `Math.random()`, the
browser's storage and every network answer are parameters. A JavaScript value is the datatype
`JsValue.JsVal`, whose operators (`||`, `??`, `?.`, spread, `Number`, `String`, `parseInt`,
`new Date`, `JSON` round trip) are written out. This matters because the defaults of the forms
hang on truthiness and the discrepancies between sections are key names. Dates are day numbers
counted from 1970-01-01, with a civil (year, month, day) view (`Civil`). The pickers build
dates with `new Date(year, month, day)`, which reads the years 0 to 99 as 1900 to 1999;
`Calendar.FullYear` writes that step out. Times are milliseconds
in UTC, with the host time zone taken as UTC. Money and counts are integers. The numeric
helper `NumberParser`, which the cost section imports, is not part of this model: it appears
as a function parameter.

Modules follow the program:

- Building blocks:
  - `Results`: `Option` and `Result`.
  - `Text`: digits, `trim`, `toLowerCase`, `parseInt`, `Number`.
  - `Civil`: calendar arithmetic.
  - `DateText`: ISO and "YYYY-MM-DD" texts and `YYYYMMDD` keys.
  - `JsValue`: JavaScript values.
  - `Storage`: the browser's key-value store.
- Storage and the quotation form:
  - `DraftStore` (`src/storage/quotationDraft.js`);
  - `UserProfile` (`src/utils/getUserProfile.js`);
  - `DraftHook` (`src/hooks/useQuoatationDraft.jsx`);
  - `QuotationForm` (`IntegratedQuotationForm.jsx`);
  - `Wizard` (`SimpleQuotationWrapper.jsx`).
- The form sections:
  - `Itinerary`, `Hotels`, `Costs`, `Flights`, `Inclusions`, `BasicDetails`, with the rule
    checks in `FormRules`.
- Pages, cards and widgets:
  - `NewLead` (`src/pages/NewLeadForm.jsx`);
  - `QuotationCards`, `ConvertedCard`;
  - `MultiSelect`, `Calendar`, `DatePicker`, `DateRange`, `ActivitySelector`, `QuotationList`.

An operation that JavaScript would let throw returns a `Result`: a property read of `null`, an
invalid date's `toISOString`, a missing method. Handlers that call `window.alert` or
`window.open` return that effect. React's state updates are pure functions from state to
state. Effects and timers are explicit steps. A debounce is a single pending slot read
against a logical clock.

## Model

| member | source | states |
|---|---|---|
| DraftStore.Key | src/storage/quotationDraft.js:3 | the draft key is "quotationDraft:" followed by the trip id, which can be read back from it |
| DraftStore.KeyInjective | src/storage/quotationDraft.js:3 | two trips share a draft key exactly when their ids are equal |
| DraftStore.Save | src/storage/quotationDraft.js:6-21 | an empty trip id leaves the store as it was; otherwise the trip's entry becomes the envelope `{v: 1, updatedAt: now, data}`, only that key is added, and every other entry is kept |
| DraftStore.Load | src/storage/quotationDraft.js:24-39 | never `undefined`; `null` for an empty id, a missing entry or text that does not parse; otherwise the envelope's `data`, with a nullish `data` read as `null` |
| DraftStore.Clear | src/storage/quotationDraft.js:42-53 | an empty id changes nothing; otherwise exactly the trip's key is removed and every other entry is kept |
| DraftStore.ListDrafts | src/storage/quotationDraft.js:56-67 | a key is listed exactly when it is among the store's keys and starts with "quotationDraft:", as often as it occurs there |
| DraftStore.SaveAttempt | src/storage/quotationDraft.js:6-21 | a `setItem` that throws is caught and leaves every entry as it was; a write that succeeds is the save |
| DraftStore.ClearAttempt | src/storage/quotationDraft.js:42-53 | a `removeItem` that throws is caught and leaves the store as it was; one that succeeds is the clear |
| DraftStore.ListAllDrafts | src/storage/quotationDraft.js:56-67 | when `Object.keys` throws nothing is listed; otherwise exactly the stored keys that start with "quotationDraft:" |
| DraftStore.FailedSaveKeepsDraft | src/storage/quotationDraft.js:17-20 | after a save that throws, the trip's earlier draft still loads, stale; after one that succeeds, the new data loads |
| DraftStore.FailedClearKeepsDraft | src/storage/quotationDraft.js:49-52 | after a clear that throws the draft still loads; after one that succeeds there is none |
| DraftStore.SaveThenLoad | src/storage/quotationDraft.js:11-34 | loading after saving returns the data as a JSON round trip leaves it |
| DraftStore.SaveThenLoadJson | src/storage/quotationDraft.js:11-34 | for data that is already JSON, loading after saving returns the same data |
| DraftStore.SaveReplaces | src/storage/quotationDraft.js:11-17 | what a save stores does not depend on what the store held before: drafts are replaced, not merged |
| DraftStore.OtherTripsUnchanged | src/storage/quotationDraft.js:17-49 | saving or clearing one trip leaves what every other trip loads unchanged |
| DraftStore.ClearThenLoad | src/storage/quotationDraft.js:24-53 | after a clear, loading the trip gives `null` |
| DraftStore.SavedKeyListed | src/storage/quotationDraft.js:6-21 | the key of a saved draft is listed by any enumeration of the store's keys (also lines 56-67) |
| DraftStore.ListedKeysAreDraftKeys | src/storage/quotationDraft.js:56-67 | every listed key is the draft key of the trip id that follows the prefix |
| UserProfile.GetUserProfile | src/utils/getUserProfile.js:1-22 | `null` when nothing is stored or the stored text does not parse; the first element of a non-empty stored array; any other stored value as it is |
| UserProfile.WrappedProfile | src/utils/getUserProfile.js:9-14 | a profile stored alone, or as the head of an array, reads back as that profile |
| UserProfile.EmptyArrayProfile | src/utils/getUserProfile.js:9-14 | an empty stored array is returned as it is, not unwrapped |
| DraftHook.Restored | src/hooks/useQuoatationDraft.jsx:80-89 | with a truthy draft, a field the draft has is read from the draft and any other field from the defaults; a falsy draft gives exactly the defaults |
| DraftHook.RunEffect | src/hooks/useQuoatationDraft.jsx:57-97 | a run starts a new generation; skipping or an empty trip id resets to the defaults at once with `loading` false; otherwise one load of the trip's draft is started and `loading` stays true |
| DraftHook.Render | src/hooks/useQuoatationDraft.jsx:49-54 | new defaults are always taken up; the effect runs again exactly when trip id, skip flag or unique id changed (also line 97) |
| DraftHook.Resolve | src/hooks/useQuoatationDraft.jsx:76-96 | a resolving load is removed from the pending ones; only the live run of a mounted hook resets the form, to the draft merged with the current defaults, and clears `loading` |
| DraftHook.Unmount | src/hooks/useQuoatationDraft.jsx:94-96 | unmounting keeps the form and leaves the debounce timer in place (also lines 7-25) |
| DraftHook.Call | src/hooks/useQuoatationDraft.jsx:16-24 | a debounced call leaves one timer, due 700 ms later, carrying the latest values |
| DraftHook.Fire | src/hooks/useQuoatationDraft.jsx:19-21 | a due timer fires once with its values and is gone; a timer not yet due stays and nothing fires |
| DraftHook.SaveValues | src/hooks/useQuoatationDraft.jsx:100-108 | the draft is written exactly when the trip id is non-empty and the draft is not skipped; otherwise storage is untouched |
| DraftHook.Edit | src/hooks/useQuoatationDraft.jsx:113-121 | an edit sets the form values; it schedules a save of those values only while mounted and not skipping |
| DraftHook.Tick | src/hooks/useQuoatationDraft.jsx:19-21 | when the clock reaches a due timer, its values are saved through the save gate; otherwise storage is unchanged (also lines 100-108) |
| DraftHook.SkipUsesDefaults | src/hooks/useQuoatationDraft.jsx:69-74 | with the draft skipped, the first reset is exactly the defaults, starts no load and is the same whatever storage holds |
| DraftHook.LoadMergesDraft | src/hooks/useQuoatationDraft.jsx:76-91 | without skipping, the form waits for one load and then becomes the stored draft merged over the defaults |
| DraftHook.EmptyTripUsesDefaults | src/hooks/useQuoatationDraft.jsx:76-91 | an empty trip id resets to the defaults at once |
| DraftHook.LateLoadIgnored | src/hooks/useQuoatationDraft.jsx:58-96 | a load resolving after unmount, or for a superseded run, changes neither the form nor `loading` |
| DraftHook.SupersededRunIgnored | src/hooks/useQuoatationDraft.jsx:78-97 | after a dependency change, a load started before it can no longer reset the form |
| DraftHook.DefaultsAloneNoReset | src/hooks/useQuoatationDraft.jsx:52-97 | new defaults with the same dependencies leave form, `loading` and pending loads as they were |
| DraftHook.SkipNeverSaves | src/hooks/useQuoatationDraft.jsx:103-114 | with the draft skipped, no edit leads to a write |
| DraftHook.CallReplacesPending | src/hooks/useQuoatationDraft.jsx:18-21 | a call made while another is pending replaces it, so only the last values remain scheduled |
| DraftHook.Burst | src/hooks/useQuoatationDraft.jsx:16-24 | calls less than 700 ms apart fire nothing and leave one timer with the last values, due 700 ms after the last call |
| DraftHook.BurstSavesOnce | src/hooks/useQuoatationDraft.jsx:16-24 | after such a burst, the clock reaching 700 ms past the last call fires exactly once, with the last values (also lines 110-118) |
| DraftHook.SaveSurvivesUnmount | src/hooks/useQuoatationDraft.jsx:94-96 | an autosave scheduled before unmount still writes the draft when it is due (also lines 16-24) |
| QuotationForm.TripId | src/components/Forms/IntegratedQuotationForm.jsx:27 | the follow-up's trip id when truthy, else the lead's when truthy, else "" |
| QuotationForm.TripText | src/components/Forms/IntegratedQuotationForm.jsx:27 | a text trip id is used as it is, and a non-empty draft key text comes only from a truthy id (also lines 137-138) |
| QuotationForm.DefaultDestinations | src/components/Forms/IntegratedQuotationForm.jsx:75-76 | the client's destinations when truthy; else a one-element list of the destination name when that is truthy; else the empty list; always a list or a truthy value |
| QuotationForm.TravelDateKey | src/components/Forms/IntegratedQuotationForm.jsx:64-66 | `null` for a falsy travel date; otherwise the key succeeds exactly when the date is valid, and an invalid one throws |
| QuotationForm.TravelEndDate | src/components/Forms/IntegratedQuotationForm.jsx:16-21 | "" when the start or the number of days is falsy (also line 125) |
| QuotationForm.Dates | src/components/Forms/IntegratedQuotationForm.jsx:64-66 | the date defaults exist exactly when neither the travel-date key nor the end date throws (also lines 125-128) |
| QuotationForm.Defaults | src/components/Forms/IntegratedQuotationForm.jsx:56-132 | rendering the defaults succeeds exactly when the client's dates can be computed, and then yields an object |
| QuotationForm.DefaultOfBase | src/components/Forms/IntegratedQuotationForm.jsx:56-129 | a key that `initialData` lacks takes its computed default |
| QuotationForm.InitialDataWins | src/components/Forms/IntegratedQuotationForm.jsx:129 | every key of `initialData` overrides the computed default |
| QuotationForm.HookDeps | src/components/Forms/IntegratedQuotationForm.jsx:137-142 | the draft is skipped exactly when follow-up data is present; the unique id is the follow-up's QuoteId; the trip is the trip id as text |
| QuotationForm.Payload | src/components/Forms/IntegratedQuotationForm.jsx:29-33 | the submitted data carries the company id and assignment stamp over any same-named field, and every other field as the form has it (also lines 156-158) |
| QuotationForm.AfterSubmit | src/components/Forms/IntegratedQuotationForm.jsx:156-160 | a rejected `onSubmit` leaves storage unchanged; a resolved one clears the trip's draft |
| QuotationForm.ClientOfFollowUp | src/components/Forms/IntegratedQuotationForm.jsx:37-52 | with a follow-up, the client's name, contact and pax are read from the follow-up's flat keys |
| QuotationForm.FollowUpTrip | src/components/Forms/IntegratedQuotationForm.jsx:42-50 | a follow-up's travel date and days are the client's, and its destinations fall back to the one destination name |
| QuotationForm.ClientOfLead | src/components/Forms/IntegratedQuotationForm.jsx:53 | without a follow-up the client is the lead's `ClientLeadDetails` when truthy, else `{}` |
| QuotationForm.DaysAndNights | src/components/Forms/IntegratedQuotationForm.jsx:77-78 | Days defaults to 2; Nights is Days minus one when Days is truthy, else 1 |
| QuotationForm.NightsOfDays | src/components/Forms/IntegratedQuotationForm.jsx:78 | a whole, non-zero number of days gives one night fewer |
| QuotationForm.DestinationsDefault | src/components/Forms/IntegratedQuotationForm.jsx:75-76 | the Destinations default is the three-way fallback of `DefaultDestinations` |
| QuotationForm.FreshRecords | src/components/Forms/IntegratedQuotationForm.jsx:81-119 | without follow-up data the costs are all zero, and there is one blank hotel and one blank itinerary entry (whose activity key is "Activities") |
| QuotationForm.EndDateOfStart | src/components/Forms/IntegratedQuotationForm.jsx:16-21 | for a "YYYY-MM-DD" start and n days, the end date is the text of the trip's last day, which parses back to that day's midnight |
| QuotationForm.EndOfMidnight | src/components/Forms/IntegratedQuotationForm.jsx:18-20 | from a midnight, the end date of n days is the "YYYY-MM-DD" of the day n - 1 later |
| QuotationForm.FourDigitYear | src/components/Forms/IntegratedQuotationForm.jsx:20 | the days whose ISO text has a four-digit year are exactly those between years 0 and 9999 |
| QuotationForm.EndKeyIsStartKey | src/components/Forms/IntegratedQuotationForm.jsx:64-66 | the end-date key default is always the travel-date key default (also lines 126-128) |
| QuotationForm.EndKeyMismatch | src/components/Forms/IntegratedQuotationForm.jsx:16-21 | for a trip of n days with n other than one, the end date's own key differs from the stored end-date key (also lines 64-66, 126-128) |
| QuotationForm.StartKey | src/components/Forms/IntegratedQuotationForm.jsx:64-66 | the key of a "YYYY-MM-DD" travel date is its YYYYMMDD number |
| QuotationForm.FollowUpShowsDefaults | src/components/Forms/IntegratedQuotationForm.jsx:137-142 | opening a follow-up shows exactly the defaults at once, without a draft |
| QuotationForm.SubmitClearsDraft | src/components/Forms/IntegratedQuotationForm.jsx:156-160 | after a resolved submit the trip has no draft; a rejected submit leaves every trip's draft in place |
| Wizard.Start | src/components/Forms/SimpleQuotationWrapper.jsx:18 | a pager starts on the first section, which exists |
| Wizard.GoTo | src/components/Forms/SimpleQuotationWrapper.jsx:20-26 | the index is clamped into the sections: an index in range is kept, one below is the first section, one beyond is the last |
| Wizard.Primary | src/components/Forms/SimpleQuotationWrapper.jsx:30-37 | the primary button submits exactly on the last section and then stays there; elsewhere it advances by one |
| Wizard.Previous | src/components/Forms/SimpleQuotationWrapper.jsx:56-58 | Previous does nothing on the first section and otherwise goes back by one |
| Wizard.PreviousClampsAtStart | src/components/Forms/SimpleQuotationWrapper.jsx:22-57 | even without the disabled attribute, going back from the first section stays on it |
| Wizard.Label | src/components/Forms/SimpleQuotationWrapper.jsx:79 | the primary button reads "Submit" or "Next" |
| Wizard.LabelTellsSubmit | src/components/Forms/SimpleQuotationWrapper.jsx:30-37 | the label says "Submit" exactly when pressing the button submits (also line 79) |
| Wizard.CounterShowsPosition | src/components/Forms/SimpleQuotationWrapper.jsx:70 | read back with `parseInt`, the counter gives the one-based position, and what follows it is "/" and the number of sections |
| Wizard.Presses | src/components/Forms/SimpleQuotationWrapper.jsx:30-37 | any number of presses keeps the pager on a valid section |
| Wizard.PressesWalkForward | src/components/Forms/SimpleQuotationWrapper.jsx:30-37 | from section i, N-1-i presses reach the last section through every later one without submitting, and the next press submits |
| Wizard.PressesAtLast | src/components/Forms/SimpleQuotationWrapper.jsx:30-37 | on the last section every further press submits and the index stays |
| Wizard.PreviousUndoesPrimary | src/components/Forms/SimpleQuotationWrapper.jsx:30-57 | Previous undoes a step forward, and a step forward undoes Previous |
| Wizard.GoToIdempotent | src/components/Forms/SimpleQuotationWrapper.jsx:20-26 | clamping twice is clamping once, and a valid index is left where it is |
| Itinerary.Start | src/components/Forms/ItinearySection.jsx:51 | the trip starts on `new Date(travelDate)` when the travel date is truthy, else at the current time (also line 100) |
| Itinerary.DayDate | src/components/Forms/ItinearySection.jsx:32-36 | the text of the day i days after the start exists exactly when that day is a valid date; otherwise formatting throws a RangeError (also lines 104-107) |
| Itinerary.Target | src/components/Forms/ItinearySection.jsx:26 | the effect aims for the numeric value of `Days`, defaulting to 1, and never for zero days (also line 99) |
| Itinerary.TargetDefaultsToOne | src/components/Forms/ItinearySection.jsx:26 | a falsy, zero or non-numeric `Days` aims for a single day (also line 99) |
| Itinerary.Fill | src/components/Forms/ItinearySection.jsx:103-108 | the dates of the days to append succeed exactly when every one of them can be formatted; they are in day order, one per day; a failure is the error of a day in the range |
| Itinerary.Entries | src/components/Forms/ItinearySection.jsx:110-118 | one appended entry per date |
| Itinerary.GenerateMeets | src/components/Forms/ItinearySection.jsx:97-125 | the effect leaves exactly the target number of days (none for a negative target), keeps the entries it does not cut, and appends for each missing day the entry of that day; it fails exactly when a date to append cannot be formatted |
| Itinerary.GenerateIdempotent | src/components/Forms/ItinearySection.jsx:97-125 | running the effect again for the same target changes nothing |
| Itinerary.FillOfDates | src/components/Forms/ItinearySection.jsx:103-108 | when every date in a range formats, the dates are collected in order |
| Itinerary.FillFirstError | src/components/Forms/ItinearySection.jsx:103-108 | the first date that cannot be formatted is the error |
| Itinerary.EntriesSnoc | src/components/Forms/ItinearySection.jsx:110-118 | appending one more date appends exactly that day's entry |
| Itinerary.AutoGenerate | src/components/Forms/ItinearySection.jsx:97-125 | the effect's loops compute the target length list: grow, shrink or leave as is |
| Itinerary.Grow | src/components/Forms/ItinearySection.jsx:102-119 | appending one entry per missing day, in order, gives the generated list, or the error of the first date that fails |
| Itinerary.Shrink | src/components/Forms/ItinearySection.jsx:120-124 | removing from the last index down to the target keeps exactly the first `target` entries |
| Itinerary.DayDateOfMidnight | src/components/Forms/ItinearySection.jsx:104-107 | from the midnight of a day of the years 0 to 9999, day i of the trip is dated i days later (also lines 32-36) |
| Itinerary.EntryKey | src/components/Forms/ItinearySection.jsx:56 | the key written beside a "YYYY-MM-DD" date is that day's YYYYMMDD number (also line 108) |
| Itinerary.DatesFromTravelDate | src/components/Forms/ItinearySection.jsx:100-107 | with a "YYYY-MM-DD" travel date, the days of the trip have consecutive dates |
| Itinerary.AddDayIsGrowByOne | src/components/Forms/ItinearySection.jsx:49-67 | adding a day by hand appends exactly the entry the effect would generate for one more day (also lines 102-119) |
| Itinerary.AddDayAfter | src/components/Forms/ItinearySection.jsx:49-67 | `addDay` appends, after the list as it now stands, the entry of the day after the count its render saw, and fails only when that date cannot be formatted |
| Itinerary.Init | src/components/Forms/ItinearySection.jsx:128-130 | the init effect leaves the list alone when its render's field array was non-empty, and otherwise runs `addDay` with that stale count of 0 |
| Itinerary.Mount | src/components/Forms/ItinearySection.jsx:96-130 | on the first render the auto-generate effect runs and then the init effect, both with the render's field array; a non-empty list is only generated, and a generation that throws stops the mount |
| Itinerary.MountEmptyDuplicates | src/components/Forms/ItinearySection.jsx:96-130 | mounting on an empty list for a target of n days leaves n + 1 entries: the n generated days, then day one again |
| Itinerary.MountOneDayTwice | src/components/Forms/ItinearySection.jsx:96-130 | a one-day trip mounted on an empty list lists day one twice |
| Itinerary.MountIntended | src/components/Forms/ItinearySection.jsx:127-130 | the intended init effect looks at the list the auto-generate effect left, so a failed generation still fails |
| Itinerary.MountIntendedIsGenerate | src/components/Forms/ItinearySection.jsx:96-130 | for a positive target the intended mount is exactly the auto-generate effect, with one entry per day |
| Itinerary.FirstDayIsStart | src/components/Forms/ItinearySection.jsx:51-55 | the first day is dated with the start date itself |
| Itinerary.InitFirstDay | src/components/Forms/ItinearySection.jsx:120-130 | when a negative `Days` leaves the list empty after generation, the mount makes it the single first day, as written and as intended |
| Itinerary.Renumber | src/components/Forms/ItinearySection.jsx:78-81 | renumbering keeps the number of entries |
| Itinerary.RemoveDayAsWritten | src/components/Forms/ItinearySection.jsx:70-85 | as written, removing a day from more than one takes out two entries unless the last was removed |
| Itinerary.RemoveDayAsWrittenLosesDays | src/components/Forms/ItinearySection.jsx:73-76 | as written, removing the first of two days leaves none, and removing the first of three leaves one |
| Itinerary.RemoveDay | src/components/Forms/ItinearySection.jsx:70-85 | removal is refused while one day remains; otherwise exactly one entry goes |
| Itinerary.RemoveDayRenumbers | src/components/Forms/ItinearySection.jsx:75-81 | after a removal the entries keep their order and contents, except `day` and `Title`, which follow the new positions |
| Itinerary.RemoveDayKeepsOne | src/components/Forms/ItinearySection.jsx:71 | removal never leaves fewer than one day |
| Itinerary.SelectActivity | src/components/Forms/ItinearySection.jsx:88-94 | a selection changes only the chosen entry |
| Itinerary.SelectActivityWrites | src/components/Forms/ItinearySection.jsx:88-94 | the entry gets the activity's title (else the day's default title), description and image (else ""), and the title again as `Activity`; its other fields stay |
| Itinerary.SelectOnDefaultEntry | src/components/Forms/ItinearySection.jsx:92 | on the blank entry of the form's defaults a selection fills `Activity` and leaves that entry's `Activities` empty (also line 262) |
| Itinerary.SetDate | src/components/Forms/ItinearySection.jsx:225-229 | a date picked in the calendar changes only that entry |
| Itinerary.SetDateKeepsKey | src/components/Forms/ItinearySection.jsx:225-229 | after a manual date change the key is still the YYYYMMDD of the entry's new date |
| Hotels.AddHotel | src/components/Forms/HotelSection.jsx:27-39 | one hotel is added at the end, with no nights, no meals and no dates, and the others are kept |
| Hotels.RemoveHotel | src/components/Forms/HotelSection.jsx:41-45 | removal is refused while a single hotel is left; otherwise exactly the hotel at the index goes and the others keep their order |
| Hotels.RemoveKeepsOne | src/components/Forms/HotelSection.jsx:41-45 | removal never empties a list that has a hotel |
| Hotels.RemoveUndoesAdd | src/components/Forms/HotelSection.jsx:27-45 | adding a hotel and removing it again gives the list back |
| Hotels.Seed | src/components/Forms/HotelSection.jsx:61-67 | after mount there is at least one hotel, and a non-empty list is left alone |
| Hotels.DefaultsNeedNoSeed | src/components/Forms/HotelSection.jsx:61-67 | the blank hotel of the form's defaults already fills the list |
| Hotels.AtTimeOfDay | src/components/Forms/HotelSection.jsx:125-137 | setting the hours keeps the calendar day of a valid date and sets its time of day |
| Hotels.MidnightValid | src/components/Forms/HotelSection.jsx:125-126 | the midnight of a valid date is valid |
| Hotels.NightsBetween | src/components/Forms/HotelSection.jsx:146-156 | the nights between two valid dates are a number that is never negative; an invalid date gives NaN |
| Hotels.NightsOfDays | src/components/Forms/HotelSection.jsx:147-156 | the nights count whole calendar days whatever the times of day: the same day gives none, an earlier end gives none |
| Hotels.SetCheckIn | src/components/Forms/HotelSection.jsx:124-134 | picking a check-in changes only that hotel |
| Hotels.SetCheckOut | src/components/Forms/HotelSection.jsx:135-162 | picking a check-out changes only that hotel |
| Hotels.CheckInStoresMidnight | src/components/Forms/HotelSection.jsx:124-134 | a picked check-in is stored as the midnight of its day and clears the check-out; the hotel's other fields stay |
| Hotels.CheckOutStoresEndOfDay | src/components/Forms/HotelSection.jsx:135-141 | a picked check-out is stored as 23:59:59.999 of its day |
| Hotels.CheckOutWithoutCheckIn | src/components/Forms/HotelSection.jsx:143-146 | without a check-in, picking a check-out leaves the nights as they were |
| Hotels.ApplyRangeNights | src/components/Forms/HotelSection.jsx:124-162 | applying a range sets the nights to the days from the first to the last, and never fewer than zero |
| Hotels.NightsInput | src/components/Forms/HotelSection.jsx:223-226 | the typed nights are the decimal number read from the text, or 0 when none can be read |
| Hotels.SameDayFailsValidation | src/components/Forms/HotelSection.jsx:143-161 | a range that starts and ends on one day gives no night, so the hotel fails the at-least-one-night rule (also lines 207-210) |
| Hotels.LaterCheckOutValidates | src/components/Forms/HotelSection.jsx:207-210 | a nights count passes the rules exactly when it is at least 1 |
| Hotels.NightsSurviveDraft | src/components/Forms/HotelSection.jsx:128-147 | a check-in saved in a draft as ISO text reads back to the same instant, so the nights computed from it are unchanged |
| Costs.Watched | src/components/Forms/CostCalculator.jsx:71-96 | the effect's dependencies are the ten watched `Costs` properties, in the order of the watch call |
| Costs.KeysDistinct | src/components/Forms/CostCalculator.jsx:84-95 | the ten watched paths are different properties |
| Costs.WatchedPut | src/components/Forms/CostCalculator.jsx:71-96 | writing a watched property changes that watched value only |
| Costs.WatchedPutOther | src/components/Forms/CostCalculator.jsx:71-96 | writing any property that is not watched changes no dependency of the effect (also lines 131-144) |
| Costs.FlagsOffIgnoresTaxes | src/components/Forms/CostCalculator.jsx:111-113 | with both package flags off, the total is flight plus visa plus land plus tax, whatever the GST, TCS and waived amounts are |
| Costs.FlagsAddTaxes | src/components/Forms/CostCalculator.jsx:112-113 | switching GST on adds exactly GST less its waiver to the total, and the same for TCS |
| Costs.WaiverLowersTotal | src/components/Forms/CostCalculator.jsx:112 | a waiver larger than the GST brings the total below the base costs: there is no floor |
| Costs.DefaultsNeverReachTaxes | src/components/Forms/CostCalculator.jsx:84-113 | the form's zero costs have both package flags off, so the `GSTAmount` and `TCSAmount` they seed never change the total |
| Costs.WriteTotal | src/components/Forms/CostCalculator.jsx:120-124 | writing the total sets `TotalCost` and keeps every other cost |
| Costs.Effect | src/components/Forms/CostCalculator.jsx:100-130 | a run leaves the costs and form flags as they are, and a frame is pending exactly when the stored total differs from the computed one, carrying the computed total |
| Costs.Edit | src/components/Forms/CostCalculator.jsx:131-144 | an edit changes the field; when no watched value changed, the effect does not re-run and the pending frame stays |
| Costs.Frame | src/components/Forms/CostCalculator.jsx:119-125 | a firing frame writes its total and marks the form dirty without touching or validating; with no frame nothing changes |
| Costs.Unmount | src/components/Forms/CostCalculator.jsx:128-130 | unmounting leaves no frame pending and the costs unchanged |
| Costs.EditKeepsCurrent | src/components/Forms/CostCalculator.jsx:117-144 | after an edit, a pending frame carries the total of the current watched values |
| Costs.WriteKeepsWatched | src/components/Forms/CostCalculator.jsx:115-125 | writing the total does not change what the effect watches |
| Costs.Edits | src/components/Forms/CostCalculator.jsx:118-125 | a burst of edits neither dirties nor touches the form by itself |
| Costs.EditsKeepCurrent | src/components/Forms/CostCalculator.jsx:117-126 | however many edits come before the frame fires, at most one write is pending, and it carries the total of the latest values |
| Costs.BurstWritesLastTotal | src/components/Forms/CostCalculator.jsx:117-125 | after a burst, the frame stores the total of the last values |
| Costs.WrittenTotalIsStable | src/components/Forms/CostCalculator.jsx:115-117 | once the frame has written the total, a new run of the effect schedules nothing, when the parser reads a number as itself |
| Costs.EffectDefersWrite | src/components/Forms/CostCalculator.jsx:119-125 | a run of the effect never changes the stored total itself |
| Flights.Query | src/components/Forms/FlightsSection.jsx:41-68 | a search is made exactly when departure city, arrival city, date and adults are all filled, and its query carries each of them as text, in INR |
| Flights.ResultsOf | src/components/Forms/FlightsSection.jsx:74-89 | the results are the response's `other_flights` when that is a list, else the response itself when it is a list, else the one object the response is; a failed request gives none |
| Flights.ResultsOfScalar | src/components/Forms/FlightsSection.jsx:76-83 | a response that is neither a list nor an object gives no results |
| Flights.Search | src/components/Forms/FlightsSection.jsx:41-93 | a refused search changes nothing; otherwise the modal opens with the results of the response, the selection kept and loading over |
| Flights.FailedSearchEmpties | src/components/Forms/FlightsSection.jsx:86-91 | a failed search leaves no results and the selection as it was |
| Flights.Find | src/components/Forms/FlightsSection.jsx:97-99 | a found flight is in the selection and has the token; when none is found, no selected flight has it |
| Flights.Without | src/components/Forms/FlightsSection.jsx:102-104 | the filtered selection holds exactly the selected flights whose token differs, and is shorter whenever some selected flight has the token |
| Flights.Toggle | src/components/Forms/FlightsSection.jsx:96-108 | unless a selected flight has the same token, toggling appends the flight; when one does and every selected entry is truthy (a falsy entry that `find` returns leaves `exists` falsy), every flight with that token is filtered out, the selection shrinks, and exactly the flights with other tokens remain |
| Flights.WithoutAbsent | src/components/Forms/FlightsSection.jsx:102-104 | removing a token no flight has changes nothing |
| Flights.WithoutAppend | src/components/Forms/FlightsSection.jsx:102-104 | the filter distributes over concatenation |
| Flights.ToggleTwiceRestores | src/components/Forms/FlightsSection.jsx:96-108 | toggling a flight whose token is new, and then toggling it again, restores the selection |
| Flights.TokenlessFlightsGoTogether | src/components/Forms/FlightsSection.jsx:97-104 | flights without a token share the token `undefined`: toggling one of them off removes every one |
| Flights.Price | src/components/Forms/FlightsSection.jsx:113-116 | a flight costs its custom price when that reads as a non-zero number, else its price |
| Flights.SumPricesAppend | src/components/Forms/FlightsSection.jsx:112-118 | the total is additive over a split of the selection |
| Flights.ToggleOnAddsPrice | src/components/Forms/FlightsSection.jsx:96-118 | toggling a new flight on adds exactly its price to the total |
| Flights.ParseDecimalOfFixed | src/components/Forms/FlightsSection.jsx:125 | the two-decimal text of a whole number reads back as that number |
| Flights.Save | src/components/Forms/FlightsSection.jsx:111-136 | saving stores the selection and the total as two-decimal text under `Costs.FlightCost`, keeps every other form field, and closes the modal |
| Flights.SavedCostReadsBack | src/components/Forms/FlightsSection.jsx:112-128 | the saved flight cost reads back as the sum of the selected prices |
| Flights.InitialSelection | src/components/Forms/FlightsSection.jsx:26-38 | an array is taken as the selection, and a falsy value gives none |
| Inclusions.Type | src/components/Forms/InclusionsExclusions.jsx:121-122 | typing sets that list's input and leaves both lists alone |
| Inclusions.Add | src/components/Forms/InclusionsExclusions.jsx:56-68 | text that trims to nothing changes nothing; otherwise exactly the trimmed row is appended to that list and its input cleared; the other list and its input stay |
| Inclusions.BlankInputKept | src/components/Forms/InclusionsExclusions.jsx:56-68 | a whitespace-only input adds nothing and keeps the typed text (also lines 126, 190) |
| Inclusions.InputClearedIffAdded | src/components/Forms/InclusionsExclusions.jsx:56-68 | the input is cleared exactly when the add went through |
| Inclusions.AddTrimmedAgain | src/components/Forms/InclusionsExclusions.jsx:57-65 | adding the text of a stored row again appends the same row: stored items are already trimmed |
| Inclusions.CommonTrimmed | src/components/Forms/InclusionsExclusions.jsx:34-54 | every quick-add label is non-empty trimmed text |
| Inclusions.QuickAddAppendsLabel | src/components/Forms/InclusionsExclusions.jsx:107-113 | a quick add appends the label itself and clears the input, every time it is pressed (also lines 171-175) |
| Inclusions.AddTrimmedText | src/components/Forms/InclusionsExclusions.jsx:56-68 | adding the same trimmed text twice appends it twice: duplicates are allowed |
| Inclusions.TravelInsuranceOnBothSides | src/components/Forms/InclusionsExclusions.jsx:42-52 | "Travel insurance" is a quick-add label of both lists |
| Inclusions.Remove | src/components/Forms/InclusionsExclusions.jsx:151 | removing a row takes out exactly that row, keeping the order of the rest, the other list and both inputs (also line 215) |
| Inclusions.RemoveUndoesAdd | src/components/Forms/InclusionsExclusions.jsx:56-68 | removing the row just added gives the list back (also lines 151, 215) |
| FormRules.EmptyPassesOthers | src/components/Forms/BasicDetails.jsx:117-147 | an empty value fails `required` and passes length, minimum and pattern rules, so an optional field may be left blank |
| BasicDetails.CountInput | src/components/Forms/BasicDetails.jsx:202-240 | a count input stores the number `parseInt` reads, 0 included, and 0 when nothing can be read |
| BasicDetails.EmptyTextIsNaN | src/components/Forms/BasicDetails.jsx:205-207 | `parseInt` of empty text is NaN, so the empty-text test is redundant: empty text stores 0 either way |
| BasicDetails.CountInputRoundTrip | src/components/Forms/BasicDetails.jsx:202-208 | typing back the text a count input shows stores the same count |
| BasicDetails.NonNumericIsZero | src/components/Forms/BasicDetails.jsx:205-207 | text that does not start with a digit, a sign or white space stores 0 |
| BasicDetails.BudgetInput | src/components/Forms/BasicDetails.jsx:262-268 | the budget input stores the decimal number read from the text, or 0 when none can be read |
| BasicDetails.BudgetInputRoundTrip | src/components/Forms/BasicDetails.jsx:262-268 | typing back the text the budget input shows stores the same amount |
| BasicDetails.FirstIndex | src/components/Forms/BasicDetails.jsx:145 | the first index of a character, or none when it does not occur |
| BasicDetails.LastIndex | src/components/Forms/BasicDetails.jsx:145 | the last index of a character, or none when it does not occur |
| BasicDetails.FirstIndexIs | src/components/Forms/BasicDetails.jsx:145 | the only occurrence up to an index is the first index |
| BasicDetails.LastIndexIs | src/components/Forms/BasicDetails.jsx:145 | the only occurrence from an index on is the last index |
| BasicDetails.EmailMatchesIsPattern | src/components/Forms/BasicDetails.jsx:142-147 | splitting at the first "@" and the last "." accepts exactly the addresses the e-mail pattern accepts |
| BasicDetails.ContactLength | src/components/Forms/BasicDetails.jsx:117-147 | a contact shorter than ten characters fails the rules, and an empty e-mail is allowed |
| BasicDetails.PickDestination | src/components/Forms/BasicDetails.jsx:333-338 | picking a destination sets the destination name and a one-element destinations list, and nothing else |
| BasicDetails.ConfirmDestinations | src/components/Forms/BasicDetails.jsx:355-360 | confirming the multiple picker replaces the destinations and nothing else |
| BasicDetails.EmptySelectionDoesNotBlock | src/components/Forms/BasicDetails.jsx:343-361 | an empty multiple selection shows its message, yet the field rules still hold, so the form can be submitted without destinations |
| BasicDetails.SetMulti | src/components/Forms/BasicDetails.jsx:278-292 | the switch stores the checkbox state |
| BasicDetails.SwitchKeepsDestinations | src/components/Forms/BasicDetails.jsx:278-292 | flipping the switch changes neither destination value, so a single pick reappears as the multiple selection (also lines 321-361) |
| NewLead.IntOr0Reads | src/pages/NewLeadForm.jsx:85-89 | a count typed as its decimal text, or given as a number, is stored as that count |
| NewLead.IntOr0OfText | src/pages/NewLeadForm.jsx:85-89 | text that does not start like a number is stored as 0 |
| NewLead.TravelStart | src/pages/NewLeadForm.jsx:90-92 | the travel date is the `date` of a picked value when that is truthy, and a value that is not an object is used as it is |
| NewLead.EndDate | src/pages/NewLeadForm.jsx:56-61 | the end date exists exactly when start plus days minus one is a valid date; otherwise formatting throws |
| NewLead.EndDateOfDays | src/pages/NewLeadForm.jsx:56-101 | for a "YYYY-MM-DD" start, the end date of n days is the text of the trip's last day |
| NewLead.ZeroDaysEndsTheDayBefore | src/pages/NewLeadForm.jsx:56-100 | a duration of 0 days ends on the day before the start, where the quotation form leaves the end date empty |
| NewLead.Payload | src/pages/NewLeadForm.jsx:63-123 | with no stored profile the build throws; otherwise it succeeds exactly when the end date can be computed, and the lead carries the profile's company and e-mail, the parsed days and the mode |
| NewLead.PayloadDestinations | src/pages/NewLeadForm.jsx:76-84 | in single mode the lead lists exactly the form's destination; in multi mode it lists the selection, whose first entry is the main destination, falling back to the form's destination when the selection is empty |
| NewLead.PayloadDefaults | src/pages/NewLeadForm.jsx:103-122 | source, potential and rating fall back to "WebApp", "Medium" and "Warm" when falsy; there is one comment, by Sales, stamped now, defaulting to "Initial lead created"; the status is "LeadCreate" and there are no quotations |
| NewLead.PayloadTravelDate | src/pages/NewLeadForm.jsx:90-101 | for plain date text the lead keeps the text and ends on the trip's last day |
| NewLead.AcceptedText | src/pages/NewLeadForm.jsx:220-255 | a form that passes the rules has an e-mail matching the pattern and a contact of at least ten characters |
| NewLead.AcceptedDestination | src/pages/NewLeadForm.jsx:76-83 | a form that passes the rules lists one non-empty destination in single mode (also line 306) |
| NewLead.Settle | src/pages/NewLeadForm.jsx:136-154 | submitting always ends; the page moves home exactly when the lead was built and the server accepted it, and then the form and destinations are reset; otherwise an alert is shown and what was typed stays; a throw shows the network error |
| NewLead.RefusalMessages | src/pages/NewLeadForm.jsx:144-151 | a refusal without a message shows the default text, one with a message shows it, and a `null` body shows the network error |
| NewLead.Submit | src/pages/NewLeadForm.jsx:51-155 | the page moves home only when the lead could be built from the stored profile, and a submit never turns the multi-destination mode on |
| NewLead.NoProfileKeepsInput | src/pages/NewLeadForm.jsx:64-69 | without a stored profile nothing is posted: the network error is shown and what was typed stays (also lines 149-151) |
| NewLead.Step | src/pages/NewLeadForm.jsx:45-46 | no action on the page turns the multi-destination mode on (also lines 141-142, 475) |
| NewLead.RunStaysSingle | src/pages/NewLeadForm.jsx:45-46 | from single mode, every sequence of actions stays in single mode (also lines 141-142) |
| NewLead.PostedLeadIsSingle | src/pages/NewLeadForm.jsx:45-83 | every lead the page posts lists exactly the typed destination |
| QuotationCards.GeneratedId | src/components/cards/QuotationCards.jsx:37 | a generated trip id is never empty |
| QuotationCards.UniqueId | src/components/cards/QuotationCards.jsx:34-37 | the trip id is the lead's `TripId`, else its `id`, else its `_id`, whichever is first truthy, else a generated id; it is always truthy |
| QuotationCards.GeneratedIdParts | src/components/cards/QuotationCards.jsx:37 | a lead without ids gets its contact, or "LEAD" when it has none, followed by the time and the random suffix |
| QuotationCards.Details | src/components/cards/QuotationCards.jsx:43-55 | the client details are an object |
| QuotationCards.DetailsTextFallbacks | src/components/cards/QuotationCards.jsx:44-53 | a truthy text field of the lead is copied and a falsy one gives "" |
| QuotationCards.DetailsCountFallbacks | src/components/cards/QuotationCards.jsx:48-54 | falsy Pax, Child and Days give "1", "0" and 2, so these counts are never falsy |
| QuotationCards.InfantIgnored | src/components/cards/QuotationCards.jsx:50 | the lead's infant count is never read: the details always say "0" |
| QuotationCards.LeadData | src/components/cards/QuotationCards.jsx:39-57 | the handed-over object carries the trip id, details, assignment date, lead id and quotations it is given |
| QuotationCards.Format | src/components/cards/QuotationCards.jsx:39-57 | the lead's id and quotations are passed on, with the chosen trip id and the formatted details |
| QuotationCards.AssignDateIsToday | src/components/cards/QuotationCards.jsx:56 | the assignment date is the "YYYY-MM-DD" of the current day |
| QuotationCards.ScreenReadsTripId | src/components/cards/QuotationCards.jsx:34-40 | the quotation form, opened without a follow-up, reads back the trip id the card chose (also IntegratedQuotationForm.jsx line 27) |
| QuotationCards.ScreenReadsDetails | src/components/cards/QuotationCards.jsx:43-55 | the quotation form, opened without a follow-up, uses the details the card formatted as its client (also IntegratedQuotationForm.jsx line 53) |
| MultiSelect.Safe | src/components/MultiSelectDestinations.jsx:22-24 | an array is the selection, and anything else counts as none |
| MultiSelect.Remove | src/components/MultiSelectDestinations.jsx:33 | the filtered list holds exactly the items not strictly equal to the removed one, and is never longer (also line 100) |
| MultiSelect.RemoveCounts | src/components/MultiSelectDestinations.jsx:33 | the filter drops every copy of the item and keeps every copy of anything else; a NaN is never dropped (also line 100) |
| MultiSelect.Toggle | src/components/MultiSelectDestinations.jsx:30-36 | an included item is filtered out and any other item is appended |
| MultiSelect.RemoveAbsent | src/components/MultiSelectDestinations.jsx:33 | filtering out an item that is not there changes nothing |
| MultiSelect.RemoveAppend | src/components/MultiSelectDestinations.jsx:33 | the filter distributes over concatenation |
| MultiSelect.ToggleTwiceRestores | src/components/MultiSelectDestinations.jsx:30-36 | toggling an unselected item twice restores the selection |
| MultiSelect.ToggleMembership | src/components/MultiSelectDestinations.jsx:30-36 | a toggle flips the item's membership and no other item's; a NaN, once in, cannot be toggled out |
| MultiSelect.Handle | src/components/MultiSelectDestinations.jsx:38-47 | opening copies the parent's selection into the working copy; confirm hands the working copy to the parent and closes; cancel resets the copy and closes without handing anything; removing a chip hands the selection without it; nothing changes the parent's selection directly (also lines 61-69, 98-101) |
| MultiSelect.Toggles | src/components/MultiSelectDestinations.jsx:30-36 | toggling in the modal leaves the parent's selection and the modal's state alone |
| MultiSelect.CancelDiscardsToggles | src/components/MultiSelectDestinations.jsx:44-69 | opening, toggling anything and cancelling hands nothing to the parent and leaves the working copy equal to the selection |
| MultiSelect.ConfirmAddsToggled | src/components/MultiSelectDestinations.jsx:30-69 | opening, toggling one new item and confirming hands the parent its selection with that item appended |
| MultiSelect.DisplayText | src/components/MultiSelectDestinations.jsx:50-56 | the placeholder when nothing is selected, the item itself when one is |
| MultiSelect.DisplayCount | src/components/MultiSelectDestinations.jsx:53-55 | with two or more items the text is the count, the kind and a plural "s": the test for the plural cannot fail |
| MultiSelect.DisplayCountParses | src/components/MultiSelectDestinations.jsx:53-55 | the display text of two or more items starts with their count |
| Calendar.MonthStart | src/components/DatePicker.jsx:30 | `new Date(year, month, 1)` is day 1 of the date's month, in the year the constructor builds (the years 0 to 99 read as 1900 to 1999); outside those years it is the first day of the month holding the date |
| Calendar.DayInItsMonth | src/components/DatePicker.jsx:30 | a day lies between the first and the last day of its month |
| Calendar.LengthAsComputed | src/components/DatePicker.jsx:32 | day 0 of the next month, read back as a day of the month, is the length of the month in the year the constructor builds, which is the month's own length outside the years 0 to 99 |
| Calendar.YearZeroFebruary | src/components/DatePicker.jsx:32 | February of the year 0 has 29 days, but the computed length is 28, the constructor having read the year as 1900 |
| Calendar.Rebuild | src/components/DateRangeSelector.jsx:8 | rebuilding a date from its year, month and day gives the same day outside the years 0 to 99; in them it gives that day of 1900 to 1999, running on into March for the 29th of February of the year 0 |
| Calendar.RebuildIdempotent | src/components/DateRangeSelector.jsx:8 | a rebuilt date never lies in the years 0 to 99, so rebuilding it again changes nothing |
| Calendar.Blanks | src/components/DatePicker.jsx:36 | the leading cells are exactly n empty cells |
| Calendar.AppendDays | src/components/DatePicker.jsx:37-39 | the days 1 to n of the month are appended in order after the cells already there |
| Calendar.Grid | src/components/DatePicker.jsx:36-39 | the grid is the leading empty cells followed by the month's days in order |
| Calendar.GenerateCalendar | src/components/DatePicker.jsx:26-42 | the grid has one empty cell per weekday before the first of the month, then one cell per day of the month, in order, all in the year the constructor builds (the years 0 to 99 read as 1900 to 1999) |
| Calendar.WeekdayShift | src/components/DatePicker.jsx:31-39 | j days later the weekday has moved on by j, modulo 7 |
| Calendar.GridCellDate | src/components/DatePicker.jsx:37-39 | the cell of day k is the k-th of that month and year |
| Calendar.GridCellWeekday | src/components/DatePicker.jsx:31-39 | each day falls in the weekday column its cell is in |
| Calendar.SetMonthAsWritten | src/components/DatePicker.jsx:46-56 | moving a date by k months keeps its day of the month when the target month has that day, and otherwise lands that many days past the target month's end, in the month after |
| Calendar.SetMonthCount | src/components/DatePicker.jsx:46-56 | the month moves by exactly k when the day exists k months on, and by k + 1 otherwise (also DateRangeSelector.jsx lines 124-130) |
| Calendar.SetMonthThereAndBack | src/components/DatePicker.jsx:46-56 | on a day up to the 28th, a month forward and a month back return to the same date |
| Calendar.OverflowDayNumber | src/components/DatePicker.jsx:48 | a day beyond the end of a month counts on into the next month |
| Calendar.OverflowDay | src/components/DatePicker.jsx:48-54 | a kept day the target month does not have lands in the month after it |
| Calendar.NextMonthSkipsFebruary | src/components/DatePicker.jsx:46-50 | as written, "next month" from the 31st of January shows March: February is skipped (also DateRangeSelector.jsx lines 124-130) |
| Calendar.StepMonth | src/components/DatePicker.jsx:46-56 | month navigation as intended gives the first of the month k months on (also DateRangeSelector.jsx lines 124-130) |
| Calendar.StepMonthExact | src/components/DatePicker.jsx:46-56 | a step moves the month by exactly k whatever the day, and a step forward then back returns to the month started from (also DateRangeSelector.jsx lines 124-130) |
| DatePicker.Mount | src/components/DatePicker.jsx:10-12 | on mount the picker is closed, shows today's month, and selects the value's date when the value is truthy, else nothing |
| DatePicker.Sync | src/components/DatePicker.jsx:14-17 | a truthy value replaces the selection and a falsy one leaves it |
| DatePicker.ClearedValueKeepsSelection | src/components/DatePicker.jsx:14-17 | clearing the value in the parent does not clear the picker: the old date stays selected |
| DatePicker.Days | src/components/DatePicker.jsx:26-44 | the grid shown has the blanks before the first weekday and one cell per day of the month shown, the years 0 to 99 being read as 1900 to 1999 |
| DatePicker.Navigate | src/components/DatePicker.jsx:46-56 | the arrows keep the picker open or closed and its selection, and move the date shown k months keeping its day, or into the month after when the target month lacks that day (also lines 100-105) |
| DatePicker.NavigateMonths | src/components/DatePicker.jsx:46-56 | an arrow moves the month shown by exactly one when the day exists there and by two otherwise; up to the 28th, next then previous restores the state |
| DatePicker.NavigateIntended | src/components/DatePicker.jsx:46-56 | the intended arrows keep the picker's state and show the first of a month |
| DatePicker.NavigateIntendedByOne | src/components/DatePicker.jsx:46-56 | the intended arrows move the month by exactly one, and the two undo each other |
| DatePicker.Select | src/components/DatePicker.jsx:58-62 | picking a day selects it, closes the picker and hands the parent its "YYYY-MM-DD" text |
| DatePicker.SelectRoundTrip | src/components/DatePicker.jsx:14-17 | a parent that stores the text and passes it back as the value re-selects the same date (also lines 58-62) |
| DateRange.Normalize | src/components/DateRangeSelector.jsx:5-9 | a falsy value has no date; any other is read as the day it falls on, rebuilt by the Date constructor (so the years 0 to 99 become 1900 to 1999), or as an invalid date when it cannot be read |
| DateRange.NormalizeMidnight | src/components/DateRangeSelector.jsx:5-9 | a midnight is read as its rebuilt day |
| DateRange.NormalizeIdempotent | src/components/DateRangeSelector.jsx:5-9 | a midnight outside the years 0 to 99 is read back as the same day; any midnight is read as a day that reads back as itself, so normalizing twice is normalizing once |
| DateRange.EnabledDays | src/components/DateRangeSelector.jsx:87-95 | with both bounds, the enabled days are exactly those from the minimum to the maximum; without bounds every day is enabled |
| DateRange.EndsNotInRange | src/components/DateRangeSelector.jsx:97-101 | the range's highlighting is strict: neither end counts as inside it |
| DateRange.Click | src/components/DateRangeSelector.jsx:104-122 | a blank or disabled cell changes nothing; a click with no start or a full range starts a new range; an earlier day becomes the start with the old start as end; the start day again clears the end; a later day becomes the end |
| DateRange.ClickKeepsOrdered | src/components/DateRangeSelector.jsx:104-122 | a click never leaves an end before the start, nor an unreadable start |
| DateRange.ClicksKeepOrdered | src/components/DateRangeSelector.jsx:104-122 | any sequence of clicks on the grid keeps the range ordered |
| DateRange.ClickedDaySelected | src/components/DateRangeSelector.jsx:104-122 | a clicked enabled day is shown selected afterwards, whichever branch was taken (also lines 150-152) |
| DateRange.SecondClickOrders | src/components/DateRangeSelector.jsx:104-122 | two clicks on different enabled days give the range from the earlier to the later, in either click order |
| DateRange.InvalidStartTakesEnd | src/components/DateRangeSelector.jsx:26-31 | a start the parent passed as an unreadable date survives a click, which sets an end the range cannot be ordered with (also lines 104-122) |
| DateRange.Apply | src/components/DateRangeSelector.jsx:132-142 | nothing is handed on without a start; otherwise the start, and the end or the start again when there is none |
| DateRange.ApplyOrdered | src/components/DateRangeSelector.jsx:132-142 | an ordered range is handed on with a start no later than its end |
| DateRange.Cancel | src/components/DateRangeSelector.jsx:144-148 | each end is dropped exactly when the parent's corresponding date is falsy |
| DateRange.CancelThenApply | src/components/DateRangeSelector.jsx:132-148 | cancelling back to two parent midnights and applying hands their rebuilt days back, which are the same two days outside the years 0 to 99 |
| DateRange.Mount | src/components/DateRangeSelector.jsx:24-35 | the modal starts closed with the parent's range, on the month of the start date or of today |
| DateRange.SyncStart | src/components/DateRangeSelector.jsx:38-48 | a new parent start replaces the working start and, when truthy, moves the month shown to it; nothing else changes |
| DateRange.SyncEnd | src/components/DateRangeSelector.jsx:42-44 | a new parent end is read into the working end: none when falsy, its rebuilt day when a valid date, an invalid date otherwise; nothing else changes |
| DateRange.SyncAfterApply | src/components/DateRangeSelector.jsx:38-48 | a range the parent returns as two midnights is shown as their rebuilt days, on the start's month; outside the years 0 to 99 that is the same range |
| DateRange.Navigate | src/components/DateRangeSelector.jsx:124-130 | the arrows keep the modal and the range, keep an invalid month invalid, and move the date shown k months keeping its day, or into the month after when the target month lacks that day |
| DateRange.NavigateMonths | src/components/DateRangeSelector.jsx:124-130 | a step moves the month shown by exactly the step when the day exists there, and by one month more otherwise |
| DateRange.NavigateIntended | src/components/DateRangeSelector.jsx:124-130 | the intended arrows keep the modal, the range and an invalid month, and show the first of a month |
| DateRange.NavigateIntendedExact | src/components/DateRangeSelector.jsx:124-130 | an intended step moves the month shown by exactly the step, whatever the day |
| DateRange.Show | src/components/DateRangeSelector.jsx:160-164 | the date button opens the modal and changes nothing else |
| DateRange.ApplyPress | src/components/DateRangeSelector.jsx:132-142 | Apply hands on what `Apply` gives and closes the modal exactly when there is a start; without one the modal stays as it was |
| DateRange.CancelPress | src/components/DateRangeSelector.jsx:144-148 | Cancel closes the modal with the range read again from the parent, keeping the month shown |
| DateRange.OpenClicksCancel | src/components/DateRangeSelector.jsx:144-148 | whatever is clicked after opening, Cancel ends in the same state as cancelling without opening |
| DateRange.OpenClicksApply | src/components/DateRangeSelector.jsx:104-142 | after any clicks from an ordered range, Apply closes exactly when a start is picked and hands on a start no later than the end |
| DateRange.Days | src/components/DateRangeSelector.jsx:61-74 | an invalid month shows no cells; otherwise the blanks before the first weekday and then each day of the month in order, the years 0 to 99 being read as 1900 to 1999 |
| ActivitySelector.Loaded | src/components/ActivitySelector.jsx:31-47 | a response without a truthy Items list leaves the activities an empty list |
| ActivitySelector.FieldMatches | src/components/ActivitySelector.jsx:57-61 | a missing field never matches, a text field matches when it contains the query case aside, and a null activity or a field of another kind throws |
| ActivitySelector.MatchesText | src/components/ActivitySelector.jsx:57-61 | an activity whose three fields are text or absent matches exactly when one of them contains the query |
| ActivitySelector.Filter | src/components/ActivitySelector.jsx:57-63 | the filter succeeds exactly when no activity throws, and then keeps, in order, exactly the activities that match, each as often as in the list |
| ActivitySelector.NoneThrowsStep | src/components/ActivitySelector.jsx:57-63 | no activity of a list throws exactly when its first does not and none after it does |
| ActivitySelector.FilterStep | src/components/ActivitySelector.jsx:57-63 | one more activity in front is kept exactly when it matches, and the kept activities remain those that match, each as often as in the list |
| ActivitySelector.Visible | src/components/ActivitySelector.jsx:51-65 | a blank query shows every activity; otherwise a non-list throws and a list shows a subsequence of itself |
| ActivitySelector.BlankQueryShowsAll | src/components/ActivitySelector.jsx:52-53 | a query of white space only shows the whole list |
| ActivitySelector.QueryCaseIgnored | src/components/ActivitySelector.jsx:51-65 | the list shown is the same for a query and its lowercase |
| ActivitySelector.Chosen | src/components/ActivitySelector.jsx:69-76 | a listed activity is handed on with its title and id, the first truthy of its descriptions or "", and of its urls or ""; a null one throws |
| ActivitySelector.ChosenNeverMissing | src/components/ActivitySelector.jsx:69-76 | the description and image handed on are never falsy except as "" |
| ActivitySelector.Custom | src/components/ActivitySelector.jsx:82-88 | a custom activity carries the form's three fields, is marked custom and has no id |
| ActivitySelector.CustomReadsBack | src/components/ActivitySelector.jsx:69-88 | a custom activity read back the way a listed one is keeps its title, description and image |
| ActivitySelector.Handle | src/components/ActivitySelector.jsx:69-93 | only a pick or a save hands anything to the parent, and only a pick of a null entry throws (also lines 100-103, 123-131, 135-177, 222-240) |
| ActivitySelector.PickClearsQuery | src/components/ActivitySelector.jsx:69-80 | picking a listed activity hands it on, closes the modal and clears the search (also lines 138-143) |
| ActivitySelector.SaveNeedsTitle | src/components/ActivitySelector.jsx:82-93 | saving hands on a custom activity and blanks the form exactly when the title is not empty (also lines 230-240) |
| ActivitySelector.CloseThenOpenRestores | src/components/ActivitySelector.jsx:100-131 | closing and reopening the modal shows the search text and the form as they were |
| ActivitySelector.PickedTitleShown | src/components/ActivitySelector.jsx:105-107 | once a titled activity is picked, the selector button shows its title (also lines 69-76) |
| QuotationList.Key | src/components/modals/QuotationListModal.jsx:57-61 | a quotation without a truthy creation date is dated at time zero |
| QuotationList.KeyOfTime | src/components/modals/QuotationListModal.jsx:59-60 | a quotation created at a nonzero valid time is dated at that time |
| QuotationList.InsertPermutes | src/components/modals/QuotationListModal.jsx:57-61 | inserting a quotation adds exactly that quotation to the list |
| QuotationList.SortPermutes | src/components/modals/QuotationListModal.jsx:57-61 | the sorted list holds the same quotations, each as often, as the response |
| QuotationList.InsertMembers | src/components/modals/QuotationListModal.jsx:57-61 | inserting brings in no quotation other than the one inserted |
| QuotationList.SortDated | src/components/modals/QuotationListModal.jsx:57-61 | sorting keeps every date readable |
| QuotationList.HeadIsNewest | src/components/modals/QuotationListModal.jsx:44-61 | no quotation of a newest-first list is newer than its first |
| QuotationList.TailNewestFirst | src/components/modals/QuotationListModal.jsx:45-61 | the quotations after the first of a newest-first list are still newest first |
| QuotationList.InsertNewestFirst | src/components/modals/QuotationListModal.jsx:57-61 | inserting a dated quotation into a newest-first list keeps it newest first |
| QuotationList.SortNewestFirst | src/components/modals/QuotationListModal.jsx:57-61 | with readable dates the sort puts no quotation after a newer one |
| QuotationList.CreatedAtAppend | src/components/modals/QuotationListModal.jsx:57-61 | the quotations of a given time in two lists put together are those of the first list, then of the second |
| QuotationList.NoneCreatedAt | src/components/modals/QuotationListModal.jsx:57-61 | a list with no quotation of a given time has none to keep in order |
| QuotationList.DatedPrefix | src/components/modals/QuotationListModal.jsx:57-61 | dropping the last quotation of a dated list leaves a dated list, and the last one is dated |
| QuotationList.InsertCreatedAt | src/components/modals/QuotationListModal.jsx:57-61 | an inserted quotation lands after every quotation of the same time |
| QuotationList.SortStable | src/components/modals/QuotationListModal.jsx:57-61 | quotations of the same time keep the order of the response, as the engine's stable sort keeps them |
| QuotationList.Data | src/components/modals/QuotationListModal.jsx:55 | the quotations are the response's data when it is a list, and none otherwise |
| QuotationList.Defined | src/components/modals/QuotationListModal.jsx:57-61 | the entries handed to the comparator are those that are not undefined, each as often as in the data |
| QuotationList.Undefineds | src/components/modals/QuotationListModal.jsx:57-61 | k undefined entries and nothing else |
| QuotationList.DefinedAndUndefined | src/components/modals/QuotationListModal.jsx:57-61 | the entries that are not undefined together with the undefined ones are the data |
| QuotationList.AppendUndefineds | src/components/modals/QuotationListModal.jsx:57-61 | after a list without undefined, the undefined entries are exactly the appended ones |
| QuotationList.SortedThenUndefined | src/components/modals/QuotationListModal.jsx:57-61 | sorting the entries that are not undefined and putting the undefined ones after them keeps every entry and leaves the undefined ones exactly at the end |
| QuotationList.ArraySort | src/components/modals/QuotationListModal.jsx:57-61 | `sort` keeps every entry and leaves exactly the undefined entries at the end |
| QuotationList.DefinedKeepsAll | src/components/modals/QuotationListModal.jsx:57-61 | a list without undefined entries is handed to the comparator whole |
| QuotationList.ArraySortWithoutUndefined | src/components/modals/QuotationListModal.jsx:57-61 | without undefined entries the array sort is the sort of the whole list |
| QuotationList.SortPair | src/components/modals/QuotationListModal.jsx:57-61 | two quotations, the second newer, swap places |
| QuotationList.NullIsDefined | src/components/modals/QuotationListModal.jsx:57-61 | a null entry is among those the comparator sees |
| QuotationList.Sorted | src/components/modals/QuotationListModal.jsx:55-61 | the sorted list is a permutation of the data with the undefined entries exactly at the end; it throws exactly when there is a null entry and at least two entries that are not undefined to compare |
| QuotationList.LatestIsNewest | src/components/modals/QuotationListModal.jsx:44-63 | with readable dates the list is newest first up to its undefined entries, and no quotation of the response is newer than the one shown as latest |
| QuotationList.LoadIsStable | src/components/modals/QuotationListModal.jsx:55-63 | with readable dates quotations of the same time are listed in the response's order, ahead of the undefined entries |
| QuotationList.Fetch | src/components/modals/QuotationListModal.jsx:47-70 | loading always ends; a falsy id, a failed request or an entry that throws leaves the list and sets the error; otherwise the sorted list replaces it and the error clears; the error is clear exactly then |
| QuotationList.Effect | src/components/modals/QuotationListModal.jsx:72-76 | a fetch happens exactly when the modal is visible and the trip id truthy, and otherwise nothing changes |
| QuotationList.NoTripIdKeepsLoading | src/components/modals/QuotationListModal.jsx:39-41 | without a trip id a fresh modal keeps showing the loading state, and the error for a missing id is never reached (also lines 49, 72-76, 87-94) |
| QuotationList.Latest | src/components/modals/QuotationListModal.jsx:44 | the latest is the first quotation, or undefined for an empty list |
| QuotationList.Previous | src/components/modals/QuotationListModal.jsx:45 | the previous quotations are all but the first, none for an empty list |
| QuotationList.LatestAndPrevious | src/components/modals/QuotationListModal.jsx:44-45 | the latest followed by the previous quotations is the whole list |
| QuotationList.LoadedShowsAll | src/components/modals/QuotationListModal.jsx:44-63 | after a successful load, the latest and the previous quotations together are the response's quotations, each once |
| ConvertedCard.Call | src/components/cards/ConvertedCard.jsx:50-53 | a falsy contact gives the "not available" alert and nothing else; any other opens a tel: link to the contact as text (also line 83) |
| ConvertedCard.WhatsApp | src/components/cards/ConvertedCard.jsx:55-59 | a falsy contact gives the alert; a contact that is not text throws; text opens a wa.me chat in a new tab whose number is digits only (also line 90) |
| ConvertedCard.WhatsAppKeepsDigits | src/components/cards/ConvertedCard.jsx:57-58 | the chat number keeps each character of the contact exactly when it is a digit, in order |
| ConvertedCard.SeparatorsIgnored | src/components/cards/ConvertedCard.jsx:57-58 | inserting non-digit separators into a contact opens the same chat |
| ConvertedCard.DigitContactUnchanged | src/components/cards/ConvertedCard.jsx:57-58 | a contact of digits only is used as it is |
| ConvertedCard.Press | src/components/cards/ConvertedCard.jsx:29-31 | a press without a trip id or while a fetch is in flight returns at once; any other press starts loading and leaves the quote and the modal as they were |
| ConvertedCard.Settle | src/components/cards/ConvertedCard.jsx:32-46 | a failed request alerts, an empty response alerts that there are no quotes, both keeping the card; a response with quotations opens the modal on the first one; loading ends in every case |
| ConvertedCard.Label | src/components/cards/ConvertedCard.jsx:161-166 | the button reads "Loading..." exactly while a fetch is in flight, and "View Quote Details" otherwise |
| ConvertedCard.InFlight | src/components/cards/ConvertedCard.jsx:28-47 | after a press the button reads "Loading..." and a second press does nothing; once the request settles the button reads "View Quote Details" again |
| ConvertedCard.FetchLatest | src/components/cards/ConvertedCard.jsx:28-47 | a press followed by the request settling: without a trip id or during a fetch nothing happens; a failed request alerts; an empty response alerts that there are no quotes; otherwise the first quotation of the response is shown in the modal; loading ends either way |
| ConvertedCard.CardFieldsWin | src/components/cards/ConvertedCard.jsx:35-36 | the modal's quote reads each field the lead has from the lead, and any other from the fetched quotation (also line 175) |
| ConvertedCard.InitialQuoteIsLead | src/components/cards/ConvertedCard.jsx:14 | before any fetch the modal's quote is the lead itself (also line 175) |
| ConvertedCard.FirstIsNotLatest | src/components/cards/ConvertedCard.jsx:35-36 | a response listing an older quotation first shows that older one, though the quotation list ranks the other as latest |
| ConvertedCard.NewerSortsFirst | src/components/cards/ConvertedCard.jsx:35-36 | the quotation list puts a quotation created at 2 before one created at 1 |
| ConvertedCard.FetchNewest | src/components/cards/ConvertedCard.jsx:28-47 | the corrected fetch opens the modal only on the first quotation of the list sorted newest first |
| ConvertedCard.NewestShown | src/components/cards/ConvertedCard.jsx:28-47 | with readable dates a response with quotations opens the modal on a quotation no other quotation of it is newer than |

## Left out

- Network requests: the flight search, the activity fetch of `ActivitySelector` and of the itinerary section (`src/components/Forms/ItinearySection.jsx:133-157`), the lead post, the quotation fetch. Their outcomes are parameters, and the request text they send is not modelled.
- The quotation screen (`src/pages/QuotationScreen.jsx`) is not part of this model. It swallows a failed submission, so the running app clears the draft even then; the model's submit takes the outcome of `onSubmit` as given.
- Rendering, routing and style objects, the navigation bar and sidebar, the follow-up card list, the invoice and quote-details modals, and `CustomPicker`'s scroll geometry.
- react-hook-form: field arrays, watch subscriptions, registration and re-render timing. The model keeps the form values. `FormRules` reads the library's `required`, `minLength`, `min` and `pattern` rules as predicates on a field's value; the library's own code is not part of this model.
- `NumberParser` is not part of this model: the cost section's parser is an arbitrary total function from values to integers, passed as a parameter, and nothing is assumed of it.
- Floating point: money, counts and flight prices are integers. `parseFloat`, `toFixed(2)` and fractional prices are not modelled.
- Locale formatting: `toLocaleDateString`, `toLocaleString` and the month label of the date pickers, and the display helpers of the cards.
- The host time zone is UTC. `setHours` on a local date, and the day shift `toISOString` makes east or west of UTC, are not modelled.
- `requestAnimationFrame` and `setTimeout` delays are logical steps; real timing and the order of frames are not modelled.
- Object identity: `includes` and `filter` on the destinations and the flights compare values, not references, and `+0` and `-0` are one number.
- `toLowerCase` folds ASCII letters only; other scripts are left as they are.
- The order JavaScript's `sort` gives when a comparator returns NaN for an unreadable date is engine-defined: `QuotationList` states the order only when every date can be read.
- Time of day inside the month shown by `DatePicker` and `DateRangeSelector` is dropped: the month is kept as a day number.
- `parseFloat` reads only the integer part of its text: a fraction or an exponent ("1e3") is not read, and "Infinity" is NaN.
- The autosave of `DraftHook` and the clear after a submit assume the storage write succeeds; a write that throws is the case of `DraftStore.SaveAttempt` and `DraftStore.ClearAttempt`.
- DraftStore.Load: a `getItem` that throws (storage disabled) returns `null`, as a missing entry does; the model's store can always be read.
- QuotationForm.TripText: a trip id of `[]` is truthy, so the source's draft key is "quotationDraft:"; the model reads it as "" and treats it as no trip.
- The alerts of the flight section (a refused search, a failed search, the count of saved flights) are not returned as effects; the state changes they accompany are.
- A truthy `selectedFlights` value that is not a list, and the partial appends before a `RangeError` when the itinerary grows to an invalid date, are not modelled.
- An empty section list in the wizard: the source would fail while rendering it, and the model's pager starts only with at least one section.
- NewLead.Payload: requires the clock to read a valid time, since `new Date()` in the source cannot be invalid.
- QuotationForm.TravelEndDate: states only the empty case in its own contract; the dated case is stated by `QuotationForm.EndDateOfStart` and `QuotationForm.EndOfMidnight`.
- QuotationList.LatestIsNewest: states the order of the entries that are not `undefined` only; `sort` never compares the `undefined` ones, which close the list, and `ConvertedCard.NewestShown` likewise ranks only entries that are not `undefined`.
- Calendar.GenerateCalendar: in the first and last months of the Date range (April of -271821 and September of 275760), the days outside the range are an Invalid Date in JavaScript; the model gives them their day numbers.
- QuotationList.Key: states only the undated case; the order it induces is stated by the sort lemmas.
- ActivitySelector.Handle: states only which events hand anything on or throw; what each event does is stated by `PickClearsQuery`, `SaveNeedsTitle` and `CloseThenOpenRestores`.
- ActivitySelector.Visible: states that the list shown is a subsequence; which activities it keeps is stated by `ActivitySelector.Filter`.
- The card's `{...quoteDetails, ...data}` merge is stated by `ConvertedCard.CardFieldsWin` and `ConvertedCard.InitialQuoteIsLead` rather than by a contract of its own.

## Findings

| source | as written | input that shows it | evidently intended | confidence | as-written member | corrected member |
|---|---|---|---|---|---|---|
| src/components/Forms/ItinearySection.jsx:73-76 | `remove(index)` drops the day, then the renumbering splices `getValues` again at `index`, dropping a second day | three days, remove the first: one day is left | exactly one day removed, the rest renumbered | not executed | Itinerary.RemoveDayAsWrittenLosesDays | Itinerary.RemoveDayRenumbers |
| src/components/DatePicker.jsx:46-56, src/components/DateRangeSelector.jsx:124-130 | `setMonth(getMonth() + k)` on a date past the 28th overflows into the month after | the 31st of January, next month: March is shown | the month k months on | not executed | Calendar.NextMonthSkipsFebruary | Calendar.StepMonthExact |
| src/components/Forms/ItinearySection.jsx:127-130 | the init effect calls `addDay` when the first render's `fields` was empty, after the auto-generate effect of the same render has already appended the days; `addDay` still counts 0 | a one-day trip mounted on an empty itinerary: day one is listed twice | the first day added only when the list is still empty | not executed | Itinerary.MountOneDayTwice | Itinerary.MountIntendedIsGenerate |
| src/components/cards/ConvertedCard.jsx:35-36 | the first quotation of the response is shown, whatever its date | a response listing a quotation created at 1 before one created at 2 | the latest quotation, as the quotation list orders them | not executed | ConvertedCard.FirstIsNotLatest | ConvertedCard.NewestShown |

=== FILE: activity_selector.dfy ===
/** The activity picker of src/components/ActivitySelector.jsx: a search over the activities
    fetched for a destination, the object handed to the parent when one is picked, and the
    form for a custom activity.

    The fetch itself is a parameter: `data` is its parsed body. An activity is any value, as
    the response may hold anything; reading a property of `null` or calling `toLowerCase` on
    something that is not text throws a TypeError, which is an `Err` here. */
module ActivitySelector {
  import opened Results
  import opened Text
  import opened JsValue

  /** `data?.Items || []`: the activities kept from a response. */
  function Loaded(data: JsVal): (r: JsVal)
    ensures Truthy(Member(data, "Items")) ==> r == Member(data, "Items")
    ensures !Truthy(Member(data, "Items")) ==> r == Arr([])
  {
    Or(Member(data, "Items"), Arr([]))
  }

  /** `a.<field>?.toLowerCase().includes(q)`. */
  function FieldMatches(a: JsVal, field: string, q: string): (r: Result<bool>)
    ensures IsNullish(a) ==> r.Err?
    ensures !IsNullish(a) && IsNullish(Member(a, field)) ==> r == Ok(false)
    ensures !IsNullish(a) && Member(a, field).Str? ==> r == Ok(Contains(ToLower(Member(a, field).s), q))
    ensures !IsNullish(Member(a, field)) && !Member(a, field).Str? ==> r.Err?
  {
    match Prop(a, field)
    case Err(e) => Err(e)
    case Ok(v) =>
      if IsNullish(v) then Ok(false)
      else if v.Str? then Ok(Contains(ToLower(v.s), q))
      else Err("TypeError")
  }

  /** The filter's test: Title, then Description, then DetailDescription, stopping at the first
      match; a field that throws stops the search there. */
  function Matches(a: JsVal, q: string): Result<bool> {
    var t := FieldMatches(a, "Title", q);
    if t.Err? || t.value then t
    else
      var d := FieldMatches(a, "Description", q);
      if d.Err? || d.value then d
      else FieldMatches(a, "DetailDescription", q)
  }

  /** An activity whose three fields are text (or absent) matches exactly when one of them
      contains the query, case aside. */
  lemma MatchesText(a: JsVal, q: string)
    requires a.Obj?
    requires forall f :: f in ["Title", "Description", "DetailDescription"] ==>
      Member(a, f).Str? || IsNullish(Member(a, f))
    ensures Matches(a, q).Ok?
    ensures Matches(a, q).value <==>
      (exists f :: f in ["Title", "Description", "DetailDescription"] && Member(a, f).Str? && Contains(ToLower(Member(a, f).s), q))
  {
    var fs := ["Title", "Description", "DetailDescription"];
    assert fs[0] in fs && fs[1] in fs && fs[2] in fs;
  }

  /** `b` keeps some of the elements of `a`, in their order. */
  predicate SubsequenceOf<T(==)>(b: seq<T>, a: seq<T>)
    decreases |a|
  {
    |b| == 0 || (|a| > 0 && ((b[0] == a[0] && SubsequenceOf(b[1..], a[1..])) || SubsequenceOf(b, a[1..])))
  }

  /** `activities.filter(a => Matches(a, q))`: the first activity that throws stops it. */
  function Filter(xs: seq<JsVal>, q: string): (r: Result<seq<JsVal>>)
    ensures r.Ok? <==> forall i :: 0 <= i < |xs| ==> Matches(xs[i], q).Ok?
    ensures r.Ok? ==> SubsequenceOf(r.value, xs)
    ensures r.Ok? ==> forall x :: x in r.value <==> x in xs && Matches(x, q) == Ok(true)
    ensures r.Ok? ==> forall x :: multiset(r.value)[x] == if Matches(x, q) == Ok(true) then multiset(xs)[x] else 0
    decreases |xs|
  {
    if |xs| == 0 then Ok([])
    else
      var m := Matches(xs[0], q);
      var rest := Filter(xs[1..], q);
      NoneThrowsStep(xs, q);
      if m.Err? then Err(m.error)
      else if rest.Err? then Err(rest.error)
      else
        assert xs == [xs[0]] + xs[1..];
        FilterStep(xs[0], xs[1..], rest.value, m.value, q);
        if m.value then Ok([xs[0]] + rest.value) else Ok(rest.value)
  }

  /** No activity of a list throws exactly when its first does not and none after it does. */
  lemma NoneThrowsStep(xs: seq<JsVal>, q: string)
    requires |xs| > 0
    ensures (forall i :: 0 <= i < |xs| ==> Matches(xs[i], q).Ok?) <==>
      Matches(xs[0], q).Ok? && forall i :: 0 <= i < |xs[1..]| ==> Matches(xs[1..][i], q).Ok?
  {
    assert forall i :: 1 <= i < |xs| ==> xs[i] == xs[1..][i - 1];
  }

  /** One more activity in front: kept when it matches, and the kept ones stay those that
      match, each as often as in the list. */
  lemma FilterStep(x0: JsVal, tail: seq<JsVal>, kept: seq<JsVal>, keep: bool, q: string)
    requires Matches(x0, q).Ok? && keep == Matches(x0, q).value
    requires SubsequenceOf(kept, tail)
    requires forall x :: x in kept <==> x in tail && Matches(x, q) == Ok(true)
    requires forall x :: multiset(kept)[x] == if Matches(x, q) == Ok(true) then multiset(tail)[x] else 0
    ensures var r := if keep then [x0] + kept else kept;
      SubsequenceOf(r, [x0] + tail)
      && (forall x :: x in r <==> x in [x0] + tail && Matches(x, q) == Ok(true))
      && (forall x :: multiset(r)[x] == if Matches(x, q) == Ok(true) then multiset([x0] + tail)[x] else 0)
  {
    var xs := [x0] + tail;
    assert xs[0] == x0 && xs[1..] == tail;
    assert multiset(xs) == multiset{x0} + multiset(tail);
    if keep {
      assert ([x0] + kept)[1..] == kept;
      assert multiset([x0] + kept) == multiset{x0} + multiset(kept);
    }
  }

  /** The list shown for the search text `query`: every activity for a blank query, otherwise
      the filter with the lowercased query; a non-list has no `filter` method. */
  function Visible(activities: JsVal, query: string): (r: Result<JsVal>)
    ensures Trim(query) == "" ==> r == Ok(activities)
    ensures Trim(query) != "" && !activities.Arr? ==> r.Err?
    ensures Trim(query) != "" && activities.Arr? && r.Ok? ==> r.value.Arr? && SubsequenceOf(r.value.items, activities.items)
  {
    if Trim(query) == "" then Ok(activities)
    else if !activities.Arr? then Err("TypeError")
    else
      match Filter(activities.items, ToLower(query))
      case Err(e) => Err(e)
      case Ok(xs) => Ok(Arr(xs))
  }

  /** A query of white space only shows every activity. */
  lemma BlankQueryShowsAll(activities: JsVal, query: string)
    requires AllSpace(query)
    ensures Visible(activities, query) == Ok(activities)
  {
    TrimEmptyIffAllSpace(query);
  }

  lemma {:induction false} LowerKeepsSpace(s: string)
    ensures AllSpace(ToLower(s)) <==> AllSpace(s)
  {
    if !AllSpace(s) {
      var i :| 0 <= i < |s| && !IsSpace(s[i]);
      assert !IsSpace(ToLower(s)[i]);
    }
  }

  lemma LowerIdempotent(s: string)
    ensures ToLower(ToLower(s)) == ToLower(s)
  {
  }

  /** The search ignores the case of the query's letters. */
  lemma QueryCaseIgnored(activities: JsVal, query: string)
    ensures Visible(activities, ToLower(query)) == Visible(activities, query)
  {
    LowerKeepsSpace(query);
    TrimEmptyIffAllSpace(query);
    TrimEmptyIffAllSpace(ToLower(query));
    LowerIdempotent(query);
  }

  /** The object handed to `onSelectActivity` for a listed activity: its Title and ActivityId;
      the Description, else the DetailDescription, else ""; the Url, else the ImageUrl, else "". */
  function Chosen(a: JsVal): (r: Result<JsVal>)
    ensures IsNullish(a) <==> r.Err?
    ensures r.Ok? ==> Member(r.value, "Title") == Member(a, "Title") && Member(r.value, "ActivityId") == Member(a, "ActivityId")
    ensures r.Ok? && Truthy(Member(a, "Description")) ==> Member(r.value, "Description") == Member(a, "Description")
    ensures r.Ok? && !Truthy(Member(a, "Description")) && Truthy(Member(a, "DetailDescription")) ==>
      Member(r.value, "Description") == Member(a, "DetailDescription")
    ensures r.Ok? && !Truthy(Member(a, "Description")) && !Truthy(Member(a, "DetailDescription")) ==>
      Member(r.value, "Description") == Str("")
    ensures r.Ok? && Truthy(Member(a, "Url")) ==> Member(r.value, "ImageUrl") == Member(a, "Url")
    ensures r.Ok? && !Truthy(Member(a, "Url")) && Truthy(Member(a, "ImageUrl")) ==> Member(r.value, "ImageUrl") == Member(a, "ImageUrl")
    ensures r.Ok? && !Truthy(Member(a, "Url")) && !Truthy(Member(a, "ImageUrl")) ==> Member(r.value, "ImageUrl") == Str("")
  {
    if IsNullish(a) then Err("TypeError")
    else Ok(Obj(map[
      "Title" := Member(a, "Title"),
      "Description" := Or(Or(Member(a, "Description"), Member(a, "DetailDescription")), Str("")),
      "ImageUrl" := Or(Or(Member(a, "Url"), Member(a, "ImageUrl")), Str("")),
      "ActivityId" := Member(a, "ActivityId")]))
  }

  /** The description and image of a chosen activity are never missing: each is a truthy value
      of the activity or "". */
  lemma ChosenNeverMissing(a: JsVal)
    requires !IsNullish(a)
    ensures var c := Chosen(a).value;
      (Truthy(Member(c, "Description")) || Member(c, "Description") == Str(""))
      && (Truthy(Member(c, "ImageUrl")) || Member(c, "ImageUrl") == Str(""))
  {
  }

  /** The custom activity form. */
  datatype Draft = Draft(title: string, description: string, imageUrl: string)

  const BlankDraft := Draft("", "", "")

  /** The object handed to `onSelectActivity` for a custom activity. */
  function Custom(d: Draft): (r: JsVal)
    ensures Member(r, "Title") == Str(d.title) && Member(r, "Description") == Str(d.description)
    ensures Member(r, "ImageUrl") == Str(d.imageUrl) && Member(r, "isCustom") == Bool(true)
    ensures Member(r, "ActivityId") == Undefined
  {
    Obj(map["Title" := Str(d.title), "Description" := Str(d.description), "ImageUrl" := Str(d.imageUrl),
      "isCustom" := Bool(true)])
  }

  /** A custom activity read the way a listed one is keeps its title, description and image. */
  lemma CustomReadsBack(d: Draft)
    ensures Chosen(Custom(d)).Ok?
    ensures Member(Chosen(Custom(d)).value, "Title") == Str(d.title)
    ensures Member(Chosen(Custom(d)).value, "Description") == Str(d.description)
    ensures Member(Chosen(Custom(d)).value, "ImageUrl") == Str(d.imageUrl)
  {
  }

  /** The modal: whether it is open, the search text, whether the form is shown and its fields. */
  datatype Modal = Modal(open: bool, query: string, adding: bool, draft: Draft)

  const Initial := Modal(false, "", false, BlankDraft)

  /** What the user can do; `Pick(i)` is a click on entry `i` of the list shown. */
  datatype Event = Open | Search(text: string) | Close | Pick(i: nat) | AddNew | Edit(d: Draft) | CancelAdd | Save

  /** One event on the modal, given the list shown, with the object handed to the parent, if
      any. An event on a control that is not on screen changes nothing: the list and its
      "+ Add New Activity" button are shown only without the form, the button only when the
      list is empty, and Save is disabled while the title is empty. */
  function Handle(m: Modal, shown: seq<JsVal>, e: Event): (r: Result<(Modal, Option<JsVal>)>)
    ensures r.Ok? && r.value.1.Some? ==> e.Pick? || e.Save?
    ensures r.Err? ==> e.Pick? && e.i < |shown| && IsNullish(shown[e.i])
  {
    var listed := m.open && !m.adding;
    match e
    case Open => Ok((m.(open := true), None))
    case Search(text) => Ok((if m.open then m.(query := text) else m, None))
    case Close => Ok((if m.open then m.(open := false) else m, None))
    case Pick(i) =>
      if listed && i < |shown| then
        match Chosen(shown[i])
        case Err(err) => Err(err)
        case Ok(c) => Ok((m.(open := false, query := ""), Some(c)))
      else Ok((m, None))
    case AddNew => Ok((if listed && |shown| == 0 then m.(adding := true) else m, None))
    case Edit(d) => Ok((if m.open && m.adding then m.(draft := d) else m, None))
    case CancelAdd => Ok((if m.open && m.adding then m.(adding := false) else m, None))
    case Save =>
      if m.open && m.adding && m.draft.title != "" then
        Ok((m.(open := false, adding := false, draft := BlankDraft), Some(Custom(m.draft))))
      else Ok((m, None))
  }

  /** Picking a listed activity hands it to the parent, closes the modal and clears the search. */
  lemma PickClearsQuery(m: Modal, shown: seq<JsVal>, i: nat)
    requires m.open && !m.adding && i < |shown| && !IsNullish(shown[i])
    ensures Handle(m, shown, Pick(i)) == Ok((m.(open := false, query := ""), Some(Chosen(shown[i]).value)))
  {
  }

  /** Saving hands the draft to the parent marked as custom, and blanks the form, exactly when
      the title is not empty. */
  lemma SaveNeedsTitle(m: Modal, shown: seq<JsVal>)
    requires m.open && m.adding
    ensures Handle(m, shown, Save).Ok?
    ensures Handle(m, shown, Save).value.1.Some? <==> m.draft.title != ""
    ensures m.draft.title != "" ==> var (q, out) := Handle(m, shown, Save).value;
      q.draft == BlankDraft && !q.adding && Member(out.value, "isCustom") == Bool(true)
      && Member(out.value, "Title") == Str(m.draft.title)
  {
  }

  /** Closing the modal with the search button keeps the search text and the form, so opening
      it again shows them as they were. */
  lemma CloseThenOpenRestores(m: Modal, shown: seq<JsVal>)
    requires m.open
    ensures Handle(Handle(m, shown, Close).value.0, shown, Open) == Ok((m, None))
  {
  }

  /** The text on the selector button: the selected activity's title, else a prompt. */
  function ButtonText(selected: JsVal): (r: JsVal)
    ensures Truthy(Member(selected, "Title")) ==> r == Member(selected, "Title")
    ensures !Truthy(Member(selected, "Title")) ==> r == Str("Select an activity")
  {
    Or(Member(selected, "Title"), Str("Select an activity"))
  }

  /** A picked activity with a title shows that title on the button. */
  lemma PickedTitleShown(a: JsVal)
    requires !IsNullish(a) && Truthy(Member(a, "Title"))
    ensures ButtonText(Chosen(a).value) == Member(a, "Title")
  {
  }
}

=== FILE: basic_details.dfy ===
/** The client section of src/components/Forms/BasicDetails.jsx: the field rules, the numeric
    inputs that store numbers, the e-mail pattern, and the coupling between the destination
    picker (single or multiple) and the `DestinationName` and `Destinations` values. */
module BasicDetails {
  import opened Results
  import opened Text
  import opened JsValue
  import FormRules

  /** The Pax, Child, Infant and Days inputs: `text ? parseInt(text) || 0 : 0`. A parsed 0 is
      falsy, but `|| 0` then yields the same 0. */
  function CountInput(text: string): (r: int)
    ensures ParseInt(text).Some? ==> r == ParseInt(text).value
    ensures ParseInt(text).None? ==> r == 0
  {
    if text == "" then 0
    else
      var p := ParseInt(text);
      if p.Some? then p.value else 0
  }

  /** The test for empty text is redundant: `parseInt("")` is NaN, which `|| 0` already maps to 0. */
  lemma EmptyTextIsNaN()
    ensures ParseInt("").None?
    ensures CountInput("") == 0
  {
  }

  /** The input shows `String(value)`; typing back what it shows stores the same count. */
  lemma CountInputRoundTrip(n: int)
    ensures CountInput(ToStr(Num(n))) == n
  {
    ParseIntOfIntToString(n);
  }

  /** Text that does not start with a digit, a sign or white space stores 0. */
  lemma NonNumericIsZero(text: string)
    requires |text| > 0 && !IsSpace(text[0]) && !IsDigit(text[0]) && text[0] != '-' && text[0] != '+'
    ensures CountInput(text) == 0
  {
    assert TrimStart(text) == text;
  }

  /** The Budget input: `text ? parseFloat(text) || 0 : 0`. */
  function BudgetInput(text: string): (r: int)
    ensures ParseDecimal(text).Some? ==> r == ParseDecimal(text).value
    ensures ParseDecimal(text).None? ==> r == 0
  {
    if text == "" then 0
    else
      var p := ParseDecimal(text);
      if p.Some? then p.value else 0
  }

  /** The budget input also stores what it shows. */
  lemma BudgetInputRoundTrip(n: int)
    ensures BudgetInput(ToStr(Num(n))) == n
  {
    ParseDecimalOfIntToString(n);
  }

  predicate IsLetter(c: char) {
    'A' <= c <= 'Z' || 'a' <= c <= 'z'
  }

  /** `[A-Z0-9._%+-]` under the `i` flag. */
  predicate LocalChar(c: char) {
    IsLetter(c) || IsDigit(c) || c == '.' || c == '_' || c == '%' || c == '+' || c == '-'
  }

  /** `[A-Z0-9.-]` under the `i` flag. */
  predicate DomainChar(c: char) {
    IsLetter(c) || IsDigit(c) || c == '.' || c == '-'
  }

  /** The text splits as local part, `@` at `at`, domain, `.` at `dot`, and two or more letters. */
  predicate EmailSplit(s: string, at: int, dot: int) {
    0 < at && at + 1 < dot && dot + 3 <= |s| && s[at] == '@' && s[dot] == '.'
    && (forall i :: 0 <= i < at ==> LocalChar(s[i]))
    && (forall i :: at < i < dot ==> DomainChar(s[i]))
    && (forall i :: dot < i < |s| ==> IsLetter(s[i]))
  }

  /** `/^[A-Z0-9._%+-]+@[A-Z0-9.-]+\.[A-Z]{2,}$/i.test(s)`. */
  predicate EmailPattern(s: string) {
    exists at, dot :: 0 <= at < |s| && 0 <= dot < |s| && EmailSplit(s, at, dot)
  }

  /** The first index of `c` in `s`. */
  function FirstIndex(s: string, c: char): (r: Option<nat>)
    ensures r.Some? ==> r.value < |s| && s[r.value] == c && forall i :: 0 <= i < r.value ==> s[i] != c
    ensures r.None? ==> forall i :: 0 <= i < |s| ==> s[i] != c
  {
    if |s| == 0 then None
    else if s[0] == c then Some(0)
    else
      var rest := FirstIndex(s[1..], c);
      if rest.Some? then Some(rest.value + 1) else None
  }

  /** The last index of `c` in `s`. */
  function LastIndex(s: string, c: char): (r: Option<nat>)
    ensures r.Some? ==> r.value < |s| && s[r.value] == c && forall i :: r.value < i < |s| ==> s[i] != c
    ensures r.None? ==> forall i :: 0 <= i < |s| ==> s[i] != c
  {
    if |s| == 0 then None
    else if s[|s| - 1] == c then Some(|s| - 1)
    else LastIndex(s[..|s| - 1], c)
  }

  /** A matcher without search: split at the first `@` and the last `.`. */
  function EmailMatches(s: string): bool {
    var at := FirstIndex(s, '@');
    var dot := LastIndex(s, '.');
    at.Some? && dot.Some? && EmailSplit(s, at.value, dot.value)
  }

  /** The only occurrence of `c` up to `k` is at `k`. */
  lemma FirstIndexIs(s: string, c: char, k: int)
    requires 0 <= k < |s| && s[k] == c && forall i :: 0 <= i < k ==> s[i] != c
    ensures FirstIndex(s, c) == Some(k)
  {
  }

  /** The only occurrence of `c` from `k` on is at `k`. */
  lemma LastIndexIs(s: string, c: char, k: int)
    requires 0 <= k < |s| && s[k] == c && forall i :: k < i < |s| ==> s[i] != c
    ensures LastIndex(s, c) == Some(k)
  {
  }

  /** The matcher accepts exactly the text the pattern accepts: the local part cannot hold an
      `@`, so a match splits at the first one, and the last part is letters, so it splits at
      the last dot. */
  lemma EmailMatchesIsPattern(s: string)
    ensures EmailMatches(s) <==> EmailPattern(s)
  {
    if EmailPattern(s) {
      var at, dot :| 0 <= at < |s| && 0 <= dot < |s| && EmailSplit(s, at, dot);
      FirstIndexIs(s, '@', at);
      LastIndexIs(s, '.', dot);
    }
  }

  /** The section's field rules: name, contact (at least ten characters) and departure city
      are required; an e-mail, when given, must match the pattern; a single destination is
      required while the multi-destination switch is off. */
  predicate FieldsValid(form: JsVal) {
    FormRules.Required(Member(form, "Client-Name"))
    && FormRules.Required(Member(form, "Client-Contact")) && FormRules.MinLength(Member(form, "Client-Contact"), 10)
    && FormRules.Pattern(Member(form, "Client-Email"), EmailMatches)
    && FormRules.Required(Member(form, "TravelDate"))
    && FormRules.Required(Member(form, "DepartureCity"))
    && (!Truthy(Member(form, "IsMultiDestination")) ==> FormRules.Required(Member(form, "DestinationName")))
  }

  /** A contact of nine characters is refused and one of ten passes; an empty e-mail passes. */
  lemma ContactLength(form: JsVal, contact: string)
    requires Member(form, "Client-Contact") == Str(contact) && contact != ""
    requires Member(form, "Client-Email") == Str("")
    ensures FieldsValid(form) ==> |contact| >= 10
    ensures FormRules.Pattern(Member(form, "Client-Email"), EmailMatches)
  {
  }

  /** Picking a destination in single mode: `DestinationName = v` and `Destinations = [v]`. */
  function PickDestination(form: JsVal, v: JsVal): (r: JsVal)
    requires form.Obj?
    ensures Member(r, "DestinationName") == v && Member(r, "Destinations") == Arr([v])
    ensures forall k :: k != "DestinationName" && k != "Destinations" ==> Member(r, k) == Member(form, k)
  {
    Put(Put(form, "DestinationName", v), "Destinations", Arr([v]))
  }

  /** Confirming the multiple picker replaces `Destinations` and leaves `DestinationName`. */
  function ConfirmDestinations(form: JsVal, vals: seq<JsVal>): (r: JsVal)
    requires form.Obj?
    ensures Member(r, "Destinations") == Arr(vals)
    ensures forall k :: k != "Destinations" ==> Member(r, k) == Member(form, k)
  {
    Put(form, "Destinations", Arr(vals))
  }

  /** The message under the multiple picker: shown for an empty selection. It is a displayed
      message, not a rule, so it does not stop a submit. */
  predicate DestinationsMessage(form: JsVal) {
    Truthy(Member(form, "IsMultiDestination")) && Member(form, "Destinations").Arr? && |Member(form, "Destinations").items| == 0
  }

  /** An empty multiple selection shows the message, yet the field rules still hold. */
  lemma EmptySelectionDoesNotBlock(form: JsVal)
    requires form.Obj? && FieldsValid(form) && Truthy(Member(form, "IsMultiDestination"))
    ensures DestinationsMessage(ConfirmDestinations(form, []))
    ensures FieldsValid(ConfirmDestinations(form, []))
  {
  }

  /** The switch stores the checkbox state. */
  function SetMulti(form: JsVal, checked: bool): (r: JsVal)
    requires form.Obj?
    ensures Member(r, "IsMultiDestination") == Bool(checked)
  {
    Put(form, "IsMultiDestination", Bool(checked))
  }

  /** Flipping the switch changes neither destination value, so the picker that appears
      shows what the other one chose. */
  lemma SwitchKeepsDestinations(form: JsVal, checked: bool, v: JsVal)
    requires form.Obj?
    ensures Member(SetMulti(form, checked), "Destinations") == Member(form, "Destinations")
    ensures Member(SetMulti(form, checked), "DestinationName") == Member(form, "DestinationName")
    ensures Member(SetMulti(PickDestination(form, v), true), "Destinations") == Arr([v])
  {
  }
}

=== FILE: calendar.dfy ===
/** The month grid and month stepping shared by the date pickers of
    src/components/DatePicker.jsx and src/components/DateRangeSelector.jsx. A date is a day
    number (see Civil); the time of day plays no part in a grid. */
module Calendar {
  import opened Results
  import opened Civil

  /** The year `new Date(year, month, day)` builds from `year`: the Date constructor reads the
      years 0 to 99 as 1900 to 1999. */
  function FullYear(y: int): int {
    if 0 <= y <= 99 then 1900 + y else y
  }

  /** `new Date(year, month, 1)` for the year and month of `day`: the first of its month, in
      the year the constructor builds. */
  function MonthStart(day: int): (r: int)
    ensures var c := FromDayNumber(day); FromDayNumber(r) == Ymd(FullYear(c.year), c.month, 1)
    ensures var c := FromDayNumber(day); !(0 <= c.year <= 99) ==> r <= day < r + DaysInMonth(c.year, c.month)
  {
    var c := FromDayNumber(day);
    FromDayNumberOfValid(Ymd(FullYear(c.year), c.month, 1));
    DayInItsMonth(day);
    DayNumber(Ymd(FullYear(c.year), c.month, 1))
  }

  /** A day lies between the first and the last of its month. */
  lemma DayInItsMonth(day: int)
    ensures var c := FromDayNumber(day); var first := DayNumber(Ymd(c.year, c.month, 1));
      first <= day < first + DaysInMonth(c.year, c.month)
  {
    var c := FromDayNumber(day);
    DayNumberShift(Ymd(c.year, c.month, 1), c.day - 1);
    assert Ymd(c.year, c.month, 1 + (c.day - 1)) == c;
  }

  /** `new Date(year, month + 1, 0).getDate()`: day 0 of the next month, read back as a day
      of the month, is the length of the month in the year the constructor builds. */
  function LengthAsComputed(y: int, m: int): (r: int)
    requires 1 <= m <= 12
    ensures r == DaysInMonth(FullYear(y), m)
    ensures !(0 <= y <= 99) ==> r == DaysInMonth(y, m)
  {
    var next := AddMonths(FullYear(y), m, 1);
    DayZeroOfNextMonth(FullYear(y), m, next.0, next.1);
    FromDayNumber(DayNumber(Ymd(next.0, next.1, 0))).day
  }

  /** February of the year 0 has 29 days, but the grid built for it has 28: the constructor
      reads the year as 1900, which is not a leap year. */
  lemma YearZeroFebruary()
    ensures DaysInMonth(0, 2) == 29 && LengthAsComputed(0, 2) == 28
  {
    assert FullYear(0) == 1900;
    assert !IsLeapYear(1900) && IsLeapYear(0);
    var r := LengthAsComputed(0, 2);
    assert r == DaysInMonth(1900, 2);
  }

  /** `new Date(d.getFullYear(), d.getMonth(), d.getDate())` for the date on day `n`: the same
      day, except that the years 0 to 99 are read as 1900 to 1999, where the 29th of February
      of the year 0 runs on into March. */
  function Rebuild(n: int): (r: int)
    ensures var c := FromDayNumber(n); !(0 <= c.year <= 99) ==> r == n
    ensures var c := FromDayNumber(n); var y := FullYear(c.year);
      c.day <= DaysInMonth(y, c.month) ==> FromDayNumber(r) == Ymd(y, c.month, c.day)
    ensures var c := FromDayNumber(n); var y := FullYear(c.year); var u := AddMonths(y, c.month, 1);
      c.day > DaysInMonth(y, c.month) ==> FromDayNumber(r) == Ymd(u.0, u.1, c.day - DaysInMonth(y, c.month))
  {
    var c := FromDayNumber(n);
    var y := FullYear(c.year);
    if c.day <= DaysInMonth(y, c.month) then
      FromDayNumberOfValid(Ymd(y, c.month, c.day));
      DayNumber(Ymd(y, c.month, c.day))
    else
      OverflowDay(y, c.month, c.day);
      DayNumber(Ymd(y, c.month, c.day))
  }

  /** A rebuilt date is rebuilt as itself: its year is never one from 0 to 99. */
  lemma RebuildIdempotent(n: int)
    ensures !(0 <= FromDayNumber(Rebuild(n)).year <= 99)
    ensures Rebuild(Rebuild(n)) == Rebuild(n)
  {
    var c := FromDayNumber(n);
    var y := FullYear(c.year);
    if 0 <= c.year <= 99 && c.day > DaysInMonth(y, c.month) {
      var u := AddMonths(y, c.month, 1);
      assert u.0 * 12 + u.1 == y * 12 + c.month + 1;
      assert y <= u.0 <= y + 1;
    }
  }

  /** The leading `null`s of the grid. */
  method Blanks(n: int) returns (cal: seq<Option<int>>)
    requires n >= 0
    ensures |cal| == n && forall i :: 0 <= i < n ==> cal[i] == None
  {
    cal := [];
    var i := 0;
    while i < n
      invariant 0 <= i <= n && |cal| == i
      invariant forall j :: 0 <= j < i ==> cal[j] == None
    {
      cal := cal + [None];
      i := i + 1;
    }
  }

  /** `new Date(year, month, d)` for `d` from 1 to `n`, appended to `cal`. */
  method AppendDays(cal0: seq<Option<int>>, y: int, m: int, n: int) returns (cal: seq<Option<int>>)
    requires 1 <= m <= 12 && n >= 0
    ensures |cal| == |cal0| + n && cal[..|cal0|] == cal0
    ensures forall k :: 1 <= k <= n ==> cal[|cal0| + k - 1] == Some(DayNumber(Ymd(y, m, k)))
  {
    cal := cal0;
    var d := 1;
    while d <= n
      invariant 1 <= d <= n + 1 && |cal| == |cal0| + d - 1 && cal[..|cal0|] == cal0
      invariant forall k :: 1 <= k < d ==> cal[|cal0| + k - 1] == Some(DayNumber(Ymd(y, m, k)))
    {
      cal := cal + [Some(DayNumber(Ymd(y, m, d)))];
      d := d + 1;
    }
  }

  /** `start` leading `null`s, then the days 1 to `n` of month `m` of year `y`. */
  method Grid(start: int, y: int, m: int, n: int) returns (cal: seq<Option<int>>)
    requires start >= 0 && 1 <= m <= 12 && n >= 0
    ensures |cal| == start + n
    ensures forall i :: 0 <= i < start ==> cal[i] == None
    ensures forall k :: 1 <= k <= n ==> cal[start + k - 1] == Some(DayNumber(Ymd(y, m, k)))
  {
    var blanks := Blanks(start);
    cal := AppendDays(blanks, y, m, n);
    assert forall i :: 0 <= i < start ==> cal[i] == cal[..start][i];
  }

  /** `cal` is the grid of month `m` of year `y`: `null` for each weekday before the first of
      the month, then the month's days in order. */
  predicate IsGrid(cal: seq<Option<int>>, y: int, m: int)
    requires 1 <= m <= 12
  {
    var w := Weekday(DayNumber(Ymd(y, m, 1)));
    |cal| == w + DaysInMonth(y, m)
    && (forall i :: 0 <= i < w ==> cal[i] == None)
    && (forall k :: 1 <= k <= DaysInMonth(y, m) ==> cal[w + k - 1] == Some(DayNumber(Ymd(y, m, k))))
  }

  /** `generateCalendar(monthDate)` for the month `m` of year `y` of the date: the grid of
      that month in the year the constructor builds from `y`. */
  method GenerateCalendar(y: int, m: int) returns (cal: seq<Option<int>>)
    requires 1 <= m <= 12
    ensures IsGrid(cal, FullYear(y), m)
    ensures !(0 <= y <= 99) ==> IsGrid(cal, y, m)
  {
    var fy := FullYear(y);
    var startDay := Weekday(DayNumber(Ymd(fy, m, 1)));
    var daysInMonth := LengthAsComputed(y, m);
    cal := Grid(startDay, fy, m, daysInMonth);
    assert IsGrid(cal, fy, m);
  }

  lemma WeekdayShift(a: int, j: int)
    requires j >= 0
    ensures Weekday(a + j) == (Weekday(a) + j) % 7
  {
  }

  /** The entry for day `k` is that day of the month. */
  lemma GridCellDate(y: int, m: int, k: int)
    requires 1 <= m <= 12 && 1 <= k <= DaysInMonth(y, m)
    ensures FromDayNumber(DayNumber(Ymd(y, m, k))) == Ymd(y, m, k)
  {
    FromDayNumberOfValid(Ymd(y, m, k));
  }

  /** The entry for day `k` falls on the weekday of its column: entry `i` of the grid is a day
      of weekday `i % 7`. */
  lemma GridCellWeekday(y: int, m: int, k: int)
    requires 1 <= m <= 12 && 1 <= k
    ensures Weekday(DayNumber(Ymd(y, m, k))) == (Weekday(DayNumber(Ymd(y, m, 1))) + k - 1) % 7
  {
    DayNumberShift(Ymd(y, m, 1), k - 1);
    WeekdayShift(DayNumber(Ymd(y, m, 1)), k - 1);
  }

  /** `next.setMonth(next.getMonth() + k)` on a copy of the date: the day of the month is kept,
      and a day the target month does not have runs on into the month after. */
  function SetMonthAsWritten(day: int, k: int): (r: int)
    ensures var c := FromDayNumber(day); var t := AddMonths(c.year, c.month, k);
      c.day <= DaysInMonth(t.0, t.1) ==> FromDayNumber(r) == Ymd(t.0, t.1, c.day)
    ensures var c := FromDayNumber(day); var t := AddMonths(c.year, c.month, k); var u := AddMonths(t.0, t.1, 1);
      c.day > DaysInMonth(t.0, t.1) ==> FromDayNumber(r) == Ymd(u.0, u.1, c.day - DaysInMonth(t.0, t.1))
  {
    var c := FromDayNumber(day);
    var t := AddMonths(c.year, c.month, k);
    var r := DayNumber(Ymd(t.0, t.1, c.day));
    if c.day <= DaysInMonth(t.0, t.1) then
      FromDayNumberOfValid(Ymd(t.0, t.1, c.day));
      r
    else
      OverflowDay(t.0, t.1, c.day);
      r
  }

  /** `setMonth(getMonth() + k)` moves the month count by exactly `k` when the day of the
      month exists `k` months on, and by `k + 1` otherwise. */
  lemma SetMonthCount(day: int, k: int)
    ensures var c := FromDayNumber(day); var t := AddMonths(c.year, c.month, k); var n := FromDayNumber(SetMonthAsWritten(day, k));
      (n.year * 12 + n.month == c.year * 12 + c.month + k <==> c.day <= DaysInMonth(t.0, t.1))
      && (c.day > DaysInMonth(t.0, t.1) ==> n.year * 12 + n.month == c.year * 12 + c.month + k + 1)
  {
  }

  /** On a day no later than the 28th, a step forward and a step back return to the same date. */
  lemma SetMonthThereAndBack(day: int)
    requires FromDayNumber(day).day <= 28
    ensures SetMonthAsWritten(SetMonthAsWritten(day, 1), -1) == day
  {
    var c := FromDayNumber(day);
    var t := AddMonths(c.year, c.month, 1);
    var n := SetMonthAsWritten(day, 1);
    assert FromDayNumber(n) == Ymd(t.0, t.1, c.day);
    AddMonthsUnique(t.0, t.1, -1, c.year, c.month);
    var b := SetMonthAsWritten(n, -1);
    assert FromDayNumber(b) == Ymd(c.year, c.month, c.day) == FromDayNumber(day);
  }

  /** A day beyond the end of a month counts on into the next month. */
  lemma OverflowDayNumber(y: int, m: int, d: int, y2: int, m2: int)
    requires 1 <= m <= 12 && AddMonths(y, m, 1) == (y2, m2)
    ensures DayNumber(Ymd(y, m, d)) == DayNumber(Ymd(y2, m2, d - DaysInMonth(y, m)))
  {
    var dim := DaysInMonth(y, m);
    NextMonthStart(y, m, y2, m2);
    DayNumberShift(Ymd(y, m, 1), d - 1);
    DayNumberShift(Ymd(y2, m2, 1), d - dim - 1);
    assert Ymd(y, m, 1 + (d - 1)) == Ymd(y, m, d);
    assert Ymd(y2, m2, 1 + (d - dim - 1)) == Ymd(y2, m2, d - dim);
  }

  /** A kept day that the target month does not have lands in the month after it. */
  lemma OverflowDay(y: int, m: int, d: int)
    requires 1 <= m <= 12 && DaysInMonth(y, m) < d <= 31
    ensures var u := AddMonths(y, m, 1);
      FromDayNumber(DayNumber(Ymd(y, m, d))) == Ymd(u.0, u.1, d - DaysInMonth(y, m))
  {
    var u := AddMonths(y, m, 1);
    OverflowDayNumber(y, m, d, u.0, u.1);
    FromDayNumberOfValid(Ymd(u.0, u.1, d - DaysInMonth(y, m)));
  }

  /** From the 31st of January of any year the "next month" button shows March: February is
      skipped. */
  lemma NextMonthSkipsFebruary(day: int, y: int)
    requires FromDayNumber(day) == Ymd(y, 1, 31)
    ensures FromDayNumber(SetMonthAsWritten(day, 1)) == Ymd(y, 3, 31 - DaysInMonth(y, 2))
  {
    AddMonthsUnique(y, 1, 1, y, 2);
    OverflowDay(y, 2, 31);
    AddMonthsUnique(y, 2, 1, y, 3);
  }

  /** Month navigation as intended: the first of the month `k` months on. */
  function StepMonth(day: int, k: int): (r: int)
    ensures var c := FromDayNumber(day); var t := AddMonths(c.year, c.month, k);
      FromDayNumber(r) == Ymd(t.0, t.1, 1)
  {
    var c := FromDayNumber(day);
    var t := AddMonths(c.year, c.month, k);
    FromDayNumberOfValid(Ymd(t.0, t.1, 1));
    DayNumber(Ymd(t.0, t.1, 1))
  }

  /** A step moves the month count by exactly `k`, whatever the day, so a step forward and a
      step back return to the month started from. */
  lemma StepMonthExact(day: int, k: int)
    ensures var c := FromDayNumber(day); var r := FromDayNumber(StepMonth(day, k));
      r.year * 12 + r.month == c.year * 12 + c.month + k
    ensures var c := FromDayNumber(day); FromDayNumber(StepMonth(StepMonth(day, 1), -1)) == Ymd(c.year, c.month, 1)
  {
    var c := FromDayNumber(day);
    var n := FromDayNumber(StepMonth(day, 1));
    var b := FromDayNumber(StepMonth(StepMonth(day, 1), -1));
    assert b.year * 12 + b.month == n.year * 12 + n.month - 1;
    AddMonthsUnique(n.year, n.month, -1, c.year, c.month);
  }
}

=== FILE: civil.dfy ===
/** Proleptic Gregorian calendar arithmetic on day numbers.

    A day number counts days from 1970-01-01 (day 0), the epoch of JavaScript's `Date`.
    The JavaScript `Date` objects of the application are modelled as day numbers (or
    millisecond counts built on them) with this civil (year, month, day) view; the
    conversion follows the well-known era/year-of-era decomposition, written so that the
    year of an era is found by centuries, four-year blocks and years rather than by one
    closed formula, which keeps every round-trip proof within linear arithmetic.
 */
module Civil {

  /** A civil date: `month` in 1..12, `day` in 1..DaysInMonth when Valid. */
  datatype Ymd = Ymd(year: int, month: int, day: int)

  predicate IsLeapYear(y: int) {
    y % 4 == 0 && (y % 100 != 0 || y % 400 == 0)
  }

  function DaysInMonth(y: int, m: int): (n: int)
    requires 1 <= m <= 12
    ensures 28 <= n <= 31
    ensures n == 29 <==> m == 2 && IsLeapYear(y)
  {
    if m == 2 then (if IsLeapYear(y) then 29 else 28)
    else if m == 4 || m == 6 || m == 9 || m == 11 then 30
    else 31
  }

  predicate Valid(c: Ymd) {
    1 <= c.month <= 12 && 1 <= c.day <= DaysInMonth(c.year, c.month)
  }

  /** The year counted from March: January and February belong to the previous one. */
  function MarchYear(c: Ymd): int {
    if c.month <= 2 then c.year - 1 else c.year
  }

  /** The month counted from March: 0 is March, 11 is February. */
  function MarchMonth(m: int): int {
    if m > 2 then m - 3 else m + 9
  }

  /** The civil month of March-based month `mp`. */
  function CivilMonth(mp: int): int {
    if mp < 10 then mp + 3 else mp - 9
  }

  /** Days of the March-based year-of-era `yoe` before its first day (era starts 0000-03-01). */
  function YearStart(yoe: int): int {
    365 * yoe + yoe / 4 - yoe / 100
  }

  /** Days from 0000-03-01 to March 1 of March-based year `y`. */
  function DaysBefore(y: int): int {
    var era := y / 400;
    era * 146097 + YearStart(y - era * 400)
  }

  /** Days from March 1 to the first day of March-based month `mp`. */
  function MonthStart(mp: int): int {
    (153 * mp + 2) / 5
  }

  /** Whether the March-based year `yoe` of an era ends with a February 29. */
  predicate MarchLeap(yoe: int) {
    (yoe + 1) % 4 == 0 && ((yoe + 1) % 100 != 0 || yoe == 399)
  }

  /** The day number of a civil date. The day may lie outside its month: as with JavaScript's
      `new Date(y, m, d)`, it then counts on from the first of the month. */
  function DayNumber(c: Ymd): int
    requires 1 <= c.month <= 12
  {
    DaysBefore(MarchYear(c)) + MonthStart(MarchMonth(c.month)) + c.day - 1 - 719468
  }

  /** Moving the day of the month by `k` moves the day number by `k`. */
  lemma DayNumberShift(c: Ymd, k: int)
    requires 1 <= c.month <= 12
    ensures DayNumber(Ymd(c.year, c.month, c.day + k)) == DayNumber(c) + k
  {
  }

  lemma YearDays(y: int, era: int, yoe: int)
    requires 0 <= yoe < 400 && y == era * 400 + yoe
    ensures DaysBefore(y) == era * 146097 + YearStart(yoe)
  {
    YearSplit(y, era, yoe);
  }

  lemma YearSplit(y: int, era: int, yoe: int)
    requires 0 <= yoe < 400 && y == era * 400 + yoe
    ensures y / 400 == era
  {
  }

  /** Year of era found by centuries, four-year blocks and years. */
  function YearOfEra(doe: int): (yoe: int)
    requires 0 <= doe < 146097
    ensures 0 <= yoe < 400
    ensures YearStart(yoe) <= doe
    ensures doe - YearStart(yoe) <= 365
    ensures doe - YearStart(yoe) == 365 ==> MarchLeap(yoe)
  {
    var c := if doe / 36524 < 3 then doe / 36524 else 3;
    var doc := doe - 36524 * c;
    var q := doc / 1461;
    var doq := doc % 1461;
    var yiq := if doq / 365 < 3 then doq / 365 else 3;
    var yoe := 100 * c + 4 * q + yiq;
    assert 0 <= q <= 24;
    assert yoe / 4 == 25 * c + q;
    assert yoe / 100 == c;
    assert YearStart(yoe) == 36524 * c + 1461 * q + 365 * yiq;
    yoe
  }

  /** The length in days of March-based month mp. */
  function MonthLength(mp: int, leap: bool): int
    requires 0 <= mp < 12
  {
    if mp == 11 then (if leap then 29 else 28)
    else if mp == 1 || mp == 3 || mp == 6 || mp == 8 then 30
    else 31
  }

  lemma MonthOfDayOfYear(doy: int, mp: int)
    requires 0 <= mp < 12
    requires MonthStart(mp) <= doy < MonthStart(mp) + MonthLength(mp, true)
    ensures (5 * doy + 2) / 153 == mp
  {
  }

  /** Month bounds of a day of a March-based year. */
  lemma MonthOfDay(doy: int, leap: bool)
    requires 0 <= doy < 365 + (if leap then 1 else 0)
    ensures var mp := (5 * doy + 2) / 153;
      0 <= mp < 12 && MonthStart(mp) <= doy < MonthStart(mp) + MonthLength(mp, leap)
  {
  }

  /** The civil date of a day number. */
  function FromDayNumber(n: int): (c: Ymd)
    ensures Valid(c)
    ensures DayNumber(c) == n
  {
    var z := n + 719468;
    EraDayFacts(z / 146097, z % 146097);
    FromEraDay(z / 146097, z % 146097)
  }

  /** The civil date of day `doe` of the 400-year era `era`. */
  function FromEraDay(era: int, doe: int): Ymd
    requires 0 <= doe < 146097
  {
    var yoe := YearOfEra(doe);
    FromYearDay(era, yoe, doe - YearStart(yoe))
  }

  /** Day `doy` of the March-based year `yoe` of era `era`, as a civil date. */
  function FromYearDay(era: int, yoe: int, doy: int): Ymd {
    var mp := (5 * doy + 2) / 153;
    var m := CivilMonth(mp);
    Ymd(era * 400 + yoe + (if m <= 2 then 1 else 0), m, doy - MonthStart(mp) + 1)
  }

  /** Day `doe` of an era is a valid date with day number `era * 146097 + doe - 719468`. */
  lemma EraDayFacts(era: int, doe: int)
    requires 0 <= doe < 146097
    ensures Valid(FromEraDay(era, doe))
    ensures DayNumber(FromEraDay(era, doe)) == era * 146097 + doe - 719468
  {
    var yoe := YearOfEra(doe);
    var doy := doe - YearStart(yoe);
    YearDayFacts(era, yoe, doy);
    EraDayIs(era, doe, yoe, doy);
  }

  lemma EraDayIs(era: int, doe: int, yoe: int, doy: int)
    requires 0 <= doe < 146097 && yoe == YearOfEra(doe) && doy == doe - YearStart(yoe)
    ensures FromEraDay(era, doe) == FromYearDay(era, yoe, doy)
  {
  }

  /** Day `doy` of a March-based year of an era is a valid date with the expected day number. */
  lemma YearDayFacts(era: int, yoe: int, doy: int)
    requires 0 <= yoe < 400
    requires 0 <= doy < 365 + (if MarchLeap(yoe) then 1 else 0)
    ensures Valid(FromYearDay(era, yoe, doy))
    ensures DayNumber(FromYearDay(era, yoe, doy)) == era * 146097 + YearStart(yoe) + doy - 719468
  {
    MonthOfDay(doy, MarchLeap(yoe));
    var mp := (5 * doy + 2) / 153;
    var m := CivilMonth(mp);
    var c := FromYearDay(era, yoe, doy);
    assert c == Ymd(era * 400 + yoe + (if m <= 2 then 1 else 0), m, doy - MonthStart(mp) + 1);
    assert MarchMonth(m) == mp;
    assert MarchYear(c) == era * 400 + yoe;
    YearDays(MarchYear(c), era, yoe);
    LeapOfMarchYear(era, yoe);
    assert DaysInMonth(c.year, m) == MonthLength(mp, MarchLeap(yoe));
  }

  lemma LeapOfMarchYear(era: int, yoe: int)
    requires 0 <= yoe < 400
    ensures IsLeapYear(era * 400 + yoe + 1) <==> MarchLeap(yoe)
  {
    ShiftMod400(era, yoe + 1);
    ShiftMod100(era * 4, yoe + 1);
    ShiftMod4(era * 100, yoe + 1);
  }

  lemma ShiftMod4(k: int, r: int)
    ensures (k * 4 + r) % 4 == r % 4
  {
  }

  lemma ShiftMod100(k: int, r: int)
    ensures (k * 100 + r) % 100 == r % 100
  {
  }

  lemma ShiftMod400(k: int, r: int)
    ensures (k * 400 + r) % 400 == r % 400
  {
  }

  /** The year of era is the unique one whose days contain `doe`. */
  lemma YearOfEraUnique(yoe: int, doy: int)
    requires 0 <= yoe < 400
    requires 0 <= doy < 365 + (if MarchLeap(yoe) then 1 else 0)
    ensures YearOfEra(YearStart(yoe) + doy) == yoe
  {
    var c := yoe / 100;
    var q := (yoe % 100) / 4;
    var yiq := yoe % 4;
    assert yoe == 100 * c + 4 * q + yiq;
    assert yoe / 4 == 25 * c + q;
    assert YearStart(yoe) == 36524 * c + 1461 * q + 365 * yiq;
    BlockDecomposition(c, q, yiq, doy);
  }

  lemma BlockDecomposition(c: int, q: int, yiq: int, doy: int)
    requires 0 <= c < 4 && 0 <= q < 25 && 0 <= yiq < 4
    requires 0 <= doy < 365 + (if yiq == 3 && (q != 24 || c == 3) then 1 else 0)
    ensures var doe := 36524 * c + 1461 * q + 365 * yiq + doy;
      YearOfEra(doe) == 100 * c + 4 * q + yiq
  {
    var doe := 36524 * c + 1461 * q + 365 * yiq + doy;
    var doc := 1461 * q + 365 * yiq + doy;
    assert c < 3 ==> doc < 36524;
    assert (if doe / 36524 < 3 then doe / 36524 else 3) == c;
    var doq := 365 * yiq + doy;
    assert doq < 1461;
    assert doc / 1461 == q;
    assert doc % 1461 == doq;
    assert (if doq / 365 < 3 then doq / 365 else 3) == yiq;
  }

  /** Inside one March-based year, the day of the year gives back month and day. */
  lemma FromYearDayOf(era: int, yoe: int, m: int, d: int)
    requires 0 <= yoe < 400 && 1 <= m <= 12
    requires 1 <= d <= MonthLength(MarchMonth(m), MarchLeap(yoe))
    ensures 0 <= MonthStart(MarchMonth(m)) + d - 1 < 365 + (if MarchLeap(yoe) then 1 else 0)
    ensures FromYearDay(era, yoe, MonthStart(MarchMonth(m)) + d - 1)
      == Ymd(era * 400 + yoe + (if m <= 2 then 1 else 0), m, d)
  {
    MonthOfDayOfYear(MonthStart(MarchMonth(m)) + d - 1, MarchMonth(m));
  }

  /** Inside one era, the decomposition recovers year of era, month and day. */
  lemma FromEraDayOf(era: int, yoe: int, m: int, d: int)
    requires 0 <= yoe < 400 && 1 <= m <= 12
    requires 1 <= d <= MonthLength(MarchMonth(m), MarchLeap(yoe))
    ensures 0 <= YearStart(yoe) + MonthStart(MarchMonth(m)) + d - 1 < 146097
    ensures FromEraDay(era, YearStart(yoe) + MonthStart(MarchMonth(m)) + d - 1)
      == Ymd(era * 400 + yoe + (if m <= 2 then 1 else 0), m, d)
  {
    var doy := MonthStart(MarchMonth(m)) + d - 1;
    FromYearDayOf(era, yoe, m, d);
    YearOfEraUnique(yoe, doy);
    FromEraDayOfYear(era, yoe, doy);
  }

  lemma FromEraDayOfYear(era: int, yoe: int, doy: int)
    requires 0 <= yoe < 400
    requires 0 <= doy < 365 + (if MarchLeap(yoe) then 1 else 0)
    requires YearOfEra(YearStart(yoe) + doy) == yoe
    ensures 0 <= YearStart(yoe) + doy < 146097
    ensures FromEraDay(era, YearStart(yoe) + doy) == FromYearDay(era, yoe, doy)
  {
    YearStartRange(yoe);
  }

  /** A March-based year of an era lies inside the era. */
  lemma YearStartRange(yoe: int)
    requires 0 <= yoe < 400
    ensures 0 <= YearStart(yoe)
    ensures YearStart(yoe) + 365 + (if MarchLeap(yoe) then 1 else 0) <= 146097
  {
    if yoe == 399 {
      assert YearStart(yoe) == 145731;
    }
  }

  lemma FromDayNumberOfEra(n: int, era: int, doe: int, c: Ymd)
    requires 0 <= doe < 146097 && n == era * 146097 + doe - 719468
    requires FromEraDay(era, doe) == c
    ensures FromDayNumber(n) == c
  {
    EraSplit(n + 719468, era, doe);
  }

  lemma EraSplit(z: int, era: int, doe: int)
    requires 0 <= doe < 146097 && z == era * 146097 + doe
    ensures z / 146097 == era && z % 146097 == doe
  {
  }

  /** A valid civil date survives the trip through its day number. */
  lemma FromDayNumberOfValid(c: Ymd)
    requires Valid(c)
    ensures FromDayNumber(DayNumber(c)) == c
  {
    var y := MarchYear(c);
    var era := y / 400;
    var yoe := y - era * 400;
    MarchMonthLength(c, era, yoe);
    YearDays(y, era, yoe);
    var doe := YearStart(yoe) + MonthStart(MarchMonth(c.month)) + c.day - 1;
    FromEraDayOf(era, yoe, c.month, c.day);
    assert era * 400 + yoe + (if c.month <= 2 then 1 else 0) == c.year;
    assert FromEraDay(era, doe) == c;
    assert DayNumber(c) == era * 146097 + doe - 719468;
    FromDayNumberOfEra(DayNumber(c), era, doe, c);
  }

  lemma MarchMonthLength(c: Ymd, era: int, yoe: int)
    requires 1 <= c.month <= 12 && 0 <= yoe < 400
    requires era * 400 + yoe == MarchYear(c)
    ensures MonthLength(MarchMonth(c.month), MarchLeap(yoe)) == DaysInMonth(c.year, c.month)
  {
    LeapOfMarchYear(era, yoe);
  }

  /** Day of the week of a day number, 0 being Sunday: 1970-01-01 was a Thursday. */
  function Weekday(n: int): (w: int)
    ensures 0 <= w < 7
  {
    (n + 4) % 7
  }

  /** Consecutive days have consecutive weekdays, wrapping from Saturday to Sunday. */
  lemma WeekdayNext(n: int)
    ensures Weekday(n + 1) == (Weekday(n) + 1) % 7
  {
  }

  /** The month `k` months after month `m` of year `y`, normalised the way `setMonth` and
      `new Date(y, m, d)` carry a month index beyond 0..11 into the year. */
  function AddMonths(y: int, m: int, k: int): (r: (int, int))
    requires 1 <= m <= 12
    ensures 1 <= r.1 <= 12
    ensures r.0 * 12 + r.1 == y * 12 + m + k
  {
    var idx := y * 12 + (m - 1) + k;
    (idx / 12, idx % 12 + 1)
  }

  /** The year and month are determined by the month count they encode. */
  lemma AddMonthsUnique(y: int, m: int, k: int, y2: int, m2: int)
    requires 1 <= m <= 12 && 1 <= m2 <= 12
    requires y2 * 12 + m2 == y * 12 + m + k
    ensures AddMonths(y, m, k) == (y2, m2)
  {
    var r := AddMonths(y, m, k);
    assert (r.0 - y2) * 12 == m2 - r.1;
  }

  /** The first of the next month comes `DaysInMonth` days after the first of this one. */
  lemma NextMonthStart(y: int, m: int, y2: int, m2: int)
    requires 1 <= m <= 12 && AddMonths(y, m, 1) == (y2, m2)
    ensures DayNumber(Ymd(y2, m2, 1)) == DayNumber(Ymd(y, m, 1)) + DaysInMonth(y, m)
  {
    if m == 12 {
      AddMonthsUnique(y, m, 1, y + 1, 1);
      DecemberStep(y);
    } else if m == 2 {
      AddMonthsUnique(y, m, 1, y, 3);
      FebruaryStep(y);
    } else {
      AddMonthsUnique(y, m, 1, y, m + 1);
      InYearStep(y, m);
    }
  }

  lemma DecemberStep(y: int)
    ensures DayNumber(Ymd(y + 1, 1, 1)) == DayNumber(Ymd(y, 12, 1)) + 31
  {
  }

  lemma FebruaryStep(y: int)
    ensures DayNumber(Ymd(y, 3, 1)) == DayNumber(Ymd(y, 2, 1)) + DaysInMonth(y, 2)
  {
    MarchYearStep(y);
  }

  lemma InYearStep(y: int, m: int)
    requires 1 <= m < 12 && m != 2
    ensures DayNumber(Ymd(y, m + 1, 1)) == DayNumber(Ymd(y, m, 1)) + DaysInMonth(y, m)
  {
  }

  /** The March-based year `y - 1` has 365 days, or 366 when `y` is a leap year. */
  lemma MarchYearStep(y: int)
    ensures DaysBefore(y) == DaysBefore(y - 1) + 365 + (if IsLeapYear(y) then 1 else 0)
  {
    var era := (y - 1) / 400;
    var yoe := y - 1 - era * 400;
    YearDays(y - 1, era, yoe);
    LeapOfMarchYear(era, yoe);
    if yoe == 399 {
      YearDays(y, era + 1, 0);
      assert YearStart(399) == 145731;
    } else {
      YearDays(y, era, yoe + 1);
      YearStartStep(yoe);
    }
  }

  lemma YearStartStep(yoe: int)
    requires 0 <= yoe < 399
    ensures YearStart(yoe + 1) == YearStart(yoe) + 365 + (if MarchLeap(yoe) then 1 else 0)
  {
    var x := yoe + 1;
    assert x / 4 == yoe / 4 + (if x % 4 == 0 then 1 else 0);
    assert x / 100 == yoe / 100 + (if x % 100 == 0 then 1 else 0);
    assert x % 100 == 0 ==> x % 4 == 0;
  }

  /** Day 0 of the next month is the last day of this month; so
      `new Date(y, m + 1, 0).getDate()` is the length of month `m`. */
  lemma DayZeroOfNextMonth(y: int, m: int, y2: int, m2: int)
    requires 1 <= m <= 12 && AddMonths(y, m, 1) == (y2, m2)
    ensures FromDayNumber(DayNumber(Ymd(y2, m2, 0))) == Ymd(y, m, DaysInMonth(y, m))
  {
    var last := Ymd(y, m, DaysInMonth(y, m));
    NextMonthStart(y, m, y2, m2);
    DayNumberShift(Ymd(y2, m2, 1), -1);
    DayNumberShift(Ymd(y, m, 1), DaysInMonth(y, m) - 1);
    assert DayNumber(Ymd(y2, m2, 0)) == DayNumber(last);
    FromDayNumberOfValid(last);
  }
}

=== FILE: converted_card.dfy ===
/** The card of a converted lead, src/components/cards/ConvertedCard.jsx: the call and WhatsApp
    buttons, and "View Quote Details", which fetches the trip's quotations and opens the
    first one merged with the lead.

    `window.alert` and `window.open` are returned as the card's effect; the request is the
    outcome of the same fetch as in QuotationList. */
module ConvertedCard {
  import opened Results
  import opened Text
  import opened JsValue
  import QuotationList

  /** What a handler asks the browser to do. `newTab` records whether `"_blank"` was passed
      as the target of `window.open`; a call without a target opens a new browsing context as
      well, so the flag tells the two calls apart rather than where the page opens. */
  datatype Effect = NoEffect | Alert(message: string) | Open(url: string, newTab: bool)

  const NoPhone := "Phone number not available"
  const NoQuotes := "No quotes found for this trip."
  const FetchFailed := "Failed to fetch quote details. Please try again."
  const WhatsAppPrefix := "https://wa.me/"

  /** `handleCall(phone)`: an alert for a falsy phone, else a `tel:` link. */
  function Call(phone: JsVal): (e: Effect)
    ensures !Truthy(phone) <==> e == Alert(NoPhone)
    ensures Truthy(phone) ==> e.Open? && !e.newTab && StartsWith(e.url, "tel:") && e.url[4..] == ToStr(phone)
  {
    if !Truthy(phone) then Alert(NoPhone) else Open("tel:" + ToStr(phone), false)
  }

  /** `handleWhatsApp(phone)`: an alert for a falsy phone; otherwise a wa.me link, in a new tab,
      to the digits of the phone. Only text has `replace`: a number throws. */
  function WhatsApp(phone: JsVal): (r: Result<Effect>)
    ensures !Truthy(phone) ==> r == Ok(Alert(NoPhone))
    ensures Truthy(phone) && !phone.Str? ==> r.Err?
    ensures Truthy(phone) && phone.Str? ==>
      (r.Ok? && r.value.Open? && r.value.newTab
       && StartsWith(r.value.url, WhatsAppPrefix) && AllDigits(r.value.url[|WhatsAppPrefix|..]))
  {
    if !Truthy(phone) then Ok(Alert(NoPhone))
    else if !phone.Str? then Err("TypeError")
    else Ok(Open(WhatsAppPrefix + DigitsOf(phone.s), true))
  }

  /** The number in the WhatsApp link keeps every digit of the contact, in order, and nothing
      else: a character of the contact is kept exactly when it is a digit. */
  lemma WhatsAppKeepsDigits(s: string, i: int)
    requires s != "" && 0 <= i < |s|
    ensures WhatsApp(Str(s)) == Ok(Open(WhatsAppPrefix + DigitsOf(s), true))
    ensures DigitsOf(s) == DigitsOf(s[..i]) + (if IsDigit(s[i]) then [s[i]] else "") + DigitsOf(s[i + 1..])
  {
    assert Truthy(Str(s));
    DigitsOfChar(s, i);
  }

  /** Separators in a contact change nothing: "98765 43210" and "98765-43210" open the same chat
      as "9876543210". */
  lemma SeparatorsIgnored(a: string, sep: string, b: string)
    requires a + b != "" && forall k :: 0 <= k < |sep| ==> !IsDigit(sep[k])
    ensures WhatsApp(Str(a + sep + b)) == WhatsApp(Str(a + b))
  {
    NoDigits(sep);
    DigitsOfAppend(a + sep, b);
    DigitsOfAppend(a, sep);
    DigitsOfAppend(a, b);
    assert |a + sep + b| >= |a + b| > 0;
    assert DigitsOf(a + sep + b) == DigitsOf(a + b);
  }

  lemma {:induction false} NoDigits(s: string)
    requires forall k :: 0 <= k < |s| ==> !IsDigit(s[k])
    ensures DigitsOf(s) == ""
    decreases |s|
  {
    if |s| > 0 {
      NoDigits(s[1..]);
    }
  }

  /** A contact of digits only is used as it is. */
  lemma DigitContactUnchanged(s: string)
    requires s != "" && AllDigits(s)
    ensures WhatsApp(Str(s)) == Ok(Open(WhatsAppPrefix + s, true))
  {
    DigitsOfDigits(s);
  }

  /** The card's state: whether a fetch is in flight, the quote fetched (`null` at first) and whether the
      details modal is shown. */
  datatype Card = Card(loading: bool, quote: JsVal, visible: bool)

  const Initial := Card(false, Null, false)

  const ViewQuote := "View Quote Details"
  const LoadingLabel := "Loading..."

  /** The first half of `fetchLatestQuote()`, before the `await`: without a trip id, or with a
      fetch already in flight, the press returns at once; otherwise the card starts loading and
      the request goes out. */
  function Press(c: Card, data: JsVal): (r: Option<Card>)
    ensures r.None? <==> !Truthy(Member(data, "TripId")) || c.loading
    ensures r.Some? ==> r.value.loading && r.value.quote == c.quote && r.value.visible == c.visible
  {
    if !Truthy(Member(data, "TripId")) || c.loading then None else Some(c.(loading := true))
  }

  /** The second half, once the request settles: the first quotation of the response opens the
      modal, an empty response or a failed request alerts and keeps the card as it was, and the
      `finally` ends the loading in every case. */
  function Settle(c: Card, outcome: QuotationList.Outcome): (r: (Card, Effect))
    ensures !r.0.loading
    ensures outcome.Failed? ==> r == (c.(loading := false), Alert(FetchFailed))
    ensures outcome.Responded? ==>
      var qs := QuotationList.Data(outcome.response);
      (|qs| > 0 ==> r == (Card(false, qs[0], true), NoEffect))
      && (|qs| == 0 ==> r == (c.(loading := false), Alert(NoQuotes)))
  {
    match outcome
    case Failed => (c.(loading := false), Alert(FetchFailed))
    case Responded(response) =>
      var qs := QuotationList.Data(response);
      if |qs| > 0 then (Card(false, qs[0], true), NoEffect)
      else (c.(loading := false), Alert(NoQuotes))
  }

  /** The text of the "View Quote Details" button; the button is disabled exactly while it
      reads "Loading...". */
  function Label(c: Card): (r: string)
    ensures r == LoadingLabel <==> c.loading
    ensures r == ViewQuote <==> !c.loading
  {
    if c.loading then LoadingLabel else ViewQuote
  }

  /** While a fetch is in flight the button reads "Loading..." and a second press does nothing;
      once it settles the button reads "View Quote Details" again. */
  lemma InFlight(c: Card, data: JsVal, outcome: QuotationList.Outcome)
    requires Press(c, data).Some?
    ensures var busy := Press(c, data).value;
      Label(busy) == LoadingLabel && Press(busy, data) == None
      && Label(Settle(busy, outcome).0) == ViewQuote
  {
  }

  /** `fetchLatestQuote()` for the card's lead `data`, as written, from the press to the end of
      the request: the first quotation of the response is shown, whatever its date. */
  function FetchLatest(c: Card, data: JsVal, outcome: QuotationList.Outcome): (r: (Card, Effect))
    ensures !Truthy(Member(data, "TripId")) || c.loading ==> r == (c, NoEffect)
    ensures Truthy(Member(data, "TripId")) && !c.loading ==> !r.0.loading
    ensures Truthy(Member(data, "TripId")) && !c.loading && outcome.Failed? ==>
      r == (c, Alert(FetchFailed))
    ensures Truthy(Member(data, "TripId")) && !c.loading && outcome.Responded? ==>
      var qs := QuotationList.Data(outcome.response);
      (|qs| > 0 ==> r == (Card(false, qs[0], true), NoEffect))
      && (|qs| == 0 ==> r == (c, Alert(NoQuotes)))
  {
    match Press(c, data)
    case None => (c, NoEffect)
    case Some(busy) => Settle(busy, outcome)
  }

  /** `{...quoteDetails, ...data}`: the quote handed to the details modal. */
  function ModalQuote(c: Card, data: JsVal): (r: JsVal)
    ensures r.Obj?
  {
    Spread(c.quote, data)
  }

  /** After a fetch that found quotations, the modal shows the lead's own fields over the
      quotation's: a field the lead has is read from the lead, any other from the quotation. */
  lemma CardFieldsWin(c: Card, data: JsVal, response: JsVal, k: string)
    requires Truthy(Member(data, "TripId")) && !c.loading && data.Obj?
    requires |QuotationList.Data(response)| > 0
    ensures var q := ModalQuote(FetchLatest(c, data, QuotationList.Responded(response)).0, data);
      (k in data.fields ==> Member(q, k) == Member(data, k))
      && (k !in data.fields ==> Member(q, k) == Member(QuotationList.Data(response)[0], k))
  {
    SpreadMember(QuotationList.Data(response)[0], data, k);
  }

  /** Before any fetch the modal's quote is the lead itself. */
  lemma InitialQuoteIsLead(data: JsVal)
    requires data.Obj?
    ensures ModalQuote(Initial, data) == data
  {
    assert map[] + data.fields == data.fields;
  }

  /** The quotation list puts a quotation created at 2 before one created at 1. */
  lemma NewerSortsFirst()
    ensures var older := Obj(map["CreatedAt" := Num(1)]);
      var newer := Obj(map["CreatedAt" := Num(2)]);
      QuotationList.Sorted(Obj(map["data" := Arr([older, newer])])) == Ok([newer, older])
      && QuotationList.Newer(QuotationList.Key, newer, older)
  {
    var older := Obj(map["CreatedAt" := Num(1)]);
    var newer := Obj(map["CreatedAt" := Num(2)]);
    var response := Obj(map["data" := Arr([older, newer])]);
    QuotationList.KeyOfTime(1);
    QuotationList.KeyOfTime(2);
    assert QuotationList.Data(response) == [older, newer];
    QuotationList.ArraySortWithoutUndefined(QuotationList.Key, [older, newer]);
    QuotationList.SortPair(QuotationList.Key, older, newer);
    assert Null !in [older, newer];
  }

  /** A response whose first quotation is older than its second: the card shows the older one,
      while the quotation list shows the newer one as the latest. */
  lemma FirstIsNotLatest(c: Card, data: JsVal)
    requires Truthy(Member(data, "TripId")) && !c.loading
    ensures var older := Obj(map["CreatedAt" := Num(1)]);
      var newer := Obj(map["CreatedAt" := Num(2)]);
      var response := Obj(map["data" := Arr([older, newer])]);
      && FetchLatest(c, data, QuotationList.Responded(response)).0.quote == older
      && QuotationList.Sorted(response) == Ok([newer, older])
      && QuotationList.Newer(QuotationList.Key, newer, older)
  {
    var older := Obj(map["CreatedAt" := Num(1)]);
    var newer := Obj(map["CreatedAt" := Num(2)]);
    var response := Obj(map["data" := Arr([older, newer])]);
    assert QuotationList.Data(response) == [older, newer];
    NewerSortsFirst();
  }

  /** `fetchLatestQuote()` as its name intends: the newest quotation, by the order the
      quotation list uses; an entry that makes the sort throw is a failed fetch. */
  function FetchNewest(c: Card, data: JsVal, outcome: QuotationList.Outcome): (r: (Card, Effect))
    ensures !Truthy(Member(data, "TripId")) || c.loading ==> r == (c, NoEffect)
    ensures Truthy(Member(data, "TripId")) && !c.loading ==> !r.0.loading
    ensures r.0.visible && !c.visible ==>
      (outcome.Responded? && QuotationList.Sorted(outcome.response).Ok?
       && |QuotationList.Sorted(outcome.response).value| > 0
       && r.0.quote == QuotationList.Sorted(outcome.response).value[0])
  {
    if !Truthy(Member(data, "TripId")) || c.loading then (c, NoEffect)
    else match outcome
      case Failed => (c.(loading := false), Alert(FetchFailed))
      case Responded(response) =>
        match QuotationList.Sorted(response)
        case Err(_) => (c.(loading := false), Alert(FetchFailed))
        case Ok(qs) =>
          if |qs| > 0 then (Card(false, qs[0], true), NoEffect)
          else (c.(loading := false), Alert(NoQuotes))
  }

  /** The quotation shown is one no quotation of the response is newer than, when every date
      can be read; a response with quotations always opens the modal. */
  lemma NewestShown(c: Card, data: JsVal, response: JsVal)
    requires Truthy(Member(data, "TripId")) && !c.loading && !c.visible
    requires QuotationList.Dated(QuotationList.Key, QuotationList.Data(response))
    requires QuotationList.Sorted(response).Ok? && |QuotationList.Data(response)| > 0
    ensures var r := FetchNewest(c, data, QuotationList.Responded(response)).0;
      r.visible && forall y :: y in QuotationList.Data(response) && y != Undefined ==> !QuotationList.Newer(QuotationList.Key, y, r.quote)
  {
    QuotationList.SortPermutes(QuotationList.Key, QuotationList.Data(response));
    QuotationList.LatestIsNewest(response);
  }
}

=== FILE: costs.dfy ===
/** The total-cost effect of src/components/Forms/CostCalculator.jsx. The effect watches ten
    paths under `Costs`, recomputes the total from them and, when the stored `Costs.TotalCost`
    differs, schedules one animation-frame write of the new total, cancelling the frame it
    scheduled before. The effect's cleanup cancels the pending frame too.

    `NumberParser` (src/utils/NumberParser is not part of this model) is the parameter
    `np`, an arbitrary total function from values to integers. Animation frames are the
    single `pending` slot; the browser firing the frame is the `Frame` step. */
module Costs {
  import opened Results
  import opened JsValue
  import QuotationForm

  /** The paths the effect watches, in the order of its `useWatch` call. */
  const WatchedKeys: seq<string> := ["FlightCost", "VisaCost", "LandPackageCost", "TotalTax", "GST", "TCS",
    "GstWaivedOffAmt", "TcsWaivedOffAmt", "PackageWithGST", "PackageWithTCS"]

  /** The watched values: the effect's dependencies. */
  function Watched(costs: JsVal): (r: seq<JsVal>)
    ensures |r| == |WatchedKeys|
    ensures forall i :: 0 <= i < |WatchedKeys| ==> r[i] == Member(costs, WatchedKeys[i])
  {
    seq(|WatchedKeys|, i requires 0 <= i < |WatchedKeys| => Member(costs, WatchedKeys[i]))
  }

  /** The total from the watched values: flight, visa, land and tax, with GST less its
      waiver when the package includes GST (index 8), and TCS less its waiver when it
      includes TCS (index 9). */
  function TotalOf(w: seq<JsVal>, np: JsVal -> int): int
    requires |w| == |WatchedKeys|
  {
    var total := np(w[0]) + np(w[1]) + np(w[2]) + np(w[3]);
    var withGst := if Truthy(w[8]) then total + (np(w[4]) - np(w[6])) else total;
    if Truthy(w[9]) then withGst + (np(w[5]) - np(w[7])) else withGst
  }

  /** The total the effect computes for a `Costs` value. */
  function Total(costs: JsVal, np: JsVal -> int): int {
    TotalOf(Watched(costs), np)
  }

  /** The watched paths are ten different properties. */
  lemma KeysDistinct()
    ensures forall i, j :: 0 <= i < j < |WatchedKeys| ==> WatchedKeys[i] != WatchedKeys[j]
  {
  }

  /** Writing a watched property changes that watched value only. */
  lemma WatchedPut(costs: JsVal, j: int, v: JsVal)
    requires costs.Obj? && 0 <= j < |WatchedKeys|
    ensures Watched(Put(costs, WatchedKeys[j], v)) == Watched(costs)[j := v]
  {
    KeysDistinct();
  }

  /** Writing any other property changes no watched value. */
  lemma WatchedPutOther(costs: JsVal, k: string, v: JsVal)
    requires costs.Obj? && k !in WatchedKeys
    ensures Watched(Put(costs, k, v)) == Watched(costs)
  {
  }

  /** The four base costs sum up; with both flags off the GST, TCS and waived amounts have no
      effect at all. */
  lemma FlagsOffIgnoresTaxes(costs: JsVal, np: JsVal -> int, gst: JsVal, tcs: JsVal, gstW: JsVal, tcsW: JsVal)
    requires costs.Obj?
    requires !Truthy(Member(costs, "PackageWithGST")) && !Truthy(Member(costs, "PackageWithTCS"))
    ensures var other := Put(Put(Put(Put(costs, "GST", gst), "TCS", tcs), "GstWaivedOffAmt", gstW), "TcsWaivedOffAmt", tcsW);
      Total(other, np) == Total(costs, np)
      == np(Member(costs, "FlightCost")) + np(Member(costs, "VisaCost"))
        + np(Member(costs, "LandPackageCost")) + np(Member(costs, "TotalTax"))
  {
    var c1 := Put(costs, WatchedKeys[4], gst);
    var c2 := Put(c1, WatchedKeys[5], tcs);
    var c3 := Put(c2, WatchedKeys[6], gstW);
    WatchedPut(costs, 4, gst);
    WatchedPut(c1, 5, tcs);
    WatchedPut(c2, 6, gstW);
    WatchedPut(c3, 7, tcsW);
  }

  /** Switching GST on adds exactly GST less its waiver, and the same for TCS. */
  lemma FlagsAddTaxes(costs: JsVal, np: JsVal -> int)
    requires costs.Obj?
    ensures Total(Put(costs, "PackageWithGST", Bool(true)), np) - Total(Put(costs, "PackageWithGST", Bool(false)), np)
      == np(Member(costs, "GST")) - np(Member(costs, "GstWaivedOffAmt"))
    ensures Total(Put(costs, "PackageWithTCS", Bool(true)), np) - Total(Put(costs, "PackageWithTCS", Bool(false)), np)
      == np(Member(costs, "TCS")) - np(Member(costs, "TcsWaivedOffAmt"))
  {
    WatchedPut(costs, 8, Bool(true));
    WatchedPut(costs, 8, Bool(false));
    WatchedPut(costs, 9, Bool(true));
    WatchedPut(costs, 9, Bool(false));
  }

  /** There is no floor: a waiver larger than the GST brings the total below the base costs. */
  lemma WaiverLowersTotal(costs: JsVal, np: JsVal -> int)
    requires Truthy(Member(costs, "PackageWithGST")) && !Truthy(Member(costs, "PackageWithTCS"))
    requires np(Member(costs, "GstWaivedOffAmt")) > np(Member(costs, "GST"))
    ensures Total(costs, np) < np(Member(costs, "FlightCost")) + np(Member(costs, "VisaCost"))
      + np(Member(costs, "LandPackageCost")) + np(Member(costs, "TotalTax"))
  {
  }

  /** The form's zero costs seed `GSTAmount` and `TCSAmount`, which the effect never reads,
      and no package flag: both flags start falsy and the seeded amounts cannot reach the total. */
  lemma DefaultsNeverReachTaxes(np: JsVal -> int, gstAmount: JsVal, tcsAmount: JsVal)
    ensures !Truthy(Member(QuotationForm.ZeroCosts, "PackageWithGST"))
    ensures !Truthy(Member(QuotationForm.ZeroCosts, "PackageWithTCS"))
    ensures Total(Put(Put(QuotationForm.ZeroCosts, "GSTAmount", gstAmount), "TCSAmount", tcsAmount), np)
      == Total(QuotationForm.ZeroCosts, np)
  {
    var c := Put(QuotationForm.ZeroCosts, "GSTAmount", gstAmount);
    WatchedPutOther(QuotationForm.ZeroCosts, "GSTAmount", gstAmount);
    WatchedPutOther(c, "TCSAmount", tcsAmount);
  }

  /** The `Costs` value, the frame waiting to write a total, and the RHF flags of
      `Costs.TotalCost`. */
  datatype State = State(costs: JsVal, pending: Option<int>, dirty: bool, touched: bool, validations: nat)

  /** `setValue("Costs.TotalCost", x)` on the `Costs` value; a missing object is created. */
  function WriteTotal(costs: JsVal, x: int): (r: JsVal)
    ensures r.Obj? && Member(r, "TotalCost") == Num(x)
    ensures forall k :: k != "TotalCost" && costs.Obj? ==> Member(r, k) == Member(costs, k)
  {
    Put(if costs.Obj? then costs else Obj(map[]), "TotalCost", Num(x))
  }

  /** One run of the effect: the cleanup of the previous run cancels its frame, then a frame
      is scheduled only when the stored total differs from the computed one. */
  function Effect(st: State, np: JsVal -> int): (r: State)
    ensures r.costs == st.costs && r.dirty == st.dirty && r.touched == st.touched && r.validations == st.validations
    ensures r.pending.Some? <==> np(Member(st.costs, "TotalCost")) != Total(st.costs, np)
    ensures r.pending.Some? ==> r.pending.value == Total(st.costs, np)
  {
    var total := Total(st.costs, np);
    var cleaned := st.(pending := None);
    if np(Member(st.costs, "TotalCost")) != total then cleaned.(pending := Some(total)) else cleaned
  }

  /** A user edit of one `Costs` field; the effect re-runs only when a watched value changed. */
  function Edit(st: State, key: string, v: JsVal, np: JsVal -> int): (r: State)
    ensures r.costs == Put(st.costs, key, v)
    ensures r.dirty == st.dirty && r.touched == st.touched && r.validations == st.validations
    ensures Watched(r.costs) == Watched(st.costs) ==> r.pending == st.pending
  {
    var next := st.(costs := Put(st.costs, key, v));
    if Watched(next.costs) != Watched(st.costs) then Effect(next, np) else next
  }

  /** The browser fires the pending frame: the total is written and marked dirty, the field
      is neither touched nor validated. */
  function Frame(st: State): (r: State)
    ensures r.pending.None?
    ensures r.touched == st.touched && r.validations == st.validations
    ensures st.pending.Some? ==> Member(r.costs, "TotalCost") == Num(st.pending.value) && r.dirty
    ensures st.pending.None? ==> r == st
  {
    match st.pending
    case None => st
    case Some(x) => State(WriteTotal(st.costs, x), None, true, st.touched, st.validations)
  }

  /** Unmounting runs the cleanup: no frame stays pending. */
  function Unmount(st: State): (r: State)
    ensures r.pending.None? && r.costs == st.costs
  {
    st.(pending := None)
  }

  /** The pending frame, when there is one, carries the total of the current watched values. */
  predicate PendingCurrent(st: State, np: JsVal -> int) {
    st.pending.Some? ==> st.pending.value == Total(st.costs, np)
  }

  /** Editing keeps the pending frame current, whether or not the effect re-ran. */
  lemma EditKeepsCurrent(st: State, key: string, v: JsVal, np: JsVal -> int)
    requires PendingCurrent(st, np)
    ensures PendingCurrent(Edit(st, key, v, np), np)
  {
  }

  /** Writing the total does not change what the effect watches. */
  lemma WriteKeepsWatched(costs: JsVal, x: int)
    requires costs.Obj?
    ensures Watched(WriteTotal(costs, x)) == Watched(costs)
  {
  }

  /** A burst of edits. */
  function Edits(st: State, edits: seq<(string, JsVal)>, np: JsVal -> int): (r: State)
    ensures r.dirty == st.dirty && r.touched == st.touched
    decreases |edits|
  {
    if |edits| == 0 then st else Edits(Edit(st, edits[0].0, edits[0].1, np), edits[1..], np)
  }

  /** However many edits come in before the frame fires, at most one write is pending and it
      carries the total of the last values. */
  lemma {:induction false} EditsKeepCurrent(st: State, edits: seq<(string, JsVal)>, np: JsVal -> int)
    requires PendingCurrent(st, np)
    ensures PendingCurrent(Edits(st, edits, np), np)
    decreases |edits|
  {
    if |edits| > 0 {
      EditKeepsCurrent(st, edits[0].0, edits[0].1, np);
      EditsKeepCurrent(Edit(st, edits[0].0, edits[0].1, np), edits[1..], np);
    }
  }

  /** After a burst, the frame stores the total of the last values. */
  lemma BurstWritesLastTotal(st: State, edits: seq<(string, JsVal)>, np: JsVal -> int)
    requires PendingCurrent(st, np)
    requires Edits(st, edits, np).pending.Some?
    ensures var last := Edits(st, edits, np);
      Member(Frame(last).costs, "TotalCost") == Num(Total(last.costs, np)) && Frame(last).dirty
  {
    EditsKeepCurrent(st, edits, np);
  }

  /** Once the frame has written the total, a new run of the effect schedules nothing, when
      `NumberParser` reads a number as itself. */
  lemma WrittenTotalIsStable(st: State, np: JsVal -> int)
    requires PendingCurrent(st, np) && st.pending.Some? && st.costs.Obj?
    requires forall n: int {:trigger Num(n)} :: np(Num(n)) == n
    ensures Effect(Frame(st), np).pending.None?
  {
    WriteKeepsWatched(st.costs, st.pending.value);
  }

  /** A running effect never writes synchronously: the value only changes when a frame fires. */
  lemma EffectDefersWrite(st: State, np: JsVal -> int)
    ensures Member(Effect(st, np).costs, "TotalCost") == Member(st.costs, "TotalCost")
  {
  }
}

=== FILE: date_picker.dfy ===
/** The single-date picker of src/components/DatePicker.jsx: the month shown, the selected
    date kept in step with the `value` prop, and a pick that hands "YYYY-MM-DD" text to the
    parent. The month shown is a day number of that month; `today` is the day of
    `new Date()` when the picker mounts. Month navigation keeps the day of the month, as
    `setMonth` does, so it can skip a month; NavigateIntended steps to the first of the month
    instead. */
module DatePicker {
  import opened Results
  import opened Civil
  import opened DateText
  import opened JsValue
  import Calendar
  import QuotationForm

  datatype Picker = Picker(visible: bool, month: int, selected: JsVal)

  /** The state on mount: closed, on today's month, with `new Date(value)` selected when
      `value` is truthy. */
  function Mount(value: JsVal, today: int): (r: Picker)
    ensures !r.visible && r.month == today
    ensures Truthy(value) ==> r.selected == NewDate(value)
    ensures !Truthy(value) ==> r.selected == Null
  {
    Picker(false, today, if Truthy(value) then NewDate(value) else Null)
  }

  /** The effect on `value`: a truthy value replaces the selection, a falsy one leaves it. */
  function Sync(p: Picker, value: JsVal): (r: Picker)
    ensures Truthy(value) ==> r == p.(selected := NewDate(value))
    ensures !Truthy(value) ==> r == p
  {
    if Truthy(value) then p.(selected := NewDate(value)) else p
  }

  /** Clearing the value in the parent does not clear the picker: the old date stays selected. */
  lemma ClearedValueKeepsSelection(p: Picker, prev: JsVal)
    requires Truthy(prev)
    ensures Sync(Sync(p, prev), Null).selected == NewDate(prev)
    ensures Sync(Sync(p, prev), Str("")).selected == NewDate(prev)
  {
  }

  /** The grid of the month shown: a blank for each weekday before the first, then every day
      of the month in order, the years 0 to 99 being read as 1900 to 1999. */
  method Days(p: Picker) returns (cal: seq<Option<int>>)
    ensures var c := FromDayNumber(p.month); Calendar.IsGrid(cal, Calendar.FullYear(c.year), c.month)
    ensures var c := FromDayNumber(p.month); !(0 <= c.year <= 99) ==> Calendar.IsGrid(cal, c.year, c.month)
  {
    var c := FromDayNumber(p.month);
    cal := Calendar.GenerateCalendar(c.year, c.month);
  }

  /** The next and previous buttons, `k` being 1 or -1: `setMonth(getMonth() + k)` on a copy
      of the date shown, which keeps its day of the month; a day the target month lacks runs
      on into the month after. */
  function Navigate(p: Picker, k: int): (r: Picker)
    ensures r.visible == p.visible && r.selected == p.selected
    ensures var c := FromDayNumber(p.month); var t := AddMonths(c.year, c.month, k);
      c.day <= DaysInMonth(t.0, t.1) ==> FromDayNumber(r.month) == Ymd(t.0, t.1, c.day)
    ensures var c := FromDayNumber(p.month); var t := AddMonths(c.year, c.month, k); var u := AddMonths(t.0, t.1, 1);
      c.day > DaysInMonth(t.0, t.1) ==> FromDayNumber(r.month) == Ymd(u.0, u.1, c.day - DaysInMonth(t.0, t.1))
  {
    p.(month := Calendar.SetMonthAsWritten(p.month, k))
  }

  /** A button moves the month shown by exactly one when the day of the month shown exists
      there, and by two otherwise; up to the 28th, next and then previous give back the same
      state. */
  lemma NavigateMonths(p: Picker, k: int)
    ensures var c := FromDayNumber(p.month); var t := AddMonths(c.year, c.month, k); var n := FromDayNumber(Navigate(p, k).month);
      (n.year * 12 + n.month == c.year * 12 + c.month + k <==> c.day <= DaysInMonth(t.0, t.1))
      && (c.day > DaysInMonth(t.0, t.1) ==> n.year * 12 + n.month == c.year * 12 + c.month + k + 1)
    ensures FromDayNumber(p.month).day <= 28 ==> Navigate(Navigate(p, 1), -1) == p
  {
    Calendar.SetMonthCount(p.month, k);
    if FromDayNumber(p.month).day <= 28 {
      Calendar.SetMonthThereAndBack(p.month);
    }
  }

  /** Month navigation as intended: to the first of the month `k` months on. */
  function NavigateIntended(p: Picker, k: int): (r: Picker)
    ensures r.visible == p.visible && r.selected == p.selected
    ensures FromDayNumber(r.month).day == 1
  {
    p.(month := Calendar.StepMonth(p.month, k))
  }

  /** The intended buttons move the month by exactly one, and the two undo each other. */
  lemma NavigateIntendedByOne(p: Picker)
    ensures var c := FromDayNumber(p.month); var n := FromDayNumber(NavigateIntended(p, 1).month);
      n.year * 12 + n.month == c.year * 12 + c.month + 1
    ensures var c := FromDayNumber(p.month); var b := FromDayNumber(NavigateIntended(p, -1).month);
      b.year * 12 + b.month == c.year * 12 + c.month - 1
    ensures var c := FromDayNumber(p.month); FromDayNumber(NavigateIntended(NavigateIntended(p, 1), -1).month) == Ymd(c.year, c.month, 1)
  {
    Calendar.StepMonthExact(p.month, 1);
    Calendar.StepMonthExact(p.month, -1);
  }

  /** `handleSelect(day)` on a day of the grid: the day is selected, its "YYYY-MM-DD" text is
      handed to `onDateChange` and the picker closes. */
  function Select(p: Picker, day: int): (r: (Picker, string))
    requires ValidTime(day * MsPerDay)
    ensures r.0 == Picker(false, p.month, Date(day * MsPerDay))
    ensures r.1 == DateString(day)
  {
    QuotationForm.MidnightIsoDate(day);
    (Picker(false, p.month, Date(day * MsPerDay)), IsoDate(day * MsPerDay))
  }

  /** A parent that stores the text and passes it back as `value` re-selects the same date, for
      the years 0 to 9999. */
  lemma SelectRoundTrip(p: Picker, day: int)
    requires 0 <= FromDayNumber(day).year <= 9999
    ensures ValidTime(day * MsPerDay)
    ensures var (q, text) := Select(p, day); Sync(q, Str(text)) == q
  {
    FromDayNumberRange(day);
    NewDateOfDateString(day);
    QuotationForm.DateStringNotEmpty(day);
  }
}

=== FILE: date_range.dfy ===
/** The range picker of src/components/DateRangeSelector.jsx: clicks on the day grid build a
    working range, which Apply hands to the parent and Cancel drops.

    Every date the picker works with has been through `normalizeDate`, which keeps the day
    and drops the time; such a date is a day number, or an invalid date when the parent
    passed something `new Date` cannot read. Comparisons with an invalid date are false, as
    they are in JavaScript. */
module DateRange {
  import opened Results
  import opened Civil
  import opened DateText
  import opened JsValue
  import Calendar

  datatype Day = On(n: int) | InvalidDate

  /** `normalizeDate(value)`: `null` for a falsy value, otherwise the midnight of its day,
      built again by `new Date(year, month, day)` (see `Calendar.Rebuild`). */
  function Normalize(v: JsVal): (r: Option<Day>)
    ensures !Truthy(v) <==> r.None?
    ensures r.Some? && ValidTime(NewDate(v).time) ==> r.value == On(Calendar.Rebuild(DayOf(NewDate(v).time)))
    ensures r.Some? && !ValidTime(NewDate(v).time) ==> r.value == InvalidDate
  {
    if !Truthy(v) then None
    else
      var d := NewDate(v);
      Some(if ValidTime(d.time) then On(Calendar.Rebuild(DayOf(d.time))) else InvalidDate)
  }

  /** A midnight is read as the day `new Date(year, month, day)` rebuilds from it. */
  lemma NormalizeMidnight(n: int)
    requires ValidTime(n * MsPerDay)
    ensures Normalize(Date(n * MsPerDay)) == Some(On(Calendar.Rebuild(n)))
  {
    var t := n * MsPerDay;
    assert NewDate(Date(t)) == Date(t);
    DayOfMidnight(n, 0);
    assert DayOf(t) == n;
  }

  /** A midnight is read as its own day outside the years 0 to 99, and as the rebuilt day in
      them; a date read twice through `normalizeDate` is read as the first time. */
  lemma NormalizeIdempotent(n: int)
    requires ValidTime(n * MsPerDay)
    ensures Normalize(Date(n * MsPerDay)) == Some(On(Calendar.Rebuild(n)))
    ensures !(0 <= FromDayNumber(n).year <= 99) ==> Normalize(Date(n * MsPerDay)) == Some(On(n))
    ensures var m := Calendar.Rebuild(n); ValidTime(m * MsPerDay) && Normalize(Date(m * MsPerDay)) == Some(On(m))
  {
    NormalizeMidnight(n);
    var m := Calendar.Rebuild(n);
    Calendar.RebuildIdempotent(n);
    if 0 <= FromDayNumber(n).year <= 99 {
      FromDayNumberRange(m);
    } else {
      assert m == n;
    }
    NormalizeMidnight(m);
  }

  /** `a < b` on two dates. */
  predicate Before(a: Day, b: Day) {
    a.On? && b.On? && a.n < b.n
  }

  /** `isSameDay(a, b)`. */
  predicate SameDay(a: Day, b: Day) {
    a.On? && b.On? && a.n == b.n
  }

  /** `isDateDisabled(date)`: before the minimum or after the maximum, each when given. */
  predicate Disabled(d: Day, min: Option<Day>, max: Option<Day>) {
    (min.Some? && Before(d, min.value)) || (max.Some? && Before(max.value, d))
  }

  /** With a minimum and a maximum, the enabled days are those between them, both included. */
  lemma EnabledDays(n: int, lo: int, hi: int)
    ensures !Disabled(On(n), Some(On(lo)), Some(On(hi))) <==> lo <= n <= hi
    ensures !Disabled(On(n), None, None)
  {
  }

  /** The working range. */
  datatype Range = Range(start: Option<Day>, end: Option<Day>)

  /** `isInRange(date)`: strictly between the start and the end. */
  predicate InRange(r: Range, d: Day) {
    r.start.Some? && r.end.Some? && Before(r.start.value, d) && Before(d, r.end.value)
  }

  /** The ends themselves are not in the range. */
  lemma EndsNotInRange(r: Range)
    requires r.start.Some? && r.end.Some?
    ensures !InRange(r, r.start.value) && !InRange(r, r.end.value)
  {
  }

  /** `handleDayClick(date)` on a cell of the grid (`None` for a blank cell). */
  function Click(r: Range, date: Option<Day>, min: Option<Day>, max: Option<Day>): (q: Range)
    ensures date.None? || Disabled(date.value, min, max) ==> q == r
    ensures date.Some? && !Disabled(date.value, min, max) && (r.start.None? || r.end.Some?) ==>
      q == Range(date, None)
    ensures date.Some? && !Disabled(date.value, min, max) && r.start.Some? && r.end.None? && Before(date.value, r.start.value) ==>
      q == Range(date, r.start)
    ensures date.Some? && !Disabled(date.value, min, max) && r.start.Some? && r.end.None? && !Before(date.value, r.start.value) ==>
      q == Range(r.start, if SameDay(date.value, r.start.value) then None else date)
  {
    if date.None? || Disabled(date.value, min, max) then r
    else
      var d := date.value;
      if r.start.None? || r.end.Some? then Range(Some(d), None)
      else if Before(d, r.start.value) then Range(Some(d), r.start)
      else if SameDay(d, r.start.value) then Range(r.start, None)
      else Range(r.start, Some(d))
  }

  /** When both ends are set, the start is before the end. */
  predicate Ordered(r: Range) {
    r.end.Some? ==> r.start.Some? && Before(r.start.value, r.end.value)
  }

  /** The start is not an invalid date. */
  predicate StartReadable(r: Range) {
    r.start.Some? ==> r.start.value.On?
  }

  /** A click on a day of the grid keeps the range ordered and its start readable. */
  lemma ClickKeepsOrdered(r: Range, n: int, min: Option<Day>, max: Option<Day>)
    requires Ordered(r) && StartReadable(r)
    ensures Ordered(Click(r, Some(On(n)), min, max)) && StartReadable(Click(r, Some(On(n)), min, max))
  {
  }

  /** Clicks on the grid, a blank cell being `None`. */
  function Clicks(r: Range, cells: seq<Option<int>>, min: Option<Day>, max: Option<Day>): Range
    decreases |cells|
  {
    if |cells| == 0 then r
    else
      var cell := if cells[0].Some? then Some(On(cells[0].value)) else None;
      Clicks(Click(r, cell, min, max), cells[1..], min, max)
  }

  /** However many cells are clicked, a range that starts ordered stays ordered. */
  lemma {:induction false} ClicksKeepOrdered(r: Range, cells: seq<Option<int>>, min: Option<Day>, max: Option<Day>)
    requires Ordered(r) && StartReadable(r)
    ensures Ordered(Clicks(r, cells, min, max)) && StartReadable(Clicks(r, cells, min, max))
    decreases |cells|
  {
    if |cells| > 0 {
      var cell := if cells[0].Some? then Some(On(cells[0].value)) else None;
      if cells[0].Some? {
        ClickKeepsOrdered(r, cells[0].value, min, max);
      }
      ClicksKeepOrdered(Click(r, cell, min, max), cells[1..], min, max);
    }
  }

  /** `isSelected(date)`: the day is the start or the end. */
  predicate Selected(r: Range, d: Day) {
    (r.start.Some? && SameDay(d, r.start.value)) || (r.end.Some? && SameDay(d, r.end.value))
  }

  /** An enabled day that is clicked is selected afterwards, whichever branch was taken. */
  lemma ClickedDaySelected(r: Range, n: int, min: Option<Day>, max: Option<Day>)
    requires !Disabled(On(n), min, max)
    ensures Selected(Click(r, Some(On(n)), min, max), On(n))
  {
  }

  /** A second click on another enabled day completes the range, the earlier day first,
      whichever order the two were clicked in. */
  lemma SecondClickOrders(a: int, b: int, min: Option<Day>, max: Option<Day>)
    requires a != b && !Disabled(On(b), min, max)
    ensures Click(Range(Some(On(a)), None), Some(On(b)), min, max) ==
      Range(Some(On(if a < b then a else b)), Some(On(if a < b then b else a)))
  {
  }

  /** A start the parent passed as an invalid date is kept by a click, which then sets only the
      end: the range is left unordered. */
  lemma InvalidStartTakesEnd(n: int)
    ensures Click(Range(Some(InvalidDate), None), Some(On(n)), None, None) == Range(Some(InvalidDate), Some(On(n)))
    ensures !Ordered(Range(Some(InvalidDate), Some(On(n))))
  {
  }

  /** `handleApply`: nothing without a start; otherwise the start and the end, the start again
      when no end was picked, are handed to the parent. */
  function Apply(r: Range): (e: Option<(Day, Day)>)
    ensures r.start.None? <==> e.None?
    ensures e.Some? ==> e.value.0 == r.start.value
    ensures e.Some? && r.end.Some? ==> e.value.1 == r.end.value
    ensures e.Some? && r.end.None? ==> e.value.1 == r.start.value
  {
    if r.start.None? then None
    else Some((r.start.value, if r.end.Some? then r.end.value else r.start.value))
  }

  /** An ordered range with a readable start is applied as a start no later than its end. */
  lemma ApplyOrdered(r: Range)
    requires Ordered(r) && StartReadable(r) && r.start.Some?
    ensures Apply(r).Some? && Apply(r).value.0.On? && Apply(r).value.1.On?
    ensures Apply(r).value.0.n <= Apply(r).value.1.n
  {
  }

  /** `handleCancel`: the working range is read again from the parent's dates. */
  function Cancel(startDate: JsVal, endDate: JsVal): (r: Range)
    ensures r.start.None? <==> !Truthy(startDate)
    ensures r.end.None? <==> !Truthy(endDate)
  {
    Range(Normalize(startDate), Normalize(endDate))
  }

  /** Applying what Cancel restored from two midnights hands them back unchanged, the years 0
      to 99 aside. */
  lemma CancelThenApply(a: int, b: int)
    requires ValidTime(a * MsPerDay) && ValidTime(b * MsPerDay)
    ensures Apply(Cancel(Date(a * MsPerDay), Date(b * MsPerDay))) == Some((On(Calendar.Rebuild(a)), On(Calendar.Rebuild(b))))
    ensures !(0 <= FromDayNumber(a).year <= 99) && !(0 <= FromDayNumber(b).year <= 99) ==>
      Apply(Cancel(Date(a * MsPerDay), Date(b * MsPerDay))) == Some((On(a), On(b)))
  {
    NormalizeIdempotent(a);
    NormalizeIdempotent(b);
  }

  /** The selector: whether the modal is open, the working range and the month shown. */
  datatype Selector = Selector(open: bool, range: Range, month: Day)

  /** The state on mount: the range read from the parent's dates, and the month of the start
      date, or of `today` without one. */
  function Mount(startDate: JsVal, endDate: JsVal, today: int): (s: Selector)
    ensures !s.open && s.range == Cancel(startDate, endDate)
    ensures Truthy(startDate) ==> Some(s.month) == Normalize(startDate)
    ensures !Truthy(startDate) ==> s.month == On(today)
  {
    var start := Normalize(startDate);
    Selector(false, Range(start, Normalize(endDate)), if start.Some? then start.value else On(today))
  }

  /** The effects on `startDate`: the working start is read again, and a truthy date also
      moves the month shown to its own. */
  function SyncStart(s: Selector, startDate: JsVal): (r: Selector)
    ensures r.open == s.open && r.range == s.range.(start := Normalize(startDate))
    ensures Truthy(startDate) ==> Some(r.month) == Normalize(startDate)
    ensures !Truthy(startDate) ==> r.month == s.month
  {
    var start := Normalize(startDate);
    Selector(s.open, s.range.(start := start), if start.Some? then start.value else s.month)
  }

  /** The effect on `endDate`: the working end is read again from the parent, and nothing else
      changes. */
  function SyncEnd(s: Selector, endDate: JsVal): (r: Selector)
    ensures r.open == s.open && r.month == s.month && r.range.start == s.range.start
    ensures !Truthy(endDate) <==> r.range.end.None?
    ensures Truthy(endDate) && ValidTime(NewDate(endDate).time) ==> r.range.end == Some(On(Calendar.Rebuild(DayOf(NewDate(endDate).time))))
    ensures Truthy(endDate) && !ValidTime(NewDate(endDate).time) ==> r.range.end == Some(InvalidDate)
  {
    s.(range := s.range.(end := Normalize(endDate)))
  }

  /** A picked range handed back by the parent as two midnights is the range the selector
      shows, on the month of its start, the years 0 to 99 aside. */
  lemma SyncAfterApply(s: Selector, a: int, b: int)
    requires ValidTime(a * MsPerDay) && ValidTime(b * MsPerDay)
    ensures var r := SyncEnd(SyncStart(s, Date(a * MsPerDay)), Date(b * MsPerDay));
      r.range == Range(Some(On(Calendar.Rebuild(a))), Some(On(Calendar.Rebuild(b)))) && r.month == On(Calendar.Rebuild(a))
    ensures !(0 <= FromDayNumber(a).year <= 99) && !(0 <= FromDayNumber(b).year <= 99) ==>
      var r := SyncEnd(SyncStart(s, Date(a * MsPerDay)), Date(b * MsPerDay));
      r.range == Range(Some(On(a)), Some(On(b))) && r.month == On(a)
  {
    NormalizeIdempotent(a);
    NormalizeIdempotent(b);
  }

  /** `navigateMonth(step)`, `k` being 1 or -1: `setMonth(getMonth() + k)` on a copy of the
      date shown, which keeps its day of the month; a day the target month lacks runs on into
      the month after. An invalid month stays invalid, as `setMonth` on an invalid date leaves
      it so. */
  function Navigate(s: Selector, k: int): (r: Selector)
    ensures r.open == s.open && r.range == s.range
    ensures s.month.InvalidDate? <==> r.month.InvalidDate?
    ensures s.month.On? ==> var c := FromDayNumber(s.month.n); var t := AddMonths(c.year, c.month, k);
      c.day <= DaysInMonth(t.0, t.1) ==> FromDayNumber(r.month.n) == Ymd(t.0, t.1, c.day)
    ensures s.month.On? ==> var c := FromDayNumber(s.month.n); var t := AddMonths(c.year, c.month, k); var u := AddMonths(t.0, t.1, 1);
      c.day > DaysInMonth(t.0, t.1) ==> FromDayNumber(r.month.n) == Ymd(u.0, u.1, c.day - DaysInMonth(t.0, t.1))
  {
    if s.month.InvalidDate? then s else s.(month := On(Calendar.SetMonthAsWritten(s.month.n, k)))
  }

  /** A step moves the month shown by exactly `k` months when the day of the month shown exists
      there, and by `k + 1` otherwise. */
  lemma NavigateMonths(s: Selector, k: int)
    requires s.month.On?
    ensures var c := FromDayNumber(s.month.n); var t := AddMonths(c.year, c.month, k); var r := FromDayNumber(Navigate(s, k).month.n);
      (r.year * 12 + r.month == c.year * 12 + c.month + k <==> c.day <= DaysInMonth(t.0, t.1))
      && (c.day > DaysInMonth(t.0, t.1) ==> r.year * 12 + r.month == c.year * 12 + c.month + k + 1)
  {
    Calendar.SetMonthCount(s.month.n, k);
  }

  /** Month navigation as intended: to the first of the month `k` months on. */
  function NavigateIntended(s: Selector, k: int): (r: Selector)
    ensures r.open == s.open && r.range == s.range
    ensures s.month.InvalidDate? <==> r.month.InvalidDate?
    ensures s.month.On? ==> FromDayNumber(r.month.n).day == 1
  {
    if s.month.InvalidDate? then s else s.(month := On(Calendar.StepMonth(s.month.n, k)))
  }

  /** An intended step moves the month shown by exactly `k` months, whatever the day. */
  lemma NavigateIntendedExact(s: Selector, k: int)
    requires s.month.On?
    ensures var c := FromDayNumber(s.month.n); var r := FromDayNumber(NavigateIntended(s, k).month.n);
      r.year * 12 + r.month == c.year * 12 + c.month + k
  {
    Calendar.StepMonthExact(s.month.n, k);
  }

  /** The date button: `setShowModal(true)`. */
  function Show(s: Selector): (r: Selector)
    ensures r.open && r.range == s.range && r.month == s.month
  {
    s.(open := true)
  }

  /** The Apply button: without a start nothing happens and the modal stays as it is;
      otherwise the applied range is handed on and the modal closes. */
  function ApplyPress(s: Selector): (r: (Selector, Option<(Day, Day)>))
    ensures r.1 == Apply(s.range)
    ensures r.0.range == s.range && r.0.month == s.month
    ensures r.0.open <==> s.open && s.range.start.None?
  {
    if s.range.start.None? then (s, None) else (s.(open := false), Apply(s.range))
  }

  /** The Cancel button: the working range is read again from the parent and the modal
      closes. */
  function CancelPress(s: Selector, startDate: JsVal, endDate: JsVal): (r: Selector)
    ensures !r.open && r.month == s.month
    ensures r.range == Cancel(startDate, endDate)
  {
    Selector(false, Cancel(startDate, endDate), s.month)
  }

  /** Whatever is clicked after opening, Cancel closes the modal on the parent's range, as if
      the picker had never been opened. */
  lemma OpenClicksCancel(s: Selector, cells: seq<Option<int>>, min: Option<Day>, max: Option<Day>, startDate: JsVal, endDate: JsVal)
    ensures var o := Show(s); var e := o.(range := Clicks(o.range, cells, min, max));
      CancelPress(e, startDate, endDate) == CancelPress(s, startDate, endDate)
  {
  }

  /** After clicks from an ordered range, Apply closes the modal exactly when a start is
      picked, and then hands on a start no later than the end. */
  lemma OpenClicksApply(s: Selector, cells: seq<Option<int>>, min: Option<Day>, max: Option<Day>)
    requires Ordered(s.range) && StartReadable(s.range)
    ensures var e := Show(s).(range := Clicks(s.range, cells, min, max)); var r := ApplyPress(e);
      (!r.0.open <==> e.range.start.Some?)
      && (r.1.Some? ==> r.1.value.0.On? && r.1.value.1.On? && r.1.value.0.n <= r.1.value.1.n)
  {
    var e := Show(s).(range := Clicks(s.range, cells, min, max));
    ClicksKeepOrdered(s.range, cells, min, max);
    if e.range.start.Some? {
      ApplyOrdered(e.range);
    }
  }

  /** The grid of the month shown: the month of the start date (or today), empty when that
      date is invalid, since `getFullYear` is then NaN and neither loop runs. */
  method Days(month: Day) returns (cal: seq<Option<int>>)
    ensures month.InvalidDate? ==> cal == []
    ensures month.On? ==> var c := FromDayNumber(month.n); Calendar.IsGrid(cal, Calendar.FullYear(c.year), c.month)
    ensures month.On? ==> var c := FromDayNumber(month.n); !(0 <= c.year <= 99) ==> Calendar.IsGrid(cal, c.year, c.month)
  {
    if month.InvalidDate? {
      cal := [];
    } else {
      var c := FromDayNumber(month.n);
      cal := Calendar.GenerateCalendar(c.year, c.month);
    }
  }
}

=== FILE: datetext.dfy ===
/** Date strings as the application writes and reads them: `toISOString()`, its first ten
    characters "YYYY-MM-DD", `Date.parse` of those two forms, and the integer key
    `Number(dateString.replace(/-/g, ""))` kept beside every date field. Times are
    milliseconds since 1970-01-01T00:00:00Z, and the host is assumed to run in UTC. */
module DateText {
  import opened Results
  import opened Civil
  import opened Text

  const MsPerDay: int := 86400000
  /** The largest magnitude of a valid JavaScript time value. */
  const MaxTime: int := 8640000000000000

  /** The day number of a time value. */
  function DayOf(ms: int): int {
    ms / MsPerDay
  }

  /** `DateKey` of a day: the civil date read as the decimal number YYYYMMDD. */
  function DateKey(day: int): int {
    YmdKey(FromDayNumber(day))
  }

  function YmdKey(c: Ymd): int {
    c.year * 10000 + c.month * 100 + c.day
  }

  /** `n` as two digits. */
  function Two(n: int): (s: string)
    requires 0 <= n < 100
    ensures |s| == 2 && AllDigits(s)
  {
    [DigitChar(n / 10), DigitChar(n % 10)]
  }

  /** `n` as three digits. */
  function Three(n: int): (s: string)
    requires 0 <= n < 1000
    ensures |s| == 3 && AllDigits(s)
  {
    [DigitChar(n / 100)] + Two(n % 100)
  }

  /** `n` as four digits. */
  function Four(n: int): (s: string)
    requires 0 <= n < 10000
    ensures |s| == 4 && AllDigits(s)
  {
    Two(n / 100) + Two(n % 100)
  }

  /** The number written by the digits `s[i]`, `s[i+1]`. */
  function Num2(s: string, i: int): int
    requires 0 <= i && i + 2 <= |s| && IsDigit(s[i]) && IsDigit(s[i + 1])
  {
    DigitValue(s[i]) * 10 + DigitValue(s[i + 1])
  }

  function Num3(s: string, i: int): int
    requires 0 <= i && i + 3 <= |s| && IsDigit(s[i]) && IsDigit(s[i + 1]) && IsDigit(s[i + 2])
  {
    DigitValue(s[i]) * 100 + Num2(s, i + 1)
  }

  function Num4(s: string, i: int): int
    requires 0 <= i && i + 4 <= |s| && IsDigit(s[i]) && IsDigit(s[i + 1]) && IsDigit(s[i + 2]) && IsDigit(s[i + 3])
  {
    Num2(s, i) * 100 + Num2(s, i + 2)
  }

  /** The year as `toISOString` writes it: four digits, or a sign and six digits outside 0..9999. */
  function YearString(y: int): string {
    if 0 <= y <= 9999 then Four(y)
    else if y > 9999 then "+" + PadNat(y, 6)
    else "-" + PadNat(-y, 6)
  }

  /** "YYYY-MM-DD" of a civil date. */
  function YmdString(c: Ymd): string
    requires Valid(c)
  {
    YearString(c.year) + "-" + Two(c.month) + "-" + Two(c.day)
  }

  /** "YYYY-MM-DD" of a day number: the first ten characters of `toISOString()` for 4-digit years. */
  function DateString(day: int): string {
    YmdString(FromDayNumber(day))
  }

  /** `new Date(ms).toISOString()`. */
  function IsoString(ms: int): string {
    DateString(DayOf(ms)) + TimeString(ms % MsPerDay)
  }

  /** The "THH:mm:ss.sssZ" tail of `toISOString()` for a time of day `t` in milliseconds. */
  function TimeString(t: int): (s: string)
    requires 0 <= t < MsPerDay
    ensures |s| == 14
  {
    ['T'] + Two(t / 3600000) + [':'] + Two(t / 60000 % 60) + [':'] + Two(t / 1000 % 60) + ['.'] + Three(t % 1000) + ['Z']
  }

  /** Reads the "YYYY-MM-DD" at the start of `s` (which must have at least ten characters). */
  function ParseDay(s: string): Option<int>
    requires |s| >= 10
  {
    if s[4] == '-' && s[7] == '-' && IsDigit(s[0]) && IsDigit(s[1]) && IsDigit(s[2]) && IsDigit(s[3])
      && IsDigit(s[5]) && IsDigit(s[6]) && IsDigit(s[8]) && IsDigit(s[9]) then
      var c := Ymd(Num4(s, 0), Num2(s, 5), Num2(s, 8));
      if Valid(c) then Some(DayNumber(c)) else None
    else None
  }

  /** Reads the "THH:mm:ss.sssZ" at index 10 of a 24-character string as milliseconds. */
  function ParseTime(s: string): Option<int>
    requires |s| == 24
  {
    if s[10] == 'T' && s[13] == ':' && s[16] == ':' && s[19] == '.' && s[23] == 'Z'
      && IsDigit(s[11]) && IsDigit(s[12]) && IsDigit(s[14]) && IsDigit(s[15])
      && IsDigit(s[17]) && IsDigit(s[18]) && IsDigit(s[20]) && IsDigit(s[21]) && IsDigit(s[22]) then
      var h, mi, se := Num2(s, 11), Num2(s, 14), Num2(s, 17);
      if h < 24 && mi < 60 && se < 60 then Some(h * 3600000 + mi * 60000 + se * 1000 + Num3(s, 20)) else None
    else None
  }

  /** `Date.parse(s)` for the date-only form "YYYY-MM-DD" (read as UTC midnight) and the
      `toISOString` form "YYYY-MM-DDTHH:mm:ss.sssZ"; `None` is an invalid date. */
  function ParseDate(s: string): (r: Option<int>)
    ensures r.Some? ==> |s| == 10 || |s| == 24
  {
    if |s| == 10 then
      match ParseDay(s)
      case Some(d) => Some(d * MsPerDay)
      case None => None
    else if |s| == 24 then
      match (ParseDay(s), ParseTime(s))
      case (Some(d), Some(t)) => Some(d * MsPerDay + t)
      case _ => None
    else None
  }

  lemma Num2Of(s: string, i: int, n: int)
    requires 0 <= n < 100 && 0 <= i && i + 2 <= |s| && s[i..i + 2] == Two(n)
    ensures IsDigit(s[i]) && IsDigit(s[i + 1]) && Num2(s, i) == n
  {
    assert s[i] == s[i..i + 2][0] && s[i + 1] == s[i..i + 2][1];
  }

  lemma Num3Of(s: string, i: int, n: int)
    requires 0 <= n < 1000 && 0 <= i && i + 3 <= |s| && s[i..i + 3] == Three(n)
    ensures IsDigit(s[i]) && IsDigit(s[i + 1]) && IsDigit(s[i + 2]) && Num3(s, i) == n
  {
    assert s[i] == s[i..i + 3][0];
    assert s[i + 1..i + 3] == Two(n % 100);
    Num2Of(s, i + 1, n % 100);
  }

  lemma Num4Of(s: string, i: int, n: int)
    requires 0 <= n < 10000 && 0 <= i && i + 4 <= |s| && s[i..i + 4] == Four(n)
    ensures IsDigit(s[i]) && IsDigit(s[i + 1]) && IsDigit(s[i + 2]) && IsDigit(s[i + 3]) && Num4(s, i) == n
  {
    assert s[i..i + 2] == Two(n / 100) && s[i + 2..i + 4] == Two(n % 100);
    Num2Of(s, i, n / 100);
    Num2Of(s, i + 2, n % 100);
  }

  /** The date string of a valid civil date with a four-digit year reads back as its day number. */
  lemma ParseYmdString(c: Ymd)
    requires Valid(c) && 0 <= c.year <= 9999
    ensures |YmdString(c)| == 10
    ensures ParseDay(YmdString(c)) == Some(DayNumber(c))
  {
    var s := YmdString(c);
    assert s == Four(c.year) + "-" + Two(c.month) + "-" + Two(c.day);
    assert s[0..4] == Four(c.year) && s[5..7] == Two(c.month) && s[8..10] == Two(c.day);
    Num4Of(s, 0, c.year);
    Num2Of(s, 5, c.month);
    Num2Of(s, 8, c.day);
  }

  /** The date string of a day has ten characters and reads back as that day. */
  lemma ParseDayOfDateString(day: int)
    requires 0 <= FromDayNumber(day).year <= 9999
    ensures |DateString(day)| == 10
    ensures ParseDay(DateString(day)) == Some(day)
  {
    ParseYmdString(FromDayNumber(day));
  }

  /** `ParseDay` looks only at the first ten characters. */
  lemma ParseDayPrefix(d: string, rest: string)
    requires |d| == 10
    ensures ParseDay(d + rest) == ParseDay(d)
  {
    var s := d + rest;
    assert s[..10] == d;
  }

  /** `Date.parse` reads back the date string of a day as that day's midnight. */
  lemma ParseDateString(day: int)
    requires 0 <= FromDayNumber(day).year <= 9999
    ensures ParseDate(DateString(day)) == Some(day * MsPerDay)
  {
    ParseDayOfDateString(day);
  }

  /** The time string of a time of day reads back as that time. */
  lemma ParseTimeString(d: string, t: int)
    requires |d| == 10 && 0 <= t < MsPerDay
    ensures |d + TimeString(t)| == 24
    ensures ParseTime(d + TimeString(t)) == Some(t)
  {
    var s := d + TimeString(t);
    TimeOfDaySplit(t);
    var h, mi, se, ms := t / 3600000, t / 60000 % 60, t / 1000 % 60, t % 1000;
    assert s[10..] == TimeString(t);
    ParseTimeFields(s, h, mi, se, ms);
  }

  /** A "THH:mm:ss.sssZ" tail of in-range fields reads back as their milliseconds. */
  lemma ParseTimeFields(s: string, h: int, mi: int, se: int, ms: int)
    requires 0 <= h < 24 && 0 <= mi < 60 && 0 <= se < 60 && 0 <= ms < 1000 && |s| == 24
    requires s[10..] == ['T'] + Two(h) + [':'] + Two(mi) + [':'] + Two(se) + ['.'] + Three(ms) + ['Z']
    ensures ParseTime(s) == Some(h * 3600000 + mi * 60000 + se * 1000 + ms)
  {
    assert s[11..13] == Two(h) && s[14..16] == Two(mi) && s[17..19] == Two(se) && s[20..23] == Three(ms);
    assert s[10] == 'T' && s[13] == ':' && s[16] == ':' && s[19] == '.' && s[23] == 'Z';
    Num2Of(s, 11, h);
    Num2Of(s, 14, mi);
    Num2Of(s, 17, se);
    Num3Of(s, 20, ms);
  }

  /** Hours, minutes, seconds and milliseconds of a time of day recompose it. */
  lemma TimeOfDaySplit(t: int)
    requires 0 <= t < MsPerDay
    ensures t / 3600000 < 24 && t / 60000 % 60 < 60 && t / 1000 % 60 < 60
    ensures t == t / 3600000 * 3600000 + t / 60000 % 60 * 60000 + t / 1000 % 60 * 1000 + t % 1000
  {
  }

  /** `Date.parse` reads back `toISOString` exactly, for four-digit years. */
  lemma ParseIsoString(ms: int)
    requires 0 <= FromDayNumber(DayOf(ms)).year <= 9999
    ensures ParseDate(IsoString(ms)) == Some(ms)
  {
    var day, t := DayOf(ms), ms % MsPerDay;
    DaySplit(ms);
    ParseDayOfDateString(day);
    ParseDateTimeOf(DateString(day), day, t, ms);
    assert IsoString(ms) == DateString(day) + TimeString(t);
  }

  /** A time value is its day's midnight plus its time of day. */
  lemma DaySplit(ms: int)
    ensures 0 <= ms % MsPerDay < MsPerDay
    ensures DayOf(ms) * MsPerDay + ms % MsPerDay == ms
  {
  }

  /** A date part followed by a time string parses as that day plus that time. */
  lemma ParseDateTimeOf(d: string, day: int, t: int, ms: int)
    requires |d| == 10 && ParseDay(d) == Some(day) && 0 <= t < MsPerDay && ms == day * MsPerDay + t
    ensures ParseDate(d + TimeString(t)) == Some(ms)
  {
    ParseDayPrefix(d, TimeString(t));
    ParseTimeString(d, t);
  }

  /** `s.replace(/-/g, "")`. */
  function RemoveDashes(s: string): (r: string)
    ensures forall i :: 0 <= i < |r| ==> r[i] != '-'
  {
    if |s| == 0 then "" else (if s[0] == '-' then "" else [s[0]]) + RemoveDashes(s[1..])
  }

  lemma {:induction false} RemoveDashesAppend(a: string, b: string)
    ensures RemoveDashes(a + b) == RemoveDashes(a) + RemoveDashes(b)
    decreases |a|
  {
    if |a| == 0 {
      assert a + b == b;
    } else {
      assert (a + b)[1..] == a[1..] + b;
      RemoveDashesAppend(a[1..], b);
    }
  }

  lemma {:induction false} RemoveDashesOfDigits(s: string)
    requires AllDigits(s)
    ensures RemoveDashes(s) == s
    decreases |s|
  {
    if |s| > 0 {
      RemoveDashesOfDigits(s[1..]);
    }
  }

  /** Powers of ten. */
  function Pow10(k: nat): nat {
    if k == 0 then 1 else 10 * Pow10(k - 1)
  }

  /** The value of a concatenation of digit strings. */
  lemma {:induction false} DigitsValueAppend(a: string, b: string)
    requires AllDigits(a) && AllDigits(b)
    ensures AllDigits(a + b)
    ensures DigitsValue(a + b) == DigitsValue(a) * Pow10(|b|) + DigitsValue(b)
    decreases |b|
  {
    if |b| == 0 {
      assert a + b == a;
    } else {
      var b' := b[..|b| - 1];
      var ab := a + b;
      assert ab[..|ab| - 1] == a + b';
      assert ab[|ab| - 1] == b[|b| - 1];
      DigitsValueAppend(a, b');
      ShiftDigit(DigitsValue(a), Pow10(|b'|), DigitsValue(b'), DigitValue(b[|b| - 1]));
    }
  }

  lemma ShiftDigit(x: int, p: int, v: int, d: int)
    ensures (x * p + v) * 10 + d == x * (10 * p) + (v * 10 + d)
  {
  }

  /** The date key the itinerary derives from a date string, `Number(s.replace(/-/g, ""))`. */
  function KeyOfDateString(s: string): Option<int> {
    StringToNumber(RemoveDashes(s))
  }

  lemma TwoValue(n: int)
    requires 0 <= n < 100
    ensures DigitsValue(Two(n)) == n
  {
    var s := Two(n);
    assert s[..1][..0] == [];
    assert DigitsValue(s[..1]) == n / 10;
  }

  lemma FourValue(n: int)
    requires 0 <= n < 10000
    ensures DigitsValue(Four(n)) == n
  {
    TwoValue(n / 100);
    TwoValue(n % 100);
    DigitsValueAppend(Two(n / 100), Two(n % 100));
    assert Pow10(2) == 100;
  }

  /** For four-digit years, the key read from a day's date string is that day's YYYYMMDD. */
  lemma KeyOfDateStringIsDateKey(day: int)
    requires 0 <= FromDayNumber(day).year <= 9999
    ensures KeyOfDateString(DateString(day)) == Some(DateKey(day))
  {
    KeyOfYmdString(FromDayNumber(day));
  }

  /** The key of a civil date's string is its YYYYMMDD number. */
  lemma KeyOfYmdString(c: Ymd)
    requires Valid(c) && 0 <= c.year <= 9999
    ensures KeyOfDateString(YmdString(c)) == Some(YmdKey(c))
  {
    var ys, ms, ds := Four(c.year), Two(c.month), Two(c.day);
    assert YmdString(c) == ys + "-" + ms + "-" + ds;
    DigitsOfDate(c);
    KeyOfDashed(ys, ms, ds, YmdKey(c));
  }

  /** Dashes between digit groups are dropped and the digits read as one number. */
  lemma KeyOfDashed(ys: string, ms: string, ds: string, v: int)
    requires |ys| > 0 && AllDigits(ys) && AllDigits(ms) && AllDigits(ds)
    requires AllDigits(ys + ms + ds) && DigitsValue(ys + ms + ds) == v
    ensures KeyOfDateString(ys + "-" + ms + "-" + ds) == Some(v)
  {
    RemoveDashesOfDate(ys, ms, ds);
    StringToNumberOfDigitRun(ys + ms + ds);
  }

  lemma RemoveDashesOfDate(ys: string, ms: string, ds: string)
    requires AllDigits(ys) && AllDigits(ms) && AllDigits(ds)
    ensures RemoveDashes(ys + "-" + ms + "-" + ds) == ys + ms + ds
  {
    var t := ms + "-" + ds;
    assert ys + "-" + ms + "-" + ds == ys + "-" + t;
    RemoveDashesJoin(ys, t);
    RemoveDashesJoin(ms, ds);
    RemoveDashesOfDigits(ds);
    assert ys + (ms + ds) == ys + ms + ds;
  }

  /** A dash after a run of digits disappears and the digits are kept. */
  lemma {:induction false} RemoveDashesJoin(a: string, b: string)
    requires AllDigits(a)
    ensures RemoveDashes(a + "-" + b) == a + RemoveDashes(b)
    decreases |a|
  {
    var s := a + "-" + b;
    if |a| == 0 {
      assert s == "-" + b;
      assert s[1..] == b;
    } else {
      assert s[1..] == a[1..] + "-" + b;
      RemoveDashesJoin(a[1..], b);
      assert [a[0]] + (a[1..] + RemoveDashes(b)) == a + RemoveDashes(b);
    }
  }

  lemma DigitsOfDate(c: Ymd)
    requires Valid(c) && 0 <= c.year <= 9999
    ensures AllDigits(Four(c.year) + Two(c.month) + Two(c.day))
    ensures DigitsValue(Four(c.year) + Two(c.month) + Two(c.day)) == YmdKey(c)
  {
    var ys, ms, ds := Four(c.year), Two(c.month), Two(c.day);
    assert Pow10(2) == 100;
    FourValue(c.year);
    TwoValue(c.month);
    TwoValue(c.day);
    DigitsValueAppend(ys, ms);
    assert DigitsValue(ys + ms) == c.year * 100 + c.month;
    DigitsValueAppend(ys + ms, ds);
    assert DigitsValue(ys + ms + ds) == (c.year * 100 + c.month) * 100 + c.day;
  }

  /** `s.split("T")[0]`: the text before the first 'T'. */
  function BeforeT(s: string): (r: string)
    ensures |r| <= |s| && r == s[..|r|]
    ensures forall i :: 0 <= i < |r| ==> r[i] != 'T'
    ensures |r| < |s| ==> s[|r|] == 'T'
  {
    if |s| == 0 || s[0] == 'T' then "" else [s[0]] + BeforeT(s[1..])
  }

  /** `new Date(ms).toISOString().split("T")[0]`, the date part of a time value. */
  function IsoDate(ms: int): string {
    BeforeT(IsoString(ms))
  }

  /** The date part of `toISOString()` is the "YYYY-MM-DD" of the day (with a signed
      six-digit year outside 0..9999). */
  lemma IsoDateIsDateString(ms: int)
    ensures IsoDate(ms) == DateString(DayOf(ms))
  {
    var d := DateString(DayOf(ms));
    var c := FromDayNumber(DayOf(ms));
    YearStringNoT(c.year);
    assert forall i :: 0 <= i < |d| ==> d[i] != 'T';
    BeforeTOf(d, TimeString(ms % MsPerDay));
  }

  lemma YearStringNoT(y: int)
    ensures forall i :: 0 <= i < |YearString(y)| ==> YearString(y)[i] != 'T'
  {
  }

  lemma {:induction false} BeforeTOf(a: string, b: string)
    requires forall i :: 0 <= i < |a| ==> a[i] != 'T'
    requires |b| > 0 && b[0] == 'T'
    ensures BeforeT(a + b) == a
    decreases |a|
  {
    if |a| > 0 {
      assert (a + b)[1..] == a[1..] + b;
      BeforeTOf(a[1..], b);
    } else {
      assert a + b == b;
    }
  }

  /** For four-digit years the date part is ten characters long and keys to `DateKey`. */
  lemma IsoDateKey(ms: int)
    requires 0 <= FromDayNumber(DayOf(ms)).year <= 9999
    ensures |IsoDate(ms)| == 10
    ensures KeyOfDateString(IsoDate(ms)) == Some(DateKey(DayOf(ms)))
    ensures ParseDate(IsoDate(ms)) == Some(DayOf(ms) * MsPerDay)
  {
    IsoDateIsDateString(ms);
    KeyOfDateStringIsDateKey(DayOf(ms));
    ParseDateString(DayOf(ms));
  }

  /** `s.slice(0, 10)`. */
  function Slice10(s: string): (r: string)
    ensures |r| == if |s| < 10 then |s| else 10
    ensures r == s[..|r|]
  {
    if |s| < 10 then s else s[..10]
  }

  /** `+new Date(ms).toISOString().slice(0, 10).replace(/-/g, "")`, the key written beside a date. */
  function IsoKey(ms: int): Option<int> {
    KeyOfDateString(Slice10(IsoString(ms)))
  }

  /** For four-digit years the first ten characters of `toISOString()` are the date part,
      and the key is the day's `DateKey`. */
  lemma IsoKeyIsDateKey(ms: int)
    requires 0 <= FromDayNumber(DayOf(ms)).year <= 9999
    ensures Slice10(IsoString(ms)) == IsoDate(ms)
    ensures IsoKey(ms) == Some(DateKey(DayOf(ms)))
  {
    var d := DateString(DayOf(ms));
    IsoDateIsDateString(ms);
    ParseDayOfDateString(DayOf(ms));
    assert (d + TimeString(ms % MsPerDay))[..10] == d;
    IsoDateKey(ms);
  }

  /** Midnight of a day falls on that day. */
  lemma MidnightDay(day: int)
    ensures DayOf(day * MsPerDay) == day
  {
  }

  /** Any time of a day falls on that day. */
  lemma DayOfMidnight(day: int, t: int)
    requires 0 <= t < MsPerDay
    ensures DayOf(day * MsPerDay + t) == day
  {
  }

  /** Distinct valid dates have distinct keys. */
  lemma YmdKeyInjective(a: Ymd, b: Ymd)
    requires Valid(a) && Valid(b) && YmdKey(a) == YmdKey(b)
    ensures a == b
  {
    var ra := a.month * 100 + a.day;
    var rb := b.month * 100 + b.day;
    assert 0 <= ra < 10000 && 0 <= rb < 10000;
    assert a.year == b.year;
    assert a.month == b.month;
  }

  /** Distinct days have distinct keys. */
  lemma DateKeyInjective(d1: int, d2: int)
    requires DateKey(d1) == DateKey(d2)
    ensures d1 == d2
  {
    YmdKeyInjective(FromDayNumber(d1), FromDayNumber(d2));
  }
}

=== FILE: draft_hook.dfy ===
/** The draft lifecycle of `useQuotationDraft` (src/hooks/useQuoatationDraft.jsx).

    The hook owns the form values and a `loading` flag. Each time its dependencies
    (trip id, skip flag, unique id) change, an effect run resets the form: to the
    defaults when the draft is skipped, otherwise to the stored draft spread over the
    defaults. A draft load resolves asynchronously; a run that has been superseded or
    unmounted ignores its result. Edits are saved through a trailing-edge debounce of
    700 ms, and only for a non-empty trip id with the draft not skipped.

    Timers and promises are explicit state: the pending debounce timer is one slot
    (`Option<Timer>`) with its due time on a logical clock, and started loads are a list
    of pending results tagged with the effect run that started them. */
module DraftHook {
  import opened Results
  import opened JsValue
  import opened Storage
  import opened DraftStore

  /** The debounce delay of the autosave. */
  const DebounceMs: int := 700

  /** The dependencies of the load effect: `[tripId, skipDraftLoad, uniqueId]`. */
  datatype Deps = Deps(tripId: string, skip: bool, uniqueId: JsVal)

  /** A draft load started by effect run `run`, and the value it will deliver. */
  datatype PendingLoad = PendingLoad(run: nat, saved: JsVal)

  /** The debounce timer: it calls the save with `values` at time `due`. */
  datatype Timer = Timer(due: int, values: JsVal)

  datatype Hook = Hook(
    deps: Deps,
    defaults: JsVal,
    form: JsVal,
    loading: bool,
    run: nat,
    mounted: bool,
    loads: seq<PendingLoad>,
    timer: Option<Timer>)

  /** A hook together with the storage it writes to. */
  datatype World = World(hook: Hook, store: Store)

  /** The form values a reset applies: the draft spread over the defaults when one was found. */
  function Restored(defaults: JsVal, saved: JsVal): (r: JsVal)
    ensures Truthy(saved) ==> forall k :: Member(r, k) == if k in Fields(saved) then Fields(saved)[k] else Member(defaults, k)
    ensures !Truthy(saved) ==> r == defaults
  {
    if Truthy(saved) then
      forall k ensures Member(Spread(defaults, saved), k) == if k in Fields(saved) then Fields(saved)[k] else Member(defaults, k) {
        SpreadMember(defaults, saved, k);
      }
      Spread(defaults, saved)
    else defaults
  }

  /** One run of the load effect. With the draft skipped, or with an empty trip id, the
      reset happens at once; otherwise a load is started and the form waits for it. */
  function RunEffect(h: Hook, st: Store): (r: Hook)
    ensures r.run == h.run + 1 && r.deps == h.deps && r.defaults == h.defaults
    ensures r.mounted == h.mounted && r.timer == h.timer
    ensures h.deps.skip || h.deps.tripId == "" ==> r.form == h.defaults && !r.loading && r.loads == h.loads
    ensures !h.deps.skip && h.deps.tripId != "" ==>
      r.form == h.form && r.loading && r.loads == h.loads + [PendingLoad(r.run, Load(st, h.deps.tripId))]
  {
    var run := h.run + 1;
    if h.deps.skip || h.deps.tripId == "" then
      h.(run := run, form := h.defaults, loading := false)
    else
      h.(run := run, loading := true, loads := h.loads + [PendingLoad(run, Load(st, h.deps.tripId))])
  }

  /** The first render: the form starts at the defaults with `loading` true, and the effect runs. */
  function Mount(deps: Deps, defaults: JsVal, st: Store): Hook {
    RunEffect(Hook(deps, defaults, defaults, true, 0, true, [], None), st)
  }

  /** A re-render with new arguments: the defaults are always taken up, and the effect
      runs again only if a dependency changed. */
  function Render(h: Hook, deps: Deps, defaults: JsVal, st: Store): (r: Hook)
    ensures deps == h.deps ==> r == h.(defaults := defaults)
    ensures deps != h.deps ==> r == RunEffect(h.(deps := deps, defaults := defaults), st)
  {
    var h' := h.(defaults := defaults);
    if deps == h.deps then h' else RunEffect(h'.(deps := deps), st)
  }

  /** The pending load at index `i` resolves. Only the live run of a mounted hook resets the
      form, and it merges with the defaults current at that moment. */
  function Resolve(h: Hook, i: nat): (r: Hook)
    requires i < |h.loads|
    ensures r.loads == h.loads[..i] + h.loads[i + 1..]
    ensures h.loads[i].run != h.run || !h.mounted ==> r == h.(loads := r.loads)
    ensures h.loads[i].run == h.run && h.mounted ==>
      r.form == Restored(h.defaults, h.loads[i].saved) && !r.loading
  {
    var l := h.loads[i];
    var rest := h.loads[..i] + h.loads[i + 1..];
    if l.run == h.run && h.mounted then
      h.(form := Restored(h.defaults, l.saved), loading := false, loads := rest)
    else h.(loads := rest)
  }

  /** Unmounting: the effect's cleanup marks it unmounted. The debounce timer is not
      cancelled, so an autosave already scheduled still happens. */
  function Unmount(h: Hook): (r: Hook)
    ensures !r.mounted && r.timer == h.timer && r.form == h.form
  {
    h.(mounted := false)
  }

  /** The debounced call: any pending timer is replaced by one for the latest values. */
  function Call(timer: Option<Timer>, now: int, values: JsVal): (r: Option<Timer>)
    ensures r == Some(Timer(now + DebounceMs, values))
  {
    Some(Timer(now + DebounceMs, values))
  }

  /** Time advances to `now`: a due timer fires with its values and is gone. */
  function Fire(timer: Option<Timer>, now: int): (r: (Option<Timer>, Option<JsVal>))
    ensures timer.Some? && timer.value.due <= now ==> r == (None, Some(timer.value.values))
    ensures !(timer.Some? && timer.value.due <= now) ==> r == (timer, None)
  {
    if timer.Some? && timer.value.due <= now then (None, Some(timer.value.values)) else (timer, None)
  }

  /** Whether `saveValues` writes: only for a trip id, and never when the draft is skipped. */
  predicate SaveGate(deps: Deps) {
    deps.tripId != "" && !deps.skip
  }

  /** `saveValues(values)`, with the dependencies captured by the latest render. */
  function SaveValues(deps: Deps, st: Store, values: JsVal, now: int): (r: Store)
    ensures SaveGate(deps) ==> r == Save(st, deps.tripId, values, now)
    ensures !SaveGate(deps) ==> r == st
  {
    if SaveGate(deps) then Save(st, deps.tripId, values, now) else st
  }

  /** The user edits the form. The watcher exists only while mounted and not skipping,
      and then schedules the debounced save. */
  function Edit(h: Hook, values: JsVal, now: int): (r: Hook)
    ensures r.form == values
    ensures h.deps.skip || !h.mounted ==> r.timer == h.timer
    ensures !h.deps.skip && h.mounted ==> r.timer == Some(Timer(now + DebounceMs, values))
  {
    var timer := if !h.deps.skip && h.mounted then Call(h.timer, now, values) else h.timer;
    h.(form := values, timer := timer)
  }

  /** The clock reaches `now`; a due timer saves the values it carries. */
  function Tick(w: World, now: int): (r: World)
    ensures r.hook == w.hook.(timer := Fire(w.hook.timer, now).0)
    ensures Fire(w.hook.timer, now).1.None? ==> r.store == w.store
    ensures Fire(w.hook.timer, now).1.Some? ==>
      r.store == SaveValues(w.hook.deps, w.store, Fire(w.hook.timer, now).1.value, now)
  {
    var (timer, fired) := Fire(w.hook.timer, now);
    var st := if fired.Some? then SaveValues(w.hook.deps, w.store, fired.value, now) else w.store;
    World(w.hook.(timer := timer), st)
  }

  /** Skipping the draft resets to exactly the defaults without consulting storage. */
  lemma SkipUsesDefaults(deps: Deps, defaults: JsVal, st1: Store, st2: Store)
    requires deps.skip
    ensures Mount(deps, defaults, st1) == Mount(deps, defaults, st2)
    ensures Mount(deps, defaults, st1).form == defaults && !Mount(deps, defaults, st1).loading
    ensures Mount(deps, defaults, st1).loads == []
  {
  }

  /** Without skipping, the form becomes the stored draft spread over the defaults once the
      load resolves, draft keys winning; with no draft it is exactly the defaults. */
  lemma LoadMergesDraft(deps: Deps, defaults: JsVal, st: Store)
    requires !deps.skip && deps.tripId != ""
    ensures var h := Mount(deps, defaults, st);
      h.loading && |h.loads| == 1 &&
      var r := Resolve(h, 0);
      !r.loading && r.form == Restored(defaults, Load(st, deps.tripId))
  {
  }

  /** An empty trip id resets to the defaults at once. */
  lemma EmptyTripUsesDefaults(deps: Deps, defaults: JsVal, st: Store)
    requires deps.tripId == ""
    ensures Mount(deps, defaults, st).form == defaults && !Mount(deps, defaults, st).loading
  {
  }

  /** A load that resolves after unmounting, or after its run was superseded, changes
      neither the form nor `loading`. */
  lemma LateLoadIgnored(h: Hook, i: nat)
    requires i < |h.loads|
    requires !h.mounted || h.loads[i].run != h.run
    ensures Resolve(h, i).form == h.form && Resolve(h, i).loading == h.loading
  {
  }

  /** A run superseded by a dependency change cannot reset the form any more. */
  lemma SupersededRunIgnored(h: Hook, deps: Deps, defaults: JsVal, st: Store, i: nat)
    requires i < |h.loads| && h.loads[i].run <= h.run && deps != h.deps
    ensures var h' := Render(h, deps, defaults, st);
      i < |h'.loads| && Resolve(h', i).form == h'.form && Resolve(h', i).loading == h'.loading
  {
  }

  /** New defaults alone trigger no reset: form, loading and pending loads stay as they are. */
  lemma DefaultsAloneNoReset(h: Hook, defaults: JsVal, st: Store)
    ensures var r := Render(h, h.deps, defaults, st);
      r.form == h.form && r.loading == h.loading && r.loads == h.loads && r.run == h.run
  {
  }

  /** With the draft skipped no edit schedules a save, so a tick never writes. */
  lemma SkipNeverSaves(h: Hook, values: JsVal, now: int, later: int, st: Store)
    requires h.deps.skip && h.timer.None?
    ensures Tick(World(Edit(h, values, now), st), later).store == st
  {
  }

  /** A call made while another is pending replaces it: only the last values are kept. */
  lemma CallReplacesPending(timer: Option<Timer>, t1: int, v1: JsVal, t2: int, v2: JsVal)
    ensures Call(Call(timer, t1, v1), t2, v2) == Some(Timer(t2 + DebounceMs, v2))
  {
  }

  /** Processing a sequence of calls at times `ts` with values `vs`: before each call the
      clock reaches its time (firing a timer that is due), then the call is made. */
  function Calls(timer: Option<Timer>, ts: seq<int>, vs: seq<JsVal>): (r: (Option<Timer>, seq<JsVal>))
    requires |ts| == |vs|
    decreases |ts|
  {
    if |ts| == 0 then (timer, [])
    else
      var fired := Fire(timer, ts[0]);
      var rest := Calls(Call(fired.0, ts[0], vs[0]), ts[1..], vs[1..]);
      (rest.0, (if fired.1.Some? then [fired.1.value] else []) + rest.1)
  }

  /** A burst of calls less than 700 ms apart fires nothing while it lasts, and leaves one
      timer carrying the last call's values, due 700 ms after it. */
  lemma {:induction false} Burst(timer: Option<Timer>, ts: seq<int>, vs: seq<JsVal>)
    requires |ts| == |vs| > 0
    requires timer.None? || timer.value.due > ts[0]
    requires forall i :: 0 <= i < |ts| - 1 ==> ts[i] <= ts[i + 1] < ts[i] + DebounceMs
    ensures Calls(timer, ts, vs) == (Some(Timer(ts[|ts| - 1] + DebounceMs, vs[|vs| - 1])), [])
    decreases |ts|
  {
    assert Fire(timer, ts[0]) == (timer, None);
    var t1 := Call(timer, ts[0], vs[0]);
    var rest := Calls(t1, ts[1..], vs[1..]);
    assert [] + rest.1 == rest.1;
    assert Calls(timer, ts, vs) == (rest.0, [] + rest.1);
    if |ts| > 1 {
      assert ts[1] < ts[0] + DebounceMs;
      forall i | 0 <= i < |ts| - 2
        ensures ts[1..][i] <= ts[1..][i + 1] < ts[1..][i] + DebounceMs
      {
        assert ts[1..][i] == ts[i + 1] && ts[1..][i + 1] == ts[i + 2];
      }
      Burst(t1, ts[1..], vs[1..]);
      assert ts[1..][|ts[1..]| - 1] == ts[|ts| - 1];
      assert vs[1..][|vs[1..]| - 1] == vs[|vs| - 1];
    }
  }

  /** After a burst, the clock reaching the last call's time plus 700 ms saves exactly once,
      with the last values. */
  lemma BurstSavesOnce(ts: seq<int>, vs: seq<JsVal>)
    requires |ts| == |vs| > 0
    requires forall i :: 0 <= i < |ts| - 1 ==> ts[i] <= ts[i + 1] < ts[i] + DebounceMs
    ensures var (timer, fired) := Calls(None, ts, vs);
      fired == [] && Fire(timer, ts[|ts| - 1] + DebounceMs) == (None, Some(vs[|vs| - 1]))
  {
    Burst(None, ts, vs);
  }

  /** Unmounting does not cancel a scheduled autosave: it still writes when due. */
  lemma SaveSurvivesUnmount(h: Hook, st: Store, values: JsVal, now: int)
    requires h.mounted && SaveGate(h.deps)
    ensures var w := Tick(World(Unmount(Edit(h, values, now)), st), now + DebounceMs);
      w.store == Save(st, h.deps.tripId, values, now + DebounceMs) && w.hook.timer.None?
  {
  }
}

=== FILE: draft_store.dfy ===
/** The draft store of src/storage/quotationDraft.js: one entry per trip under the key
    "quotationDraft:" + tripId, holding the envelope `{v: 1, updatedAt, data}` as JSON.
    Every operation swallows its own failures, so none of them can throw; an empty trip id
    turns each into a no-op. `now` is the value `Date.now()` returns. Save and Clear are the
    writes that succeed; SaveAttempt, ClearAttempt and ListAllDrafts also take the outcome
    of the storage call. */
module DraftStore {
  import opened Results
  import opened Text
  import opened JsValue
  import opened Storage

  const Prefix: string := "quotationDraft:"

  /** The storage key of a trip's draft. */
  function Key(tripId: string): (k: string)
    ensures StartsWith(k, Prefix) && k[|Prefix|..] == tripId
  {
    Prefix + tripId
  }

  /** Different trips never share a key. */
  lemma KeyInjective(a: string, b: string)
    ensures Key(a) == Key(b) <==> a == b
  {
    if Key(a) == Key(b) {
      assert a == Key(a)[|Prefix|..];
    }
  }

  /** The stored envelope, as `JSON.parse` will read it back. */
  function Envelope(data: JsVal, now: int): JsVal {
    JsonValue(Obj(map["v" := Num(1), "updatedAt" := Num(now), "data" := data]))
  }

  /** `saveQuotationDraft(tripId, data)`: the trip's entry is replaced by a fresh envelope. */
  function Save(st: Store, tripId: string, data: JsVal, now: int): (r: Store)
    ensures tripId == "" ==> r == st
    ensures tripId != "" ==> Key(tripId) in r && r[Key(tripId)] == Json(Envelope(data, now))
    ensures r.Keys == st.Keys + (if tripId == "" then {} else {Key(tripId)})
    ensures forall k :: k in st && (tripId == "" || k != Key(tripId)) ==> r[k] == st[k]
  {
    if tripId == "" then st else st[Key(tripId) := Json(Envelope(data, now))]
  }

  /** `loadQuotationDraft(tripId)`: the `data` of the stored envelope, or `null`. */
  function Load(st: Store, tripId: string): (r: JsVal)
    ensures !r.Undefined?
    ensures tripId == "" || Key(tripId) !in st || st[Key(tripId)].Unparseable? ==> r == Null
    ensures tripId != "" && Key(tripId) in st && st[Key(tripId)].Json? ==>
      var p := st[Key(tripId)].value;
      r == if IsNullish(Member(p, "data")) then Null else Member(p, "data")
  {
    if tripId == "" || Key(tripId) !in st then Null
    else
      match st[Key(tripId)]
      case Unparseable => Null
      case Json(p) => Coalesce(Member(p, "data"), Null)
  }

  /** `clearQuotationDraft(tripId)`: the trip's entry is removed. */
  function Clear(st: Store, tripId: string): (r: Store)
    ensures tripId == "" ==> r == st
    ensures tripId != "" ==> Key(tripId) !in r
    ensures r.Keys == st.Keys - (if tripId == "" then {} else {Key(tripId)})
    ensures forall k :: k in r ==> r[k] == st[k]
  {
    if tripId == "" then st else st - {Key(tripId)}
  }

  /** `listAllDrafts()` over the key enumeration `keys` of `Object.keys(localStorage)`. */
  function ListDrafts(keys: seq<string>): (r: seq<string>)
    ensures forall k :: k in r <==> k in keys && StartsWith(k, Prefix)
    ensures forall k :: StartsWith(k, Prefix) ==> multiset(r)[k] == multiset(keys)[k]
    ensures forall k :: !StartsWith(k, Prefix) ==> multiset(r)[k] == 0
  {
    if |keys| == 0 then []
    else
      var rest := ListDrafts(keys[1..]);
      assert keys == [keys[0]] + keys[1..];
      if StartsWith(keys[0], Prefix) then [keys[0]] + rest else rest
  }

  /** Whether `localStorage` accepted a write or threw (quota exceeded, storage disabled). */
  datatype Write = Written | Threw

  /** `saveQuotationDraft` with the outcome of its `setItem`: the catch swallows a throw, so a
      failed write leaves every entry as it was. */
  function SaveAttempt(st: Store, tripId: string, data: JsVal, now: int, w: Write): (r: Store)
    ensures w.Threw? || tripId == "" ==> r == st
    ensures w.Written? ==> r == Save(st, tripId, data, now)
  {
    if w.Threw? then st else Save(st, tripId, data, now)
  }

  /** `clearQuotationDraft` with the outcome of its `removeItem`: a failed removal leaves the
      store as it was. */
  function ClearAttempt(st: Store, tripId: string, w: Write): (r: Store)
    ensures w.Threw? || tripId == "" ==> r == st
    ensures w.Written? ==> r == Clear(st, tripId)
  {
    if w.Threw? then st else Clear(st, tripId)
  }

  /** `listAllDrafts()` when `Object.keys(localStorage)` gives `keys`, or throws (`None`):
      the draft keys, or none at all. */
  function ListAllDrafts(keys: Option<seq<string>>): (r: seq<string>)
    ensures keys.None? ==> r == []
    ensures keys.Some? ==> forall k :: k in r <==> k in keys.value && StartsWith(k, Prefix)
  {
    if keys.None? then [] else ListDrafts(keys.value)
  }

  /** A save that throws keeps the trip's earlier draft: the next load returns that stale
      draft, not "no draft", while a save that succeeds is read back. */
  lemma FailedSaveKeepsDraft(st: Store, tripId: string, prev: JsVal, t0: int, data: JsVal, now: int)
    requires tripId != ""
    ensures Load(SaveAttempt(Save(st, tripId, prev, t0), tripId, data, now, Threw), tripId) == JsonValue(prev)
    ensures Load(SaveAttempt(Save(st, tripId, prev, t0), tripId, data, now, Written), tripId) == JsonValue(data)
  {
    SaveThenLoad(st, tripId, prev, t0);
    SaveThenLoad(Save(st, tripId, prev, t0), tripId, data, now);
  }

  /** A clear that throws leaves the draft to be loaded again; one that succeeds leaves none. */
  lemma FailedClearKeepsDraft(st: Store, tripId: string, prev: JsVal, t0: int)
    requires tripId != ""
    ensures Load(ClearAttempt(Save(st, tripId, prev, t0), tripId, Threw), tripId) == JsonValue(prev)
    ensures Load(ClearAttempt(Save(st, tripId, prev, t0), tripId, Written), tripId) == Null
  {
    SaveThenLoad(st, tripId, prev, t0);
  }

  /** Loading after saving gives back the data as JSON carries it. */
  lemma SaveThenLoad(st: Store, tripId: string, data: JsVal, now: int)
    requires tripId != ""
    ensures Load(Save(st, tripId, data, now), tripId) == JsonValue(data)
  {
    var env := Envelope(data, now);
    if data.Undefined? {
      assert "data" !in env.fields;
    } else {
      assert Member(env, "data") == JsonValue(data);
    }
  }

  /** For JSON data the round trip is exact. */
  lemma SaveThenLoadJson(st: Store, tripId: string, data: JsVal, now: int)
    requires tripId != "" && IsJson(data)
    ensures Load(Save(st, tripId, data, now), tripId) == data
  {
    SaveThenLoad(st, tripId, data, now);
    JsonOfJson(data);
  }

  /** A save does not depend on what was stored before: nothing is merged. */
  lemma SaveReplaces(st1: Store, st2: Store, tripId: string, data: JsVal, now: int)
    requires tripId != ""
    ensures Save(st1, tripId, data, now)[Key(tripId)] == Save(st2, tripId, data, now)[Key(tripId)]
  {
  }

  /** Saving or clearing one trip leaves the draft of every other trip as it was. */
  lemma OtherTripsUnchanged(st: Store, tripId: string, other: string, data: JsVal, now: int)
    requires other != tripId
    ensures Load(Save(st, tripId, data, now), other) == Load(st, other)
    ensures Load(Clear(st, tripId), other) == Load(st, other)
  {
    KeyInjective(tripId, other);
  }

  /** After a clear, there is no draft to load. */
  lemma ClearThenLoad(st: Store, tripId: string)
    ensures Load(Clear(st, tripId), tripId) == Null
  {
  }

  /** A saved draft's key is listed by any enumeration of the store's keys. */
  lemma SavedKeyListed(st: Store, keys: seq<string>, tripId: string, data: JsVal, now: int)
    requires tripId != ""
    requires forall k :: k in keys <==> k in Save(st, tripId, data, now)
    ensures Key(tripId) in ListDrafts(keys)
  {
    var st' := Save(st, tripId, data, now);
    assert Key(tripId) in st';
    assert Key(tripId) in keys;
  }

  /** Every listed key is the draft key of the trip id that follows the prefix. */
  lemma ListedKeysAreDraftKeys(keys: seq<string>)
    ensures forall k :: k in ListDrafts(keys) ==> k == Key(k[|Prefix|..])
  {
    forall k | k in ListDrafts(keys)
      ensures k == Key(k[|Prefix|..])
    {
      assert StartsWith(k, Prefix);
      assert k == k[..|Prefix|] + k[|Prefix|..];
    }
  }
}

=== FILE: flights.dfy ===
/** Flight search and selection of src/components/Forms/FlightsSection.jsx: the guard before a
    search, the normalisation of the search response into a result list, selection toggled
    by `booking_token`, and the saved flight cost.

    The request itself is left out: a search is given the outcome of the request as a
    parameter. Prices are whole numbers (`parseFloat` reads the integer part). */
module Flights {
  import opened Results
  import opened Text
  import opened JsValue

  /** The four values a search needs: departure city, arrival city, date and adults. */
  datatype SearchInput = SearchInput(origin: JsVal, destination: JsVal, departureDate: JsVal, adults: JsVal)

  /** The inputs as `watch` reads them from the form. */
  function InputOf(form: JsVal): SearchInput {
    var outbound := Member(form, "OutboundFlight");
    SearchInput(Member(outbound, "from"), Member(outbound, "to"), Member(outbound, "departureDate"), Member(form, "NoOfPax"))
  }

  /** The query string of the search: `None` when a value is missing and the search is refused
      with an alert, before any request. */
  function Query(input: SearchInput): (r: Option<map<string, string>>)
    ensures r.Some? <==> Truthy(input.origin) && Truthy(input.destination) && Truthy(input.departureDate) && Truthy(input.adults)
    ensures r.Some? ==> "departure_id" in r.value && r.value["departure_id"] == ToStr(input.origin)
    ensures r.Some? ==> "arrival_id" in r.value && r.value["arrival_id"] == ToStr(input.destination)
    ensures r.Some? ==> "outbound_date" in r.value && r.value["outbound_date"] == ToStr(input.departureDate)
    ensures r.Some? ==> "adults" in r.value && r.value["adults"] == ToStr(input.adults)
    ensures r.Some? ==> "currency" in r.value && r.value["currency"] == "INR"
  {
    if !Truthy(input.origin) || !Truthy(input.destination) || !Truthy(input.departureDate) || !Truthy(input.adults) then None
    else Some(map[
      "type" := "2", "currency" := "INR", "deep_search" := "False", "sort_by" := "2", "isBase64Encoded" := "false",
      "outbound_date" := ToStr(input.departureDate), "adults" := ToStr(input.adults),
      "arrival_id" := ToStr(input.destination), "departure_id" := ToStr(input.origin)])
  }

  /** How a search request ended: a parsed body, or a failure (network or JSON). */
  datatype Response = Received(data: JsVal) | Failed

  /** `typeof data === "object"` for a truthy value that is not an array. */
  predicate IsObjectLike(v: JsVal) {
    v.Obj? || v.Date?
  }

  /** The result list of a response. */
  function ResultsOf(resp: Response): (r: seq<JsVal>)
    ensures resp.Failed? ==> r == []
    ensures resp.Received? && Member(resp.data, "other_flights").Arr? ==> r == Member(resp.data, "other_flights").items
    ensures resp.Received? && !Member(resp.data, "other_flights").Arr? && resp.data.Arr? ==> r == resp.data.items
    ensures resp.Received? && !Member(resp.data, "other_flights").Arr? && IsObjectLike(resp.data) ==> r == [resp.data]
  {
    match resp
    case Failed => []
    case Received(data) =>
      var other := Member(data, "other_flights");
      if other.Arr? then other.items
      else if data.Arr? then data.items
      else if Truthy(data) && IsObjectLike(data) then [data]
      else []
  }

  /** Every response shape gives a list, and only a response that is neither an array nor an
      object-like value, or has none of the shapes, gives the empty list. */
  lemma ResultsOfScalar(data: JsVal)
    requires !data.Arr? && !IsObjectLike(data)
    ensures ResultsOf(Received(data)) == []
  {
  }

  /** The section's state. */
  datatype State = State(results: seq<JsVal>, selected: seq<JsVal>, loading: bool, modalOpen: bool)

  /** `searchFlights`: a refused search changes nothing; otherwise the modal opens and the
      results become those of the response, the loading flag cleared at the end. */
  function Search(st: State, input: SearchInput, resp: Response): (r: State)
    ensures Query(input).None? ==> r == st
    ensures Query(input).Some? ==> r == State(ResultsOf(resp), st.selected, false, true)
  {
    if Query(input).None? then st else State(ResultsOf(resp), st.selected, false, true)
  }

  /** A failed search leaves no results, and the selection as it was. */
  lemma FailedSearchEmpties(st: State, input: SearchInput)
    requires Query(input).Some?
    ensures Search(st, input, Failed).results == [] && Search(st, input, Failed).selected == st.selected
  {
  }

  /** The booking token of a flight. */
  function Token(f: JsVal): JsVal {
    Member(f, "booking_token")
  }

  /** `selected.find(f => f.booking_token === token)`. */
  function Find(selected: seq<JsVal>, token: JsVal): (r: Option<JsVal>)
    ensures r.Some? ==> r.value in selected && StrictEq(Token(r.value), token)
    ensures r.None? ==> forall f :: f in selected ==> !StrictEq(Token(f), token)
  {
    if |selected| == 0 then None
    else if StrictEq(Token(selected[0]), token) then Some(selected[0])
    else Find(selected[1..], token)
  }

  /** `selected.filter(f => f.booking_token !== token)`. */
  function Without(selected: seq<JsVal>, token: JsVal): (r: seq<JsVal>)
    ensures |r| <= |selected|
    ensures (exists f :: f in selected && StrictEq(Token(f), token)) ==> |r| < |selected|
    ensures forall f :: f in r <==> f in selected && !StrictEq(Token(f), token)
  {
    if |selected| == 0 then []
    else if StrictEq(Token(selected[0]), token) then Without(selected[1..], token)
    else [selected[0]] + Without(selected[1..], token)
  }

  /** `toggleFlightSelection`: a selected flight with the same token removes every flight with
      that token; otherwise the flight is appended. */
  function Toggle(selected: seq<JsVal>, flight: JsVal): (r: seq<JsVal>)
    ensures (exists f :: f in selected && StrictEq(Token(f), Token(flight)) && Truthy(f)) || r == selected + [flight]
    ensures (forall f :: f in selected ==> Truthy(f)) && (exists f :: f in selected && StrictEq(Token(f), Token(flight))) ==>
      |r| < |selected| && forall g :: g in r <==> g in selected && !StrictEq(Token(g), Token(flight))
  {
    var found := Find(selected, Token(flight));
    if found.Some? && Truthy(found.value) then Without(selected, Token(flight)) else selected + [flight]
  }

  /** Removing a token that no flight has changes nothing. */
  lemma {:induction false} WithoutAbsent(selected: seq<JsVal>, token: JsVal)
    requires forall f :: f in selected ==> !StrictEq(Token(f), token)
    ensures Without(selected, token) == selected
    decreases |selected|
  {
    if |selected| > 0 {
      assert selected[0] in selected;
      WithoutAbsent(selected[1..], token);
      assert [selected[0]] + selected[1..] == selected;
    }
  }

  /** The filter distributes over concatenation. */
  lemma {:induction false} WithoutAppend(a: seq<JsVal>, b: seq<JsVal>, token: JsVal)
    ensures Without(a + b, token) == Without(a, token) + Without(b, token)
    decreases |a|
  {
    if |a| == 0 {
      assert a + b == b;
    } else {
      assert (a + b)[1..] == a[1..] + b;
      WithoutAppend(a[1..], b, token);
    }
  }

  /** Toggling a flight whose token no selected flight has, and toggling it again, restores the
      selection (the flight is an object, and its token is not NaN). */
  lemma ToggleTwiceRestores(selected: seq<JsVal>, flight: JsVal)
    requires flight.Obj? && !Token(flight).NaN?
    requires forall f :: f in selected ==> !StrictEq(Token(f), Token(flight))
    ensures Toggle(Toggle(selected, flight), flight) == selected
  {
    var once := selected + [flight];
    assert Toggle(selected, flight) == once;
    assert flight in once;
    WithoutAppend(selected, [flight], Token(flight));
    WithoutAbsent(selected, Token(flight));
    assert Without([flight], Token(flight)) == [];
  }

  /** Two flights without a token share the token `undefined`: toggling one of them off
      deselects all of them. */
  lemma TokenlessFlightsGoTogether(selected: seq<JsVal>, flight: JsVal, other: JsVal)
    requires flight.Obj? && other.Obj? && Token(flight) == Undefined && Token(other) == Undefined
    requires other in selected && forall f :: f in selected ==> f.Obj?
    ensures forall f :: f in Toggle(selected, flight) ==> Token(f) != Undefined
  {
    assert StrictEq(Token(other), Token(flight));
    var found := Find(selected, Token(flight));
    assert found.Some?;
  }

  /** `parseFloat(v) || 0`: NaN and zero read as zero. */
  function FloatOr0(v: JsVal): int {
    var p := ParseFloatOf(v);
    if p.Some? then p.value else 0
  }

  /** The price of one flight: `customPrice`, else `price`, else 0; a custom price of 0 falls
      through to the listed price. */
  function Price(f: JsVal): (r: int)
    ensures FloatOr0(Member(f, "customPrice")) != 0 ==> r == FloatOr0(Member(f, "customPrice"))
    ensures FloatOr0(Member(f, "customPrice")) == 0 ==> r == FloatOr0(Member(f, "price"))
  {
    var custom := FloatOr0(Member(f, "customPrice"));
    if custom != 0 then custom else FloatOr0(Member(f, "price"))
  }

  /** The `reduce` over the selection. */
  function SumPrices(selected: seq<JsVal>): int
    decreases |selected|
  {
    if |selected| == 0 then 0 else SumPrices(selected[..|selected| - 1]) + Price(selected[|selected| - 1])
  }

  /** The total is additive over a split of the selection. */
  lemma {:induction false} SumPricesAppend(a: seq<JsVal>, b: seq<JsVal>)
    ensures SumPrices(a + b) == SumPrices(a) + SumPrices(b)
    decreases |b|
  {
    if |b| == 0 {
      assert a + b == a;
    } else {
      assert (a + b)[..|a + b| - 1] == a + b[..|b| - 1];
      SumPricesAppend(a, b[..|b| - 1]);
    }
  }

  /** Toggling a new flight on adds its price to the total. */
  lemma ToggleOnAddsPrice(selected: seq<JsVal>, flight: JsVal)
    requires forall f :: f in selected ==> !StrictEq(Token(f), Token(flight))
    ensures SumPrices(Toggle(selected, flight)) == SumPrices(selected) + Price(flight)
  {
    SumPricesAppend(selected, [flight]);
    assert [flight][..0] == [];
  }

  /** `totalPrice.toFixed(2)` of a whole number. */
  function Fixed2(n: int): string {
    IntToString(n) + ".00"
  }

  /** Reading `n.toFixed(2)` back with `parseFloat` gives `n`. */
  lemma ParseDecimalOfFixed(n: int)
    ensures ParseDecimal(Fixed2(n)) == Some(n)
  {
    ParseDecimalOfIntToStringThen(n, ".00");
  }

  /** `saveSelectedFlights`: the selection and `Costs.FlightCost`, as two-decimal text, are
      written to the form and the modal closes. */
  function Save(form: JsVal, st: State): (r: (JsVal, State))
    requires form.Obj?
    ensures Member(r.0, "selectedFlights") == Arr(st.selected)
    ensures Member(Member(r.0, "Costs"), "FlightCost") == Str(Fixed2(SumPrices(st.selected)))
    ensures forall k :: k != "selectedFlights" && k != "Costs" ==> Member(r.0, k) == Member(form, k)
    ensures r.1 == st.(modalOpen := false)
  {
    (PutThenSetPath(form, "selectedFlights", Arr(st.selected), "Costs", "FlightCost", Str(Fixed2(SumPrices(st.selected)))),
     st.(modalOpen := false))
  }

  /** `setValue(k, x)` then `setValue("p.q", y)`, on two different top-level keys. */
  function PutThenSetPath(v: JsVal, k: string, x: JsVal, p: string, q: string, y: JsVal): (r: JsVal)
    requires v.Obj? && k != p
    ensures Member(r, k) == x && Member(Member(r, p), q) == y
    ensures forall k' :: k' != k && k' != p ==> Member(r, k') == Member(v, k')
  {
    var w := Put(v, k, x);
    assert forall k' :: k' != k ==> Member(w, k') == Member(v, k');
    SetPath(w, p, q, y)
  }

  /** The saved flight cost reads back as the sum of the selected prices. */
  lemma SavedCostReadsBack(form: JsVal, st: State)
    requires form.Obj?
    ensures ParseFloatOf(Member(Member(Save(form, st).0, "Costs"), "FlightCost")) == Some(SumPrices(st.selected))
  {
    ParseDecimalOfFixed(SumPrices(st.selected));
  }

  /** The initial selection: `watch("selectedFlights") || []`, an array taken as it is. */
  function InitialSelection(v: JsVal): (r: seq<JsVal>)
    ensures v.Arr? ==> r == v.items
    ensures !Truthy(v) ==> r == []
  {
    if Truthy(v) && v.Arr? then v.items else []
  }
}

=== FILE: form_rules.dfy ===
/** The validation rules the forms give react-hook-form (`required`, `minLength`, `min`,
    `pattern`), read as predicates on a field's value. The library's own code is not part of
    this model; the reading here is that an empty value (`undefined`, `null`, "" or an empty
    array) fails `required` and passes every other rule, `minLength` and `pattern` look at
    strings only, and `min` compares `Number(value)`, which a NaN never fails. */
module FormRules {
  import opened Results
  import opened JsValue

  predicate IsEmpty(v: JsVal) {
    v.Undefined? || v.Null? || v == Str("") || v == Arr([])
  }

  predicate Required(v: JsVal) {
    !IsEmpty(v)
  }

  predicate MinLength(v: JsVal, n: int) {
    IsEmpty(v) || !v.Str? || |v.s| >= n
  }

  predicate Min(v: JsVal, n: int) {
    IsEmpty(v) || ToNumber(v).None? || ToNumber(v).value >= n
  }

  predicate Pattern(v: JsVal, matches: string -> bool) {
    IsEmpty(v) || !v.Str? || matches(v.s)
  }

  /** Without `required`, an empty value passes the other rules. */
  lemma EmptyPassesOthers(v: JsVal, n: int, matches: string -> bool)
    requires IsEmpty(v)
    ensures !Required(v) && MinLength(v, n) && Min(v, n) && Pattern(v, matches)
  {
  }
}

=== FILE: hotels.dfy ===
/** The hotel list of src/components/Forms/HotelSection.jsx: the `Hotels` array of the form,
    never emptied by the remove button, with check-in and check-out dates picked as a range
    and the number of nights derived from them.

    Hotels are the JavaScript objects of the form; dates are `Date` values (time values in
    milliseconds on a UTC host, where `setHours` works on the UTC day). */
module Hotels {
  import opened Results
  import opened Text
  import opened DateText
  import opened JsValue
  import QuotationForm
  import FormRules

  /** The hotel `addHotel` appends. */
  const NewHotel: JsVal := Obj(map[
    "Nights" := Num(0), "Name" := Str(""), "City" := Str(""), "RoomType" := Str(""),
    "Category" := Str(""), "Meals" := Arr([]), "CheckInDate" := Null, "CheckOutDate" := Null,
    "Comments" := Str("")])

  /** `addHotel`: a blank hotel at the end. */
  function AddHotel(hotels: seq<JsVal>): (r: seq<JsVal>)
    ensures |r| == |hotels| + 1 && r[..|hotels|] == hotels
    ensures Member(r[|hotels|], "Nights") == Num(0) && Member(r[|hotels|], "Meals") == Arr([])
    ensures Member(r[|hotels|], "CheckInDate") == Null && Member(r[|hotels|], "CheckOutDate") == Null
  {
    hotels + [NewHotel]
  }

  /** `removeHotel(index)`: refused while a single hotel is left. */
  function RemoveHotel(hotels: seq<JsVal>, index: int): (r: seq<JsVal>)
    requires 0 <= index < |hotels|
    ensures |hotels| <= 1 ==> r == hotels
    ensures |hotels| > 1 ==> |r| == |hotels| - 1
    ensures |hotels| > 1 ==> forall k :: 0 <= k < index ==> r[k] == hotels[k]
    ensures |hotels| > 1 ==> forall k :: index <= k < |r| ==> r[k] == hotels[k + 1]
  {
    if |hotels| > 1 then hotels[..index] + hotels[index + 1..] else hotels
  }

  /** Removing never empties a list that has a hotel. */
  lemma RemoveKeepsOne(hotels: seq<JsVal>, index: int)
    requires 0 <= index < |hotels|
    ensures |RemoveHotel(hotels, index)| >= 1
  {
  }

  /** Adding a hotel and removing it again gives the list back. */
  lemma RemoveUndoesAdd(hotels: seq<JsVal>)
    requires |hotels| >= 1
    ensures RemoveHotel(AddHotel(hotels), |hotels|) == hotels
  {
    assert AddHotel(hotels)[..|hotels|] == hotels;
  }

  /** The mount effect: an empty list is seeded with one blank hotel. */
  function Seed(hotels: seq<JsVal>): (r: seq<JsVal>)
    ensures |r| >= 1
    ensures |hotels| > 0 ==> r == hotels
  {
    if |hotels| == 0 then AddHotel(hotels) else hotels
  }

  /** The blank hotel of the form's defaults already fills the list, so nothing is seeded. */
  lemma DefaultsNeedNoSeed()
    ensures Seed([QuotationForm.BlankHotel]) == [QuotationForm.BlankHotel]
  {
  }

  /** Milliseconds in a day, less one: the time of day of 23:59:59.999. */
  const LastMs: int := MsPerDay - 1

  /** `new Date(d)` followed by `setHours(...)` to the time of day `tod`; an invalid date stays invalid. */
  function AtTimeOfDay(d: JsVal, tod: int): (r: JsVal)
    requires d.Date? && 0 <= tod < MsPerDay
    ensures r.Date?
    ensures ValidTime(r.time) ==> DayOf(r.time) == DayOf(d.time) && r.time % MsPerDay == tod
  {
    var result := MakeDate(if ValidTime(d.time) then Some(DayOf(d.time) * MsPerDay + tod) else None);
    if ValidTime(result.time) then
      DayOfMidnight(DayOf(d.time), tod);
      result
    else result
  }

  /** A midnight of a valid date is valid. */
  lemma MidnightValid(t: int)
    requires ValidTime(t)
    ensures ValidTime(AtTimeOfDay(Date(t), 0).time)
  {
  }

  /** The number of nights between two picked dates: whole days between their midnights,
      never negative; NaN when a date is invalid. */
  function NightsBetween(start: JsVal, end: JsVal): (r: JsVal)
    requires start.Date? && end.Date?
    ensures ValidTime(start.time) && ValidTime(end.time) ==> r.Num? && r.n >= 0
    ensures !ValidTime(start.time) || !ValidTime(end.time) ==> r == NaN
  {
    if ValidTime(start.time) && ValidTime(end.time) then
      var nights := DayOf(end.time) - DayOf(start.time);
      Num(if nights < 0 then 0 else nights)
    else NaN
  }

  /** The nights count whole calendar days: dates on the same day give none, and each later
      day adds one. */
  lemma NightsOfDays(a: int, b: int, ta: int, tb: int)
    requires 0 <= ta < MsPerDay && 0 <= tb < MsPerDay
    requires ValidTime(a * MsPerDay + ta) && ValidTime(b * MsPerDay + tb)
    ensures NightsBetween(Date(a * MsPerDay + ta), Date(b * MsPerDay + tb)) == Num(if a <= b then b - a else 0)
  {
    DayOfMidnight(a, ta);
    DayOfMidnight(b, tb);
  }

  /** `onStartDateChange(date)`: the check-in at midnight of the day, the check-out cleared. */
  function SetCheckIn(hotels: seq<JsVal>, index: int, date: JsVal): (r: seq<JsVal>)
    requires 0 <= index < |hotels|
    ensures |r| == |hotels|
    ensures forall k :: 0 <= k < |hotels| && k != index ==> r[k] == hotels[k]
  {
    var h := Put(Put(hotels[index], "CheckInDate", AtTimeOfDay(NewDate(date), 0)), "CheckOutDate", Null);
    hotels[index := h]
  }

  /** `onEndDateChange(date)`: the check-out at 23:59:59.999 of the day; the nights are
      recomputed from the stored check-in, when there is one. */
  function SetCheckOut(hotels: seq<JsVal>, index: int, date: JsVal): (r: seq<JsVal>)
    requires 0 <= index < |hotels|
    ensures |r| == |hotels|
    ensures forall k :: 0 <= k < |hotels| && k != index ==> r[k] == hotels[k]
  {
    var h := Put(hotels[index], "CheckOutDate", AtTimeOfDay(NewDate(date), LastMs));
    var start := Member(h, "CheckInDate");
    var h2 := if Truthy(start) && Truthy(date) then Put(h, "Nights", NightsBetween(NewDate(start), NewDate(date))) else h;
    hotels[index := h2]
  }

  /** Picking a check-in stores its midnight and clears the check-out; nothing else of the
      hotel changes. */
  lemma CheckInStoresMidnight(hotels: seq<JsVal>, index: int, t: int, key: string)
    requires 0 <= index < |hotels| && hotels[index].Obj? && ValidTime(t)
    ensures var h := SetCheckIn(hotels, index, Date(t))[index];
      && Member(h, "CheckInDate") == Date(DayOf(t) * MsPerDay)
      && Member(h, "CheckOutDate") == Null
      && (key != "CheckInDate" && key != "CheckOutDate" ==> Member(h, key) == Member(hotels[index], key))
  {
    var m := AtTimeOfDay(Date(t), 0);
    assert ValidTime(m.time) && m.time == DayOf(t) * MsPerDay;
  }

  /** Picking a check-out stores 23:59:59.999 of its day, when that time is valid. */
  lemma CheckOutStoresEndOfDay(hotels: seq<JsVal>, index: int, t: int)
    requires 0 <= index < |hotels| && hotels[index].Obj?
    requires ValidTime(t) && ValidTime(DayOf(t) * MsPerDay + LastMs)
    ensures Member(SetCheckOut(hotels, index, Date(t))[index], "CheckOutDate") == Date(DayOf(t) * MsPerDay + LastMs)
  {
  }

  /** Without a check-in the nights are left as they were. */
  lemma CheckOutWithoutCheckIn(hotels: seq<JsVal>, index: int, date: JsVal)
    requires 0 <= index < |hotels| && hotels[index].Obj?
    requires !Truthy(Member(hotels[index], "CheckInDate"))
    ensures Member(SetCheckOut(hotels, index, date)[index], "Nights") == Member(hotels[index], "Nights")
  {
  }

  /** Applying a range in the picker sets the check-in and then the check-out: the nights
      are the days from the first to the last, and never negative. */
  lemma ApplyRangeNights(hotels: seq<JsVal>, index: int, a: int, b: int)
    requires 0 <= index < |hotels| && hotels[index].Obj?
    requires ValidTime(a * MsPerDay) && ValidTime(b * MsPerDay)
    ensures var h := SetCheckOut(SetCheckIn(hotels, index, Date(a * MsPerDay)), index, Date(b * MsPerDay))[index];
      Member(h, "Nights") == Num(if a <= b then b - a else 0)
  {
    var m := AtTimeOfDay(Date(a * MsPerDay), 0);
    DayOfMidnight(a, 0);
    assert m == Date(a * MsPerDay);
    NightsOfDays(a, b, 0, 0);
  }

  /** The `Nights` input: `parseInt(text, 10) || 0`. */
  function NightsInput(text: string): (r: JsVal)
    ensures r.Num?
    ensures ParseDecimal(text).Some? ==> r == Num(ParseDecimal(text).value)
    ensures ParseDecimal(text).None? ==> r == Num(0)
  {
    var p := ParseDecimal(text);
    Num(if p.Some? then p.value else 0)
  }

  /** The rules of the `Nights` field: required, and at least 1. */
  predicate NightsValid(v: JsVal) {
    FormRules.Required(v) && FormRules.Min(v, 1)
  }

  /** A range applied without an end day ends on the start day, so the hotel has no night
      and its form does not validate until a later check-out is picked. */
  lemma SameDayFailsValidation(hotels: seq<JsVal>, index: int, a: int)
    requires 0 <= index < |hotels| && hotels[index].Obj? && ValidTime(a * MsPerDay)
    ensures var h := SetCheckOut(SetCheckIn(hotels, index, Date(a * MsPerDay)), index, Date(a * MsPerDay))[index];
      Member(h, "Nights") == Num(0) && !NightsValid(Member(h, "Nights"))
  {
    ApplyRangeNights(hotels, index, a, a);
  }

  /** A later check-out validates. */
  lemma LaterCheckOutValidates(n: int)
    ensures NightsValid(Num(n)) <==> n >= 1
  {
  }

  /** Hotel dates travel through the draft as ISO text; for the years 0 to 9999 the nights
      computed from a restored check-in are those of the original. */
  lemma NightsSurviveDraft(t: int, end: JsVal)
    requires ValidTime(t) && 0 <= Civil.FromDayNumber(DayOf(t)).year <= 9999 && end.Date?
    ensures JsonValue(Date(t)) == Str(IsoString(t))
    ensures NightsBetween(NewDate(JsonValue(Date(t))), end) == NightsBetween(Date(t), end)
  {
    DateThroughDraft(t);
  }

  lemma DateThroughDraft(t: int)
    requires ValidTime(t) && 0 <= Civil.FromDayNumber(DayOf(t)).year <= 9999
    ensures JsonValue(Date(t)) == Str(IsoString(t)) && NewDate(JsonValue(Date(t))) == Date(t)
  {
    NewDateOfIsoString(t);
  }
}

=== FILE: inclusions.dfy ===
/** The inclusion and exclusion lists of src/components/Forms/InclusionsExclusions.jsx: two
    independent field arrays of `{item}` objects, each with a text input, quick-add buttons
    for common items and a remove button per row. */
module Inclusions {
  import opened Text
  import opened JsValue

  /** Which of the two lists. */
  datatype Side = Included | Excluded

  /** The two field arrays and the two custom-item inputs. */
  datatype State = State(inclusions: seq<JsVal>, exclusions: seq<JsVal>, newInclusion: string, newExclusion: string)

  function List(st: State, side: Side): seq<JsVal> {
    if side == Included then st.inclusions else st.exclusions
  }

  function Input(st: State, side: Side): string {
    if side == Included then st.newInclusion else st.newExclusion
  }

  /** The row `{ item: text }`. */
  function Row(text: string): JsVal {
    Obj(map["item" := Str(text)])
  }

  /** The quick-add labels of each list. */
  const CommonInclusions: seq<string> := ["Accommodation as per itinerary", "Daily breakfast", "Airport transfers",
    "Sightseeing as per itinerary", "All transportation", "Professional tour guide", "All entrance fees",
    "Travel insurance"]
  const CommonExclusions: seq<string> := ["International flights", "Visa fees", "Personal expenses",
    "Tips and gratuities", "Meals not mentioned", "Optional activities", "Travel insurance", "Emergency expenses"]

  function Common(side: Side): seq<string> {
    if side == Included then CommonInclusions else CommonExclusions
  }

  /** Typing into a list's input. */
  function Type(st: State, side: Side, text: string): (r: State)
    ensures Input(r, side) == text && List(r, Included) == st.inclusions && List(r, Excluded) == st.exclusions
  {
    if side == Included then st.(newInclusion := text) else st.(newExclusion := text)
  }

  /** `addInclusion(item)` / `addExclusion(item)`: text that trims to something is appended
      trimmed and that list's input is cleared; blank text changes nothing. */
  function Add(st: State, side: Side, text: string): (r: State)
    ensures Trim(text) == "" ==> r == st
    ensures Trim(text) != "" ==> List(r, side) == List(st, side) + [Row(Trim(text))] && Input(r, side) == ""
    ensures List(r, if side == Included then Excluded else Included) == List(st, if side == Included then Excluded else Included)
    ensures Input(r, if side == Included then Excluded else Included) == Input(st, if side == Included then Excluded else Included)
  {
    var t := Trim(text);
    if t == "" then st
    else if side == Included then st.(inclusions := st.inclusions + [Row(t)], newInclusion := "")
    else st.(exclusions := st.exclusions + [Row(t)], newExclusion := "")
  }

  /** The add button submits the list's own input. */
  function AddTyped(st: State, side: Side): State {
    Add(st, side, Input(st, side))
  }

  /** A whitespace-only input adds nothing, and the typed text stays in the input. */
  lemma BlankInputKept(st: State, side: Side)
    requires AllSpace(Input(st, side))
    ensures AddTyped(st, side) == st && Input(AddTyped(st, side), side) == Input(st, side)
  {
    TrimEmptyIffAllSpace(Input(st, side));
  }

  /** The input is cleared exactly when the add went through. */
  lemma InputClearedIffAdded(st: State, side: Side)
    requires Input(st, side) != ""
    ensures Input(AddTyped(st, side), side) == "" <==> !AllSpace(Input(st, side))
  {
    TrimEmptyIffAllSpace(Input(st, side));
  }

  /** Stored items are already trimmed: adding a stored item's text again adds the same row. */
  lemma AddTrimmedAgain(st: State, side: Side, text: string)
    requires Trim(text) != ""
    ensures var once := Add(st, side, text);
      List(Add(once, side, Trim(text)), side) == List(st, side) + [Row(Trim(text)), Row(Trim(text))]
  {
    TrimIdempotent(text);
  }

  /** Text with something in it and no white space at either end. */
  predicate Trimmed(s: string) {
    |s| > 0 && !IsSpace(s[0]) && !IsSpace(s[|s| - 1])
  }

  /** Every quick-add label is trimmed text. */
  lemma CommonTrimmed(side: Side, k: int)
    requires 0 <= k < |Common(side)|
    ensures Trimmed(Common(side)[k])
  {
  }

  /** Quick add appends the label as it is, every time (duplicates are allowed), and clears
      whatever custom text was typed into that list's input. */
  lemma QuickAddAppendsLabel(st: State, side: Side, k: int)
    requires 0 <= k < |Common(side)|
    ensures var name := Common(side)[k];
      List(Add(Add(st, side, name), side, name), side) == List(st, side) + [Row(name), Row(name)]
      && Input(Add(st, side, name), side) == ""
  {
    CommonTrimmed(side, k);
    AddTrimmedText(st, side, Common(side)[k]);
  }

  /** Adding trimmed text twice appends it twice. */
  lemma AddTrimmedText(st: State, side: Side, name: string)
    requires Trimmed(name)
    ensures List(Add(Add(st, side, name), side, name), side) == List(st, side) + [Row(name), Row(name)]
    ensures Input(Add(st, side, name), side) == ""
  {
    TrimOfTrimmed(name);
  }

  /** "Travel insurance" is a quick-add name of both lists. */
  lemma TravelInsuranceOnBothSides()
    ensures CommonInclusions[7] == CommonExclusions[6] == "Travel insurance"
  {
  }

  /** Removing row `index` of one list, as `remove(index)` does. */
  function Remove(st: State, side: Side, index: int): (r: State)
    requires 0 <= index < |List(st, side)|
    ensures |List(r, side)| == |List(st, side)| - 1
    ensures forall k :: 0 <= k < index ==> List(r, side)[k] == List(st, side)[k]
    ensures forall k :: index <= k < |List(r, side)| ==> List(r, side)[k] == List(st, side)[k + 1]
    ensures List(r, if side == Included then Excluded else Included) == List(st, if side == Included then Excluded else Included)
    ensures Input(r, Included) == st.newInclusion && Input(r, Excluded) == st.newExclusion
  {
    var xs := List(st, side);
    var rest := xs[..index] + xs[index + 1..];
    if side == Included then st.(inclusions := rest) else st.(exclusions := rest)
  }

  /** Removing the row just added gives the list back. */
  lemma RemoveUndoesAdd(st: State, side: Side, text: string)
    requires Trim(text) != ""
    ensures var added := Add(st, side, text);
      List(Remove(added, side, |List(st, side)|), side) == List(st, side)
  {
    var added := Add(st, side, text);
    assert List(added, side)[..|List(st, side)|] == List(st, side);
  }
}

=== FILE: itinerary.dfy ===
/** The day-wise itinerary of src/components/Forms/ItinearySection.jsx: the `Itinearies`
    array of the form, kept as long as the trip's `Days` by an effect, with days added and
    removed by hand, activities chosen from a picker and dates edited in a calendar.

    An entry is the JavaScript object the section appends; dates are "YYYY-MM-DD" strings
    beside a `DateKey` read from them as the number YYYYMMDD. `now` is the time `new Date()`
    reads when there is no travel date. */
module Itinerary {
  import opened Results
  import opened Text
  import opened Civil
  import opened DateText
  import opened JsValue
  import QuotationForm

  /** The default title of the `k`-th day. */
  function DayTitle(k: int): string {
    "Day " + IntToString(k) + " Itinerary"
  }

  /** The entry appended for day `i + 1` of the trip, dated `date`. */
  function Entry(i: int, date: string): JsVal {
    Obj(map[
      "day" := Num(i + 1), "Date" := Str(date), "Title" := Str(DayTitle(i + 1)),
      "Activity" := Str(""), "ImageUrl" := Str(""), "Description" := Str(""),
      "DateKey" := NumOf(KeyOfDateString(date))])
  }

  /** The first day of the trip: the travel date when one is set, else now. */
  function Start(travelDate: JsVal, now: int): (d: JsVal)
    ensures d.Date?
    ensures Truthy(travelDate) ==> d == NewDate(travelDate)
    ensures !Truthy(travelDate) ==> d == MakeDate(Some(now))
  {
    if Truthy(travelDate) then NewDate(travelDate) else MakeDate(Some(now))
  }

  /** The "YYYY-MM-DD" of the day `i` days after `base`; formatting an invalid date throws
      a RangeError. */
  function DayDate(base: JsVal, i: int): (r: Result<string>)
    requires base.Date?
    ensures r.Ok? <==> ValidTime(AddDays(base, i).time)
    ensures r.Err? ==> r.error == "RangeError"
  {
    DatePart(AddDays(base, i))
  }

  /** The dates of the trip's days, counted from the travel date (or now). */
  function Dates(travelDate: JsVal, now: int): int -> Result<string> {
    i => DayDate(Start(travelDate, now), i)
  }

  /** The number of days the effect aims for: `Number(watch("Days") || 1) || 1`. */
  function Target(days: JsVal): (n: int)
    ensures n != 0
    ensures ToNumber(Or(days, Num(1))).Some? && ToNumber(Or(days, Num(1))).value != 0 ==>
      n == ToNumber(Or(days, Num(1))).value
  {
    var t := ToNumber(Or(days, Num(1)));
    if t.Some? && t.value != 0 then t.value else 1
  }

  /** A falsy, zero or non-numeric `Days` aims for a single day. */
  lemma TargetDefaultsToOne(days: JsVal)
    requires !Truthy(days) || ToNumber(days).None? || ToNumber(days) == Some(0)
    ensures Target(days) == 1
  {
  }

  function Max0(n: int): nat {
    if n < 0 then 0 else n
  }

  /** The dates of days `lo + 1` to `hi`, or the error of the first date that fails. */
  function Fill(dates: int -> Result<string>, lo: int, hi: int): (r: Result<seq<string>>)
    ensures r.Ok? <==> forall j :: lo <= j < hi ==> dates(j).Ok?
    ensures r.Ok? ==> |r.value| == Max0(hi - lo)
    ensures r.Ok? ==> forall k :: 0 <= k < |r.value| ==> dates(lo + k) == Ok(r.value[k])
    ensures r.Err? ==> exists j :: lo <= j < hi && dates(j) == Err(r.error)
    decreases hi - lo
  {
    if lo >= hi then Ok([])
    else
      var first := dates(lo);
      if first.Err? then Err(first.error)
      else
        var rest := Fill(dates, lo + 1, hi);
        if rest.Err? then rest
        else Ok([first.value] + rest.value)
  }

  /** The entries of consecutive days starting with day `lo + 1`, dated `ds`. */
  function Entries(lo: int, ds: seq<string>): (r: seq<JsVal>)
    ensures |r| == |ds|
  {
    Numbered(Entry, lo, ds)
  }

  lemma EntriesAt(lo: int, ds: seq<string>, k: int)
    requires 0 <= k < |ds|
    ensures Entries(lo, ds)[k] == Entry(lo + k, ds[k])
  {
    NumberedAt(Entry, lo, ds, k);
  }

  lemma NumberedAt<T>(mk: (int, string) -> T, lo: int, ds: seq<string>, k: int)
    requires 0 <= k < |ds|
    ensures Numbered(mk, lo, ds)[k] == mk(lo + k, ds[k])
  {
  }

  /** `mk` applied to each date with its index counted from `lo`. */
  function Numbered<T>(mk: (int, string) -> T, lo: int, ds: seq<string>): (r: seq<T>)
    ensures |r| == |ds|
  {
    seq(|ds|, k requires 0 <= k < |ds| => mk(lo + k, ds[k]))
  }

  lemma NumberedSnoc<T>(mk: (int, string) -> T, lo: int, ds: seq<string>, d: string, i: int)
    requires i == lo + |ds|
    ensures Numbered(mk, lo, ds + [d]) == Numbered(mk, lo, ds) + [mk(i, d)]
  {
    var a := Numbered(mk, lo, ds + [d]);
    var b := Numbered(mk, lo, ds) + [mk(i, d)];
    forall k | 0 <= k < |a|
      ensures a[k] == b[k]
    {
      if k < |ds| {
        assert (ds + [d])[k] == ds[k];
      }
    }
  }

  /** The list the auto-generate effect leaves for `target` days: missing days are appended
      after the existing ones, surplus days are cut from the tail. */
  function Generate(items: seq<JsVal>, target: int, dates: int -> Result<string>): (r: Result<seq<JsVal>>)
  {
    if target > |items| then
      match Fill(dates, |items|, target)
      case Ok(ds) => Ok(items + Entries(|items|, ds))
      case Err(e) => Err(e)
    else Ok(items[..Max0(target)])
  }

  /** What the effect guarantees: the list has the target length (none for a negative
      target), the entries it keeps are untouched, and each appended entry is the one of its
      day; it fails only when a date to append cannot be formatted. */
  lemma GenerateMeets(items: seq<JsVal>, target: int, dates: int -> Result<string>)
    ensures var r := Generate(items, target, dates);
      (r.Err? <==> exists j :: |items| <= j < target && dates(j).Err?)
      && (r.Ok? ==> |r.value| == (if target > |items| then target else Max0(target)))
      && (r.Ok? ==> forall k :: 0 <= k < |items| && k < target ==> r.value[k] == items[k])
      && (r.Ok? ==> forall k :: |items| <= k < |r.value| ==> r.value[k] == Entry(k, dates(k).value))
  {
    var r := Generate(items, target, dates);
    if target > |items| && r.Ok? {
      var ds := Fill(dates, |items|, target).value;
      forall k | |items| <= k < |r.value|
        ensures r.value[k] == Entry(k, dates(k).value)
      {
        EntriesAt(|items|, ds, k - |items|);
        assert r.value[k] == Entries(|items|, ds)[k - |items|] == Entry(k, ds[k - |items|]);
        assert dates(|items| + (k - |items|)) == Ok(ds[k - |items|]);
      }
    }
  }

  /** The effect has reached a fixed point: generating again for the same target changes nothing. */
  lemma GenerateIdempotent(items: seq<JsVal>, target: int, dates: int -> Result<string>)
    requires Generate(items, target, dates).Ok?
    ensures Generate(Generate(items, target, dates).value, target, dates) == Generate(items, target, dates)
  {
    GenerateMeets(items, target, dates);
    var r := Generate(items, target, dates).value;
    assert r[..Max0(target)] == r;
  }

  /** `Fill` succeeds with the dates a loop has formatted. */
  lemma {:induction false} FillOfDates(dates: int -> Result<string>, lo: int, hi: int, ds: seq<string>)
    requires lo <= hi && |ds| == hi - lo
    requires forall k :: 0 <= k < |ds| ==> dates(lo + k) == Ok(ds[k])
    ensures Fill(dates, lo, hi) == Ok(ds)
    decreases hi - lo
  {
    if lo < hi {
      assert dates(lo + 0) == Ok(ds[0]);
      forall k | 0 <= k < |ds[1..]|
        ensures dates(lo + 1 + k) == Ok(ds[1..][k])
      {
        assert dates(lo + (k + 1)) == Ok(ds[k + 1]);
      }
      FillOfDates(dates, lo + 1, hi, ds[1..]);
      assert ds == [ds[0]] + ds[1..];
    }
  }

  /** Fill stops at the first date that cannot be formatted. */
  lemma {:induction false} FillFirstError(dates: int -> Result<string>, lo: int, hi: int, i: int)
    requires lo <= i < hi && dates(i).Err?
    requires forall j :: lo <= j < i ==> dates(j).Ok?
    ensures Fill(dates, lo, hi) == Err(dates(i).error)
    decreases i - lo
  {
    if lo < i {
      FillFirstError(dates, lo + 1, hi, i);
    }
  }

  /** Appending one date appends its entry. */
  lemma EntriesSnoc(lo: int, ds: seq<string>, d: string, i: int)
    requires i == lo + |ds|
    ensures Entries(lo, ds + [d]) == Entries(lo, ds) + [Entry(i, d)]
  {
    NumberedSnoc(Entry, lo, ds, d, i);
  }

  /** The same, with the appended entry written as the entries of a one-date list. */
  lemma EntriesAppendOne(lo: int, ds: seq<string>, d: string, i: int)
    requires i == lo + |ds|
    ensures Entries(lo, ds) + Entries(i, [d]) == Entries(lo, ds + [d])
  {
    NumberedSnoc(Entry, lo, ds, d, i);
    NumberedOne(Entry, i, d);
  }

  lemma NumberedOne<T>(mk: (int, string) -> T, i: int, d: string)
    ensures Numbered(mk, i, [d]) == [mk(i, d)]
  {
    assert Numbered(mk, i, [d])[0] == mk(i + 0, [d][0]);
  }

  /** The auto-generate effect of the section, run over the current entries with the watched
      `Days`; `dates` is the calendar of the watched `TravelDate`, `Dates(travelDate, now)`. */
  method AutoGenerate(items: seq<JsVal>, days: JsVal, dates: int -> Result<string>) returns (r: Result<seq<JsVal>>)
    ensures r == Generate(items, Target(days), dates)
  {
    var target := Target(days);
    if target > |items| {
      r := Grow(items, target, dates);
    } else if target < |items| {
      var kept := Shrink(items, target);
      r := Ok(kept);
    } else {
      assert items[..Max0(target)] == items;
      r := Ok(items);
    }
  }

  /** The growing loop: one entry appended per missing day, in order. */
  method Grow(items: seq<JsVal>, target: int, dates: int -> Result<string>) returns (r: Result<seq<JsVal>>)
    requires target > |items|
    ensures r == Generate(items, target, dates)
  {
    var current := |items|;
    var fields := items;
    var i := current;
    var ds: seq<string> := [];
    while i < target
      invariant current <= i <= target && |ds| == i - current
      invariant fields == items + Entries(current, ds)
      invariant forall k :: 0 <= k < |ds| ==> dates(current + k) == Ok(ds[k])
    {
      var date := dates(i);
      if date.Err? {
        forall j | current <= j < i
          ensures dates(j).Ok?
        {
          assert dates(current + (j - current)) == Ok(ds[j - current]);
        }
        FillFirstError(dates, current, target, i);
        return Err(date.error);
      }
      EntriesAppendOne(current, ds, date.value, i);
      assert items + Entries(current, ds) + Entries(i, [date.value])
          == items + (Entries(current, ds) + Entries(i, [date.value]));
      fields := fields + Entries(i, [date.value]);
      ds := ds + [date.value];
      i := i + 1;
    }
    FillOfDates(dates, current, target, ds);
    return Ok(fields);
  }

  /** The shrinking loop: `remove(i)` from the last index down to the target. */
  method Shrink(items: seq<JsVal>, target: int) returns (r: seq<JsVal>)
    requires target < |items|
    ensures r == items[..Max0(target)]
  {
    var fields := items;
    var i := |items| - 1;
    while i >= target
      invariant target - 1 <= i <= |items| - 1
      invariant |fields| == Max0(i + 1) && fields == items[..|fields|]
      decreases i - target
    {
      // Once the list is empty, the negative indices of a negative target find nothing to remove.
      if 0 <= i {
        fields := fields[..i];
      }
      i := i - 1;
    }
    return fields;
  }

  /** From midnight of a day in the years 0 to 9999, day `i` of the trip is dated `i` days
      later. */
  lemma DayDateOfMidnight(day: int, i: int, later: int)
    requires later == day + i
    requires -719528 <= day <= 2932896 && -719528 <= later <= 2932896
    ensures DayDate(Date(day * MsPerDay), i) == Ok(DateString(later))
  {
    AddDaysOfDay(day, i, later);
    DayTimeValid(later);
    QuotationForm.MidnightIsoDate(later);
  }

  /** The key written beside a "YYYY-MM-DD" date of the years 0 to 9999 is that day's YYYYMMDD. */
  lemma EntryKey(i: int, day: int)
    requires -719528 <= day <= 2932896
    ensures Member(Entry(i, DateString(day)), "DateKey") == Num(DateKey(day))
  {
    QuotationForm.FourDigitYear(day);
    KeyOfDateStringIsDateKey(day);
  }

  /** With a "YYYY-MM-DD" travel date, the dates of the trip's days are consecutive. */
  lemma DatesFromTravelDate(day: int, now: int, i: int, later: int)
    requires later == day + i
    requires 0 <= FromDayNumber(day).year <= 9999 && -719528 <= later <= 2932896
    ensures Dates(Str(DateString(day)), now)(i) == Ok(DateString(later))
  {
    NewDateOfDateString(day);
    QuotationForm.DateStringNotEmpty(day);
    FourDigitDays(day);
    DayDateOfMidnight(day, i, later);
  }

  /** `addDay`: the next day, dated as many days after the start as there are entries. */
  function AddDay(items: seq<JsVal>, dates: int -> Result<string>): (r: Result<seq<JsVal>>)
  {
    match dates(|items|)
    case Ok(d) => Ok(items + [Entry(|items|, d)])
    case Err(e) => Err(e)
  }

  /** Adding a day by hand appends the entry the effect would generate for one more day. */
  lemma AddDayIsGrowByOne(items: seq<JsVal>, dates: int -> Result<string>)
    ensures AddDay(items, dates) == Generate(items, |items| + 1, dates)
  {
    var n := |items|;
    if dates(n).Ok? {
      var d := dates(n).value;
      FillOfOne(dates, n, d);
      EntriesOfOne(n, d);
    }
  }

  lemma FillOfOne(dates: int -> Result<string>, n: int, d: string)
    requires dates(n) == Ok(d)
    ensures Fill(dates, n, n + 1) == Ok([d])
  {
    assert Fill(dates, n + 1, n + 1) == Ok([]);
    assert [d] + [] == [d];
  }

  lemma EntriesOfOne(n: int, d: string)
    ensures Entries(n, [d]) == [Entry(n, d)]
  {
    assert n + 0 == n;
  }

  /** `addDay()` called from a render whose field array had `rendered` entries: the entry of
      day `rendered + 1` is appended to the list as it now stands, `current`. */
  function AddDayAfter(current: seq<JsVal>, rendered: int, dates: int -> Result<string>): (r: Result<seq<JsVal>>)
    ensures r.Ok? <==> dates(rendered).Ok?
    ensures r.Ok? ==> |r.value| == |current| + 1 && r.value[..|current|] == current
    ensures r.Ok? ==> r.value[|current|] == Entry(rendered, dates(rendered).value)
  {
    match dates(rendered)
    case Ok(d) =>
      assert (current + [Entry(rendered, d)])[..|current|] == current;
      Ok(current + [Entry(rendered, d)])
    case Err(e) => Err(e)
  }

  /** The init effect: when the field array of the render it belongs to, `rendered`, was
      empty, `addDay()` runs on the list as it now stands, `current`. */
  function Init(current: seq<JsVal>, rendered: seq<JsVal>, dates: int -> Result<string>): (r: Result<seq<JsVal>>)
    ensures |rendered| > 0 ==> r == Ok(current)
    ensures |rendered| == 0 ==> r == AddDayAfter(current, 0, dates)
  {
    if |rendered| == 0 then AddDayAfter(current, |rendered|, dates) else Ok(current)
  }

  /** The first render as written: the auto-generate effect and then the init effect run in
      declaration order, and both read the field array of that render, `items`. */
  function Mount(items: seq<JsVal>, target: int, dates: int -> Result<string>): (r: Result<seq<JsVal>>)
    ensures |items| > 0 ==> r == Generate(items, target, dates)
    ensures Generate(items, target, dates).Err? ==> r.Err?
  {
    match Generate(items, target, dates)
    case Err(e) => Err(e)
    case Ok(gen) => Init(gen, items, dates)
  }

  /** Mounting on an empty list for `target` days whose dates can all be formatted leaves
      `target + 1` entries: the generated days, then a second day one. */
  lemma MountEmptyDuplicates(target: int, dates: int -> Result<string>)
    requires target >= 1 && forall j :: 0 <= j < target ==> dates(j).Ok?
    ensures Mount([], target, dates).Ok?
    ensures var r := Mount([], target, dates).value;
      |r| == target + 1 && r[0] == r[target] == Entry(0, dates(0).value)
      && forall k :: 0 <= k < target ==> r[k] == Entry(k, dates(k).value)
  {
    GenerateMeets([], target, dates);
  }

  /** With a single day, the mount as written lists day one twice. */
  lemma MountOneDayTwice(dates: int -> Result<string>, d: string)
    requires dates(0) == Ok(d)
    ensures Mount([], 1, dates) == Ok([Entry(0, d), Entry(0, d)])
  {
    MountEmptyDuplicates(1, dates);
    var r := Mount([], 1, dates).value;
    var e := Entry(0, d);
    assert |r| == 2 && r[0] == e && r[1] == e;
    assert r == [e, e];
  }

  /** The first render as intended: the init effect looks at the list the auto-generate effect
      left, and adds a day only if it is still empty. */
  function MountIntended(items: seq<JsVal>, target: int, dates: int -> Result<string>): (r: Result<seq<JsVal>>)
    ensures Generate(items, target, dates).Err? ==> r.Err?
  {
    match Generate(items, target, dates)
    case Err(e) => Err(e)
    case Ok(gen) => Init(gen, gen, dates)
  }

  /** For a positive target the intended mount is exactly the auto-generate effect: every day
      once, the list as long as the target when it started shorter. */
  lemma MountIntendedIsGenerate(items: seq<JsVal>, target: int, dates: int -> Result<string>)
    requires target >= 1
    ensures MountIntended(items, target, dates) == Generate(items, target, dates)
    ensures |items| == 0 && MountIntended(items, target, dates).Ok? ==>
      |MountIntended(items, target, dates).value| == target
  {
    GenerateMeets(items, target, dates);
  }

  /** The first day is the start date itself. */
  lemma FirstDayIsStart(travelDate: JsVal, now: int)
    ensures Dates(travelDate, now)(0) == DatePart(Start(travelDate, now))
  {
    var base := Start(travelDate, now);
    assert AddDays(base, 0) == base;
  }

  /** A list the auto-generate effect leaves empty, because `Days` is negative, becomes the
      single first day, dated with the first date of the calendar (the start date, by
      `FirstDayIsStart`). */
  lemma InitFirstDay(target: int, dates: int -> Result<string>, d: string)
    requires target < 0 && dates(0) == Ok(d)
    ensures Mount([], target, dates) == Ok([Entry(0, d)])
    ensures MountIntended([], target, dates) == Ok([Entry(0, d)])
  {
    assert [] + [Entry(0, d)] == [Entry(0, d)];
  }

  /** Each entry renumbered by position: `day` k+1 and the default title of day k+1;
      a non-object entry is left as it is. */
  function Renumber(xs: seq<JsVal>): (r: seq<JsVal>)
    ensures |r| == |xs|
  {
    seq(|xs|, k requires 0 <= k < |xs| => Put(Put(xs[k], "day", Num(k + 1)), "Title", Str(DayTitle(k + 1))))
  }

  /** `removeDay(index)` as written: `remove(index)` takes the entry out of the form, then
      the values read back are spliced at `index` a second time before renumbering. */
  function RemoveDayAsWritten(items: seq<JsVal>, index: int): (r: seq<JsVal>)
    requires 0 <= index < |items|
    ensures |items| <= 1 ==> r == items
    ensures |items| > 1 && index < |items| - 1 ==> |r| == |items| - 2
    ensures |items| > 1 && index == |items| - 1 ==> |r| == |items| - 1
  {
    if |items| <= 1 then items
    else
      var once := items[..index] + items[index + 1..];
      var twice := if index < |once| then once[..index] + once[index + 1..] else once;
      Renumber(twice)
  }

  /** Removing the first of two days as written leaves no day at all, and removing the
      first of three leaves one. */
  lemma RemoveDayAsWrittenLosesDays(a: JsVal, b: JsVal, c: JsVal)
    ensures RemoveDayAsWritten([a, b], 0) == []
    ensures |RemoveDayAsWritten([a, b, c], 0)| == 1
  {
  }

  /** `removeDay(index)` with a single removal: refused while one day remains, otherwise the
      entry at `index` is taken out and the rest are renumbered. */
  function RemoveDay(items: seq<JsVal>, index: int): (r: seq<JsVal>)
    requires 0 <= index < |items|
    ensures |items| <= 1 ==> r == items
    ensures |items| > 1 ==> |r| == |items| - 1
  {
    if |items| <= 1 then items else Renumber(items[..index] + items[index + 1..])
  }

  /** After a removal the entries keep their order and contents, except `day` and `Title`,
      which follow the new positions. */
  lemma RemoveDayRenumbers(items: seq<JsVal>, index: int, k: int, key: string)
    requires 0 <= index < |items| && |items| > 1 && 0 <= k < |items| - 1
    requires forall j :: 0 <= j < |items| ==> items[j].Obj?
    ensures var src := if k < index then items[k] else items[k + 1];
      Member(RemoveDay(items, index)[k], "day") == Num(k + 1)
      && Member(RemoveDay(items, index)[k], "Title") == Str(DayTitle(k + 1))
      && (key != "day" && key != "Title" ==> Member(RemoveDay(items, index)[k], key) == Member(src, key))
  {
    var rest := items[..index] + items[index + 1..];
    var src := if k < index then items[k] else items[k + 1];
    assert rest[k] == src;
    assert RemoveDay(items, index)[k] == Put(Put(src, "day", Num(k + 1)), "Title", Str(DayTitle(k + 1)));
    Renumbered(src, Num(k + 1), Str(DayTitle(k + 1)), key);
  }

  /** An entry given a new `day` and `Title` keeps every other field. */
  lemma Renumbered(src: JsVal, d: JsVal, t: JsVal, key: string)
    requires src.Obj?
    ensures var e := Put(Put(src, "day", d), "Title", t);
      Member(e, "day") == d && Member(e, "Title") == t
      && (key != "day" && key != "Title" ==> Member(e, key) == Member(src, key))
  {
    MemberPut(src, "day", d, key);
    MemberPut(Put(src, "day", d), "Title", t, key);
    MemberPut(Put(src, "day", d), "Title", t, "day");
  }

  /** The list never drops below one day through removal. */
  lemma RemoveDayKeepsOne(items: seq<JsVal>, index: int)
    requires 0 <= index < |items|
    ensures |RemoveDay(items, index)| >= 1
  {
  }

  /** `handleActivitySelect(activity, index)`: the picked activity's title (else the day's
      default title), description and image, and its title again as `Activity`. */
  function SelectActivity(items: seq<JsVal>, index: int, activity: JsVal): (r: seq<JsVal>)
    requires 0 <= index < |items|
    ensures |r| == |items|
    ensures forall k :: 0 <= k < |items| && k != index ==> r[k] == items[k]
  {
    var title := Member(activity, "Title");
    var e := Put(Put(Put(Put(items[index],
      "Title", Or(title, Str(DayTitle(index + 1)))),
      "Description", Or(Member(activity, "Description"), Str(""))),
      "ImageUrl", Or(Member(activity, "ImageUrl"), Str(""))),
      "Activity", Or(title, Str("")));
    items[index := e]
  }

  /** What a selection writes into the entry, with the fallbacks for missing fields; all
      other fields of the entry stay. */
  lemma SelectActivityWrites(items: seq<JsVal>, index: int, activity: JsVal, key: string)
    requires 0 <= index < |items| && items[index].Obj?
    ensures var e := SelectActivity(items, index, activity)[index];
      && Member(e, "Title") == Or(Member(activity, "Title"), Str(DayTitle(index + 1)))
      && Member(e, "Activity") == Or(Member(activity, "Title"), Str(""))
      && Member(e, "Description") == Or(Member(activity, "Description"), Str(""))
      && Member(e, "ImageUrl") == Or(Member(activity, "ImageUrl"), Str(""))
      && (key !in {"Title", "Activity", "Description", "ImageUrl"} ==> Member(e, key) == Member(items[index], key))
  {
  }

  /** The blank entry of the form's defaults names its activity "Activities"; a selection
      adds a separate "Activity" and leaves "Activities" empty. */
  lemma SelectOnDefaultEntry(activity: JsVal)
    requires Truthy(Member(activity, "Title"))
    ensures var e := SelectActivity([QuotationForm.BlankItinerary], 0, activity)[0];
      Member(e, "Activity") == Member(activity, "Title") && Member(e, "Activities") == Str("")
  {
    SelectActivityWrites([QuotationForm.BlankItinerary], 0, activity, "Activities");
  }

  /** A date picked in the calendar for entry `index`: the date and the key read from it. */
  function SetDate(items: seq<JsVal>, index: int, date: string): (r: seq<JsVal>)
    requires 0 <= index < |items|
    ensures |r| == |items|
    ensures forall k :: 0 <= k < |items| && k != index ==> r[k] == items[k]
  {
    items[index := Put(Put(items[index], "Date", Str(date)), "DateKey", NumOf(KeyOfDateString(date)))]
  }

  /** After a manual date change the key is still the YYYYMMDD of the entry's date. */
  lemma SetDateKeepsKey(items: seq<JsVal>, index: int, day: int)
    requires 0 <= index < |items| && items[index].Obj?
    requires 0 <= FromDayNumber(day).year <= 9999
    ensures Member(SetDate(items, index, DateString(day))[index], "Date") == Str(DateString(day))
    ensures Member(SetDate(items, index, DateString(day))[index], "DateKey") == Num(DateKey(day))
  {
    KeyOfDateStringIsDateKey(day);
  }
}

=== FILE: jsvalue.dfy ===
/** JavaScript values as the application's forms, drafts and records hold them, and the
    operators the code applies to them: truthiness, `||`, `??`, `?.`, object spread,
    `Number(v)`, `String(v)`, `parseInt`, `new Date(v)` and the round trip
    `JSON.parse(JSON.stringify(v))`.

    Numbers are integers (money and counts are whole numbers here), an object is a map
    from property names to values (property order is not modelled), and a `Date` object
    holds its time value in milliseconds; a time outside [-MaxTime, MaxTime] stands for
    an invalid date. Objects are values: two objects with the same contents are equal. */
module JsValue {
  import opened Results
  import opened Text
  import opened Civil
  import opened DateText

  datatype JsVal =
    | Undefined
    | Null
    | Bool(b: bool)
    | Num(n: int)
    | NaN
    | Str(s: string)
    | Arr(items: seq<JsVal>)
    | Obj(fields: map<string, JsVal>)
    | Date(time: int)

  /** The time value standing for "Invalid Date". */
  const InvalidTime: int := MaxTime + 1

  predicate ValidTime(t: int) {
    -MaxTime <= t <= MaxTime
  }

  /** A `Date` object for a computed time value; NaN or a value out of range gives an invalid date. */
  function MakeDate(t: Option<int>): (d: JsVal)
    ensures d.Date?
    ensures ValidTime(d.time) <==> t.Some? && ValidTime(t.value)
    ensures ValidTime(d.time) ==> d.time == t.value
  {
    if t.Some? && ValidTime(t.value) then Date(t.value) else Date(InvalidTime)
  }

  predicate IsNullish(v: JsVal) {
    v.Undefined? || v.Null?
  }

  /** JavaScript truthiness: `undefined`, `null`, `false`, `0`, `NaN` and `""` are falsy. */
  predicate Truthy(v: JsVal) {
    match v
    case Undefined => false
    case Null => false
    case Bool(b) => b
    case Num(n) => n != 0
    case NaN => false
    case Str(s) => s != ""
    case _ => true
  }

  /** `a || b`. */
  function Or(a: JsVal, b: JsVal): JsVal {
    if Truthy(a) then a else b
  }

  /** `a ?? b`. */
  function Coalesce(a: JsVal, b: JsVal): JsVal {
    if IsNullish(a) then b else a
  }

  /** `v?.[k]`: a missing property, or any property of a non-object, reads as `undefined`. */
  function Member(v: JsVal, k: string): JsVal {
    if v.Obj? && k in v.fields then v.fields[k] else Undefined
  }

  /** `v[k]` without `?.`: reading a property of `null` or `undefined` throws a TypeError. */
  function Prop(v: JsVal, k: string): Result<JsVal> {
    if IsNullish(v) then Err("TypeError") else Ok(Member(v, k))
  }

  /** The own properties that spreading `{...v}` copies (none for a non-object). */
  function Fields(v: JsVal): map<string, JsVal> {
    if v.Obj? then v.fields else map[]
  }

  /** `{...a, ...b}`: the properties of both, those of `b` winning. */
  function Spread(a: JsVal, b: JsVal): JsVal {
    Obj(Fields(a) + Fields(b))
  }

  /** Properties read from a spread come from the right operand when it has them. */
  lemma SpreadMember(a: JsVal, b: JsVal, k: string)
    ensures Member(Spread(a, b), k) == if k in Fields(b) then Fields(b)[k] else Member(a, k)
  {
  }

  /** Spreading into an empty object copies an object, and an empty object changes nothing. */
  lemma SpreadIdentity(a: JsVal)
    requires a.Obj?
    ensures Spread(a, Obj(map[])) == a && Spread(Obj(map[]), a) == a
  {
    assert Fields(a) + map[] == a.fields;
    assert map[] + Fields(a) == a.fields;
  }

  /** `v.k = x` on an object; other values are left as they are. */
  function Put(v: JsVal, k: string, x: JsVal): JsVal {
    if v.Obj? then Obj(v.fields[k := x]) else v
  }

  /** Writing a property changes only that property of an object. */
  lemma MemberPut(v: JsVal, k: string, x: JsVal, k2: string)
    requires v.Obj?
    ensures Member(Put(v, k, x), k2) == if k2 == k then x else Member(v, k2)
  {
  }

  /** `setValue("k1.k2", x)`: the inner object is created when missing. */
  function SetPath(v: JsVal, k1: string, k2: string, x: JsVal): (r: JsVal)
    requires v.Obj?
    ensures Member(Member(r, k1), k2) == x
    ensures forall k :: k != k1 ==> Member(r, k) == Member(v, k)
    ensures forall k :: k != k2 && Member(v, k1).Obj? ==> Member(Member(r, k1), k) == Member(Member(v, k1), k)
  {
    var inner := Member(v, k1);
    Put(v, k1, Put(if inner.Obj? then inner else Obj(map[]), k2, x))
  }

  /** `===` on the values the model distinguishes; NaN equals nothing. */
  predicate StrictEq(a: JsVal, b: JsVal) {
    a == b && !a.NaN?
  }

  /** `Number(v)`; `None` is NaN. */
  function ToNumber(v: JsVal): Option<int> {
    match v
    case Undefined => None
    case Null => Some(0)
    case Bool(b) => Some(if b then 1 else 0)
    case Num(n) => Some(n)
    case NaN => None
    case Str(s) => StringToNumber(s)
    case Date(t) => if ValidTime(t) then Some(t) else None
    case _ => StringToNumber(ToStr(v))
  }

  /** The number value of a computed `Option<int>` (`None` is NaN). */
  function NumOf(o: Option<int>): JsVal {
    if o.Some? then Num(o.value) else NaN
  }

  /** `String(v)` (and template-literal interpolation). */
  function ToStr(v: JsVal): string
    decreases v, if v.Arr? then |v.items| + 1 else 0
  {
    match v
    case Undefined => "undefined"
    case Null => "null"
    case Bool(b) => if b then "true" else "false"
    case Num(n) => IntToString(n)
    case NaN => "NaN"
    case Str(s) => s
    case Arr(xs) => Join(xs, 0)
    case Obj(_) => "[object Object]"
    case Date(t) => if ValidTime(t) then DateToString(t) else "Invalid Date"
  }

  /** `xs.slice(i).join(",")`, where `null` and `undefined` elements are written as "". */
  function Join(xs: seq<JsVal>, i: nat): string
    requires i <= |xs|
    decreases Arr(xs), |xs| - i
  {
    if i == |xs| then ""
    else
      var e := if IsNullish(xs[i]) then "" else ToStr(xs[i]);
      if i + 1 == |xs| then e else e + "," + Join(xs, i + 1)
  }

  /** `parseInt(v)`: the value is converted to a string first. */
  function ParseIntOf(v: JsVal): Option<int> {
    ParseInt(ToStr(v))
  }

  /** `parseFloat(v)` on integer-valued text. */
  function ParseFloatOf(v: JsVal): Option<int> {
    ParseDecimal(ToStr(v))
  }

  function WeekdayName(w: int): string
    requires 0 <= w < 7
  {
    ["Sun", "Mon", "Tue", "Wed", "Thu", "Fri", "Sat"][w]
  }

  function MonthName(m: int): string
    requires 1 <= m <= 12
  {
    ["Jan", "Feb", "Mar", "Apr", "May", "Jun", "Jul", "Aug", "Sep", "Oct", "Nov", "Dec"][m - 1]
  }

  /** `Date.prototype.toString` on a UTC host, e.g. "Thu Jan 01 1970 00:00:00 GMT+0000 (Coordinated Universal Time)". */
  function DateToString(t: int): string {
    var day := DayOf(t);
    var c := FromDayNumber(day);
    var tod := t % MsPerDay;
    var year := if c.year >= 0 then PadNat(c.year, 4) else "-" + PadNat(-c.year, 6);
    WeekdayName(Weekday(day)) + " " + MonthName(c.month) + " " + Two(c.day) + " " + year + " "
      + Two(tod / 3600000) + ":" + Two(tod / 60000 % 60) + ":" + Two(tod / 1000 % 60)
      + " GMT+0000 (Coordinated Universal Time)"
  }

  /** `new Date(v)`: a Date is copied, a string (or an array or object, through its string
      form) is parsed, anything else is converted with `Number`. */
  function NewDate(v: JsVal): (d: JsVal)
    ensures d.Date?
  {
    match v
    case Date(t) => MakeDate(Some(t))
    case Str(s) => MakeDate(ParseDate(s))
    case Arr(_) => MakeDate(ParseDate(ToStr(v)))
    case Obj(_) => MakeDate(ParseDate(ToStr(v)))
    case _ => MakeDate(ToNumber(v))
  }

  /** The value `JSON.parse(JSON.stringify(v))` gives back: `undefined` properties are
      dropped, `undefined` array elements and NaN become `null`, and a Date becomes its
      `toISOString()` text (`null` when invalid). */
  function JsonValue(v: JsVal): JsVal {
    match v
    case Undefined => Null
    case NaN => Null
    case Date(t) => if ValidTime(t) then Str(IsoString(t)) else Null
    case Arr(xs) => Arr(seq(|xs|, i requires 0 <= i < |xs| => JsonValue(xs[i])))
    case Obj(m) => Obj(map k | k in m && !m[k].Undefined? :: JsonValue(m[k]))
    case _ => v
  }

  /** Values that JSON represents exactly. */
  predicate IsJson(v: JsVal) {
    match v
    case Undefined => false
    case NaN => false
    case Date(_) => false
    case Arr(xs) => forall i :: 0 <= i < |xs| ==> IsJson(xs[i])
    case Obj(m) => forall k :: k in m ==> IsJson(m[k])
    case _ => true
  }

  /** What comes back from JSON is JSON. */
  lemma {:induction false} JsonValueIsJson(v: JsVal)
    ensures IsJson(JsonValue(v))
  {
    match v
    case Arr(xs) =>
      forall i | 0 <= i < |xs|
        ensures IsJson(JsonValue(xs[i]))
      {
        JsonValueIsJson(xs[i]);
      }
    case Obj(m) =>
      forall k | k in m && !m[k].Undefined?
        ensures IsJson(JsonValue(m[k]))
      {
        JsonValueIsJson(m[k]);
      }
    case _ =>
  }

  /** JSON values survive the round trip unchanged. */
  lemma {:induction false} JsonOfJson(v: JsVal)
    requires IsJson(v)
    ensures JsonValue(v) == v
  {
    match v
    case Arr(xs) =>
      forall i | 0 <= i < |xs|
        ensures JsonValue(xs[i]) == xs[i]
      {
        JsonOfJson(xs[i]);
      }
    case Obj(m) =>
      forall k | k in m
        ensures JsonValue(m[k]) == m[k]
      {
        JsonOfJson(m[k]);
      }
      assert JsonValue(v).fields == m;
    case _ =>
  }

  /** A second round trip through JSON changes nothing. */
  lemma JsonIdempotent(v: JsVal)
    ensures JsonValue(JsonValue(v)) == JsonValue(v)
  {
    JsonValueIsJson(v);
    JsonOfJson(JsonValue(v));
  }

  /** `Number` reads back a number written by `String`. */
  lemma ToNumberOfToStr(n: int)
    ensures ToNumber(Str(ToStr(Num(n)))) == Some(n)
  {
    StringToNumberOfIntToString(n);
  }

  /** `new Date` of the "YYYY-MM-DD" text of a day is that day's midnight. */
  lemma NewDateOfDateString(day: int)
    requires 0 <= FromDayNumber(day).year <= 9999
    ensures NewDate(Str(DateString(day))) == Date(day * MsPerDay)
  {
    ParseDateString(day);
    FromDayNumberRange(day);
  }

  /** Days of four-digit years are valid time values. */
  lemma FromDayNumberRange(day: int)
    requires 0 <= FromDayNumber(day).year <= 9999
    ensures ValidTime(day * MsPerDay)
  {
    FourDigitDays(day);
    DayTimeValid(day);
  }

  /** The days of the years 0 to 9999 lie between -719528 and 2932896. */
  lemma FourDigitDays(day: int)
    requires 0 <= FromDayNumber(day).year <= 9999
    ensures -719528 <= day <= 2932896
  {
    DayNumberBounds(FromDayNumber(day));
  }

  lemma DayTimeValid(day: int)
    requires -719528 <= day <= 2932896
    ensures ValidTime(day * MsPerDay)
  {
  }

  lemma DayNumberBounds(c: Ymd)
    requires Valid(c) && 0 <= c.year <= 9999
    ensures -719528 <= DayNumber(c) <= 2932896
  {
    var y := MarchYear(c);
    var era := y / 400;
    var yoe := y - era * 400;
    assert DaysBefore(y) == era * 146097 + YearStart(yoe);
    if y == -1 {
      assert era == -1 && yoe == 399 && YearStart(399) == 145731;
    } else if y == 9999 {
      assert era == 24 && yoe == 399 && YearStart(399) == 145731;
    } else {
      assert 0 <= era <= 24 && (era == 24 ==> yoe <= 398);
      YearStartRange(yoe);
    }
  }

  /** `d.toISOString()`; an invalid date throws a RangeError. */
  function ToIsoString(d: JsVal): (r: Result<string>)
    requires d.Date?
    ensures r.Ok? <==> ValidTime(d.time)
    ensures r.Ok? ==> r.value == IsoString(d.time)
  {
    if ValidTime(d.time) then Ok(IsoString(d.time)) else Err("RangeError")
  }

  /** `new Date(d.toISOString())` is `d` again, for dates in four-digit years. */
  lemma NewDateOfIsoString(t: int)
    requires ValidTime(t) && 0 <= FromDayNumber(DayOf(t)).year <= 9999
    ensures ToIsoString(Date(t)).Ok? && NewDate(Str(ToIsoString(Date(t)).value)) == Date(t)
  {
    ParseIsoString(t);
  }

  /** `d.toISOString().split("T")[0]`. */
  function DatePart(d: JsVal): (r: Result<string>)
    requires d.Date?
    ensures r.Ok? <==> ValidTime(d.time)
    ensures r.Ok? ==> r.value == IsoDate(d.time)
  {
    if ValidTime(d.time) then Ok(IsoDate(d.time)) else Err("RangeError")
  }

  /** `new Date(d.getTime() + n * 86400000)`; on a UTC host `setDate(getDate() + n)` gives the same. */
  function AddDays(d: JsVal, n: int): (r: JsVal)
    requires d.Date?
    ensures r.Date?
  {
    MakeDate(if ValidTime(d.time) then Some(d.time + n * MsPerDay) else None)
  }

  /** Adding days to a midnight within the years 0 to 9999 lands on the midnight `n` days later. */
  lemma AddDaysOfDay(day: int, n: int, later: int)
    requires later == day + n
    requires -719528 <= day <= 2932896 && -719528 <= later <= 2932896
    ensures AddDays(Date(day * MsPerDay), n) == Date(later * MsPerDay)
  {
    DayTimeValid(day);
    DayTimeValid(later);
    DaysDistribute(day, n);
    AddDaysOf(day * MsPerDay, later * MsPerDay, n);
  }

  lemma AddDaysOf(t: int, u: int, n: int)
    requires ValidTime(t) && ValidTime(u) && t + n * MsPerDay == u
    ensures AddDays(Date(t), n) == Date(u)
  {
  }

  lemma DaysDistribute(day: int, n: int)
    ensures day * MsPerDay + n * MsPerDay == (day + n) * MsPerDay
  {
  }
}

=== FILE: multi_select.dfy ===
/** The multiple-destination picker of src/components/MultiSelectDestinations.jsx: a modal
    that edits a working copy of the selection, which is handed to the parent on confirm and
    dropped on cancel, chips that remove an item at once, and the text on the selector.

    Items are compared as values: `includes` treats NaN as equal to itself and `!==` does
    not. A selection handed to the parent is returned with the step that emits it. */
module MultiSelect {
  import opened Results
  import opened Text
  import opened JsValue

  /** `Array.isArray(v) ? v : []`. */
  function Safe(v: JsVal): (r: seq<JsVal>)
    ensures v.Arr? ==> r == v.items
    ensures !v.Arr? ==> r == []
  {
    if v.Arr? then v.items else []
  }

  /** `xs.filter(d => d !== x)`. */
  function Remove(xs: seq<JsVal>, x: JsVal): (r: seq<JsVal>)
    ensures |r| <= |xs|
    ensures forall y :: y in r <==> y in xs && !StrictEq(y, x)
    decreases |xs|
  {
    if |xs| == 0 then []
    else if StrictEq(xs[0], x) then Remove(xs[1..], x)
    else [xs[0]] + Remove(xs[1..], x)
  }

  /** The filter drops every copy of `x` and keeps every copy of anything else. */
  lemma {:induction false} RemoveCounts(xs: seq<JsVal>, x: JsVal, y: JsVal)
    ensures !x.NaN? ==> multiset(Remove(xs, x))[x] == 0
    ensures y != x ==> multiset(Remove(xs, x))[y] == multiset(xs)[y]
    ensures x.NaN? ==> Remove(xs, x) == xs
    decreases |xs|
  {
    if |xs| > 0 {
      RemoveCounts(xs[1..], x, y);
      assert xs == [xs[0]] + xs[1..];
    }
  }

  /** `toggleDestination`: an included item is filtered out, another one is appended. */
  function Toggle(prev: seq<JsVal>, x: JsVal): (r: seq<JsVal>)
    ensures x in prev ==> r == Remove(prev, x)
    ensures x !in prev ==> r == prev + [x]
  {
    if x in prev then Remove(prev, x) else prev + [x]
  }

  lemma {:induction false} RemoveAbsent(xs: seq<JsVal>, x: JsVal)
    requires x !in xs
    ensures Remove(xs, x) == xs
    decreases |xs|
  {
    if |xs| > 0 {
      RemoveAbsent(xs[1..], x);
      assert [xs[0]] + xs[1..] == xs;
    }
  }

  lemma {:induction false} RemoveAppend(a: seq<JsVal>, b: seq<JsVal>, x: JsVal)
    ensures Remove(a + b, x) == Remove(a, x) + Remove(b, x)
    decreases |a|
  {
    if |a| == 0 {
      assert a + b == b;
    } else {
      assert (a + b)[1..] == a[1..] + b;
      RemoveAppend(a[1..], b, x);
    }
  }

  /** Toggling an item that is not selected, and toggling it again, restores the selection. */
  lemma ToggleTwiceRestores(prev: seq<JsVal>, x: JsVal)
    requires x !in prev && !x.NaN?
    ensures Toggle(Toggle(prev, x), x) == prev
  {
    assert x in prev + [x];
    RemoveAppend(prev, [x], x);
    RemoveAbsent(prev, x);
    assert Remove([x], x) == [];
  }

  /** A toggle flips the item's membership and no other item's; a NaN, once in, cannot be
      toggled out. */
  lemma ToggleMembership(prev: seq<JsVal>, x: JsVal, y: JsVal)
    ensures !x.NaN? ==> (x in Toggle(prev, x) <==> x !in prev)
    ensures y != x ==> (y in Toggle(prev, x) <==> y in prev)
    ensures x.NaN? && x in prev ==> Toggle(prev, x) == prev
  {
    RemoveCounts(prev, x, y);
  }

  /** The picker: the parent's selection, the working copy and whether the modal is open. */
  datatype Picker = Picker(selected: JsVal, temp: seq<JsVal>, open: bool)

  /** What the user can do with the picker. */
  datatype Event = OpenModal | ToggleItem(item: JsVal) | Confirm | Cancel | RemoveChip(chip: JsVal)

  /** One event, with the selection handed to `onSelectionChange`, if any. Opening a disabled
      picker does nothing. */
  function Handle(p: Picker, e: Event, disabled: bool): (r: (Picker, Option<seq<JsVal>>))
    ensures e.OpenModal? && !disabled ==> r.0.temp == Safe(p.selected) && r.0.open
    ensures e.Confirm? ==> r.1 == Some(p.temp) && !r.0.open
    ensures e.Cancel? ==> r.1 == None && r.0.temp == Safe(p.selected) && !r.0.open
    ensures e.RemoveChip? ==> r.1 == Some(Remove(Safe(p.selected), e.chip)) && r.0 == p
    ensures !e.Confirm? && !e.RemoveChip? ==> r.1 == None
    ensures r.0.selected == p.selected
  {
    match e
    case OpenModal => (if disabled then p else p.(temp := Safe(p.selected), open := true), None)
    case ToggleItem(x) => (p.(temp := Toggle(p.temp, x)), None)
    case Confirm => (p.(open := false), Some(p.temp))
    case Cancel => (p.(temp := Safe(p.selected), open := false), None)
    case RemoveChip(x) => (p, Some(Remove(Safe(p.selected), x)))
  }

  /** Toggles in the modal. */
  function Toggles(p: Picker, items: seq<JsVal>): (r: Picker)
    ensures r.selected == p.selected && r.open == p.open
    decreases |items|
  {
    if |items| == 0 then p else Toggles(Handle(p, ToggleItem(items[0]), false).0, items[1..])
  }

  /** Opening, toggling anything and cancelling hands nothing to the parent and leaves the
      working copy equal to the parent's selection again. */
  lemma CancelDiscardsToggles(p: Picker, items: seq<JsVal>, disabled: bool)
    requires !disabled
    ensures var q := Toggles(Handle(p, OpenModal, disabled).0, items);
      Handle(q, Cancel, disabled).1 == None && Handle(q, Cancel, disabled).0.temp == Safe(p.selected)
  {
  }

  /** Opening, toggling one new item and confirming hands the parent its selection with the
      item appended. */
  lemma ConfirmAddsToggled(p: Picker, x: JsVal)
    requires x !in Safe(p.selected)
    ensures var q := Handle(Handle(p, OpenModal, false).0, ToggleItem(x), false).0;
      Handle(q, Confirm, false).1 == Some(Safe(p.selected) + [x])
  {
  }

  /** `getDisplayText()`: the placeholder for no item, the item itself for one, and the count
      otherwise. */
  function DisplayText(selected: JsVal, placeholder: string, kind: string): (r: JsVal)
    ensures |Safe(selected)| == 0 ==> r == Str(placeholder)
    ensures |Safe(selected)| == 1 ==> r == Safe(selected)[0]
  {
    var items := Safe(selected);
    if |items| == 0 then Str(placeholder)
    else if |items| == 1 then items[0]
    else Str(IntToString(|items|) + " " + kind + (if |items| > 1 then "s" else "") + " selected")
  }

  /** With two or more items the plural "s" is always there: the test for it cannot fail
      once a single item is ruled out. */
  lemma DisplayCount(selected: JsVal, placeholder: string, kind: string)
    requires |Safe(selected)| >= 2
    ensures DisplayText(selected, placeholder, kind) == Str(IntToString(|Safe(selected)|) + " " + kind + "s selected")
  {
  }

  /** The text starts with the number of items, and reads back as it. */
  lemma DisplayCountParses(selected: JsVal, placeholder: string, kind: string)
    requires |Safe(selected)| >= 2
    ensures DisplayText(selected, placeholder, kind).Str?
    ensures ParseDecimal(DisplayText(selected, placeholder, kind).s) == Some(|Safe(selected)|)
  {
    var n := |Safe(selected)|;
    var rest := " " + kind + "s selected";
    DisplayCount(selected, placeholder, kind);
    assert IntToString(n) + " " + kind + "s selected" == IntToString(n) + rest;
    assert rest[0] == ' ';
    ParseDecimalOfIntToStringThen(n, rest);
  }
}

=== FILE: new_lead.dfy ===
/** The lead form of src/pages/NewLeadForm.jsx: the field rules, the lead record built from
    the submitted values and the signed-in user's profile, and what a submit leaves behind.

    The record is the JSON body the page posts; its fields carry the property names of the
    body. The request is left out: a submit is given its outcome as a parameter. `now` is
    the time value of `new Date()` at the submit. */
module NewLead {
  import opened Results
  import opened Text
  import opened JsValue
  import opened Storage
  import opened DateText
  import FormRules
  import QuotationForm
  import BasicDetails
  import UserProfile

  /** `parseInt(v) || 0`. */
  function IntOr0(v: JsVal): int {
    var p := ParseIntOf(v);
    if p.Some? then p.value else 0
  }

  /** A count typed as its decimal text, or passed as a number, is stored as that count. */
  lemma IntOr0Reads(n: int)
    ensures IntOr0(Str(IntToString(n))) == n
    ensures IntOr0(Num(n)) == n
  {
    ParseIntOfIntToString(n);
  }

  /** Text that does not start like a number is stored as 0. */
  lemma IntOr0OfText(text: string)
    requires |text| > 0 && !IsSpace(text[0]) && !IsDigit(text[0]) && text[0] != '-' && text[0] != '+'
    ensures IntOr0(Str(text)) == 0
  {
    assert TrimStart(text) == text;
  }

  /** The travel date: the `date` property of a picked value when it is truthy, the value
      itself otherwise. */
  function TravelStart(v: JsVal): (r: JsVal)
    ensures !v.Obj? ==> r == v
    ensures Truthy(Member(v, "date")) ==> r == Member(v, "date")
  {
    if Truthy(Member(v, "date")) then Member(v, "date") else v
  }

  /** `calculateEndDate(start, days)`: the date part of `start` + (days - 1) days, or the
      RangeError `toISOString` throws for an invalid date. */
  function EndDate(start: JsVal, days: int): (r: Result<string>)
    ensures r.Ok? <==> ValidTime(AddDays(NewDate(start), days - 1).time)
  {
    QuotationForm.EndOf(NewDate(start), days)
  }

  /** For a "YYYY-MM-DD" start, the end date of `n` days is the date of the trip's last day. */
  lemma EndDateOfDays(day: int, n: int, last: int)
    requires last == day + n - 1
    requires 0 <= Civil.FromDayNumber(day).year <= 9999 && -719528 <= last <= 2932896
    ensures EndDate(Str(DateString(day)), n) == Ok(DateString(last))
  {
    NewDateOfDateString(day);
    FourDigitDays(day);
    QuotationForm.EndOfMidnight(day, n, last);
  }

  /** A duration of 0 days (the typed text "0", or text that is no number) gives the day
      before the start, where the quotation form leaves the end date empty. */
  lemma ZeroDaysEndsTheDayBefore(day: int, before: int)
    requires before == day - 1
    requires 0 <= Civil.FromDayNumber(day).year <= 9999 && -719528 <= before
    ensures EndDate(Str(DateString(day)), 0) == Ok(DateString(before))
    ensures QuotationForm.TravelEndDate(Str(DateString(day)), Some(0)) == Ok("")
  {
    FourDigitDays(day);
    EndDateOfDays(day, 0, before);
  }

  /** The one comment of a new lead. */
  datatype Comment = Comment(author: JsVal, role: string, message: JsVal, at: string)

  /** The body of the create request. */
  datatype Lead = Lead(
    companyId: JsVal, companyName: JsVal,
    name: JsVal, email: JsVal, contact: JsVal, departureCity: JsVal,
    destination: JsVal, destinations: seq<JsVal>, isMultiDestination: bool,
    pax: int, child: int, infant: int, days: int, budget: int,
    travelDate: JsVal, travelEndDate: string,
    leadSource: JsVal, leadPotential: JsVal, leadRating: JsVal,
    salesStatus: string, latestStatus: string,
    salesPersonUid: JsVal, salesPersonName: JsVal, salesPersonEmail: JsVal,
    quotations: seq<JsVal>, comments: seq<Comment>)

  /** The lead built in `onSubmit`: a TypeError when there is no profile (its `companyId` is
      read first), a RangeError when the end date is no valid date. */
  function Payload(data: JsVal, multi: bool, selected: seq<JsVal>, profile: JsVal, now: int): (r: Result<Lead>)
    requires ValidTime(now)
    ensures IsNullish(profile) ==> r == Err("TypeError")
    ensures !IsNullish(profile) ==>
      (r.Ok? <==> EndDate(TravelStart(Member(data, "Client-TravelDate")), IntOr0(Member(data, "Client-Days"))).Ok?)
    ensures r.Ok? ==> r.value.companyId == Member(profile, "companyId") && r.value.salesPersonEmail == Member(profile, "Email")
    ensures r.Ok? ==> r.value.days == IntOr0(Member(data, "Client-Days")) && r.value.isMultiDestination == multi
  {
    if IsNullish(profile) then Err("TypeError")
    else
      var dest := Member(data, "Client-Destination");
      var travel := Member(data, "Client-TravelDate");
      var days := IntOr0(Member(data, "Client-Days"));
      var end := EndDate(TravelStart(travel), days);
      if end.Err? then Err(end.error)
      else Ok(Lead(
        Member(profile, "companyId"), Member(profile, "companyName"),
        Member(data, "Client-Name"), Member(data, "Client-Email"), Member(data, "Client-Contact"),
        Member(data, "Client-DepartureCity"),
        if multi && |selected| > 0 then selected[0] else dest,
        if multi then selected else [dest], multi,
        IntOr0(Member(data, "Client-Pax")), IntOr0(Member(data, "Client-Child")), IntOr0(Member(data, "Client-Infant")),
        days, IntOr0(Member(data, "Client-Budget")),
        TravelStart(travel), end.value,
        Or(Member(data, "LeadSource"), Str("WebApp")), Or(Member(data, "LeadPotential"), Str("Medium")),
        Or(Member(data, "LeadRating"), Str("Warm")),
        "LeadCreate", "LeadCreate",
        Member(profile, "FullName"), Member(profile, "FullName"), Member(profile, "Email"),
        [],
        [Comment(Member(profile, "salesPersonEmail"), "Sales", Or(Member(data, "Comments"), Str("Initial lead created")), IsoString(now))]))
  }

  /** In single mode the lead lists exactly the destination of the form; in multi mode it
      lists the selection and leads with its first entry, falling back to the form's
      destination, which is then not listed, when nothing is selected. */
  lemma PayloadDestinations(data: JsVal, multi: bool, selected: seq<JsVal>, profile: JsVal, now: int)
    requires ValidTime(now) && Payload(data, multi, selected, profile, now).Ok?
    ensures var lead := Payload(data, multi, selected, profile, now).value;
      && (!multi ==> lead.destinations == [Member(data, "Client-Destination")] && lead.destination == Member(data, "Client-Destination"))
      && (multi ==> lead.destinations == selected)
      && (multi && |selected| > 0 ==> lead.destination == selected[0])
      && (!multi || |selected| > 0 ==> lead.destination in lead.destinations)
      && (multi && |selected| == 0 ==> lead.destinations == [] && lead.destination == Member(data, "Client-Destination"))
  {
  }

  /** The lead's source, potential, rating and comment fall back to their defaults exactly when
      the form leaves them falsy; both statuses are "LeadCreate" and no quotation is attached. */
  lemma PayloadDefaults(data: JsVal, multi: bool, selected: seq<JsVal>, profile: JsVal, now: int)
    requires ValidTime(now) && Payload(data, multi, selected, profile, now).Ok?
    ensures var lead := Payload(data, multi, selected, profile, now).value;
      && (Truthy(Member(data, "LeadSource")) ==> lead.leadSource == Member(data, "LeadSource"))
      && (!Truthy(Member(data, "LeadSource")) ==> lead.leadSource == Str("WebApp"))
      && (!Truthy(Member(data, "LeadPotential")) ==> lead.leadPotential == Str("Medium"))
      && (!Truthy(Member(data, "LeadRating")) ==> lead.leadRating == Str("Warm"))
      && |lead.comments| == 1
      && (!Truthy(Member(data, "Comments")) ==> lead.comments[0].message == Str("Initial lead created"))
      && lead.comments[0].at == IsoString(now) && lead.comments[0].role == "Sales"
      && lead.salesStatus == lead.latestStatus == "LeadCreate" && lead.quotations == []
  {
  }

  /** A picked date object contributes its `date`; plain date text is used as it is. */
  lemma PayloadTravelDate(data: JsVal, multi: bool, selected: seq<JsVal>, profile: JsVal, now: int, day: int, days: int, last: int)
    requires ValidTime(now) && !IsNullish(profile)
    requires Member(data, "Client-TravelDate") == Str(DateString(day)) && IntOr0(Member(data, "Client-Days")) == days
    requires last == day + days - 1
    requires 0 <= Civil.FromDayNumber(day).year <= 9999 && -719528 <= last <= 2932896
    ensures Payload(data, multi, selected, profile, now).Ok?
    ensures Payload(data, multi, selected, profile, now).value.travelDate == Str(DateString(day))
    ensures Payload(data, multi, selected, profile, now).value.travelEndDate == DateString(last)
  {
    EndDateOfDays(day, days, last);
    PayloadDates(data, multi, selected, profile, now);
  }

  /** The lead's travel dates are the unwrapped start and the end date computed from it. */
  lemma PayloadDates(data: JsVal, multi: bool, selected: seq<JsVal>, profile: JsVal, now: int)
    requires ValidTime(now) && !IsNullish(profile)
    requires EndDate(TravelStart(Member(data, "Client-TravelDate")), IntOr0(Member(data, "Client-Days"))).Ok?
    ensures var r := Payload(data, multi, selected, profile, now);
      var start := TravelStart(Member(data, "Client-TravelDate"));
      && r.Ok? && r.value.travelDate == start
      && r.value.travelEndDate == EndDate(start, IntOr0(Member(data, "Client-Days"))).value
  {
  }

  /** The form's rules: name, contact of at least ten characters, a matching e-mail,
      destination, duration, travel date and adults are required. */
  predicate Rules(v: JsVal) {
    FormRules.Required(Member(v, "Client-Name"))
    && FormRules.Required(Member(v, "Client-Contact")) && FormRules.MinLength(Member(v, "Client-Contact"), 10)
    && FormRules.Required(Member(v, "Client-Email")) && FormRules.Pattern(Member(v, "Client-Email"), BasicDetails.EmailMatches)
    && FormRules.Required(Member(v, "Client-Destination"))
    && FormRules.Required(Member(v, "Client-Days"))
    && FormRules.Required(Member(v, "Client-TravelDate"))
    && FormRules.Required(Member(v, "Client-Pax"))
  }

  /** Accepted text values: an e-mail that matches the pattern and a contact of ten or more
      characters. */
  lemma AcceptedText(v: JsVal)
    requires Rules(v) && Member(v, "Client-Email").Str? && Member(v, "Client-Contact").Str?
    ensures BasicDetails.EmailPattern(Member(v, "Client-Email").s)
    ensures |Member(v, "Client-Contact").s| >= 10
  {
    BasicDetails.EmailMatchesIsPattern(Member(v, "Client-Email").s);
  }

  /** An accepted form lists a non-empty destination in single mode. */
  lemma AcceptedDestination(v: JsVal, selected: seq<JsVal>, profile: JsVal, now: int)
    requires ValidTime(now) && Rules(v) && Payload(v, false, selected, profile, now).Ok?
    ensures var lead := Payload(v, false, selected, profile, now).value;
      |lead.destinations| == 1 && FormRules.Required(lead.destinations[0])
  {
  }

  /** How the create request ended: a reply with its status flag and parsed body, or a
      failure of the request or of parsing its body. */
  datatype Reply = Reply(ok: bool, body: JsVal) | Failure

  const NetworkError: string := "Network error. Please check your connection and try again."
  const CreateFailed: string := "Failed to create lead. Please try again."

  /** The page: the form's values, the multi-destination state, the busy flag and the last
      alert shown. */
  datatype Page = Page(values: JsVal, selected: seq<JsVal>, multi: bool, submitting: bool, alert: Option<JsVal>)

  const Initial: Page := Page(Obj(map[]), [], false, false, None)

  /** The end of `onSubmit` once the lead is built (or has thrown) and the request has ended,
      with whether the page moves home. A created lead resets the form and the destinations;
      a refusal alerts the server's message, its default when falsy; a throw anywhere alerts
      the network error. */
  function Settle(p: Page, lead: Result<Lead>, reply: Reply): (r: (Page, bool))
    ensures !r.0.submitting
    ensures r.1 <==> lead.Ok? && reply.Reply? && reply.ok
    ensures r.1 ==> r.0 == Page(Obj(map[]), [], false, false, p.alert)
    ensures !r.1 ==> r.0.alert.Some? && r.0 == p.(submitting := false, alert := r.0.alert)
    ensures lead.Err? || reply.Failure? ==> r.0.alert == Some(Str(NetworkError))
  {
    if lead.Err? || reply.Failure? then (p.(submitting := false, alert := Some(Str(NetworkError))), false)
    else if reply.ok then (Page(Obj(map[]), [], false, false, p.alert), true)
    else
      var message := Prop(reply.body, "message");
      if message.Err? then (p.(submitting := false, alert := Some(Str(NetworkError))), false)
      else (p.(submitting := false, alert := Some(Or(message.value, Str(CreateFailed)))), false)
  }

  /** A refusal whose body has no message shows the default text, and one with a message
      shows it; a `null` body throws while it is read, and the network error is shown. */
  lemma RefusalMessages(p: Page, lead: Lead, text: string)
    requires text != ""
    ensures Settle(p, Ok(lead), Reply(false, Obj(map[]))).0.alert == Some(Str(CreateFailed))
    ensures Settle(p, Ok(lead), Reply(false, Obj(map["message" := Str(text)]))).0.alert == Some(Str(text))
    ensures Settle(p, Ok(lead), Reply(false, Null)).0.alert == Some(Str(NetworkError))
  {
  }

  /** `onSubmit` with the stored profile and the request's outcome. */
  function Submit(p: Page, st: Store, now: int, reply: Reply): (r: (Page, bool))
    requires ValidTime(now)
    ensures r.1 ==> Payload(p.values, p.multi, p.selected, UserProfile.GetUserProfile(st), now).Ok?
    ensures r.0.multi ==> p.multi
  {
    Settle(p, Payload(p.values, p.multi, p.selected, UserProfile.GetUserProfile(st), now), reply)
  }

  /** Without a stored profile nothing is posted: the page alerts the network error and keeps
      what was typed. */
  lemma NoProfileKeepsInput(p: Page, st: Store, now: int, reply: Reply)
    requires ValidTime(now) && UserProfile.ProfileKey !in st
    ensures Submit(p, st, now, reply) == (p.(submitting := false, alert := Some(Str(NetworkError))), false)
  {
  }

  /** What the page lets happen: typing into the form, and pressing submit, which runs
      `onSubmit` only when the rules hold. */
  datatype Action = Type(values: JsVal) | Press(st: Store, now: int, reply: Reply)

  function Step(p: Page, a: Action): (r: Page)
    ensures r.multi ==> p.multi
  {
    match a
    case Type(values) => p.(values := values)
    case Press(st, now, reply) =>
      if Rules(p.values) && ValidTime(now) then Submit(p, st, now, reply).0 else p
  }

  function Run(p: Page, actions: seq<Action>): Page
    decreases |actions|
  {
    if |actions| == 0 then p else Run(Step(p, actions[0]), actions[1..])
  }

  /** Nothing on the page turns the multi-destination mode on: from the initial page every
      lead is built in single mode. */
  lemma {:induction false} RunStaysSingle(p: Page, actions: seq<Action>)
    requires !p.multi
    ensures !Run(p, actions).multi
    decreases |actions|
  {
    if |actions| > 0 {
      RunStaysSingle(Step(p, actions[0]), actions[1..]);
    }
  }

  /** Hence every lead the page posts lists exactly the typed destination. */
  lemma PostedLeadIsSingle(actions: seq<Action>, st: Store, now: int)
    requires ValidTime(now)
    requires var p := Run(Initial, actions); Payload(p.values, p.multi, p.selected, UserProfile.GetUserProfile(st), now).Ok?
    ensures var p := Run(Initial, actions);
      Payload(p.values, p.multi, p.selected, UserProfile.GetUserProfile(st), now).value.destinations == [Member(p.values, "Client-Destination")]
  {
    RunStaysSingle(Initial, actions);
  }
}

=== FILE: quotation_cards.dfy ===
/** The "Create Quote" button of src/components/cards/QuotationCards.jsx: the lead of a card is
    reshaped into the `leadData` the quotation screen starts from, with a trip id that falls
    back to a generated one.

    `now` is `Date.now()` and `suffix` the nine base-36 characters taken from
    `Math.random()`; both are parameters. */
module QuotationCards {
  import opened Results
  import opened Text
  import opened DateText
  import opened JsValue
  import QuotationForm

  /** `${lead?.['Client-Contact'] || 'LEAD'}-${now}-${suffix}`. */
  function GeneratedId(lead: JsVal, now: int, suffix: string): (r: string)
    ensures |r| > 0
  {
    ToStr(Or(Member(lead, "Client-Contact"), Str("LEAD"))) + "-" + IntToString(now) + "-" + suffix
  }

  /** The trip id: the lead's `TripId`, else its `id`, else its `_id`, else a generated id. */
  function UniqueId(lead: JsVal, now: int, suffix: string): (r: JsVal)
    ensures Truthy(r)
    ensures Truthy(Member(lead, "TripId")) ==> r == Member(lead, "TripId")
    ensures !Truthy(Member(lead, "TripId")) && Truthy(Member(lead, "id")) ==> r == Member(lead, "id")
    ensures !Truthy(Member(lead, "TripId")) && !Truthy(Member(lead, "id")) && Truthy(Member(lead, "_id")) ==> r == Member(lead, "_id")
    ensures !Truthy(Member(lead, "TripId")) && !Truthy(Member(lead, "id")) && !Truthy(Member(lead, "_id")) ==> r == Str(GeneratedId(lead, now, suffix))
  {
    Or(Or(Or(Member(lead, "TripId"), Member(lead, "id")), Member(lead, "_id")), Str(GeneratedId(lead, now, suffix)))
  }

  /** A lead without ids gets its contact, or "LEAD", then the time and the random suffix,
      joined by dashes. */
  lemma GeneratedIdParts(lead: JsVal, now: int, suffix: string, contact: string)
    requires !Truthy(Member(lead, "TripId")) && !Truthy(Member(lead, "id")) && !Truthy(Member(lead, "_id"))
    ensures Member(lead, "Client-Contact") == Str(contact) && contact != "" ==>
      UniqueId(lead, now, suffix) == Str(contact + "-" + IntToString(now) + "-" + suffix)
    ensures !Truthy(Member(lead, "Client-Contact")) ==>
      UniqueId(lead, now, suffix) == Str("LEAD-" + IntToString(now) + "-" + suffix)
  {
    if !Truthy(Member(lead, "Client-Contact")) {
      assert "LEAD" + "-" == "LEAD-";
    }
  }

  /** `ClientLeadDetails`: the lead's client fields, "" when falsy; Pax "1", Child "0" and Days 2
      when falsy; Infant always "0". */
  function Details(lead: JsVal): (r: JsVal)
    ensures r.Obj?
  {
    Obj(map[
      "FullName" := Or(Member(lead, "Client-Name"), Str("")),
      "Contact" := Or(Member(lead, "Client-Contact"), Str("")),
      "Email" := Or(Member(lead, "Client-Email"), Str("")),
      "TravelDate" := Or(Member(lead, "Client-TravelDate"), Str("")),
      "Budget" := Or(Member(lead, "Client-Budget"), Str("")),
      "DepartureCity" := Or(Member(lead, "Client-DepartureCity"), Str("")),
      "DestinationName" := Or(Member(lead, "Client-Destination"), Str("")),
      "Infant" := Str("0"),
      "Pax" := Or(Member(lead, "Client-Pax"), Str("1")),
      "Child" := Or(Member(lead, "Client-Child"), Str("0")),
      "Days" := Or(Member(lead, "Client-Days"), Num(2))])
  }

  /** A truthy text field of the lead is copied and a falsy one gives the empty text. */
  lemma DetailsTextFallbacks(lead: JsVal)
    ensures var d := Details(lead);
      && (Truthy(Member(lead, "Client-Name")) ==> Member(d, "FullName") == Member(lead, "Client-Name"))
      && (!Truthy(Member(lead, "Client-Name")) ==> Member(d, "FullName") == Str(""))
      && (!Truthy(Member(lead, "Client-Contact")) ==> Member(d, "Contact") == Str(""))
      && (!Truthy(Member(lead, "Client-Destination")) ==> Member(d, "DestinationName") == Str(""))
  {
  }

  /** A falsy count gives its default, so the counts are never falsy. */
  lemma DetailsCountFallbacks(lead: JsVal)
    ensures var d := Details(lead);
      && (Truthy(Member(lead, "Client-Pax")) ==> Member(d, "Pax") == Member(lead, "Client-Pax"))
      && (!Truthy(Member(lead, "Client-Pax")) ==> Member(d, "Pax") == Str("1"))
      && (!Truthy(Member(lead, "Client-Child")) ==> Member(d, "Child") == Str("0"))
      && (!Truthy(Member(lead, "Client-Days")) ==> Member(d, "Days") == Num(2))
      && Truthy(Member(d, "Pax")) && Truthy(Member(d, "Child")) && Truthy(Member(d, "Days"))
  {
  }

  /** The lead's infant count is never read: changing it changes no detail. */
  lemma InfantIgnored(lead: JsVal, v: JsVal)
    requires lead.Obj?
    ensures Details(Put(lead, "Client-Infant", v)) == Details(lead)
    ensures Member(Details(lead), "Infant") == Str("0")
  {
  }

  /** The object of the five values the screen reads. */
  function LeadData(id: JsVal, details: JsVal, assignDate: string, leadId: JsVal, quotations: JsVal): (r: JsVal)
    ensures Member(r, "TripId") == id && Member(r, "ClientLeadDetails") == details
    ensures Member(r, "AssignDate") == Str(assignDate)
    ensures Member(r, "LeadId") == leadId && Member(r, "Quotations") == quotations
  {
    Obj(map["TripId" := id, "ClientLeadDetails" := details, "AssignDate" := Str(assignDate),
      "LeadId" := leadId, "Quotations" := quotations])
  }

  /** The `leadData` handed to the quotation screen. */
  function Format(lead: JsVal, now: int, suffix: string): (r: JsVal)
    ensures Member(r, "LeadId") == Member(lead, "LeadId") && Member(r, "Quotations") == Member(lead, "Quotations")
    ensures Member(r, "TripId") == UniqueId(lead, now, suffix) && Member(r, "ClientLeadDetails") == Details(lead)
  {
    LeadData(UniqueId(lead, now, suffix), Details(lead), IsoDate(now), Member(lead, "LeadId"), Member(lead, "Quotations"))
  }

  /** `AssignDate` is the "YYYY-MM-DD" of the day of `now`. */
  lemma AssignDateIsToday(lead: JsVal, now: int, suffix: string)
    ensures Member(Format(lead, now, suffix), "AssignDate") == Str(DateString(DayOf(now)))
  {
    IsoDateIsDateString(now);
  }

  /** The quotation screen, opened without a follow-up, reads back the trip id the card chose. */
  lemma ScreenReadsTripId(lead: JsVal, now: int, suffix: string, followUp: JsVal)
    requires !Truthy(followUp)
    ensures QuotationForm.TripId(followUp, Format(lead, now, suffix)) == UniqueId(lead, now, suffix)
  {
  }

  /** ... and the client details the card formatted. */
  lemma ScreenReadsDetails(lead: JsVal, now: int, suffix: string, followUp: JsVal)
    requires !Truthy(followUp)
    ensures QuotationForm.Client(followUp, Format(lead, now, suffix)) == Details(lead)
  {
    QuotationForm.ClientOfLead(followUp, Format(lead, now, suffix));
  }
}

=== FILE: quotation_form.dfy ===
/** The quotation form's set-up (src/components/Forms/IntegratedQuotationForm.jsx): which
    trip the draft belongs to, the client record normalised from a follow-up (flat
    "Client-*" keys) or from a lead (`ClientLeadDetails`), the default form values, the
    travel end date, the arguments handed to the draft hook, and what a submit does with
    the draft. The current time `now` is a parameter. */
module QuotationForm {
  import opened Results
  import opened Civil
  import opened DateText
  import opened JsValue
  import opened Storage
  import opened DraftStore
  import DraftHook

  /** `followUpData?.TripId || lead?.TripId || ""`. */
  function TripId(followUp: JsVal, lead: JsVal): (r: JsVal)
    ensures Truthy(Member(followUp, "TripId")) ==> r == Member(followUp, "TripId")
    ensures !Truthy(Member(followUp, "TripId")) && Truthy(Member(lead, "TripId")) ==> r == Member(lead, "TripId")
    ensures !Truthy(Member(followUp, "TripId")) && !Truthy(Member(lead, "TripId")) ==> r == Str("")
  {
    Or(Or(Member(followUp, "TripId"), Member(lead, "TripId")), Str(""))
  }

  /** The trip id as the draft functions see it: a falsy id acts as "", anything else by its
      string form (the storage key interpolates it). */
  function TripText(v: JsVal): (r: string)
    ensures v.Str? ==> r == v.s
    ensures r != "" ==> Truthy(v)
  {
    if Truthy(v) then ToStr(v) else ""
  }

  /** The client record: built from the follow-up's flat keys when there is a follow-up,
      otherwise the lead's `ClientLeadDetails`, otherwise `{}`. */
  function Client(followUp: JsVal, lead: JsVal): (r: JsVal)
    ensures r.Obj? || Truthy(r)
  {
    if Truthy(followUp) then
      var f := followUp;
      Obj(map[
        "FullName" := Member(f, "Client-Name"),
        "Contact" := Member(f, "Client-Contact"),
        "Email" := Member(f, "Client-Email"),
        "TravelDate" := Member(f, "TravelDate"),
        "Pax" := Member(f, "NoOfPax"),
        "Child" := Member(f, "Child"),
        "Infant" := Member(f, "Infant"),
        "Budget" := Member(f, "Budget"),
        "DepartureCity" := Member(f, "DepartureCity"),
        "DestinationName" := Member(f, "DestinationName"),
        "Destinations" := Or(Member(f, "Destinations"), Arr([Member(f, "DestinationName")])),
        "Days" := Member(f, "Days"),
        "IsMultiDestination" := Member(f, "IsMultiDestination")])
    else Or(Member(Or(followUp, lead), "ClientLeadDetails"), Obj(map[]))
  }

  /** `client?.Destinations || (client?.DestinationName ? [client.DestinationName] : [])`. */
  function DefaultDestinations(client: JsVal): (r: JsVal)
    ensures r.Arr? || Truthy(r)
    ensures Truthy(Member(client, "Destinations")) ==> r == Member(client, "Destinations")
    ensures !Truthy(Member(client, "Destinations")) ==>
      r == if Truthy(Member(client, "DestinationName")) then Arr([Member(client, "DestinationName")]) else Arr([])
  {
    if Truthy(Member(client, "Destinations")) then Member(client, "Destinations")
    else if Truthy(Member(client, "DestinationName")) then Arr([Member(client, "DestinationName")])
    else Arr([])
  }

  /** `a - 1` on a number converted with `Number`. */
  function Pred(v: JsVal): JsVal {
    var n := ToNumber(v);
    if n.Some? then Num(n.value - 1) else NaN
  }

  const ZeroCosts: JsVal := Obj(map[
    "LandPackageCost" := Num(0), "VisaCost" := Num(0), "FlightCost" := Num(0), "GSTAmount" := Num(0),
    "TCSAmount" := Num(0), "TotalCost" := Num(0), "TotalTax" := Num(0)])

  const TaxDefault: JsVal := Obj(map["Enabled" := Bool(true), "WaivedOffAmount" := Num(0), "WaivedOffOtps" := Arr([])])

  const BlankHotel: JsVal := Obj(map[
    "Nights" := Num(0), "Name" := Str(""), "City" := Str(""), "RoomType" := Str(""), "Category" := Num(0),
    "Meals" := Arr([]), "CheckInDate" := Str(""), "CheckInDateKey" := Null, "CheckOutDate" := Str(""),
    "CheckOutDateKey" := Null, "Comments" := Str("")])

  /** The blank itinerary entry; its activity key is "Activities", not the "Activity" the
      itinerary section writes. */
  const BlankItinerary: JsVal := Obj(map[
    "Date" := Str(""), "DateKey" := Null, "Title" := Str(""), "Activities" := Str(""), "ImageUrl" := Str(""),
    "Description" := Str("")])

  /** `+new Date(v).toISOString().slice(0, 10).replace(/-/g, "")`, or `null` for a falsy `v`;
      an invalid date throws a RangeError. */
  function TravelDateKey(v: JsVal): (r: Result<JsVal>)
    ensures !Truthy(v) ==> r == Ok(Null)
    ensures Truthy(v) ==> (r.Ok? <==> ValidTime(NewDate(v).time))
  {
    if !Truthy(v) then Ok(Null)
    else
      var d := NewDate(v);
      if ValidTime(d.time) then Ok(NumOf(IsoKey(d.time))) else Err("RangeError")
  }

  /** `calculateTravelEndDate(startDate, days)` with `days` already passed through `Number`:
      "" when either is falsy, otherwise the date part of start + (days - 1) days. */
  function TravelEndDate(start: JsVal, days: Option<int>): (r: Result<string>)
    ensures !Truthy(start) || days == None || days == Some(0) ==> r == Ok("")
  {
    if !Truthy(start) || days == None || days == Some(0) then Ok("")
    else EndOf(NewDate(start), days.value)
  }

  /** The date part of `start` + (days - 1) days; a RangeError when that is not a valid date. */
  function EndOf(start: JsVal, days: int): (r: Result<string>)
    requires start.Date?
  {
    DatePart(AddDays(start, days - 1))
  }

  /** The travel-date key and the travel end date. */
  datatype TravelDates = TravelDates(key: JsVal, end: string)

  /** The date defaults, or the RangeError an invalid travel date throws while rendering. */
  function Dates(client: JsVal): (r: Result<TravelDates>)
    ensures r.Ok? <==> (TravelDateKey(Member(client, "TravelDate")).Ok?
      && TravelEndDate(Member(client, "TravelDate"), ToNumber(Member(client, "Days"))).Ok?)
  {
    var td := Member(client, "TravelDate");
    var key := TravelDateKey(td);
    var end := TravelEndDate(td, ToNumber(Member(client, "Days")));
    if key.Err? then Err(key.error)
    else if end.Err? then Err(end.error)
    else Ok(TravelDates(key.value, end.value))
  }

  /** The computed defaults, before `initialData` is spread over them; `stamp` is the ISO text
      of the current time. The end-date key is computed from the travel date, exactly like the
      travel-date key. */
  function Base(source: JsVal, client: JsVal, f: JsVal, stamp: string, dates: TravelDates): map<string, JsVal> {
    var days := Member(client, "Days");
    map[
      "LeadId" := Member(source, "LeadId"),
      "TripId" := Or(Member(source, "TripId"), Str("")),
      "Client-Name" := Or(Member(client, "FullName"), Str("")),
      "Client-Contact" := Or(Member(client, "Contact"), Str("")),
      "Client-Email" := Or(Member(client, "Email"), Str("")),
      "TravelDate" := Or(Member(client, "TravelDate"), Str("")),
      "AssignDate" := Or(Member(source, "AssignDate"), Str(stamp)),
      "NoOfPax" := Or(Member(client, "Pax"), Str("")),
      "Child" := Or(Member(client, "Child"), Str("0")),
      "Infant" := Or(Member(client, "Infant"), Str("0")),
      "Budget" := Or(Member(client, "Budget"), Str("")),
      "DepartureCity" := Or(Member(client, "DepartureCity"), Str("")),
      "DestinationName" := Or(Member(client, "DestinationName"), Str("")),
      "IsMultiDestination" := Or(Member(client, "IsMultiDestination"), Bool(false)),
      "PriceType" := Or(Member(f, "PriceType"), Str("Total")),
      "Currency" := Or(Member(f, "Currency"), Str("INR")),
      "GST" := Or(Member(f, "GST"), TaxDefault),
      "TCS" := Or(Member(f, "TCS"), TaxDefault),
      "Images" := Or(Member(f, "Images"), Obj(map["Inclusions" := Arr([]), "Flights" := Arr([])])),
      "Inclusions" := Or(Member(f, "Inclusions"), Arr([])),
      "Exclusions" := Or(Member(f, "Exclusions"), Arr([])),
      "CreatedAt" := Str(stamp),
      "LastUpdateStatus" := Obj(map["UpdatedBy" := Str("Draft"), "UpdatedTime" := Str(stamp)]),
      "TravelEndDate" := Str(dates.end),
      "Destinations" := DefaultDestinations(client),
      "Costs" := Or(Member(f, "Costs"), ZeroCosts),
      "Hotels" := Or(Member(f, "Hotels"), Arr([BlankHotel])),
      "Itinearies" := Or(Member(f, "Itinearies"), Arr([BlankItinerary])),
      "Days" := Or(days, Num(2)),
      "Nights" := if Truthy(days) then Pred(days) else Num(1),
      "TravelDateKey" := dates.key,
      "TravelEndDateKey" := dates.key]
  }

  /** The default form values, with `initialData` spread on top. Rendering throws a
      RangeError when the client's travel date is not a valid date. */
  function Defaults(followUp: JsVal, lead: JsVal, initialData: JsVal, now: int): (r: Result<JsVal>)
    ensures r.Ok? <==> Dates(Client(followUp, lead)).Ok?
    ensures r.Ok? ==> r.value.Obj?
  {
    var client := Client(followUp, lead);
    var dates := Dates(client);
    if dates.Err? then Err(dates.error)
    else Ok(Spread(Obj(Base(Or(followUp, lead), client, followUp, IsoString(now), dates.value)), initialData))
  }

  /** Where a default comes from when `initialData` does not override it. */
  lemma DefaultOfBase(followUp: JsVal, lead: JsVal, initialData: JsVal, now: int, k: string)
    requires Defaults(followUp, lead, initialData, now).Ok? && k !in Fields(initialData)
    ensures var client := Client(followUp, lead);
      DefaultOf(followUp, lead, initialData, now, k)
        == Member(Obj(Base(Or(followUp, lead), client, followUp, IsoString(now), Dates(client).value)), k)
  {
  }

  /** The arguments the form hands to the draft hook: the trip, skip when a follow-up is
      open, and the follow-up's QuoteId as the unique id. */
  function HookDeps(followUp: JsVal, lead: JsVal): (r: DraftHook.Deps)
    ensures r.skip <==> Truthy(followUp)
    ensures r.uniqueId == Member(followUp, "QuoteId")
    ensures r.tripId == TripText(TripId(followUp, lead))
  {
    DraftHook.Deps(TripText(TripId(followUp, lead)), Truthy(followUp), Member(followUp, "QuoteId"))
  }

  /** The assignment stamp merged into every submitted quotation. */
  function UserData(now: int): JsVal {
    Obj(map["CompanyId" := Str("12345"), "AssignDate" := Str(IsoString(now)), "AssignDateKey" := NumOf(IsoKey(now))])
  }

  /** What `onSubmit` receives: the form data with the stamp on top. */
  function Payload(data: JsVal, now: int): (r: JsVal)
    ensures forall k :: k in Fields(UserData(now)) ==> Member(r, k) == Fields(UserData(now))[k]
    ensures forall k :: k !in Fields(UserData(now)) ==> Member(r, k) == Member(data, k)
  {
    Spread(data, UserData(now))
  }

  /** How the awaited `onSubmit` ends. */
  datatype Outcome = Resolved | Rejected

  /** The storage after a submit: the draft is cleared only once `onSubmit` has resolved. */
  function AfterSubmit(st: Store, tripId: string, outcome: Outcome): (r: Store)
    ensures outcome.Rejected? ==> r == st
    ensures outcome.Resolved? ==> r == Clear(st, tripId)
  {
    if outcome.Resolved? then Clear(st, tripId) else st
  }

  /** The value the defaults give key `k`, when the render succeeds. */
  function DefaultOf(followUp: JsVal, lead: JsVal, initialData: JsVal, now: int, k: string): JsVal {
    var r := Defaults(followUp, lead, initialData, now);
    if r.Ok? then Member(r.value, k) else Undefined
  }

  /** Every key of `initialData` overrides the computed default. */
  lemma InitialDataWins(followUp: JsVal, lead: JsVal, initialData: JsVal, now: int, k: string)
    requires Defaults(followUp, lead, initialData, now).Ok? && k in Fields(initialData)
    ensures DefaultOf(followUp, lead, initialData, now, k) == Fields(initialData)[k]
  {
  }

  /** A follow-up's flat keys become the client record. */
  lemma ClientOfFollowUp(f: JsVal, lead: JsVal)
    requires Truthy(f)
    ensures Member(Client(f, lead), "FullName") == Member(f, "Client-Name")
    ensures Member(Client(f, lead), "Contact") == Member(f, "Client-Contact")
    ensures Member(Client(f, lead), "Pax") == Member(f, "NoOfPax")
  {
  }

  /** A follow-up's travel date and days are the client's, and its destinations fall back to
      `[DestinationName]`. */
  lemma FollowUpTrip(f: JsVal, lead: JsVal)
    requires Truthy(f)
    ensures Member(Client(f, lead), "TravelDate") == Member(f, "TravelDate")
    ensures Member(Client(f, lead), "Days") == Member(f, "Days")
    ensures Member(Client(f, lead), "Destinations") == Or(Member(f, "Destinations"), Arr([Member(f, "DestinationName")]))
  {
  }

  /** Without a follow-up the client is the lead's `ClientLeadDetails`, or `{}`. */
  lemma ClientOfLead(f: JsVal, lead: JsVal)
    requires !Truthy(f)
    ensures Truthy(Member(lead, "ClientLeadDetails")) ==> Client(f, lead) == Member(lead, "ClientLeadDetails")
    ensures !Truthy(Member(lead, "ClientLeadDetails")) ==> Client(f, lead) == Obj(map[])
  {
  }

  /** Days defaults to 2, and Nights is Days - 1 when Days is truthy, else 1. */
  lemma DaysAndNights(source: JsVal, client: JsVal, f: JsVal, stamp: string, dates: TravelDates)
    ensures var days := Member(client, "Days");
      Member(Obj(Base(source, client, f, stamp, dates)), "Days") == Or(days, Num(2))
      && Member(Obj(Base(source, client, f, stamp, dates)), "Nights") == (if Truthy(days) then Pred(days) else Num(1))
  {
  }

  /** A whole number of days `n` gives `n - 1` nights. */
  lemma NightsOfDays(n: int)
    requires n != 0
    ensures Pred(Num(n)) == Num(n - 1)
  {
  }

  /** Destinations is the client's list, else `[DestinationName]` when that is set, else []. */
  lemma DestinationsDefault(source: JsVal, client: JsVal, f: JsVal, stamp: string, dates: TravelDates)
    ensures Member(Obj(Base(source, client, f, stamp, dates)), "Destinations") == DefaultDestinations(client)
  {
  }

  /** Without follow-up data the costs are all zero, and there is one blank hotel and one blank
      itinerary entry. */
  lemma FreshRecords(source: JsVal, client: JsVal, stamp: string, dates: TravelDates)
    ensures Member(Obj(Base(source, client, Undefined, stamp, dates)), "Costs") == ZeroCosts
    ensures Member(Obj(Base(source, client, Undefined, stamp, dates)), "Hotels") == Arr([BlankHotel])
    ensures Member(Obj(Base(source, client, Undefined, stamp, dates)), "Itinearies") == Arr([BlankItinerary])
  {
  }

  /** The end date is start + (days - 1) days: for a "YYYY-MM-DD" start and a whole
      number of days it is the date of the trip's last day, which parses back to that midnight. */
  lemma EndDateOfStart(day: int, n: int, last: int)
    requires last == day + n - 1 && n != 0
    requires 0 <= FromDayNumber(day).year <= 9999 && -719528 <= last <= 2932896
    ensures TravelEndDate(Str(DateString(day)), Some(n)) == Ok(DateString(last))
    ensures ParseDate(DateString(last)) == Some(last * MsPerDay)
  {
    NewDateOfDateString(day);
    DateStringNotEmpty(day);
    FourDigitDays(day);
    EndOfMidnight(day, n, last);
    EndDateParses(last);
  }

  /** From the midnight of `day`, the end date of `n` days is the "YYYY-MM-DD" of the last day. */
  lemma EndOfMidnight(day: int, n: int, last: int)
    requires last == day + n - 1
    requires -719528 <= day <= 2932896 && -719528 <= last <= 2932896
    ensures EndOf(Date(day * MsPerDay), n) == Ok(DateString(last))
  {
    AddDaysOfDay(day, n - 1, last);
    DayTimeValid(last);
    EndOfDay(day * MsPerDay, n, last * MsPerDay);
    MidnightIsoDate(last);
  }

  lemma EndOfDay(t: int, n: int, e: int)
    requires AddDays(Date(t), n - 1) == Date(e) && ValidTime(e)
    ensures EndOf(Date(t), n) == Ok(IsoDate(e))
  {
  }

  lemma DateStringNotEmpty(day: int)
    ensures DateString(day) != ""
  {
    assert DateString(day)[|DateString(day)| - 6] == '-';
  }

  /** The date part of a midnight is that day's "YYYY-MM-DD". */
  lemma MidnightIsoDate(day: int)
    ensures IsoDate(day * MsPerDay) == DateString(day)
  {
    IsoDateIsDateString(day * MsPerDay);
    MidnightDay(day);
  }

  lemma EndDateParses(day: int)
    requires -719528 <= day <= 2932896
    ensures ParseDate(DateString(day)) == Some(day * MsPerDay)
  {
    FourDigitYear(day);
    ParseDateString(day);
  }

  /** The days between -719528 and 2932896 are those of the years 0 to 9999. */
  lemma FourDigitYear(day: int)
    requires -719528 <= day <= 2932896
    ensures 0 <= FromDayNumber(day).year <= 9999
  {
    var c := FromDayNumber(day);
    if c.year < 0 {
      FirstDay();
      YearOrder(c, Ymd(0, 1, 1));
    } else if c.year > 9999 {
      LastDay();
      YearOrder(Ymd(9999, 12, 31), c);
    }
  }

  lemma FirstDay()
    ensures Valid(Ymd(0, 1, 1)) && DayNumber(Ymd(0, 1, 1)) == -719528
  {
    assert DaysBefore(-1) == -366;
  }

  lemma LastDay()
    ensures Valid(Ymd(9999, 12, 31)) && DayNumber(Ymd(9999, 12, 31)) == 2932896
  {
    assert DaysBefore(9999) == 3652059;
  }

  /** A date in an earlier year has a smaller day number. */
  lemma YearOrder(a: Ymd, b: Ymd)
    requires Valid(a) && Valid(b) && a.year < b.year
    ensures DayNumber(a) < DayNumber(b)
  {
    var ya := MarchYear(a);
    var yb := MarchYear(b);
    if ya < yb {
      DaysBeforeGap(ya, yb);
    }
  }

  /** Day numbers grow with the March-based year by at least a year's worth of days. */
  lemma DaysBeforeGap(a: int, b: int)
    requires a < b
    ensures DaysBefore(b) - DaysBefore(a) >= 365
    decreases b - a
  {
    MarchYearStep(b);
    if a < b - 1 {
      DaysBeforeGap(a, b - 1);
    }
  }

  /** The end-date key is the travel-date key: for a start date and `n` days other than one
      it is not the key of the end date. */
  lemma EndKeyIsStartKey(followUp: JsVal, lead: JsVal, initialData: JsVal, now: int)
    requires Defaults(followUp, lead, initialData, now).Ok?
    requires "TravelDateKey" !in Fields(initialData) && "TravelEndDateKey" !in Fields(initialData)
    ensures DefaultOf(followUp, lead, initialData, now, "TravelEndDateKey")
         == DefaultOf(followUp, lead, initialData, now, "TravelDateKey")
  {
    var client := Client(followUp, lead);
    var base := Obj(Base(Or(followUp, lead), client, followUp, IsoString(now), Dates(client).value));
    DefaultOfBase(followUp, lead, initialData, now, "TravelDateKey");
    DefaultOfBase(followUp, lead, initialData, now, "TravelEndDateKey");
    BaseKeysAgree(Or(followUp, lead), client, followUp, IsoString(now), Dates(client).value);
    assert Member(base, "TravelEndDateKey") == Member(base, "TravelDateKey");
  }

  /** Both keys of the computed defaults are the travel date's key. */
  lemma BaseKeysAgree(source: JsVal, client: JsVal, f: JsVal, stamp: string, dates: TravelDates)
    ensures Member(Obj(Base(source, client, f, stamp, dates)), "TravelEndDateKey") == dates.key
    ensures Member(Obj(Base(source, client, f, stamp, dates)), "TravelDateKey") == dates.key
  {
  }

  /** For a start date and a trip of `n` days, n != 1, the end-date key differs from the key of
      the end date. */
  lemma EndKeyMismatch(day: int, n: int, last: int)
    requires last == day + n - 1 && n != 0 && n != 1
    requires 0 <= FromDayNumber(day).year <= 9999 && -719528 <= last <= 2932896
    ensures TravelDateKey(Str(DateString(day))) == Ok(Num(DateKey(day)))
    ensures TravelEndDate(Str(DateString(day)), Some(n)) == Ok(DateString(last))
    ensures KeyOfDateString(DateString(last)) == Some(DateKey(last)) != Some(DateKey(day))
  {
    StartKey(day);
    EndDateOfStart(day, n, last);
    FourDigitYear(last);
    KeyOfDateStringIsDateKey(last);
    if DateKey(last) == DateKey(day) {
      DateKeyInjective(last, day);
    }
  }

  /** The key of a "YYYY-MM-DD" travel date is its `DateKey`. */
  lemma StartKey(day: int)
    requires 0 <= FromDayNumber(day).year <= 9999
    ensures TravelDateKey(Str(DateString(day))) == Ok(Num(DateKey(day)))
  {
    NewDateOfDateString(day);
    FromDayNumberRange(day);
    DateStringNotEmpty(day);
    KeyAt(day);
    TravelDateKeyOf(Str(DateString(day)), day * MsPerDay);
  }

  lemma TravelDateKeyOf(v: JsVal, t: int)
    requires Truthy(v) && NewDate(v) == Date(t) && ValidTime(t)
    ensures TravelDateKey(v) == Ok(NumOf(IsoKey(t)))
  {
  }

  /** The key written beside a midnight is the day's `DateKey`. */
  lemma KeyAt(day: int)
    requires 0 <= FromDayNumber(day).year <= 9999
    ensures IsoKey(day * MsPerDay) == Some(DateKey(day))
  {
    MidnightDay(day);
    IsoKeyIsDateKey(day * MsPerDay);
  }

  /** Opening a follow-up skips the draft: the form shows exactly the defaults at once. */
  lemma FollowUpShowsDefaults(f: JsVal, lead: JsVal, defaults: JsVal, st: Store)
    requires Truthy(f)
    ensures var h := DraftHook.Mount(HookDeps(f, lead), defaults, st);
      h.form == defaults && !h.loading
  {
  }

  /** A resolved submit clears the trip's draft; a rejected one leaves every draft in place. */
  lemma SubmitClearsDraft(st: Store, tripId: string, outcome: Outcome)
    ensures outcome.Resolved? ==> Load(AfterSubmit(st, tripId, outcome), tripId) == Null
    ensures outcome.Rejected? ==> forall t :: Load(AfterSubmit(st, tripId, outcome), t) == Load(st, t)
  {
    if outcome.Resolved? {
      ClearThenLoad(st, tripId);
    }
  }
}

=== FILE: quotation_list.dfy ===
/** The quotation list of src/components/modals/QuotationListModal.jsx: the quotations of a trip,
    newest first, the latest shown on its own and the rest folded under it.

    The request is a parameter: its outcome is a response or a failure. The list is sorted
    with the comparator `new Date(b.CreatedAt || 0) - new Date(a.CreatedAt || 0)`; a
    quotation without `CreatedAt` counts as created at time 0. JavaScript's `sort` is stable
    and treats a NaN from the comparator as "equal"; the sort here is a stable insertion
    sort that does the same. With an unreadable date the comparator is inconsistent and the
    order JavaScript gives is left to the engine, so the order is only stated when every date
    can be read. */
module QuotationList {
  import opened Results
  import opened JsValue

  /** The time the comparator reads from a quotation, `None` when the date is invalid (NaN). */
  function Key(q: JsVal): (r: Option<int>)
    ensures !Truthy(Member(q, "CreatedAt")) ==> r == Some(0)
  {
    var d := NewDate(Or(Member(q, "CreatedAt"), Num(0)));
    if ValidTime(d.time) then Some(d.time) else None
  }

  /** A quotation created at a nonzero valid time `n` is dated `n`. */
  lemma KeyOfTime(n: int)
    requires n != 0 && ValidTime(n)
    ensures Key(Obj(map["CreatedAt" := Num(n)])) == Some(n)
  {
    var q := Obj(map["CreatedAt" := Num(n)]);
    assert Member(q, "CreatedAt") == Num(n);
    assert Or(Num(n), Num(0)) == Num(n);
    assert NewDate(Num(n)) == Date(n);
  }

  /** `x` is strictly newer than `e`: the comparator puts `x` first. */
  predicate Newer(key: JsVal -> Option<int>, x: JsVal, e: JsVal) {
    key(x).Some? && key(e).Some? && key(x).value > key(e).value
  }

  /** Every date in `xs` can be read. */
  predicate Dated(key: JsVal -> Option<int>, xs: seq<JsVal>) {
    forall y :: y in xs ==> key(y).Some?
  }

  /** No quotation comes after one that is strictly newer. */
  predicate NewestFirst(key: JsVal -> Option<int>, xs: seq<JsVal>) {
    forall i, j :: 0 <= i < j < |xs| ==> !Newer(key, xs[j], xs[i])
  }

  /** `x` put into `ys` after every quotation it is not newer than. */
  function Insert(key: JsVal -> Option<int>, x: JsVal, ys: seq<JsVal>): seq<JsVal>
    decreases |ys|
  {
    if |ys| == 0 then [x]
    else if Newer(key, x, ys[0]) then [x] + ys
    else [ys[0]] + Insert(key, x, ys[1..])
  }

  /** The sort: each quotation in turn inserted into the sorted quotations before it. */
  function Sort(key: JsVal -> Option<int>, xs: seq<JsVal>): seq<JsVal>
    decreases |xs|
  {
    if |xs| == 0 then [] else Insert(key, xs[|xs| - 1], Sort(key, xs[..|xs| - 1]))
  }

  lemma {:induction false} InsertPermutes(key: JsVal -> Option<int>, x: JsVal, ys: seq<JsVal>)
    ensures multiset(Insert(key, x, ys)) == multiset(ys) + multiset{x}
    decreases |ys|
  {
    if |ys| > 0 && !Newer(key, x, ys[0]) {
      InsertPermutes(key, x, ys[1..]);
      assert ys == [ys[0]] + ys[1..];
    }
  }

  /** The sorted list holds the quotations of the response, each as often as there. */
  lemma {:induction false} SortPermutes(key: JsVal -> Option<int>, xs: seq<JsVal>)
    ensures multiset(Sort(key, xs)) == multiset(xs)
    ensures |Sort(key, xs)| == |xs|
    decreases |xs|
  {
    if |xs| > 0 {
      SortPermutes(key, xs[..|xs| - 1]);
      InsertPermutes(key, xs[|xs| - 1], Sort(key, xs[..|xs| - 1]));
      assert xs == xs[..|xs| - 1] + [xs[|xs| - 1]];
    }
    assert |multiset(Sort(key, xs))| == |multiset(xs)|;
  }

  lemma {:induction false} InsertMembers(key: JsVal -> Option<int>, x: JsVal, ys: seq<JsVal>)
    ensures forall y :: y in Insert(key, x, ys) ==> y == x || y in ys
    decreases |ys|
  {
    if |ys| > 0 && !Newer(key, x, ys[0]) {
      InsertMembers(key, x, ys[1..]);
    }
  }

  lemma {:induction false} SortDated(key: JsVal -> Option<int>, xs: seq<JsVal>)
    requires Dated(key, xs)
    ensures Dated(key, Sort(key, xs))
    decreases |xs|
  {
    if |xs| > 0 {
      var p := xs[..|xs| - 1];
      assert Dated(key, p) by {
        forall y | y in p ensures key(y).Some? { assert y in xs; }
      }
      SortDated(key, p);
      InsertMembers(key, xs[|xs| - 1], Sort(key, p));
      assert xs[|xs| - 1] in xs;
    }
  }

  /** No entry of a newest-first list is newer than its head. */
  lemma HeadIsNewest(key: JsVal -> Option<int>, ys: seq<JsVal>)
    requires |ys| > 0 && NewestFirst(key, ys)
    ensures forall y :: y in ys ==> !Newer(key, y, ys[0])
  {
    forall y | y in ys ensures !Newer(key, y, ys[0]) {
      var k :| 0 <= k < |ys| && ys[k] == y;
      if k > 0 { assert !Newer(key, ys[k], ys[0]); }
    }
  }

  lemma TailNewestFirst(key: JsVal -> Option<int>, ys: seq<JsVal>)
    requires |ys| > 0 && Dated(key, ys) && NewestFirst(key, ys)
    ensures Dated(key, ys[1..]) && NewestFirst(key, ys[1..])
  {
    forall y | y in ys[1..] ensures key(y).Some? { assert y in ys; }
    forall i, j | 0 <= i < j < |ys| - 1 ensures !Newer(key, ys[1..][j], ys[1..][i]) {
      assert !Newer(key, ys[j + 1], ys[i + 1]);
    }
  }

  /** Inserting a dated quotation into a dated, newest-first list keeps it newest first. */
  lemma {:induction false} InsertNewestFirst(key: JsVal -> Option<int>, x: JsVal, ys: seq<JsVal>)
    requires Dated(key, ys) && key(x).Some? && NewestFirst(key, ys)
    ensures NewestFirst(key, Insert(key, x, ys))
    decreases |ys|
  {
    if |ys| > 0 {
      HeadIsNewest(key, ys);
      if Newer(key, x, ys[0]) {
        var r := [x] + ys;
        forall i, j | 0 <= i < j < |r|
          ensures !Newer(key, r[j], r[i])
        {
          if i == 0 {
            assert r[j] in ys;
          } else {
            assert r[i] == ys[i - 1] && r[j] == ys[j - 1];
          }
        }
      } else {
        TailNewestFirst(key, ys);
        InsertNewestFirst(key, x, ys[1..]);
        InsertMembers(key, x, ys[1..]);
        var rest := Insert(key, x, ys[1..]);
        var r := [ys[0]] + rest;
        forall i, j | 0 <= i < j < |r|
          ensures !Newer(key, r[j], r[i])
        {
          if i == 0 {
            assert r[j] in rest;
            assert r[j] == x || r[j] in ys[1..];
            if r[j] != x { assert r[j] in ys; }
          } else {
            assert r[i] == rest[i - 1] && r[j] == rest[j - 1];
          }
        }
      }
    }
  }

  /** When every date can be read, the sort puts the quotations newest first. */
  lemma {:induction false} SortNewestFirst(key: JsVal -> Option<int>, xs: seq<JsVal>)
    requires Dated(key, xs)
    ensures NewestFirst(key, Sort(key, xs))
    decreases |xs|
  {
    if |xs| > 0 {
      var p := xs[..|xs| - 1];
      assert Dated(key, p) by {
        forall y | y in p ensures key(y).Some? { assert y in xs; }
      }
      SortNewestFirst(key, p);
      SortDated(key, p);
      assert xs[|xs| - 1] in xs;
      InsertNewestFirst(key, xs[|xs| - 1], Sort(key, p));
    }
  }

  /** `[x]` when `x` was created at time `t`, else nothing. */
  function Hit(key: JsVal -> Option<int>, x: JsVal, t: int): seq<JsVal> {
    if key(x) == Some(t) then [x] else []
  }

  /** The quotations of `xs` created at time `t`, in their order. */
  function CreatedAt(key: JsVal -> Option<int>, xs: seq<JsVal>, t: int): seq<JsVal>
    decreases |xs|
  {
    if |xs| == 0 then [] else Hit(key, xs[0], t) + CreatedAt(key, xs[1..], t)
  }

  lemma {:induction false} CreatedAtAppend(key: JsVal -> Option<int>, a: seq<JsVal>, b: seq<JsVal>, t: int)
    ensures CreatedAt(key, a + b, t) == CreatedAt(key, a, t) + CreatedAt(key, b, t)
    decreases |a|
  {
    if |a| == 0 {
      assert a + b == b;
    } else {
      var ab := a + b;
      assert ab[0] == a[0] && ab[1..] == a[1..] + b;
      CreatedAtAppend(key, a[1..], b, t);
      var h, x, y := Hit(key, a[0], t), CreatedAt(key, a[1..], t), CreatedAt(key, b, t);
      assert CreatedAt(key, ab, t) == h + (x + y);
      assert CreatedAt(key, a, t) == h + x;
      assert h + (x + y) == (h + x) + y;
    }
  }

  lemma {:induction false} NoneCreatedAt(key: JsVal -> Option<int>, ys: seq<JsVal>, t: int)
    requires forall y :: y in ys ==> key(y) != Some(t)
    ensures CreatedAt(key, ys, t) == []
    decreases |ys|
  {
    if |ys| > 0 {
      assert ys[0] in ys;
      forall y | y in ys[1..] ensures key(y) != Some(t) { assert y in ys; }
      NoneCreatedAt(key, ys[1..], t);
    }
  }

  /** Insertion puts `x` after every quotation created at the same time. */
  lemma {:induction false} InsertCreatedAt(key: JsVal -> Option<int>, x: JsVal, ys: seq<JsVal>, t: int)
    requires Dated(key, ys) && key(x).Some? && NewestFirst(key, ys)
    ensures CreatedAt(key, Insert(key, x, ys), t) == CreatedAt(key, ys, t) + Hit(key, x, t)
    decreases |ys|
  {
    if |ys| == 0 {
      assert CreatedAt(key, [x], t) == Hit(key, x, t) + CreatedAt(key, [x][1..], t);
    } else if Newer(key, x, ys[0]) {
      assert ([x] + ys)[1..] == ys;
      if key(x) == Some(t) {
        HeadIsNewest(key, ys);
        forall y | y in ys ensures key(y) != Some(t) {
          assert !Newer(key, y, ys[0]);
        }
        NoneCreatedAt(key, ys, t);
      }
    } else {
      TailNewestFirst(key, ys);
      InsertCreatedAt(key, x, ys[1..], t);
      var rest := Insert(key, x, ys[1..]);
      assert ([ys[0]] + rest)[1..] == rest;
      calc {
        CreatedAt(key, [ys[0]] + rest, t);
        Hit(key, ys[0], t) + CreatedAt(key, rest, t);
        Hit(key, ys[0], t) + (CreatedAt(key, ys[1..], t) + Hit(key, x, t));
      }
    }
  }

  /** Dropping the last quotation of a dated list leaves a dated list, and the last one is
      dated. */
  lemma DatedPrefix(key: JsVal -> Option<int>, xs: seq<JsVal>)
    requires |xs| > 0 && Dated(key, xs)
    ensures Dated(key, xs[..|xs| - 1]) && key(xs[|xs| - 1]).Some?
  {
    forall y | y in xs[..|xs| - 1] ensures key(y).Some? { assert y in xs; }
    assert xs[|xs| - 1] in xs;
  }

  /** The sort is stable: quotations created at the same time keep the order of the response. */
  lemma {:induction false} SortStable(key: JsVal -> Option<int>, xs: seq<JsVal>, t: int)
    requires Dated(key, xs)
    ensures CreatedAt(key, Sort(key, xs), t) == CreatedAt(key, xs, t)
    decreases |xs|
  {
    if |xs| > 0 {
      var p := xs[..|xs| - 1];
      var x := xs[|xs| - 1];
      DatedPrefix(key, xs);
      SortStable(key, p, t);
      SortNewestFirst(key, p);
      SortDated(key, p);
      InsertCreatedAt(key, x, Sort(key, p), t);
      CreatedAtAppend(key, p, [x], t);
      assert xs == p + [x];
      assert Sort(key, xs) == Insert(key, x, Sort(key, p));
      assert CreatedAt(key, [x], t) == Hit(key, x, t) by {
        assert [x][1..] == [];
      }
    }
  }

  /** `Array.isArray(response?.data) ? response.data : []`. */
  function Data(response: JsVal): (r: seq<JsVal>)
    ensures Member(response, "data").Arr? ==> r == Member(response, "data").items
    ensures !Member(response, "data").Arr? ==> r == []
  {
    if Member(response, "data").Arr? then Member(response, "data").items else []
  }

  /** The entries of `xs` that are not `undefined`, in order: the ones `sort` hands to the
      comparator. */
  function Defined(xs: seq<JsVal>): (r: seq<JsVal>)
    ensures multiset(r) == multiset(xs)[Undefined := 0]
    ensures Undefined !in r
    ensures |r| == |xs| - multiset(xs)[Undefined]
    decreases |xs|
  {
    if |xs| == 0 then []
    else
      assert xs == [xs[0]] + xs[1..];
      var rest := Defined(xs[1..]);
      if xs[0] == Undefined then rest else [xs[0]] + rest
  }

  /** `k` entries `undefined`. */
  function Undefineds(k: nat): (r: seq<JsVal>)
    ensures |r| == k && forall i :: 0 <= i < k ==> r[i] == Undefined
    ensures multiset(r) == multiset{}[Undefined := k]
  {
    if k == 0 then [] else [Undefined] + Undefineds(k - 1)
  }

  /** The number of entries of `xs` that are not `undefined`. */
  function DefinedCount(xs: seq<JsVal>): int {
    |xs| - multiset(xs)[Undefined]
  }

  /** The entries that are not `undefined` and as many `undefined` ones as there were are the
      entries of `xs`. */
  lemma DefinedAndUndefined(xs: seq<JsVal>)
    ensures multiset(Defined(xs)) + multiset(Undefineds(|xs| - |Defined(xs)|)) == multiset(xs)
  {
    var m := multiset(xs);
    assert m[Undefined := 0] + multiset{}[Undefined := m[Undefined]] == m;
  }

  /** After a list without `undefined`, the `undefined` entries are exactly the appended ones. */
  lemma AppendUndefineds(a: seq<JsVal>, k: nat)
    requires Undefined !in a
    ensures forall i :: 0 <= i < |a| + k ==> ((a + Undefineds(k))[i] == Undefined <==> i >= |a|)
  {
    var r := a + Undefineds(k);
    forall i | 0 <= i < |a| + k ensures r[i] == Undefined <==> i >= |a| {
      if i < |a| {
        assert r[i] == a[i];
      }
    }
  }

  /** The sorted entries that are not `undefined`, then the `undefined` ones: the same entries,
      with the `undefined` ones exactly at the end. */
  lemma SortedThenUndefined(key: JsVal -> Option<int>, xs: seq<JsVal>)
    ensures var d := Defined(xs); var r := Sort(key, d) + Undefineds(|xs| - |d|);
      multiset(r) == multiset(xs) && |r| == |xs|
      && forall i :: 0 <= i < |r| ==> (r[i] == Undefined <==> i >= |d|)
  {
    var d := Defined(xs);
    SortPermutes(key, d);
    DefinedAndUndefined(xs);
    var sorted := Sort(key, d);
    assert Undefined !in sorted by {
      assert multiset(sorted)[Undefined] == multiset(d)[Undefined] == 0;
    }
    AppendUndefineds(sorted, |xs| - |d|);
  }

  /** A `null` entry is among those `sort` hands to the comparator. */
  lemma NullIsDefined(xs: seq<JsVal>)
    ensures Null in Defined(xs) <==> Null in xs
  {
    assert multiset(Defined(xs))[Null] == multiset(xs)[Null];
  }

  /** JavaScript's `sort` with the comparator of `key`: the entries that are not `undefined`
      sorted, then the `undefined` ones, which the comparator never sees. */
  function ArraySort(key: JsVal -> Option<int>, xs: seq<JsVal>): (r: seq<JsVal>)
    ensures multiset(r) == multiset(xs) && |r| == |xs|
    ensures forall i :: 0 <= i < |r| ==> (r[i] == Undefined <==> i >= DefinedCount(xs))
  {
    SortedThenUndefined(key, xs);
    Sort(key, Defined(xs)) + Undefineds(|xs| - |Defined(xs)|)
  }

  /** A list without `undefined` is handed to the comparator whole. */
  lemma {:induction false} DefinedKeepsAll(xs: seq<JsVal>)
    requires Undefined !in xs
    ensures Defined(xs) == xs
    decreases |xs|
  {
    if |xs| > 0 {
      assert xs == [xs[0]] + xs[1..];
      assert Undefined !in xs[1..];
      DefinedKeepsAll(xs[1..]);
    }
  }

  /** Without `undefined` entries, `sort` is the sort of the whole list. */
  lemma ArraySortWithoutUndefined(key: JsVal -> Option<int>, xs: seq<JsVal>)
    requires Undefined !in xs
    ensures ArraySort(key, xs) == Sort(key, xs)
  {
    DefinedKeepsAll(xs);
    assert Undefineds(0) == [];
  }

  /** Two quotations, the second newer, swap places. */
  lemma SortPair(key: JsVal -> Option<int>, a: JsVal, b: JsVal)
    requires Newer(key, b, a)
    ensures Sort(key, [a, b]) == [b, a]
  {
    assert [a, b][..1] == [a];
    assert [a][..0] == [];
    assert Sort(key, [a]) == [a];
    assert Insert(key, b, [a]) == [b, a];
  }

  /** The data sorted newest first. JavaScript's `sort` moves the `undefined` entries to the
      end, keeping them out of the comparator; reading `CreatedAt` of a `null` entry throws
      once there are two entries to compare. */
  function Sorted(response: JsVal): (r: Result<seq<JsVal>>)
    ensures !Member(response, "data").Arr? ==> r == Ok([])
    ensures r.Ok? ==> multiset(r.value) == multiset(Data(response))
    ensures r.Ok? ==> |r.value| == |Data(response)|
    ensures r.Ok? ==> forall i :: 0 <= i < |r.value| ==> (r.value[i] == Undefined <==> i >= DefinedCount(Data(response)))
    ensures r.Err? <==> Null in Data(response) && DefinedCount(Data(response)) >= 2
  {
    var data := Data(response);
    NullIsDefined(data);
    if DefinedCount(data) >= 2 && Null in Defined(data) then Err("TypeError")
    else Ok(ArraySort(Key, data))
  }

  /** With readable dates the loaded list is newest first up to its `undefined` entries, and
      no quotation of the response is newer than its first entry. */
  lemma LatestIsNewest(response: JsVal)
    requires Dated(Key, Data(response))
    requires Sorted(response).Ok? && |Sorted(response).value| > 0
    ensures NewestFirst(Key, Sorted(response).value[..DefinedCount(Data(response))])
    ensures forall y :: y in Data(response) && y != Undefined ==> !Newer(Key, y, Sorted(response).value[0])
  {
    var data := Data(response);
    var d := Defined(data);
    var r := Sorted(response).value;
    assert Dated(Key, d) by {
      forall y | y in d ensures Key(y).Some? {
        assert multiset(data)[y] == multiset(d)[y] > 0;
        assert y in data;
      }
    }
    SortNewestFirst(Key, d);
    SortPermutes(Key, d);
    assert r == Sort(Key, d) + Undefineds(|data| - |d|);
    assert r[..|d|] == Sort(Key, d);
    forall y | y in data && y != Undefined ensures !Newer(Key, y, r[0]) {
      assert multiset(d)[y] == multiset(data)[y] > 0;
      assert y in multiset(Sort(Key, d));
      HeadIsNewest(Key, Sort(Key, d));
      assert r[0] == Sort(Key, d)[0];
    }
  }

  /** With readable dates, quotations of the response created at the same time keep their
      order; the `undefined` entries, all alike, close the list. */
  lemma LoadIsStable(response: JsVal, t: int)
    requires Dated(Key, Data(response)) && Sorted(response).Ok?
    ensures CreatedAt(Key, Sorted(response).value[..DefinedCount(Data(response))], t) == CreatedAt(Key, Defined(Data(response)), t)
  {
    var data := Data(response);
    var d := Defined(data);
    assert Dated(Key, d) by {
      forall y | y in d ensures Key(y).Some? {
        assert multiset(data)[y] == multiset(d)[y] > 0;
        assert y in data;
      }
    }
    SortPermutes(Key, d);
    assert Sorted(response).value == Sort(Key, d) + Undefineds(|data| - |d|);
    assert Sorted(response).value[..|d|] == Sort(Key, d);
    SortStable(Key, d, t);
  }

  /** The outcome of `FetchQuoteByTripID`. */
  datatype Outcome = Responded(response: JsVal) | Failed

  const LoadError := "Failed to load quotations."

  /** The modal's state. */
  datatype Modal = Modal(quotations: seq<JsVal>, loading: bool, error: Option<string>)

  const Initial := Modal([], true, None)

  /** `fetchQuotations(id)`: a falsy id, a failed request or an entry that throws set the error
      and keep the list; otherwise the sorted list replaces it. Loading ends either way. */
  function Fetch(m: Modal, id: JsVal, outcome: Outcome): (r: Modal)
    ensures !r.loading
    ensures !Truthy(id) ==> r == m.(loading := false, error := Some(LoadError))
    ensures Truthy(id) && outcome.Failed? ==> r == m.(loading := false, error := Some(LoadError))
    ensures Truthy(id) && outcome.Responded? && Sorted(outcome.response).Ok? ==>
      r == Modal(Sorted(outcome.response).value, false, None)
    ensures r.error.None? <==> Truthy(id) && outcome.Responded? && Sorted(outcome.response).Ok?
  {
    if !Truthy(id) then m.(loading := false, error := Some(LoadError))
    else match outcome
      case Failed => m.(loading := false, error := Some(LoadError))
      case Responded(response) =>
        match Sorted(response)
        case Err(_) => m.(loading := false, error := Some(LoadError))
        case Ok(qs) => Modal(qs, false, None)
  }

  /** The effect on `visible` and `tripId`: a fetch only when the modal is visible and the trip
      id is truthy. */
  function Effect(m: Modal, visible: bool, tripId: JsVal, outcome: Outcome): (r: Modal)
    ensures !(visible && Truthy(tripId)) ==> r == m
    ensures visible && Truthy(tripId) ==> r == Fetch(m, tripId, outcome)
  {
    if visible && Truthy(tripId) then Fetch(m, tripId, outcome) else m
  }

  /** Without a trip id nothing is fetched, so a fresh modal keeps showing "Loading
      quotations..." with an empty list and no error: the error branch for a missing id is
      never reached from the effect. */
  lemma NoTripIdKeepsLoading(visible: bool, tripId: JsVal, outcome: Outcome)
    requires !Truthy(tripId)
    ensures Effect(Initial, visible, tripId, outcome) == Initial
    ensures Initial.loading && Initial.quotations == [] && Initial.error.None?
  {
  }

  /** `quotations[0]`. */
  function Latest(m: Modal): (r: JsVal)
    ensures |m.quotations| > 0 ==> r == m.quotations[0]
    ensures |m.quotations| == 0 ==> r == Undefined
  {
    if |m.quotations| > 0 then m.quotations[0] else Undefined
  }

  /** `quotations.slice(1)`. */
  function Previous(m: Modal): (r: seq<JsVal>)
    ensures |m.quotations| > 0 ==> |r| == |m.quotations| - 1
    ensures |m.quotations| == 0 ==> r == []
  {
    if |m.quotations| > 0 then m.quotations[1..] else []
  }

  /** The latest and the previous quotations together are the whole list, in order. */
  lemma LatestAndPrevious(m: Modal)
    requires |m.quotations| > 0
    ensures [Latest(m)] + Previous(m) == m.quotations
  {
  }

  /** After a successful load, the latest and the previous quotations are the response's
      quotations, each once. */
  lemma LoadedShowsAll(m: Modal, id: JsVal, response: JsVal)
    requires Truthy(id) && Sorted(response).Ok? && |Data(response)| > 0
    ensures var r := Fetch(m, id, Responded(response));
      multiset{Latest(r)} + multiset(Previous(r)) == multiset(Data(response))
  {
    var r := Fetch(m, id, Responded(response));
    assert |multiset(r.quotations)| == |multiset(Data(response))|;
    LatestAndPrevious(r);
    assert r.quotations == [Latest(r)] + Previous(r);
  }
}

=== FILE: results.dfy ===
/** Optional values and results with an error message, standing in for JavaScript's
    `null`-returning lookups and thrown exceptions. */
module Results {

  datatype Option<T> = None | Some(value: T) {
    function GetOr(default: T): T {
      match this
      case Some(v) => v
      case None => default
    }
  }

  /** `Err` carries the name of the exception the source would throw (e.g. "RangeError"). */
  datatype Result<T> = Ok(value: T) | Err(error: string)
}

=== FILE: storage.dfy ===
/** The browser's `localStorage` as the application uses it: string keys mapped to stored
    strings, each seen through `JSON.parse`. A string that does not parse (the empty string
    included) is `Unparseable`; reading it either throws inside a `try` or is skipped by a
    truthiness test, and both readers here then fall back to `null`. */
module Storage {
  import opened JsValue

  datatype Entry = Json(value: JsVal) | Unparseable

  type Store = map<string, Entry>
}

=== FILE: text.dfy ===
/** String primitives of JavaScript used by the application: decimal rendering of
    integers, `parseInt`, `Number(string)`, `trim`, ASCII `toLowerCase`, `includes`,
    `startsWith` and the `replace(/\D/g, "")` digit strip. */
module Text {
  import opened Results

  predicate IsDigit(c: char) {
    '0' <= c <= '9'
  }

  predicate AllDigits(s: string) {
    forall i :: 0 <= i < |s| ==> IsDigit(s[i])
  }

  function DigitChar(d: int): (c: char)
    requires 0 <= d < 10
    ensures IsDigit(c)
  {
    ('0' as int + d) as char
  }

  function DigitValue(c: char): int
    requires IsDigit(c)
  {
    c as int - '0' as int
  }

  /** The value of a string of decimal digits ("" reads as 0). */
  function DigitsValue(s: string): nat
    requires AllDigits(s)
  {
    if |s| == 0 then 0 else DigitsValue(s[..|s| - 1]) * 10 + DigitValue(s[|s| - 1])
  }

  /** Decimal rendering of a natural number, as `String(n)` gives it. */
  function NatToString(n: nat): (s: string)
    ensures 1 <= |s| && AllDigits(s)
    ensures DigitsValue(s) == n
    ensures |s| > 1 ==> s[0] != '0'
  {
    if n < 10 then [DigitChar(n)]
    else
      var p := NatToString(n / 10);
      var s := p + [DigitChar(n % 10)];
      assert s[..|s| - 1] == p;
      s
  }

  /** Decimal rendering of an integer, as `String(i)` gives it. */
  function IntToString(i: int): string {
    if i < 0 then "-" + NatToString(-i) else NatToString(i)
  }

  function Zeros(k: nat): (s: string)
    ensures |s| == k && AllDigits(s)
    ensures DigitsValue(s) == 0
  {
    if k == 0 then "" else
      var s := Zeros(k - 1) + "0";
      assert s[..|s| - 1] == Zeros(k - 1);
      s
  }

  lemma {:induction false} LeadingZeros(k: nat, s: string)
    requires AllDigits(s)
    ensures AllDigits(Zeros(k) + s)
    ensures DigitsValue(Zeros(k) + s) == DigitsValue(s)
    decreases |s|
  {
    if |s| == 0 {
      assert Zeros(k) + s == Zeros(k);
    } else {
      var t := Zeros(k) + s;
      assert t[..|t| - 1] == Zeros(k) + s[..|s| - 1];
      LeadingZeros(k, s[..|s| - 1]);
    }
  }

  /** `n` rendered with at least `w` digits, padded on the left with zeros. */
  function PadNat(n: nat, w: nat): (s: string)
    ensures |s| >= w && AllDigits(s)
    ensures DigitsValue(s) == n
    ensures |NatToString(n)| <= w ==> |s| == w
  {
    var d := NatToString(n);
    if |d| >= w then d
    else
      LeadingZeros(w - |d|, d);
      Zeros(w - |d|) + d
  }

  /** White space and line terminators as JavaScript's `trim` and `parseInt` skip them. */
  predicate IsSpace(c: char) {
    c == '\t' || c == '\n' || c == '\U{000B}' || c == '\U{000C}' || c == '\r' || c == ' '
    || c == '\U{00A0}' || c == '\U{1680}' || ('\U{2000}' <= c <= '\U{200A}')
    || c == '\U{2028}' || c == '\U{2029}' || c == '\U{202F}' || c == '\U{205F}'
    || c == '\U{3000}' || c == '\U{FEFF}'
  }

  predicate AllSpace(s: string) {
    forall i :: 0 <= i < |s| ==> IsSpace(s[i])
  }

  function TrimStart(s: string): (r: string)
    ensures |r| <= |s| && r == s[|s| - |r|..]
    ensures AllSpace(s[..|s| - |r|])
    ensures |r| > 0 ==> !IsSpace(r[0])
  {
    if |s| > 0 && IsSpace(s[0]) then
      var r := TrimStart(s[1..]);
      assert s[..|s| - |r|] == [s[0]] + s[1..][..|s[1..]| - |r|];
      r
    else s
  }

  function TrimEnd(s: string): (r: string)
    ensures |r| <= |s| && r == s[..|r|]
    ensures AllSpace(s[|r|..])
    ensures |r| > 0 ==> !IsSpace(r[|r| - 1])
  {
    if |s| > 0 && IsSpace(s[|s| - 1]) then
      var r := TrimEnd(s[..|s| - 1]);
      assert s[|r|..] == s[..|s| - 1][|r|..] + [s[|s| - 1]];
      r
    else s
  }

  /** JavaScript's `String.prototype.trim`. */
  function Trim(s: string): string {
    TrimEnd(TrimStart(s))
  }

  /** A string trims to "" exactly when it is all white space. */
  lemma TrimEmptyIffAllSpace(s: string)
    ensures Trim(s) == "" <==> AllSpace(s)
  {
    var t := TrimStart(s);
    if Trim(s) == "" {
      assert t[0..] == t;
      assert t == "";
      assert s[..|s|] == s;
    }
  }

  /** `sub` occurs in `s` at index `i`. */
  predicate OccursAt(s: string, sub: string, i: int) {
    0 <= i <= |s| - |sub| && s[i..i + |sub|] == sub
  }

  /** A trimmed string neither starts nor ends with white space, and occurs inside the original. */
  lemma TrimIsInfix(s: string)
    ensures var t := Trim(s); |t| > 0 ==> !IsSpace(t[0]) && !IsSpace(t[|t| - 1])
    ensures exists i :: OccursAt(s, Trim(s), i)
  {
    var a := TrimStart(s);
    var t := TrimEnd(a);
    var i := |s| - |a|;
    assert s[i..i + |t|] == a[..|t|];
    assert OccursAt(s, t, i);
  }

  /** Text that neither starts nor ends with white space is its own trim; in particular
      trimming is idempotent. */
  lemma TrimOfTrimmed(s: string)
    requires |s| > 0 ==> !IsSpace(s[0]) && !IsSpace(s[|s| - 1])
    ensures Trim(s) == s
    ensures Trim(Trim(s)) == Trim(s)
  {
    assert TrimStart(s) == s;
  }

  lemma TrimIdempotent(s: string)
    ensures Trim(Trim(s)) == Trim(s)
  {
    TrimIsInfix(s);
    TrimOfTrimmed(Trim(s));
  }

  function LowerChar(c: char): char {
    if 'A' <= c <= 'Z' then (c as int + 32) as char else c
  }

  /** `toLowerCase` on the ASCII letters. */
  function ToLower(s: string): (r: string)
    ensures |r| == |s|
    ensures forall i :: 0 <= i < |s| ==> r[i] == LowerChar(s[i])
  {
    seq(|s|, i requires 0 <= i < |s| => LowerChar(s[i]))
  }

  /** `s.includes(sub)`. */
  predicate Contains(s: string, sub: string) {
    exists i :: 0 <= i <= |s| - |sub| && OccursAt(s, sub, i)
  }

  /** `s.startsWith(p)`. */
  predicate StartsWith(s: string, p: string) {
    |p| <= |s| && s[..|p|] == p
  }

  /** `s.replace(/\D/g, "")`: the decimal digits of `s`, in order. */
  function DigitsOf(s: string): (r: string)
    ensures AllDigits(r) && |r| <= |s|
  {
    if |s| == 0 then ""
    else if IsDigit(s[0]) then [s[0]] + DigitsOf(s[1..])
    else DigitsOf(s[1..])
  }

  lemma {:induction false} DigitsOfAppend(a: string, b: string)
    ensures DigitsOf(a + b) == DigitsOf(a) + DigitsOf(b)
    decreases |a|
  {
    if |a| == 0 {
      assert a + b == b;
    } else {
      assert (a + b)[1..] == a[1..] + b;
      DigitsOfAppend(a[1..], b);
    }
  }

  lemma {:induction false} DigitsOfDigits(s: string)
    requires AllDigits(s)
    ensures DigitsOf(s) == s
    decreases |s|
  {
    if |s| > 0 {
      DigitsOfDigits(s[1..]);
    }
  }

  /** Every character is kept exactly when it is a digit: the digits of a string are the
      digits of each of its characters, concatenated. */
  lemma {:induction false} DigitsOfChar(s: string, i: int)
    requires 0 <= i < |s|
    ensures DigitsOf(s) == DigitsOf(s[..i]) + (if IsDigit(s[i]) then [s[i]] else "") + DigitsOf(s[i + 1..])
  {
    assert s == s[..i] + ([s[i]] + s[i + 1..]);
    DigitsOfAppend(s[..i], [s[i]] + s[i + 1..]);
    assert ([s[i]] + s[i + 1..])[1..] == s[i + 1..];
  }

  /** The longest prefix of decimal digits. */
  function DigitPrefix(s: string): (r: string)
    ensures AllDigits(r) && StartsWith(s, r)
    ensures |r| < |s| ==> !IsDigit(s[|r|])
  {
    if |s| > 0 && IsDigit(s[0]) then [s[0]] + DigitPrefix(s[1..]) else ""
  }

  lemma {:induction false} DigitPrefixOfDigits(s: string)
    requires AllDigits(s)
    ensures DigitPrefix(s) == s
    decreases |s|
  {
    if |s| > 0 {
      DigitPrefixOfDigits(s[1..]);
    }
  }

  /** The digits before a non-digit are the whole digit prefix. */
  lemma {:induction false} DigitPrefixUntil(a: string, b: string)
    requires AllDigits(a) && |b| > 0 && !IsDigit(b[0])
    ensures DigitPrefix(a + b) == a
    decreases |a|
  {
    if |a| == 0 {
      assert a + b == b;
    } else {
      assert (a + b)[1..] == a[1..] + b;
      DigitPrefixUntil(a[1..], b);
    }
  }

  /** `parseFloat` of a run of digits followed by text that does not start with a digit
      reads the run. */
  lemma ParseDecimalOfDigitsThen(d: string, rest: string)
    requires |d| > 0 && AllDigits(d) && |rest| > 0 && !IsDigit(rest[0])
    ensures ParseDecimal(d + rest) == Some(DigitsValue(d))
  {
    var s := d + rest;
    assert s[0] == d[0];
    DigitNotSpace(d[0]);
    assert TrimStart(s) == s;
    DigitPrefixUntil(d, rest);
  }

  /** `parseFloat` of text starting with a minus sign reads the digits after it, negated. */
  lemma ParseDecimalOfMinus(s: string, p: string)
    requires |s| > 0 && s[0] == '-' && DigitPrefix(s[1..]) == p
    ensures ParseDecimal(s) == if p == "" then None else Some(-(DigitsValue(p) as int))
  {
    assert !IsSpace(s[0]);
    assert TrimStart(s) == s;
  }

  /** The same after a minus sign. */
  lemma ParseDecimalOfNegDigitsThen(s: string, d: string, rest: string)
    requires |d| > 0 && AllDigits(d) && |rest| > 0 && !IsDigit(rest[0])
    requires |s| > 0 && s[0] == '-' && s[1..] == d + rest
    ensures ParseDecimal(s) == Some(-(DigitsValue(d) as int))
  {
    DigitPrefixUntil(d, rest);
    ParseDecimalOfMinus(s, d);
  }

  /** `parseFloat` of a numeral `String` writes, followed by text that does not start with a
      digit (such as the ".00" of `toFixed(2)`), reads the numeral. */
  lemma ParseDecimalOfIntToStringThen(i: int, rest: string)
    requires |rest| > 0 && !IsDigit(rest[0])
    ensures ParseDecimal(IntToString(i) + rest) == Some(i)
  {
    if i < 0 {
      var d := NatToString(-i);
      assert IntToString(i) == "-" + d;
      ParseDecimalOfMinusThen(d, rest);
    } else {
      ParseDecimalOfDigitsThen(NatToString(i), rest);
    }
  }

  lemma ParseDecimalOfMinusThen(d: string, rest: string)
    requires |d| > 0 && AllDigits(d) && |rest| > 0 && !IsDigit(rest[0])
    ensures ParseDecimal("-" + d + rest) == Some(-(DigitsValue(d) as int))
  {
    var s := "-" + d + rest;
    assert s[0] == '-' && s[1..] == d + rest;
    ParseDecimalOfNegDigitsThen(s, d, rest);
  }

  predicate IsHexDigit(c: char) {
    IsDigit(c) || 'a' <= c <= 'f' || 'A' <= c <= 'F'
  }

  function HexDigitValue(c: char): int
    requires IsHexDigit(c)
  {
    if IsDigit(c) then DigitValue(c)
    else if 'a' <= c <= 'f' then c as int - 'a' as int + 10
    else c as int - 'A' as int + 10
  }

  predicate AllHexDigits(s: string) {
    forall i :: 0 <= i < |s| ==> IsHexDigit(s[i])
  }

  function HexValue(s: string): nat
    requires AllHexDigits(s)
  {
    if |s| == 0 then 0 else HexValue(s[..|s| - 1]) * 16 + HexDigitValue(s[|s| - 1])
  }

  function HexPrefix(s: string): (r: string)
    ensures |r| <= |s| && r == s[..|r|]
    ensures AllHexDigits(r)
  {
    if |s| > 0 && IsHexDigit(s[0]) then [s[0]] + HexPrefix(s[1..]) else ""
  }

  predicate HasHexPrefix(u: string) {
    |u| >= 2 && u[0] == '0' && (u[1] == 'x' || u[1] == 'X')
  }

  /** JavaScript's `parseInt(s)` with no radix: leading white space and one sign are skipped,
      a `0x` prefix selects base 16, and the longest run of digits is read; `None` is NaN. */
  function ParseInt(s: string): Option<int>
  {
    var t := TrimStart(s);
    var signed := |t| > 0 && (t[0] == '-' || t[0] == '+');
    var sign := if |t| > 0 && t[0] == '-' then -1 else 1;
    var u := if signed then t[1..] else t;
    if HasHexPrefix(u) then
      var h := HexPrefix(u[2..]);
      if h == "" then None else Some(sign * HexValue(h))
    else
      var d := DigitPrefix(u);
      if d == "" then None else Some(sign * DigitsValue(d))
  }

  /** The integer part of `parseFloat(s)`: leading white space and one sign are skipped and
      the longest run of decimal digits is read (no hexadecimal prefix); `None` is NaN. A
      fraction or an exponent after the digits is not read, so "1.5" and "1e3" give 1 where
      `parseFloat` gives 1.5 and 1000, and "Infinity" is NaN here. */
  function ParseDecimal(s: string): Option<int>
  {
    var t := TrimStart(s);
    var sign := if |t| > 0 && t[0] == '-' then -1 else 1;
    var u := if |t| > 0 && (t[0] == '-' || t[0] == '+') then t[1..] else t;
    var d := DigitPrefix(u);
    if d == "" then None else Some(sign * DigitsValue(d))
  }

  /** `parseFloat` reads back what `String` writes for integers. */
  lemma ParseDecimalOfIntToString(i: int)
    ensures ParseDecimal(IntToString(i)) == Some(i)
  {
    var s := IntToString(i);
    if i < 0 {
      var d := NatToString(-i);
      assert s[1..] == d;
      DigitPrefixOfDigits(d);
      ParseDecimalOfMinus(s, d);
    } else {
      ParseDecimalOfDigits(NatToString(i));
    }
  }

  /** `parseFloat` of a run of digits reads it. */
  lemma ParseDecimalOfDigits(d: string)
    requires |d| > 0 && AllDigits(d)
    ensures ParseDecimal(d) == Some(DigitsValue(d))
  {
    DigitNotSpace(d[0]);
    assert TrimStart(d) == d;
    DigitPrefixOfDigits(d);
  }

  /** `parseInt` and `parseFloat` agree on text without a hexadecimal prefix. */
  lemma ParseIntIsDecimal(s: string)
    requires var t := TrimStart(s);
      var u := if |t| > 0 && (t[0] == '-' || t[0] == '+') then t[1..] else t;
      !HasHexPrefix(u)
    ensures ParseInt(s) == ParseDecimal(s)
  {
  }

  /** JavaScript's `Number(s)` on strings, for integer literals: surrounding white space is
      ignored, "" is 0, an optionally signed run of digits or a `0x` literal is read, and
      anything else is NaN (`None`). */
  function StringToNumber(s: string): Option<int> {
    NumberOfTrimmed(Trim(s))
  }

  /** `Number` once the surrounding white space is gone. */
  function NumberOfTrimmed(t: string): Option<int> {
    if t == "" then Some(0)
    else if HasHexPrefix(t) && |t| > 2 && AllHexDigits(t[2..]) then
      Some(HexValue(t[2..]))
    else
      var sign := if t[0] == '-' then -1 else 1;
      var u := if t[0] == '-' || t[0] == '+' then t[1..] else t;
      if |u| > 0 && AllDigits(u) then Some(sign * DigitsValue(u)) else None
  }

  /** `parseInt` reads back what `String` writes. */
  lemma ParseIntOfIntToString(i: int)
    ensures ParseInt(IntToString(i)) == Some(i)
  {
    var s := IntToString(i);
    if i < 0 {
      var d := NatToString(-i);
      assert s[1..] == d;
      ParseIntOfNegDigits(s, d);
    } else {
      ParseIntOfDigits(NatToString(i));
    }
  }

  /** `parseInt` of a run of digits reads it in base 10. */
  lemma ParseIntOfDigits(d: string)
    requires |d| > 0 && AllDigits(d)
    ensures ParseInt(d) == Some(DigitsValue(d))
  {
    DigitNotSpace(d[0]);
    assert TrimStart(d) == d;
    assert |d| >= 2 ==> IsDigit(d[1]);
    assert !HasHexPrefix(d);
    DigitPrefixOfDigits(d);
  }

  /** `parseInt` of a minus sign followed by a run of digits reads it negated. */
  lemma ParseIntOfNegDigits(s: string, d: string)
    requires |d| > 0 && AllDigits(d) && |s| > 0 && s[0] == '-' && s[1..] == d
    ensures ParseInt(s) == Some(-(DigitsValue(d) as int))
  {
    assert !IsSpace(s[0]);
    assert TrimStart(s) == s;
    assert |d| >= 2 ==> IsDigit(d[1]);
    assert !HasHexPrefix(d);
    DigitPrefixOfDigits(d);
  }

  /** `Number` reads back what `String` writes. */
  lemma StringToNumberOfIntToString(i: int)
    ensures StringToNumber(IntToString(i)) == Some(i)
  {
    var s := IntToString(i);
    if i < 0 {
      var d := NatToString(-i);
      assert s[1..] == d;
      StringToNumberOfNegRun(s, d);
    } else {
      StringToNumberOfDigitRun(NatToString(i));
    }
  }

  /** `Number` of a run of digits is its decimal value. */
  lemma StringToNumberOfDigitRun(d: string)
    requires |d| > 0 && AllDigits(d)
    ensures StringToNumber(d) == Some(DigitsValue(d))
  {
    DigitNotSpace(d[0]);
    DigitNotSpace(d[|d| - 1]);
    TrimOfTrimmed(d);
    assert !HasHexPrefix(d) by {
      if |d| >= 2 {
        assert IsDigit(d[1]);
      }
    }
    assert NumberOfTrimmed(d) == Some(DigitsValue(d));
  }

  lemma DigitNotSpace(c: char)
    requires IsDigit(c)
    ensures !IsSpace(c) && c != '-' && c != '+'
  {
  }

  /** `Number` of a minus sign followed by a run of digits is its value negated. */
  lemma StringToNumberOfNegRun(s: string, d: string)
    requires |d| > 0 && AllDigits(d) && |s| > 0 && s[0] == '-' && s[1..] == d
    ensures StringToNumber(s) == Some(-(DigitsValue(d) as int))
  {
    assert s[|s| - 1] == d[|d| - 1];
    DigitNotSpace(d[|d| - 1]);
    assert !IsSpace(s[0]);
    TrimOfTrimmed(s);
    assert !HasHexPrefix(s);
  }
}

=== FILE: user_profile.dfy ===
/** `getUserProfile` of src/utils/getUserProfile.js: the signed-in user's profile, read from
    the "userProfile" storage entry. A stored array stands for its first element. */
module UserProfile {
  import opened JsValue
  import opened Storage

  const ProfileKey: string := "userProfile"

  /** The profile, or `null` when none is stored or the stored text does not parse. */
  function GetUserProfile(st: Store): (r: JsVal)
    ensures ProfileKey !in st || st[ProfileKey].Unparseable? ==> r == Null
    ensures ProfileKey in st && st[ProfileKey].Json? ==>
      var v := st[ProfileKey].value;
      if v.Arr? && |v.items| > 0 then r == v.items[0] else r == v
  {
    if ProfileKey !in st then Null
    else
      match st[ProfileKey]
      case Unparseable => Null
      case Json(v) => if v.Arr? && |v.items| > 0 then v.items[0] else v
  }

  /** Storing a profile on its own or as the head of an array reads back the same profile,
      unless the profile is itself a non-empty array. */
  lemma WrappedProfile(st: Store, p: JsVal, rest: seq<JsVal>)
    requires !(p.Arr? && |p.items| > 0)
    ensures GetUserProfile(st[ProfileKey := Json(Arr([p] + rest))]) == p
    ensures GetUserProfile(st[ProfileKey := Json(p)]) == p
  {
  }

  /** An empty array is not unwrapped: it is returned as it is. */
  lemma EmptyArrayProfile(st: Store)
    ensures GetUserProfile(st[ProfileKey := Json(Arr([]))]) == Arr([])
  {
  }
}

=== FILE: wizard.dfy ===
/** The section pager of src/components/Forms/SimpleQuotationWrapper.jsx: an index into the
    list of sections, a Previous button, an `index+1/N` counter and a primary button that
    advances to the next section or, on the last one, submits. Navigation never consults
    the form's validation state. */
module Wizard {
  import opened Results
  import opened Text

  /** `sections.length` and `currentSection`. */
  datatype Pager = Pager(n: nat, index: int)

  /** Rendering `sections[currentSection]` needs a section at the index. */
  predicate Valid(p: Pager) {
    1 <= p.n && 0 <= p.index < p.n
  }

  /** The pager on mount: the first section. */
  function Start(n: nat): (p: Pager)
    requires 1 <= n
    ensures Valid(p) && p.n == n && p.index == 0
  {
    Pager(n, 0)
  }

  /** `goToSection(i)`: `i` clamped to [0, N-1]. */
  function GoTo(p: Pager, i: int): (r: Pager)
    requires 1 <= p.n
    ensures Valid(r) && r.n == p.n
    ensures 0 <= i < p.n ==> r.index == i
    ensures i < 0 ==> r.index == 0
    ensures p.n <= i ==> r.index == p.n - 1
  {
    var upper := if i < p.n - 1 then i else p.n - 1;
    Pager(p.n, if upper < 0 then 0 else upper)
  }

  /** The primary button: `Submit` tells whether `onSubmit` is called. */
  datatype Step = Step(pager: Pager, submit: bool)

  /** `handlePrimary`: on the last section it submits and stays; elsewhere it advances by one. */
  function Primary(p: Pager): (r: Step)
    requires Valid(p)
    ensures Valid(r.pager) && r.pager.n == p.n
    ensures r.submit <==> p.index == p.n - 1
    ensures r.submit ==> r.pager == p
    ensures !r.submit ==> r.pager.index == p.index + 1
  {
    if p.index == p.n - 1 then Step(p, true) else Step(GoTo(p, p.index + 1), false)
  }

  /** The Previous button is disabled on the first section. */
  predicate PreviousDisabled(p: Pager) {
    p.index == 0
  }

  /** A click on Previous: nothing while disabled, otherwise `goToSection(index - 1)`. */
  function Previous(p: Pager): (r: Pager)
    requires Valid(p)
    ensures Valid(r) && r.n == p.n
    ensures PreviousDisabled(p) ==> r == p
    ensures !PreviousDisabled(p) ==> r.index == p.index - 1
  {
    if PreviousDisabled(p) then p else GoTo(p, p.index - 1)
  }

  /** Even without the disabled attribute, clamping would keep the first section in place. */
  lemma PreviousClampsAtStart(p: Pager)
    requires Valid(p) && p.index == 0
    ensures GoTo(p, p.index - 1) == p
  {
  }

  /** The primary button's label. */
  function Label(p: Pager): (s: string)
    requires Valid(p)
    ensures s == "Submit" || s == "Next"
  {
    if p.index == p.n - 1 then "Submit" else "Next"
  }

  /** The label says "Submit" exactly when pressing the button submits. */
  lemma LabelTellsSubmit(p: Pager)
    requires Valid(p)
    ensures Label(p) == "Submit" <==> Primary(p).submit
  {
  }

  /** The counter text `{currentSection + 1}/{sections.length}`. */
  function Counter(p: Pager): string
    requires Valid(p)
  {
    IntToString(p.index + 1) + "/" + IntToString(p.n)
  }

  /** `parseInt` of a decimal numeral followed by text that is not a digit reads the numeral. */
  lemma ParseIntOfNumeralThen(a: string, b: string)
    requires 1 <= |a| && AllDigits(a) && (|a| > 1 ==> a[0] != '0')
    requires |b| > 0 && !IsDigit(b[0]) && b[0] != 'x' && b[0] != 'X'
    ensures ParseInt(a + b) == Some(DigitsValue(a))
  {
    var s := a + b;
    assert s[0] == a[0] && !IsSpace(s[0]);
    assert TrimStart(s) == s;
    assert !HasHexPrefix(s) by {
      if |a| == 1 { assert s[1] == b[0]; } else { assert s[0] == a[0]; }
    }
    DigitPrefixUntil(a, b);
  }

  /** Reading the counter back gives the one-based position of the section. */
  lemma CounterShowsPosition(p: Pager)
    requires Valid(p)
    ensures ParseInt(Counter(p)) == Some(p.index + 1)
    ensures Counter(p)[|IntToString(p.index + 1)|..] == "/" + IntToString(p.n)
  {
    var a := NatToString(p.index + 1);
    var b := "/" + IntToString(p.n);
    assert Counter(p) == a + b;
    ParseIntOfNumeralThen(a, b);
  }

  /** `k` presses of the primary button: the section reached, and whether any of them
      submitted. */
  function Presses(p: Pager, k: nat): (r: Step)
    requires Valid(p)
    ensures Valid(r.pager) && r.pager.n == p.n
    decreases k
  {
    if k == 0 then Step(p, false)
    else
      var s := Primary(p);
      var rest := Presses(s.pager, k - 1);
      Step(rest.pager, s.submit || rest.submit)
  }

  /** From section `i`, N-1-i presses reach the last section without submitting, and one
      more press submits: the primary button visits every later section once, in order. */
  lemma {:induction false} PressesWalkForward(p: Pager, k: nat)
    requires Valid(p) && p.index + k <= p.n - 1
    ensures Presses(p, k) == Step(Pager(p.n, p.index + k), false)
    ensures Primary(Presses(p, k).pager).submit <==> p.index + k == p.n - 1
    decreases k
  {
    if k > 0 {
      PressesWalkForward(Primary(p).pager, k - 1);
    }
  }

  /** Once on the last section, every further press submits again and the index stays. */
  lemma {:induction false} PressesAtLast(p: Pager, k: nat)
    requires Valid(p) && p.index == p.n - 1
    ensures Presses(p, k) == Step(p, k > 0)
    decreases k
  {
    if k > 0 {
      PressesAtLast(p, k - 1);
    }
  }

  /** Previous undoes a step forward, and a step forward undoes Previous. */
  lemma PreviousUndoesPrimary(p: Pager)
    requires Valid(p)
    ensures !Primary(p).submit ==> Previous(Primary(p).pager) == p
    ensures !PreviousDisabled(p) ==> Primary(Previous(p)) == Step(p, false)
  {
  }

  /** Clamping is idempotent and leaves a valid pager where it is. */
  lemma GoToIdempotent(p: Pager, i: int)
    requires 1 <= p.n
    ensures GoTo(GoTo(p, i), GoTo(p, i).index) == GoTo(p, i)
    ensures Valid(p) ==> GoTo(p, p.index) == p
  {
  }
}
